=== FILE: README.md ===
# F-UJI metadata harvesting core, modelled in Dafny

F-UJI assesses how FAIR (findable, accessible, interoperable, reusable) a
research data object is. Before any metric can be scored, F-UJI has to find
and read the object's metadata. This project models that harvesting core.

- **Request helper** (`Request`, `AcceptTypes`, `Content`): content
  negotiation.
  - Builds the request and follows redirects.
  - Retries once after a 400, 403 or 405.
  - Maps transport failures to the synthetic status codes 601-604, 900 and
    1000, or to the errno.
  - Reads, repairs and truncates the body.
  - Resolves the content type, then classifies the response by scanning
    the accept-type catalogue in order.
  - Keeps a response cache keyed by URL and declared content type.
- **Metadata collector** (`Collector`): the closed lists of formats,
  offering methods and sources, the source-by-method lookup, and the
  recursive `exclude_null` cleaner.
- **Metadata mapper** (`Mapper`): the reference metadata tables and the
  inversion of a mapping table (`flip_dict`).
- **Harvester** (`Harvester`, `Signposting`):
  - merging a collector's metadata into the merged record, including the
    list an earlier offering still shares with the merged record;
  - the allowed-method test;
  - the repeated-PID test;
  - parsing Link headers, selecting typed links and choosing and reading
    linksets (signposting);
  - ordering links by the landing page;
  - the target URLs for external metadata;
  - metadata-standard information.
- **RDF collector** (`RdfCollector`):
  - routing a response to JSON-LD or to the rdflib parser;
  - the line-dropping repair loop;
  - guessing namespaces from `@context` and from URIs;
  - the final empty-value filter.
- **XML collector** (`XmlCollector`):
  - choosing a mapping from the root element;
  - reading mapped paths and attributes;
  - building related resources and content identifiers;
  - filling missing keys from an envelope.
- **Dublin Core collector** (`DublinCore`, `Accumulation`):
  - selecting `DC.`/`DCTERMS.` meta tags;
  - name normalisation;
  - term-to-element lookup;
  - relation types and date qualifiers;
  - coverage parsing;
  - accumulating repeated elements into lists.
- **FAIR check controller** (`FairCheck`, `MetadataCleaning`):
  - endpoint routing and token setting;
  - the `clean_metadata` pipeline (`"None"` replacement, content-identifier
    grouping and completion, type unwrapping, dropping empty values);
  - reading the log stream into per-metric messages.
- **Linked vocabulary helper** (`LinkedVocab`):
  - splitting IRIs;
  - building the domain/subdomain index from the registry;
  - the character-overlap score;
  - looking up a vocabulary by IRI.

`Wrappers`, `Values`, `Strings` and `Seqs` hold the shared vocabulary:
- `Option` and `Result`;
- the JSON-like `Value` (dictionaries are association lists, which keeps
  Python's insertion order);
- Python's `split`, `strip`, `in`, `rsplit` and `replace` on sequences;
- the order-preserving `FirstOccurrences`, which stands for
  `list(dict.fromkeys(...))` and for "append if not already present".

Everything the core delegates to another library is a parameter of the
model, an *oracle*. This covers:
- the network, through `Network`;
- `gzip`, UTF-8 validation and repair, `mimetypes`, Tika,
  `rdflib.util.guess_format`, `lxml` and `json.loads`, through
  `Content.Oracles`;
- `re.search` with a compiled user pattern, through `LinkedVocab.Search`;
- `tldextract`, through `LinkedVocab.Extract`;
- the rapidfuzz similarity, through `sim`;
- Python's `str()` of an arbitrary value, through `show`;
- the parsed XML tree, through a `find` function from path to nodes.

The model proves its properties for every behaviour of these libraries.
Mutable state becomes explicit values passed in and returned. This covers
the helper's fields, the process-wide response cache, the merged metadata,
the linked-vocabulary index and the log stream.

Where the design notes of the system and the code disagree, the model
follows the code:
- **Non-200 responses.** A non-200 response and a zip response are not
  reported as "no result". The format keeps its default, HTML, except for
  zip, which has no format.
- **308 responses.** The helper patches `urllib` to follow a 308 like a
  301, so a 308 is normally followed within the attempt; the network
  reports it as a redirect hop. Only a 308 that still reaches the
  `HTTPError` handler (the patch did not take effect) records the failure
  and is not re-sent; that is the case `RetryFor` covers.
- **XHTML downgrade.** Only `application/xhtml+xml` is downgraded to
  `text/xml` when the body shows no HTML. Other `+xml` types reach the
  member scan unchanged, where the XML member rewrites them.
- **URL errors.** A URL error gets 900 or the errno from its message. The
  601-604 and 1000 codes come from other exceptions and depend on the
  message text.
- **Escaping failures.** Failures inside `handle_content` are not caught,
  so they are `Failure` results here: a missing Tika type, and a gzip
  decompression of a stored body that is not gzip data. Decompressing the
  helper's not-yet-set body does not fail: Python's `gzip.decompress(None)`
  reads an empty buffer and returns `b""`.

## Model

Paths are relative to the root of the F-UJI repository.

| member | source | states |
|---|---|---|
| AcceptTypes.Position | fuji_server/helper/request_helper.py:37-55 | every accept type has a place in the ordered catalogue that the content scan walks |
| AcceptTypes.CatalogComplete | fuji_server/helper/request_helper.py:37-55 | the catalogue lists every accept type exactly once, and no two members share a name |
| AcceptTypes.RangesOf | fuji_server/helper/request_helper.py:57-60 | each comma-separated item of an Accept value yields the text before its first `;`, stripped of whitespace, one range per item |
| AcceptTypes.MediaRangeShape | fuji_server/helper/request_helper.py:57-60 | a listed media range carries no parameters and no leading whitespace |
| AcceptTypes.AllRanges | fuji_server/helper/request_helper.py:57-60 | a range is collected exactly when some member value lists it |
| AcceptTypes.DistinctRanges | fuji_server/helper/request_helper.py:57-60 | the collected ranges are duplicate-free, parameter-free, and are exactly the ranges of the given values |
| AcceptTypes.ListTypesShape | fuji_server/helper/request_helper.py:57-60 | `list()` returns no range twice and no range with parameters |
| AcceptTypes.ListTypesSound | fuji_server/helper/request_helper.py:57-60 | every range in `list()` comes from the value of an accept type it names |
| AcceptTypes.ListTypesComplete | fuji_server/helper/request_helper.py:57-60 | every range of every accept type's value is in `list()` |
| AcceptTypes.ListTypes | fuji_server/helper/request_helper.py:57-60 | `list()` holds no range twice, and a range is in it exactly when some accept type's value lists it |
| AcceptTypes.NoValueHasZ | fuji_server/helper/request_helper.py:37-55 | no accept type's value contains the letter `z`, which is why a zip content type matches no member |
| Request.NewHelper | fuji_server/helper/request_helper.py:66-91 | the request URL is the given URL up to its first `#`; the accept type starts as the default; no redirect, response, content or token is set yet |
| Request.SetAuthToken | fuji_server/helper/request_helper.py:98-102 | a string token is stored; the token type changes only for `Bearer` or `Basic`; nothing else changes |
| Request.SetAcceptType | fuji_server/helper/request_helper.py:104-107 | an accept-type argument is accepted exactly when it is a member of the enumeration, and then only the Accept value changes |
| Request.AddAcceptType | fuji_server/helper/request_helper.py:109-110 | the new media type is put in front of the current Accept value, joined by a comma; nothing else changes |
| Request.AddAcceptTypeItems | fuji_server/helper/request_helper.py:109-110 | for a media type without a comma, the items of the Accept value are the new type followed by the old items |
| Request.RedirectRequest | fuji_server/helper/request_helper.py:30-34 | a redirect appends the new URL to the URL list and the (URL, code) hop to the status list, and makes the new URL the redirect URL; the two lists stay in step |
| Request.Follow | fuji_server/helper/request_helper.py:30-34 | a chain of redirects appends exactly its hops, keeps the lists in step, and leaves the last hop's URL as the redirect URL |
| Request.SpanOf | fuji_server/helper/request_helper.py:230-236 | the longest prefix made of the given characters |
| Request.DigitSpan | fuji_server/helper/request_helper.py:230-236 | the longest prefix of decimal digits |
| Request.ErrnoSearch | fuji_server/helper/request_helper.py:230-236 | returns the (possibly negative) number of the leftmost `[Errno N` match, or nothing when no position matches |
| Request.UrlErrorStatus | fuji_server/helper/request_helper.py:224-236 | a URL error gets status 900 when the errno pattern matches nowhere (in particular without `[Errno`, or with it but no digits after the spaces); with a match, the status is the number of the leftmost match |
| Request.ErrnoReadBack | fuji_server/helper/request_helper.py:230-236 | an error number written out as `[Errno N` is read back as N |
| Request.ErrnoAfterDigits | fuji_server/helper/request_helper.py:230-236 | after the marker, one space and a number not followed by a digit read back as that number, whatever characters count as whitespace |
| Request.DigitSpanOf | fuji_server/helper/request_helper.py:230-236 | the digit run of a number followed by a non-digit is exactly that number's digits |
| Request.OtherErrorStatus | fuji_server/helper/request_helper.py:260-269 | any other failure gets 601 exactly when its message names a new-connection error; else 602 exactly for a remote disconnect; else 603 exactly for a read timeout; else 604 exactly for a connection reset; and 1000 exactly when it names none of these |
| Request.RequestHeaders | fuji_server/helper/request_helper.py:154-157 | the headers start with Accept and User-Agent; with a non-empty token a third field `Authorization` holds the token type, a space and the token, and without one there is no third field; building them fails exactly when a non-empty token has no token type |
| Request.WithUserAgent | fuji_server/helper/request_helper.py:182 | header names stay in place; every User-Agent field carries the new agent and every other field is unchanged |
| Request.RetryHeadersOneAgent | fuji_server/helper/request_helper.py:154-182 | the retry headers still start with Accept and hold exactly one User-Agent field, second, carrying the new agent |
| Request.RetryFor | fuji_server/helper/request_helper.py:171-217 | no retry for 308 or for codes of 500 and above; 403 and 405 retry with a browser-like agent; a 400 retries exactly when the last redirect target contains `http://` and the target rewritten to `https:` has a scheme, and then on that rewritten target with the same headers |
| Request.HttpTargetRetried | fuji_server/helper/request_helper.py:200-217 | a 400 whose last redirect target starts with `http://` is always retried, on an `https:` URL with the same headers |
| Request.RequestContent | fuji_server/helper/request_helper.py:135-283 | at most two requests go out; none when the URL has no scheme or the headers cannot be built; a failed attempt gets the failure's status; a second request follows only an HTTP error 400, 403 or 405 |
| Request.FailureStatus | fuji_server/helper/request_helper.py:224-278 | an attempt that opened records no failure; an HTTP error records its code; a URL error without an errno marker records 900; any other error one of 601, 602, 603, 604 or 1000 |
| Request.AfterHttpError | fuji_server/helper/request_helper.py:163-217 | after an HTTP error either nothing more is sent, or exactly the retry chosen for the code is sent, and its redirects are appended to the recorded ones |
| Request.RedirectListsOneAttempt | fuji_server/helper/request_helper.py:159-168 | after one attempt the redirect status list is that attempt's hops and the URL list holds the hops' URLs, in step |
| Request.RedirectListsRetried | fuji_server/helper/request_helper.py:176-214 | after a retry both attempts' hops are recorded, in order, with the URL list in step |
| Request.RedirectUrlOfFirstAttempt | fuji_server/helper/request_helper.py:159-168 | after a request, `redirect_url` is the newest hop of the first attempt, or unset when that attempt had none, whatever a retry did |
| Content.LowerBytesLowers | fuji_server/helper/request_helper.py:442 | lower-cased bytes hold no ASCII capital, so lower-casing is idempotent, which is what makes the marker search case-insensitive |
| Content.HeaderGet | fuji_server/helper/request_helper.py:310-312 | a header lookup finds nothing exactly when no header has that name, and otherwise returns the value of the last header with that name |
| Content.InfoGet | fuji_server/helper/request_helper.py:290-293 | a case-insensitive header lookup returns the first header whose name matches ignoring case, and nothing when none does |
| Content.DeclaredContentType | fuji_server/helper/request_helper.py:310-312 | the declared type is `Content-Type` when that is present and non-empty, and `content-type` otherwise |
| Content.ContentLength | fuji_server/helper/request_helper.py:331-337 | the content length is the numeric value of `Content-Length`; when that reads as 0 it is the value of `content-length`, and 0 when that is missing or not a number; a missing or non-numeric `Content-Length` gives 0 |
| Content.ReadAtMost | fuji_server/helper/request_helper.py:346 | reading returns a prefix of the body that is as long as the body or the size limit, whichever is smaller |
| Content.StoredBody | fuji_server/helper/request_helper.py:350-364 | invalid UTF-8 is repaired; a truncated body is cut just before its last newline, so what remains never ends in a half line; a complete body is kept whole |
| Content.ChooseContentType | fuji_server/helper/request_helper.py:365-387 | the declared type wins; otherwise the type guessed from the URL; otherwise `text/html` when the body looks like HTML; the choice fails exactly when Tika finds no type either |
| Content.XhtmlCheck | fuji_server/helper/request_helper.py:388-396 | an XHTML type is changed to `text/xml` exactly when the body does not look like HTML, and no other type is ever changed |
| Content.PlainText | fuji_server/helper/request_helper.py:398-430 | a `text/plain` response becomes RDF when rdflib guesses a format from the URL, XML when the guess is `xml`, and plain text when there is no guess; other types are left alone |
| Content.NamespacedRdfRoot | fuji_server/helper/request_helper.py:465 | a namespaced `RDF` root element tag is recognised as an RDF root |
| Content.RdfRootNamesRdf | fuji_server/helper/request_helper.py:465 | a tag recognised as an RDF root contains `RDF` |
| Content.Decide | fuji_server/helper/request_helper.py:443-500 | a matching HTML member marks the content HTML and drops the parse when HTML is ignored; a matching XML member marks it RDF exactly when it parses with an RDF root and XML otherwise; a JSON mark needs a JSON member or a `+json` type |
| Content.AdjustAt | fuji_server/helper/request_helper.py:439-440 | the content type is only ever rewritten to `text/xml`, and only by the XML member for a `+xml` type |
| Content.ScanPrefix | fuji_server/helper/request_helper.py:435-501 | members that do not match are passed over: scanning the list is scanning what is left after them |
| Content.ScanSkips | fuji_server/helper/request_helper.py:435-501 | one member that does not match is passed over |
| Content.FirstFiringDecides | fuji_server/helper/request_helper.py:435-501 | the first member whose value contains the content type decides the outcome, and the scan stops there |
| Content.NoneFiresKeepsState | fuji_server/helper/request_helper.py:435-501 | when no member matches, the scan changes nothing except the XML adjustment of the type |
| Content.ZipMatchesNothing | fuji_server/helper/request_helper.py:293-298 | a content type containing `z` (such as `application/zip`) matches no member, so the scan leaves the state unchanged |
| Content.HtmlMatchesHtml | fuji_server/helper/request_helper.py:443-451 | `text/html` is decided by the HTML member: the format is HTML and the parse is dropped exactly when HTML is ignored |
| Content.ResetCache | fuji_server/helper/request_helper.py:94-96 | after a reset the cache holds no entry |
| Content.CacheKey | fuji_server/helper/request_helper.py:315 | the cache key starts with the URL and, when a content type is declared, is the URL followed by that type |
| Content.GunzipStale | fuji_server/helper/request_helper.py:290-292 | gzip decompression works on the content already stored in the helper: a helper with no body yet gets the empty body; a stored body is replaced by its decompression, and the step fails exactly when that fails; nothing else changes |
| Content.Received | fuji_server/helper/request_helper.py:346-364 | the received body is the capped read, decompressed when gzip-encoded (failing exactly when that fails), then repaired and trimmed |
| Content.Classify | fuji_server/helper/request_helper.py:330-510 | classifying fails exactly when the received body or the content-type choice fails; on success exactly one cache entry is written under the key, holding the format, parse result, content, type and size the helper ends with; the entry is marked truncated exactly when the declared length exceeds the limit; the size is the declared length, or the size of the capped read when none is declared; the stored body is the received one (capped, decompressed, repaired and cut), except that a truncated XML or RDF body is stored re-serialised |
| Content.ClassifyFormat | fuji_server/helper/request_helper.py:398-501 | the resulting format is set by a catalogue member whose Accept value contains the final content type, or else it is the starting format, or the type was re-sniffed as `text/plain` |
| Content.ScanDecidedBy | fuji_server/helper/request_helper.py:432-501 | a scan either ends in a member whose Accept value contains the final type, with a format set, or changes nothing but the type; the body is kept, except a truncated XML or RDF body is re-serialised |
| Content.Scan | fuji_server/helper/request_helper.py:432-501 | the scan changes the content type at most from a `+xml` type to `text/xml`, and changes the format only by setting one |
| Content.ScanKeepsNoSemicolon | fuji_server/helper/request_helper.py:432-501 | once the parameters are split off, the scan never puts a `;` back into the type |
| Content.HandleContent | fuji_server/helper/request_helper.py:285-520 | corrected (decompresses the body just read rather than the stored one): without a response the format stays HTML; with one, status, final URL and headers are recorded; a cached key is replayed from the cache without change |
| Content.Respond | fuji_server/helper/request_helper.py:302-516 | a response's status, URL and headers are recorded; a response whose key is cached takes every field from the cache entry and leaves the cache unchanged |
| Content.HandleContentAsWritten | fuji_server/helper/request_helper.py:285-292 | as written: without gzip it behaves like the corrected handler; it fails only on a status-200 response or when a stored body does not decompress; a fresh helper never fails on a response other than 200 |
| Content.GzipClassifiedRaw | fuji_server/helper/request_helper.py:290-346 | as written, a fresh helper classifies an uncached gzip-encoded 200 response from the undecompressed read, starting from an empty stored body |
| Content.GzipHtmlKeptCompressed | fuji_server/helper/request_helper.py:290-346 | as written, a fresh helper classifies an uncached gzip-encoded `text/html` 200 response as HTML and stores the compressed read (repaired and cut) as its body |
| Content.PlainDeclaredType | fuji_server/helper/request_helper.py:388-442 | a type lacking a letter shared by `application/xhtml+xml` and `text/plain`, and lacking `;`, passes the XHTML check, the plain-text branch and the parameter split unchanged |
| Content.ClassifyDeclared | fuji_server/helper/request_helper.py:388-442 | a declared type of that kind is classified by the member scan alone, on the received body |
| Content.ZipHasNoFormat | fuji_server/helper/request_helper.py:293-298 | a fresh zip response is handled successfully and ends with no format |
| Content.ZipClassifiedWithoutFormat | fuji_server/helper/request_helper.py:293-298 | classifying a zip response, which starts with no format, leaves it without a format |
| Content.HtmlResponseIsHtml | fuji_server/helper/request_helper.py:443-451 | a fresh `text/html` 200 response is classified HTML with type `text/html`, and its parse is dropped exactly when HTML is ignored |
| Content.CachedReplay | fuji_server/helper/request_helper.py:317-326 | handling the same 200 response again, by any helper, replays the first outcome from the cache and leaves the cache unchanged |
| Content.ResetCacheForcesFetch | fuji_server/helper/request_helper.py:94-96 | after a reset, handling a 200 response leaves exactly one cache key, the response's own |
| Content.GzipHtmlIsHtml | fuji_server/helper/request_helper.py:290-292 | corrected: when the body just read is decompressed instead, a gzip-encoded `text/html` response that decompresses is classified HTML and stores the decompressed body |
| Content.FirstMatchParsesJson | fuji_server/helper/request_helper.py:474-484 | for a non-XML type, the first member that lists it decides JSON, with the parsed document, when that member attempts JSON and the body parses |
| Content.RejectedJsonFallsToRdf | fuji_server/helper/request_helper.py:474-496 | for a non-XML type and a body that is not JSON, matching members that only attempt JSON pass, and the first matching RDF member decides RDF |
| Content.RejectedJsonKeepsState | fuji_server/helper/request_helper.py:474-499 | for a non-XML type and a body that is not JSON, when no matching member is HTML, XML, linkset or RDF, the scan leaves the state as it was |
| Content.LdJsonMembersScan | fuji_server/helper/request_helper.py:474-496 | for a `+json` type listed by exactly `schemaorg`, `jsonld` and `rdf`: a body that parses is JSON, one that does not is RDF |
| Content.LdJsonScan | fuji_server/helper/request_helper.py:435-501 | the catalogue scan of `application/ld+json` is JSON with the parsed document when the body parses, and RDF when it does not |
| Content.JsonMembersScan | fuji_server/helper/request_helper.py:474-484 | for a type only `json` lists: a body that parses is JSON, one that does not leaves the state unchanged |
| Content.JsonScan | fuji_server/helper/request_helper.py:435-501 | the catalogue scan of `application/json` is JSON with the parsed document when the body parses, and otherwise leaves the state, and so the starting format, unchanged |
| Content.LdJsonResponse | fuji_server/helper/request_helper.py:474-496 | an uncached 200 response declared `application/ld+json` is JSON, with its parsed document, exactly when its received body parses, and RDF exactly when it does not; the received body is stored |
| Content.JsonResponse | fuji_server/helper/request_helper.py:474-484 | an uncached 200 response declared `application/json` is JSON with its parsed document when its received body parses; otherwise it keeps the default format (HTML, none for zip) and the raw body as its parse result |
| Content.ContentNegotiate | fuji_server/helper/request_helper.py:522-525 | corrected (over the corrected handler): without a response negotiation keeps HTML and the request's helper; the returned parse result is the helper's own; negotiation fails only when handling the response fails |
| Content.ContentNegotiateAsWritten | fuji_server/helper/request_helper.py:522-525 | as written, over the source's handler: without a response it keeps HTML and the request's helper; the returned parse result is the helper's own; it fails only when the source's handler fails |
| Content.NegotiationsAgree | fuji_server/helper/request_helper.py:285-292 | the source's negotiation and the corrected one agree whenever the response is missing or not gzip-encoded |
| Signposting.SkipSpace | fuji_server/harvester/metadata_harvester.py:583-589 | skips exactly the whitespace run at a position, which the `\s*` of the parameter patterns allows |
| Signposting.RunEnd | fuji_server/harvester/metadata_harvester.py:583-589 | the captured value runs up to the first comma, semicolon or double quote |
| Signposting.ParamAt | fuji_server/harvester/metadata_harvester.py:583-589 | a parameter pattern matches only where its name occurs, and a captured value is non-empty and free of `,`, `;` and `"` |
| Signposting.GroupAfter | fuji_server/harvester/metadata_harvester.py:583-589 | the value group after `=` and an optional quote is non-empty and free of `,`, `;` and `"` |
| Signposting.ParamSearch | fuji_server/harvester/metadata_harvester.py:583-589 | a search returns the leftmost match of the parameter pattern, and nothing exactly when no position matches |
| Signposting.ReadParam | fuji_server/harvester/metadata_harvester.py:580-589 | reading one link property keeps every captured value clean, and only a property starting with `anchor` can change the anchor |
| Signposting.ReadParams | fuji_server/harvester/metadata_harvester.py:580-589 | reading all properties keeps the captured values clean, and the anchor is set only when some property names it |
| Signposting.ParsePart | fuji_server/harvester/metadata_harvester.py:573-606 | a parsed link has a non-empty URL, a relation among the signposting relation types, the signposting source and clean anchor and profile values |
| Signposting.ParsePartUrl | fuji_server/harvester/metadata_harvester.py:578-597 | a parsed link's URL is the first `;`-item of the part, stripped and with its enclosing brackets removed |
| Signposting.ParsePartAnchor | fuji_server/harvester/metadata_harvester.py:580-604 | a parsed link has an anchor only when one of its properties is an anchor parameter |
| Signposting.ParseParts | fuji_server/harvester/metadata_harvester.py:571-607 | every kept link comes from one of the parts, and no part yields more than one link |
| Signposting.ParseLinkHeader | fuji_server/harvester/metadata_harvester.py:571-607 | a Link header yields at most one link per comma-separated part, each with a URL, a known relation type and the signposting source |
| Signposting.ParsePartsAppend | fuji_server/harvester/metadata_harvester.py:571-607 | parsing two runs of parts one after another yields the two results concatenated, so order is preserved |
| Signposting.ParsePartComplete | fuji_server/harvester/metadata_harvester.py:573-606 | completeness: a part `<u>; rel=r` or `<u>; rel="r"` with a non-empty target free of `;` and a signposting relation type gives a link to `u` with relation `r` and no anchor or profile |
| Signposting.ParseLinkHeaderComplete | fuji_server/harvester/metadata_harvester.py:571-607 | completeness: a header of such parts separated by commas, with comma-free targets, gives exactly one link per part, in order, each to its target with its relation |
| Signposting.ParseJoinedParts | fuji_server/harvester/metadata_harvester.py:571-607 | comma-free parts that each parse give one link each, in the order of the parts |
| Signposting.Select | fuji_server/harvester/metadata_harvester.py:545-556 | the selection is exactly the links having one of the requested relations, each shown as requested, and is empty exactly when no link has one |
| Signposting.SelectAppend | fuji_server/harvester/metadata_harvester.py:545-556 | selecting from two runs of links is the concatenation of the selections, so link order is kept |
| Signposting.HtmlTypedLinks | fuji_server/harvester/metadata_harvester.py:545-556 | typed links are returned whole when all keys are wanted and in brief form otherwise, and the result is empty exactly when no link has the relation |
| Signposting.HeaderLinks | fuji_server/harvester/metadata_harvester.py:558-569 | header links give nothing when no link has the relation, and otherwise the same non-empty selection as the typed-link query |
| Signposting.LinksetAnnouncement | fuji_server/harvester/metadata_harvester.py:427-432 | a linkset announced in the HTML wins over one in the Link header; there is none exactly when neither announces one |
| Signposting.ChooseLinkset | fuji_server/harvester/metadata_harvester.py:440-452 | the chosen linkset is the first candidate whose anchor is the PID, the landing page or, for an API catalogue, anything; there is none exactly when no candidate is acceptable |
| Signposting.TargetLinks | fuji_server/harvester/metadata_harvester.py:453-468 | an unknown relation yields no links; for a signposting relation, target i gives link i carrying its `href`, `type` and `profile`, the relation, the signposting source and no anchor; the harvest stops exactly when some target is not a JSON object, at the first such target, and otherwise gives one link per target |
| Signposting.LinksetLinks | fuji_server/harvester/metadata_harvester.py:453-468 | the harvest of a linkset stops exactly when a signposting member has a target that is not a JSON object; otherwise it gives the links of every member except `anchor`, member by member and target by target (`MembersLinks`) |
| Signposting.MemberTargetLinks | fuji_server/harvester/metadata_harvester.py:453-468 | one member is harvested without stopping exactly when it is harvestable, and then gives one link per target (a single target counting as a list of one), or none for a relation that is not a signposting one |
| Signposting.AnchoredTextLinks | fuji_server/harvester/metadata_harvester.py:476-492 | a text linkset keeps exactly the links anchored at the PID or the landing page, or every link for an API catalogue |
| Signposting.JsonLinksetLinks | fuji_server/harvester/metadata_harvester.py:436-468 | a JSON document without a linkset anchored at the PID or landing URL (or announced as an API catalogue) gives nothing; otherwise it gives the links of the first such linkset, all of them when its members are harvestable |
| Signposting.TextLinksetLinks | fuji_server/harvester/metadata_harvester.py:476-492 | links from a text linkset are signposted and, outside an API catalogue, anchored at the PID or the landing page |
| Signposting.SignpostingLinksetLinks | fuji_server/harvester/metadata_harvester.py:424-503 | every harvested link is signposted; nothing is harvested without an announced linkset or with an empty URL; a JSON answer gives the JSON linkset's links and a text answer the anchored text links, with the API-catalogue relation deciding the anchor test |
| Signposting.PreferredLinks | fuji_server/harvester/metadata_harvester.py:1542-1551 | ordering fails only when there is no landing page to compare and there are links to test |
| Signposting.PartitionIsStable | fuji_server/harvester/metadata_harvester.py:1542-1551 | the preferred part and the rest each keep the original order of the links |
| Signposting.Partition | fuji_server/harvester/metadata_harvester.py:1542-1551 | every link lands in exactly one of the two lists: the first holds only links whose URL contains the landing URL, the second only the others |
| Signposting.PreferredLinksSpec | fuji_server/harvester/metadata_harvester.py:1542-1551 | the result is a permutation of the links: those whose URL contains the landing page come first, then the others, each in original order |
| Harvester.Enforced | fuji_server/harvester/metadata_harvester.py:172-180 | a string under a list-valued key becomes a non-empty list; any other value is kept |
| Harvester.MergeKey | fuji_server/harvester/metadata_harvester.py:181-212 | merging a key adds that key and leaves every other key's value unchanged; an absent or empty old value is replaced by the new one |
| Harvester.ExtendedList | fuji_server/harvester/metadata_harvester.py:195-205 | extending a list and removing repeats keeps every new item, adds nothing else, and keeps a repeat-free old list as its prefix |
| Harvester.MergeIntoList | fuji_server/harvester/metadata_harvester.py:195-205 | merging into a list value yields a repeat-free list holding all new items and only old or new items, with the old list in front |
| Harvester.MergeEntries | fuji_server/harvester/metadata_harvester.py:172-214 | only reference keys are merged; every entry with a reference key ends up present; no existing key is lost |
| Harvester.WithResolution | fuji_server/harvester/metadata_harvester.py:166-170 | metadata without a spatial resolution passes through unchanged |
| Harvester.MergeMetadata | fuji_server/harvester/metadata_harvester.py:143-263 | nothing changes when the metadata is not a dictionary or its standard is not allowed; non-reference keys of the merged record are never touched; earlier offerings keep their method, URL and format, and their metadata changes only under keys whose list they still share with the merged record (the in-place extend at :197 of a list stored by :212); at most one new offering is added, it is not among the earlier ones, and the offerings stay repeat-free when the earlier ones still are; a key shared anew is shared with the added offering |
| Harvester.PassKey | fuji_server/harvester/metadata_harvester.py:181-212 | merging one key leaves the merged record as MergeKey gives it, ends that key's sharing, and changes an earlier offering only when it shares the key: its list then becomes the merged list extended by the new items |
| Harvester.PassEntries | fuji_server/harvester/metadata_harvester.py:172-214 | merging all entries gives the merged record of MergeEntries, keeps every offering's method, URL and format, and changes an offering's metadata only under keys it shared and that were merged |
| Harvester.SharedExtended | fuji_server/harvester/metadata_harvester.py:195-212 | an offering sharing a key whose merged value is a non-empty list ends with that list extended by the key's new items |
| Harvester.SharedListExtended | fuji_server/harvester/metadata_harvester.py:172-261 | a list merged under a reference key into an empty state is stored by the first offering; a second list merged under the key leaves that offering holding both lists' items |
| Harvester.KeywordsAreSplit | fuji_server/harvester/metadata_harvester.py:175-178 | a keyword string is stored as the list of its comma-separated pieces, which join back to the original string |
| Harvester.AllowedMethods | fuji_server/harvester/metadata_harvester.py:112-115 | a non-empty configured list of methods is used as given; otherwise the default list of acronyms |
| Harvester.DefaultAllowsAll | fuji_server/harvester/metadata_harvester.py:112 | the default list contains every method's acronym |
| Harvester.ConfiguredMethodsNeverAllowedAsWritten | fuji_server/harvester/metadata_harvester.py:128-134 | as written, once methods are configured no method is ever reported as allowed |
| Harvester.HarvestingMethodAllowed | fuji_server/harvester/metadata_harvester.py:128-134 | corrected: with a configured list a method is allowed exactly when it is listed, and with none every method is allowed |
| Harvester.IsHarvestingMethodAllowedAsWritten | fuji_server/harvester/metadata_harvester.py:128-134 | as written, a list made only of methods (as configured) allows no method |
| Harvester.IsHarvestingMethodAllowed | fuji_server/harvester/metadata_harvester.py:128-134 | corrected: allows every method the source allows, and over a configured list of methods allows exactly the listed ones |
| Harvester.CutSet | fuji_server/harvester/metadata_harvester.py:1509-1522 | a URL is collected exactly when it is the given URL cut at its first `#` |
| Harvester.TargetUrls | fuji_server/harvester/metadata_harvester.py:1495-1522 | external metadata is sought only when some method is allowed and a PID or landing page is known; an explicit target is used alone; a DOI without DataCite skips the PID; no target URL has a fragment |
| Harvester.FoundPids | fuji_server/harvester/metadata_harvester.py:333-345 | the found schemes are exactly those of the qualifying candidates, each mapped to the URL of its last candidate |
| Harvester.FirstScheme | fuji_server/harvester/metadata_harvester.py:346-359 | the first qualifying candidate's scheme, and nothing exactly when no candidate qualifies |
| Harvester.RepeatedPid | fuji_server/harvester/metadata_harvester.py:311-359 | a PID is chosen only when none is known, the test is not a repeat and some candidate qualifies; a DOI is preferred; otherwise the first scheme; the URL is that scheme's last candidate |
| Harvester.CatalogueUri | fuji_server/harvester/metadata_harvester.py:1606-1607 | a local `msc:` identifier is rewritten to its catalogue URL, ending in the identifier's last part; other identifiers are kept |
| Harvester.Catalogue | fuji_server/harvester/metadata_harvester.py:1603-1608 | no catalogue URI keeps the `msc:` prefix; collecting fails exactly when a local identifier has no value |
| Harvester.CatalogueContents | fuji_server/harvester/metadata_harvester.py:1603-1608 | the catalogue holds exactly the rewritten values of the local identifiers |
| Harvester.MetadataStandardInfo | fuji_server/harvester/metadata_harvester.py:1595-1620 | no identifier gives no info; an unknown identifier fails; the type is generic or disciplinary exactly according to the subject, and absent without a subject |
| Collector.Ordinal | fuji_server/helper/metadata_collector.py:63-167 | every metadata source has its place in the declared order of sources |
| Collector.SourceMethods | fuji_server/helper/metadata_collector.py:63-170 | only the guessed-XML source has no offering method; the source list is complete and repeat-free |
| Collector.MethodByName | fuji_server/helper/metadata_collector.py:57 | a method name resolves to the method of that name, and to nothing exactly when no method has it |
| Collector.SourcesByMethod | fuji_server/helper/metadata_collector.py:50-61 | the lookup fails exactly when an argument names no method; otherwise a source is returned exactly when its offering method was requested |
| Collector.FilterByMethod | fuji_server/helper/metadata_collector.py:57-60 | filtering the sources by a method keeps exactly the sources offered through it |
| Collector.SourcesForSpec | fuji_server/helper/metadata_collector.py:50-61 | for any list of method arguments, the collected sources are exactly those of the requested methods, and an unresolvable argument is a failure |
| Collector.NewCollector | fuji_server/helper/metadata_collector.py:238-251 | a new collector starts with no metadata, namespaces, URIs, content type, format or token, and with the `Basic` token type |
| Collector.SetAuthToken | fuji_server/helper/metadata_collector.py:315-317 | the token and its type are stored as given, and nothing else changes |
| Collector.ExcludeNull | fuji_server/helper/metadata_collector.py:319-330 | cleaning keeps the shape of a value (dictionary, list, text or other), strips text, and leaves no empty entry in a dictionary or list |
| Collector.ExcludeNullKeys | fuji_server/helper/metadata_collector.py:320-321 | a dictionary entry survives, cleaned, exactly when both its value and its cleaned value are non-empty |
| Collector.ExcludeNullItems | fuji_server/helper/metadata_collector.py:322-326 | a value is in the cleaned list exactly when it is the cleaned form of some element whose value and cleaned value are both non-empty; dropping repeats loses no value |
| Collector.ExcludeNullCleanList | fuji_server/helper/metadata_collector.py:322-326 | a list of clean non-empty values loses only its repeats, and only when every item is hashable |
| Collector.ExcludeNullIdempotent | fuji_server/helper/metadata_collector.py:319-330 | cleaning an already cleaned value changes nothing |
| Accumulation.Accumulate | fuji_server/helper/metadata_collector_dublincore.py:210-223 | an empty value is dropped; a first value is stored as is; a list is extended by a list value or by a single value; a scalar becomes a two-item list; no other element changes |
| Accumulation.AccumulateAll | fuji_server/helper/metadata_collector_dublincore.py:210-223 | storing several values under one element leaves every other element unchanged |
| Accumulation.ScalarsAccumulate | fuji_server/helper/metadata_collector_dublincore.py:210-223 | two or more non-empty scalar values of a new element end up, in order, as exactly the list of those values |
| Mapper.ItemHeadsCons | fuji_server/helper/metadata_mapper.py:12-21 | the source names of a mapping list are those of its head followed by those of its tail; a plain head contributes its own name |
| Mapper.FlipItems | fuji_server/helper/metadata_mapper.py:13-21 | flipping one mapping list adds every source name it mentions and keeps every other entry; a name points back to the reference key, tagged with the tuple's second element when the LAST item naming it is a tuple, untagged when that item is a plain name |
| Mapper.FlipEntries | fuji_server/helper/metadata_mapper.py:12-23 | flipping a table maps exactly the mentioned source names; each goes to the key of the LAST table entry mentioning it, as that entry's last item naming it gives it (plain key, or key and tag for a tuple) |
| Mapper.FlipDict | fuji_server/helper/metadata_mapper.py:9-24 | a non-dictionary flips to the empty mapping; a mapping flips to an inverse covering exactly its mentioned source names, each taken from the last entry and last item naming it, with the tuple tag when that item is a tuple |
| Mapper.FlipPlainItems | fuji_server/helper/metadata_mapper.py:14-21 | flipping a list of plain names maps each name to the reference key, over whatever was there before |
| Mapper.FlipIgnoresRepeats | fuji_server/helper/metadata_mapper.py:14-21 | a repeated plain name in a mapping list changes nothing in the flipped mapping |
| Mapper.DcRelatedRepeatHarmless | fuji_server/helper/metadata_mapper.py:169-185 | the Dublin Core related-resources list does repeat a name, and that repeat does not change the flipped mapping |
| Seqs.Dedup | fuji_server/harvester/metadata_harvester.py:201-205 | removing repeats keeps the first occurrence of each item in original order, so the result is repeat-free and has the same members |
| Seqs.FirstOccurrencesIdempotent | fuji_server/harvester/metadata_harvester.py:201-205 | removing repeats twice is the same as removing them once |
| Seqs.PartitionPermutes | fuji_server/harvester/metadata_harvester.py:1542-1551 | the items kept and the items rejected together are a permutation of the input |
| Strings.SplitJoin | fuji_server/harvester/metadata_harvester.py:175-178 | splitting the comma-join of comma-free pieces gives back the pieces |
| Strings.ParseIntRoundTrip | fuji_server/helper/request_helper.py:332-334 | parsing the decimal digits of a number gives the number back |
| Strings.ParseIntSeparator | fuji_server/helper/request_helper.py:332-334 | a single underscore between two runs of digits is accepted and ignored, as Python's `int` does: `int("1_000") == int("1000") == 1000` |
| Strings.ParseIntBadSeparator | fuji_server/helper/request_helper.py:332-334 | a doubled, leading or trailing underscore makes `int` raise, so the text has no value |
| RdfCollector.AlnumTail | fuji_server/helper/metadata_collector_rdf.py:339 | the longest run of lower-case letters and digits at the end of a text |
| RdfCollector.SuffixGroupMatches | fuji_server/helper/metadata_collector_rdf.py:339 | the format-name group is found exactly when the pattern matches somewhere, and it is the text after the match's separator |
| RdfCollector.RouteOf | fuji_server/helper/metadata_collector_rdf.py:239-356 | a JSON content type or preferred JSON type is read as JSON-LD, embedded or negotiated; other types are parsed by rdflib only when RDF was asked for, with the named format when rdflib knows it and Turtle otherwise; a type with no known serialisation is reported as such |
| RdfCollector.XhtmlIsParsedAsTurtle | fuji_server/helper/metadata_collector_rdf.py:330-356 | an XHTML response is recorded as RDFa but handed to the parser as Turtle |
| RdfCollector.DigitRun | fuji_server/helper/metadata_collector_rdf.py:370-372 | the longest run of digits from a position |
| RdfCollector.LineMatchAt | fuji_server/helper/metadata_collector_rdf.py:370-371 | a `line N` match yields a non-empty digit string |
| RdfCollector.UnknownMatchAt | fuji_server/helper/metadata_collector_rdf.py:372 | an unknown-prefix match yields a non-empty digit string |
| RdfCollector.FirstMatch | fuji_server/helper/metadata_collector_rdf.py:370-372 | the leftmost match of a pattern, and nothing exactly when no position matches |
| RdfCollector.ErrorLine | fuji_server/helper/metadata_collector_rdf.py:370-372 | the failing line is taken from a `line N` message first, then from an unknown-prefix message, and is absent exactly when neither matches |
| RdfCollector.ParseWithRepair | fuji_server/helper/metadata_collector_rdf.py:357-392 | the text that is finally parsed is a prefix of the original lines, at most one attempt is made per dropped line, a graph is returned exactly when the last attempt parses, XML is tried once, and text that parses is never cut; after a failed parse the loop gives up at once exactly when the message names no line, the serialisation is `xml`, the line is the one before the previous bad line, or it is not in `2..|lines|`; otherwise it parses again and ends on a prefix of the lines before the bad line |
| RdfCollector.RepairCutsAtBadLine | fuji_server/helper/metadata_collector_rdf.py:368-392 | an error naming line `n` whose first `n - 1` lines parse ends with that graph, on those lines, after two parser calls |
| RdfCollector.ContextItems | fuji_server/helper/metadata_collector_rdf.py:305-311 | a list context contributes every text item and every value of every dictionary item, and nothing else |
| RdfCollector.ContextNamespaces | fuji_server/helper/metadata_collector_rdf.py:300-311 | a text `@context` is one namespace; a list context contributes its texts and dictionary values; anything else contributes none |
| RdfCollector.Normalised | fuji_server/helper/metadata_collector_rdf.py:123 | a normalised URI is a prefix of the stripped URI that does not end in `/` or `#`, and only `/` and `#` characters were cut from the end |
| RdfCollector.NamespaceCandidate | fuji_server/helper/metadata_collector_rdf.py:123-133 | the guessed namespace is the normalised URI cut before its last `#`, or before its last `/` when it has no `#`, and there is none when it has neither |
| RdfCollector.Guess | fuji_server/helper/metadata_collector_rdf.py:123-133 | an unmatched URI adds its guessed namespace once, or nothing when no namespace can be guessed |
| RdfCollector.UriNamespaces | fuji_server/helper/metadata_collector_rdf.py:114-133 | a URI adds at most one namespace per known pattern; when the first pattern matches, the first namespace added is the matched prefix, and when it misses, the guessed namespace of the URI comes first |
| RdfCollector.NormalFormFixed | fuji_server/helper/metadata_collector_rdf.py:123 | normalising a URI already in normal form changes nothing |
| RdfCollector.UriNamespacesMiss | fuji_server/helper/metadata_collector_rdf.py:114-133 | a known prefix that does not match the URI makes the loop add the guessed namespace |
| RdfCollector.UnmatchedUriRepeats | fuji_server/helper/metadata_collector_rdf.py:114-133 | a URI that matches no known prefix adds its guessed namespace once per known prefix, or nothing when none can be guessed |
| RdfCollector.FinishCore | fuji_server/helper/metadata_collector_rdf.py:696-698 | empty metadata stays empty; otherwise the object type is set, every non-empty entry of the updated metadata is kept, and every empty entry is dropped |
| XmlCollector.ExpandAttribute | fuji_server/helper/metadata_collector_xml.py:153-155 | an attribute whose first colon-separated piece is `xlink` becomes the XLink namespace in Clark notation followed by the name up to the next colon; any other attribute name is kept |
| XmlCollector.ExpandXLink | fuji_server/helper/metadata_collector_xml.py:153-155 | `xlink:name`, for a name without a colon, becomes `{http://www.w3.org/1999/xlink}name` |
| XmlCollector.ParsePathSpec | fuji_server/helper/metadata_collector_xml.py:148-156 | the element path is exactly the text before the first `@@`; when there is an `@@`, the attribute is the expanded text between the first and the second `@@`, and otherwise there is no attribute |
| XmlCollector.CollapseSpace | fuji_server/helper/metadata_collector_xml.py:168 | every whitespace run becomes exactly one space: no whitespace other than single spaces is left, the non-whitespace characters are those of the input in the same order, and the result starts with a space exactly when the input starts with whitespace |
| XmlCollector.NodeValue | fuji_server/helper/metadata_collector_xml.py:162-169 | with an attribute the value is the node's value for it, and absent exactly when the node does not carry it; without one a leaf gives its text, and a node with children gives its whole text with whitespace normalised |
| XmlCollector.NormaliseSpace | fuji_server/helper/metadata_collector_xml.py:167-169 | the collapsed and stripped text keeps the non-whitespace characters in order, has no whitespace at either end, and has single spaces only, each between two words |
| XmlCollector.PathMatches | fuji_server/helper/metadata_collector_xml.py:148-158 | the values of a path are those of the nodes found at its element path, read through its attribute |
| XmlCollector.PathValuesAppend | fuji_server/helper/metadata_collector_xml.py:142-158 | the values of several paths are the values of each path, concatenated in order |
| XmlCollector.PropertyValue | fuji_server/helper/metadata_collector_xml.py:160-180 | exactly one found value is stored as a scalar, and any other number of values as the list of them |
| XmlCollector.FoundValue | fuji_server/helper/metadata_collector_xml.py:160-180 | a missing value becomes null; a list keeps one entry per found value |
| XmlCollector.FoundOf | fuji_server/helper/metadata_collector_xml.py:194 | the value found for a property, and nothing exactly when the property is absent |
| XmlCollector.At | fuji_server/helper/metadata_collector_xml.py:194-196 | corrected: a list is indexed by position, and a scalar counts as the one value at position 0 |
| XmlCollector.AtAsWritten | fuji_server/helper/metadata_collector_xml.py:211-216 | as written: a list is indexed like the corrected reading, but a single string is indexed by character, giving its `i`-th character |
| XmlCollector.KeyRelationType | fuji_server/helper/metadata_collector_xml.py:188-190 | the relation type is the key with its `related_resource_` prefix removed, and is never empty |
| XmlCollector.CleanResource | fuji_server/helper/metadata_collector_xml.py:197 | the cleaned resource is a slice of the input with newlines and tabs removed; it has no newline or tab, no whitespace at either end, and keeps every non-whitespace character of the input in order |
| XmlCollector.NextType | fuji_server/helper/metadata_collector_xml.py:193-196 | the relation type changes only for a non-empty item when related-resource types were found; it is then the type at the item's position when there is one, else the previous type |
| XmlCollector.RelatedEntry | fuji_server/helper/metadata_collector_xml.py:197-199 | a related resource is recorded exactly when both the cleaned resource and its relation type are non-empty |
| XmlCollector.RelatedLoop | fuji_server/helper/metadata_collector_xml.py:184-200 | at most one record per item, and every record has a non-empty resource and type |
| XmlCollector.RelatedTyped | fuji_server/helper/metadata_collector_xml.py:190-200 | with a list of types that covers the items, items that are all non-empty once cleaned give one record each, item i typed by the non-empty entry at its position in the list |
| XmlCollector.TypedRecords | fuji_server/helper/metadata_collector_xml.py:197-199 | the records pair each cleaned item with the type at the same position |
| XmlCollector.RelatedOf | fuji_server/helper/metadata_collector_xml.py:184-200 | only non-empty related-resource properties yield records |
| XmlCollector.RelatedWith | fuji_server/helper/metadata_collector_xml.py:183-200 | without related-resource properties there are no records |
| XmlCollector.RelatedResourcesAsWritten | fuji_server/helper/metadata_collector_xml.py:183-200 | as written, every record still has a non-empty resource and type |
| XmlCollector.RelatedResources | fuji_server/helper/metadata_collector_xml.py:183-200 | every related-resource record has a non-empty resource and type, and there are none without related-resource properties |
| XmlCollector.RelatedResourcesTyped | fuji_server/helper/metadata_collector_xml.py:183-200 | a related-resource list followed by a list of relation types gives one record per item, item i typed by entry i of the type list |
| XmlCollector.RelatedUntyped | fuji_server/helper/metadata_collector_xml.py:184-200 | without a list of types, every non-empty item is recorded with the type taken from its key |
| XmlCollector.ScalarRelationType | fuji_server/helper/metadata_collector_xml.py:194-196 | as written, a single relation type is cut to its first character; the corrected reading keeps it whole |
| XmlCollector.TypeKeyNotRelated | fuji_server/helper/metadata_collector_xml.py:185 | the type property itself is not treated as a related resource |
| XmlCollector.ScalarContentSize | fuji_server/helper/metadata_collector_xml.py:211-216 | as written, a single size `1024` is recorded as `1`; the corrected reading records `1024` |
| XmlCollector.Without | fuji_server/helper/metadata_collector_xml.py:223-225 | removing keys keeps exactly the entries under the other keys |
| XmlCollector.MappedXmlMetadata | fuji_server/helper/metadata_collector_xml.py:135-227 | for either positional reading (the source's `AtAsWritten` or the corrected `At`): the result starts with the related resources read with it; when content URLs were found, the content identifiers built with it replace the separate URL, size and type properties, every other property is kept, and nothing else is in the result; when none were found, every property follows in order, the three helper keys included |
| XmlCollector.MappedOnLists | fuji_server/helper/metadata_collector_xml.py:183-222 | the source's reading and the corrected one give the same metadata whenever relation types, content sizes and content types were each found as a list or not at all |
| XmlCollector.MappedWithContent | fuji_server/helper/metadata_collector_xml.py:203-225 | adding any content-identifier records keeps the related resources first and every property other than the content ones |
| XmlCollector.SplitTag | fuji_server/helper/metadata_collector_xml.py:95-99 | a `{namespace}name` tag is split into its non-empty namespace and name, which put back together give the tag, and is left unsplit exactly when it has no such form |
| XmlCollector.RootMapping | fuji_server/helper/metadata_collector_xml.py:95-124 | the root element chooses the mapping (DDI, MODS, EML, ISO 19115); Dublin Core is chosen for a `dc` root or a Dublin Core namespace and only then; DataCite exactly when no earlier rule applies and the root's namespace names datacite; no mapping exactly when no rule applies |
| XmlCollector.FillFromEnvelope | fuji_server/helper/metadata_collector_xml.py:129-132 | keys missing from the parsed metadata are filled from the envelope and present keys are kept; filling nothing into missing metadata fails |
| XmlCollector.Fill | fuji_server/helper/metadata_collector_xml.py:129-132 | present keys keep their values and missing keys take the envelope's |
| DublinCore.KindOf | fuji_server/helper/metadata_collector_dublincore.py:42-62 | a coverage type is spatial or temporal exactly when the name after its last dot is one of the spatial or temporal kinds |
| DublinCore.KeyValue | fuji_server/helper/metadata_collector_dublincore.py:49-50 | a coverage part is a key/value pair exactly when it has a single `=`, and the pair put back together is the part |
| DublinCore.CoverageParts | fuji_server/helper/metadata_collector_dublincore.py:47-62 | the coverage values are those picked from the parts, in order |
| DublinCore.CoverageKind | fuji_server/helper/metadata_collector_dublincore.py:47-62 | the coverage takes its kind only when some part is a key/value pair, and without a kind nothing is recorded |
| DublinCore.ParseCoverage | fuji_server/helper/metadata_collector_dublincore.py:41-65 | no coverage or an unknown type gives nothing; otherwise the `;`-separated parts are read and the kind is kept exactly when some part is a pair |
| DublinCore.FilterOr | fuji_server/helper/metadata_collector_dublincore.py:111-117 | keeps the items passing the first test when any does, and the items passing the second test otherwise |
| DublinCore.SelectedTags | fuji_server/helper/metadata_collector_dublincore.py:111-117 | `DC.`/`DCTERMS.` tags are used when there are any; otherwise the tags naming a base property are used |
| DublinCore.NormaliseName | fuji_server/helper/metadata_collector_dublincore.py:118-128 | an undotted name is used only when it is a base property; a dotted name always yields an element |
| DublinCore.DottedName | fuji_server/helper/metadata_collector_dublincore.py:119-128 | a dotted name gives the element after the first dot and, when there is a second dot, the qualifier after it |
| DublinCore.JoinedName | fuji_server/helper/metadata_collector_dublincore.py:119-128 | a name of two or more dot-free parts gives its second part as the element, and a qualifier (its third part) exactly when there are three parts; two or four and more parts give none |
| DublinCore.ThreePartName | fuji_server/helper/metadata_collector_dublincore.py:119-128 | `p.e.q` with dot-free parts gives element `e` qualified by `q` |
| DublinCore.DcMatches | fuji_server/helper/metadata_collector_dublincore.py:118-128 | every match comes from a selected tag, and every selected tag with a usable name gives a match |
| DublinCore.Terms | fuji_server/helper/metadata_collector_dublincore.py:137-144 | the Dublin Core terms are exactly those mentioned by some mapping entry |
| DublinCore.ElementFor | fuji_server/helper/metadata_collector_dublincore.py:167-171 | a term maps to the first element whose mapping text contains it, and to nothing when no mapping text does |
| DublinCore.EntryTermInText | fuji_server/helper/metadata_collector_dublincore.py:164-171 | a term mentioned by a mapping entry occurs in that entry's text |
| DublinCore.TermHasElement | fuji_server/helper/metadata_collector_dublincore.py:164-171 | every known term finds an element |
| DublinCore.CoverageNeverMapped | fuji_server/helper/metadata_collector_dublincore.py:175 | no term is ever mapped to the coverage elements, so the coverage branch is never reached |
| DublinCore.RelationType | fuji_server/helper/metadata_collector_dublincore.py:201-207 | `source` and `references` mean derived-from; `relation` means its qualifier, or related-to without one; any other key is its own type |
| Values.OptValue | fuji_server/helper/metadata_collector_dublincore.py:164-171 | missing content becomes null and present content a string |
| DublinCore.RoleOf | fuji_server/helper/metadata_collector_dublincore.py:175-208 | the two coverage elements and the related-resources element have their own roles; every other element is plain |
| DublinCore.Stored | fuji_server/helper/metadata_collector_dublincore.py:194-210 | a related resource is stored as a record with its relation type; a plain element stores the content |
| DublinCore.DateQualified | fuji_server/helper/metadata_collector_dublincore.py:156-160 | a `date` with the accepted or submitted qualifier also sets the accepted or submitted date; nothing else changes |
| DublinCore.Target | fuji_server/helper/metadata_collector_dublincore.py:164-171 | a match has a target element exactly when its key is a known term, and the target is that term's element |
| DublinCore.DcStep | fuji_server/helper/metadata_collector_dublincore.py:156-223 | a match without a target element only contributes its date qualifiers |
| DublinCore.DcFold | fuji_server/helper/metadata_collector_dublincore.py:145-223 | a key that no match writes (by a date qualifier or as the key its element is stored under) keeps its value through the loop |
| DublinCore.ParseMetadata | fuji_server/helper/metadata_collector_dublincore.py:133-223 | the source is embedded Dublin Core exactly when some tag matches, and the metadata is empty otherwise |
| DublinCore.DcNamespaces | fuji_server/helper/metadata_collector_dublincore.py:133-136 | the Dublin Core namespace is recorded exactly when Dublin Core metadata was found |
| DublinCore.RelatedStored | fuji_server/helper/metadata_collector_dublincore.py:194-208 | the related-resources element stores a related record |
| DublinCore.RelationStored | fuji_server/helper/metadata_collector_dublincore.py:194-223 | a relation starts or extends the list of related records with one record of its resource and relation type |
| DublinCore.DateAcceptedStored | fuji_server/helper/metadata_collector_dublincore.py:156-223 | an accepted date sets both the accepted date and, when unset, the publication date |
| FairCheck.Route | fuji_server/controllers/fair_check.py:113-126 | an OAI-PMH endpoint overrides the service; an OAI-PMH service is also the OAI-PMH endpoint; a `csw` type routes to CSW and a `sparql` type to SPARQL |
| FairCheck.NoCsw | fuji_server/controllers/fair_check.py:123 | a service type without the letter `c` is never routed to CSW |
| FairCheck.SetAuthToken | fuji_server/controllers/fair_check.py:281-290 | a given token reaches both the check and its harvester; a known type reaches both, while an unknown type resets the check's to `Basic` and leaves the harvester's alone; absent values change nothing |
| FairCheck.TokenTypesStayKnown | fuji_server/controllers/fair_check.py:281-290 | over any series of calls both token types remain `Bearer` or `Basic` |
| FairCheck.ReadLine | fuji_server/controllers/fair_check.py:596-603 | a line is readable exactly when it has a `:`, and its metric is the stripped text before the first `:` |
| FairCheck.ReadOf | fuji_server/controllers/fair_check.py:595-603 | only lines starting with a metric prefix are read, and such a line without `:` is broken |
| FairCheck.FormatSplit | fuji_server/controllers/fair_check.py:170-172 | a formatted log line splits at its first `:` into the metric and the message with its level |
| FairCheck.BodySplit | fuji_server/controllers/fair_check.py:170-172 | the message body splits at `|` into the message and its level |
| FairCheck.ReadFormatted | fuji_server/controllers/fair_check.py:596-607 | reading back a formatted line gives its metric, message and the `level: message` entry |
| FairCheck.RecordLine | fuji_server/controllers/fair_check.py:604-607 | recording a line adds its metric, changes no other metric's entries, and appends the line's entry exactly when the duplicate test does not find the line |
| FairCheck.LogFold | fuji_server/controllers/fair_check.py:594-607 | every entry listed under a metric is the entry of some read line about that metric, and no metric lists more entries than there are lines |
| FairCheck.LogMessagesAsWritten | fuji_server/controllers/fair_check.py:591-610 | as written, reading the lines fails exactly when the corrected reading fails, and lists the same metrics |
| FairCheck.LogMessagesOf | fuji_server/controllers/fair_check.py:591-610 | corrected: each metric lists the distinct entries of its lines in the order they were first logged |
| FairCheck.LogMetrics | fuji_server/controllers/fair_check.py:591-607 | reading fails exactly when some metric line is broken; otherwise the metrics are exactly those of the read lines |
| FairCheck.EntriesNone | fuji_server/controllers/fair_check.py:604-607 | a metric without lines has no entries |
| FairCheck.LogMessagesDistinct | fuji_server/controllers/fair_check.py:604-607 | corrected: each metric's entries are its distinct entries in order of first appearance |
| FairCheck.RepeatedLine | fuji_server/controllers/fair_check.py:604-607 | as written, a line logged twice is reported twice; the corrected reading reports it once |
| FairCheck.RecordedTwice | fuji_server/controllers/fair_check.py:604-607 | as written, for a line logged twice the repeat test compares its raw message with its formatted `level: message` entry and does not fire, so the entry is listed twice; the corrected test lists it once |
| FairCheck.LookalikeDropped | fuji_server/controllers/fair_check.py:604-607 | as written, the repeat test does fire when a line's raw message equals an entry already listed for its metric (`INFO: a` logged after `a|INFO`), and drops that line although its own entry is new; the corrected test lists it |
| FairCheck.GetLogMessagesDict | fuji_server/controllers/fair_check.py:591-610 | reading the stream parses its lines; after a successful read the stream is the `StringIO` class itself, so a second read fails |
| MetadataCleaning.NoneToNull | fuji_server/controllers/fair_check.py:294-299 | every `"None"` text becomes null, the shape of dictionaries and lists is kept, and a value without such text is unchanged |
| MetadataCleaning.ReplaceNoneStrings | fuji_server/controllers/fair_check.py:294-299 | no key is added or lost; a record that survives the JSON round trip has every `"None"` replaced by null, and any other record is kept as is |
| MetadataCleaning.NoneToNullSafe | fuji_server/controllers/fair_check.py:294-299 | replacing `"None"` keeps a value JSON-safe |
| MetadataCleaning.ReplaceNoneStringsIdempotent | fuji_server/controllers/fair_check.py:294-299 | replacing `"None"` a second time changes nothing |
| MetadataCleaning.NormaliseIdentifiers | fuji_server/controllers/fair_check.py:300-305 | content identifiers without a URL become null, null stays null, a single identifier becomes a one-item list, a list is kept, and every other key is unchanged |
| MetadataCleaning.SlashIn | fuji_server/controllers/fair_check.py:318 | testing a text for `/` answers the question, and testing null, a boolean or a number fails as in Python |
| MetadataCleaning.CompleteType | fuji_server/controllers/fair_check.py:315-319 | a missing type is filled from the duplicate, a type with `/` replaces one without, and only the type can change |
| MetadataCleaning.CompleteSize | fuji_server/controllers/fair_check.py:320-321 | a missing size is filled from the duplicate, and only the size can change |
| MetadataCleaning.Complete | fuji_server/controllers/fair_check.py:314-321 | merging a duplicate changes only type and size, and fails exactly when the type merge does |
| MetadataCleaning.FindUrl | fuji_server/controllers/fair_check.py:308-313 | finds the identifier with a URL, and nothing exactly when no identifier has it |
| MetadataCleaning.AddToGroups | fuji_server/controllers/fair_check.py:308-322 | a non-record item fails; otherwise the URLs grow by the item's URL only when it is new |
| MetadataCleaning.GroupNonRecord | fuji_server/controllers/fair_check.py:307-313 | any non-record item makes grouping fail |
| MetadataCleaning.GroupUrls | fuji_server/controllers/fair_check.py:307-322 | the grouped identifiers have the items' distinct URLs in order of first appearance |
| MetadataCleaning.GroupDistinct | fuji_server/controllers/fair_check.py:307-322 | no two grouped identifiers share a URL |
| MetadataCleaning.UnwrapAsWritten | fuji_server/controllers/fair_check.py:339-341 | as written, a text type is cut to its first character, a list type to its first item, and any other type fails |
| MetadataCleaning.MediaType | fuji_server/controllers/fair_check.py:342-358 | a recognised media type always contains `/` |
| MetadataCleaning.CleanIdentifier | fuji_server/controllers/fair_check.py:326-359 | only type and size can change; a single identifier without a size takes the object size; an empty type stays; a scalar type is reduced to its media type when it names one |
| MetadataCleaning.ListTypeFirstChar | fuji_server/controllers/fair_check.py:338-341 | as written, a list type `[s]` ends up as the first character of `s` |
| MetadataCleaning.WithObjectSize | fuji_server/controllers/fair_check.py:328-336 | only the size can change; the sole identifier without a size takes `object_size` when that is set, and nothing changes otherwise |
| MetadataCleaning.Reduced | fuji_server/controllers/fair_check.py:342-358 | a type naming a media type in URI form becomes a text containing `/`; any other type is kept |
| MetadataCleaning.Retype | fuji_server/controllers/fair_check.py:338-358 | only the type can change, and it ends as the unwrapped type, reduced |
| MetadataCleaning.UnwrappedType | fuji_server/controllers/fair_check.py:338-358 | whatever the first list item unwraps to is the type the clean-up leaves, reduced |
| Seqs.MapAll | fuji_server/controllers/fair_check.py:327-359 | the loop succeeds exactly when every element does, then with one result per element in order; a failure is that of the first element that fails |
| MetadataCleaning.CleanIdentifiers | fuji_server/controllers/fair_check.py:326-359 | the loop succeeds exactly when every identifier cleans, with one cleaned identifier per input; a failure is some identifier's own |
| MetadataCleaning.CleanedListType | fuji_server/controllers/fair_check.py:338-341 | corrected, for one identifier: a list type becomes its first item, reduced |
| MetadataCleaning.UnwrapFirstSucceeds | fuji_server/controllers/fair_check.py:326-359 | when the first list item is taken as the type, cleaning never fails |
| MetadataCleaning.ListTypesUnwrapped | fuji_server/controllers/fair_check.py:338-341 | corrected: every list type becomes its first item, reduced to its media type when it names one |
| MetadataCleaning.DropEmpty | fuji_server/controllers/fair_check.py:361-363 | a top-level key survives exactly when its value is neither `""` nor null, and keeps its value |
| MetadataCleaning.DropEmptyFinal | fuji_server/controllers/fair_check.py:361-363 | after the final step no top-level value is `""` or null, only such entries were removed, and repeating the step changes nothing |
| MetadataCleaning.CleanContent | fuji_server/controllers/fair_check.py:300-359 | cleaning keeps every key and changes only the content identifiers |
| MetadataCleaning.CleanWith | fuji_server/controllers/fair_check.py:292-363 | the cleaned record adds no key, has no empty or null value, keeps every other key's `"None"`-replaced value when that is non-empty, and cannot fail without content identifiers |
| MetadataCleaning.CleanContentIdentifiers | fuji_server/controllers/fair_check.py:300-359 | the cleaned content identifiers are one per distinct url, in the order the urls first appear in the listing, each the clean-up (size completion, type unwrapping and media-type reduction) of the merged group for that url |
| MetadataCleaning.CleanWithKeepsIdentifiers | fuji_server/controllers/fair_check.py:292-363 | the cleaned content identifiers survive the last step, so they are what the whole clean-up returns |
| MetadataCleaning.UnwrapFirstFailsLess | fuji_server/controllers/fair_check.py:338-341 | the corrected unwrapping succeeds wherever the source's double indexing does |
| MetadataCleaning.CleanMetadataAsWritten | fuji_server/controllers/fair_check.py:292-363 | as written: whenever it succeeds, the corrected clean-up succeeds too |
| MetadataCleaning.CleanMetadata | fuji_server/controllers/fair_check.py:292-363 | corrected: on a record without content identifiers it returns what the source returns |
| LinkedVocab.SplitIri | fuji_server/helper/linked_vocab_helper.py:47-65 | an IRI splits into domain, subdomain (`www` by default) and path; without a public suffix there is no domain; splitting fails exactly when a registered host is not in the IRI; with a registered host, the path is exactly the text between its first and second occurrence (or the end) |
| LinkedVocab.Namespace | fuji_server/helper/linked_vocab_helper.py:67-100 | the namespace is the URI format up to the first `$1` placeholder, and the whole format when there is none |
| LinkedVocab.Append | fuji_server/helper/linked_vocab_helper.py:88-100 | an entry is appended to its own domain and subdomain bucket and no other bucket changes |
| LinkedVocab.AddEntry | fuji_server/helper/linked_vocab_helper.py:67-100 | adding fails without a text URI format or when it cannot be split; its namespace is recorded; an ignored domain leaves the index alone |
| LinkedVocab.AddEntryExtends | fuji_server/helper/linked_vocab_helper.py:67-100 | adding an entry only ever extends the index and the namespace list |
| LinkedVocab.AddEntryPlaces | fuji_server/helper/linked_vocab_helper.py:67-100 | adding an entry appends exactly its vocabulary, under the domain and subdomain of its URI format unless that domain is ignored, and nothing else |
| LinkedVocab.FirstName | fuji_server/helper/linked_vocab_helper.py:113-121 | the borrowed name is a non-empty `name` of one of the record's dictionaries |
| LinkedVocab.FirstNameIsFirst | fuji_server/helper/linked_vocab_helper.py:113-121 | a name is borrowed exactly when some dictionary has a non-empty name and every value before it is a dictionary without one, and the name is that first one |
| LinkedVocab.NestedNamespacesAt | fuji_server/helper/linked_vocab_helper.py:110-122 | the nested namespaces are those of each value, in order |
| LinkedVocab.NameFilled | fuji_server/helper/linked_vocab_helper.py:113-121 | a nested entry keeps its own name when it has one and otherwise borrows the record's first name; it is unchanged when there is no name to borrow, and every other field (URI format, prefix, pattern, subjects) is kept |
| LinkedVocab.IndexNested | fuji_server/helper/linked_vocab_helper.py:110-122 | indexing nested entries only ever extends the index |
| LinkedVocab.IndexNestedContents | fuji_server/helper/linked_vocab_helper.py:110-122 | the loop over a record's values appends exactly the nested dictionaries that have a URI format, in order, each named from the record as it was before the loop, each to its own bucket |
| LinkedVocab.IndexNestedNamespaces | fuji_server/helper/linked_vocab_helper.py:110-122 | indexing nested entries records exactly their namespaces, in order |
| LinkedVocab.IndexRecord | fuji_server/helper/linked_vocab_helper.py:104-122 | a non-record fails; an ignored prefix changes nothing; otherwise the record's and its nested entries' namespaces are recorded, in order, and exactly the record (when it has a URI format) and then its nested vocabularies are appended to their buckets |
| LinkedVocab.IndexDict | fuji_server/helper/linked_vocab_helper.py:107-122 | indexing one record records its own namespace and then its nested ones, and appends exactly the record (when it has a URI format) and then its nested vocabularies to their buckets |
| LinkedVocab.IndexRegistry | fuji_server/helper/linked_vocab_helper.py:102-122 | indexing a registry fails when an entry is not a record; otherwise each bucket becomes the old bucket followed by exactly the vocabularies the records place there, record by record, skipping records with an ignored prefix |
| LinkedVocab.SetLinkedVocabIndex | fuji_server/helper/linked_vocab_helper.py:102-122 | building the index from the registry fails on a non-record entry; otherwise each bucket gains exactly the vocabularies of the records whose prefix is not one of the seven ignored ones, in order |
| LinkedVocab.CommonChars | fuji_server/helper/linked_vocab_helper.py:124-129 | the characters shared by two texts, each once |
| LinkedVocab.Overlap | fuji_server/helper/linked_vocab_helper.py:124-129 | the overlap is the number of distinct characters the two texts share |
| LinkedVocab.GetOverlap | fuji_server/helper/linked_vocab_helper.py:124-129 | computes the number of distinct shared characters |
| LinkedVocab.Escape | fuji_server/helper/linked_vocab_helper.py:163-164 | escaping leaves a registry pattern without `?` unchanged |
| LinkedVocab.RegexFor | fuji_server/helper/linked_vocab_helper.py:160-165 | a text regex is used without its anchors; otherwise the escaped pattern up to `$1`, without trailing slashes, is used and the escaped pattern is kept; a non-text regex fails |
| LinkedVocab.Try | fuji_server/helper/linked_vocab_helper.py:167-172 | a regex already tried is not searched again; a new one is recorded with its search result and score |
| LinkedVocab.ConsiderFitting | fuji_server/helper/linked_vocab_helper.py:148-178 | an entry whose pattern fits is kept with its pattern possibly escaped; it becomes a candidate exactly when the search matched, scored by the overlap of the path with the pattern up to `$1`; a new expression is searched and recorded, a repeated one reuses the outcome and score of the last search |
| LinkedVocab.Consider | fuji_server/helper/linked_vocab_helper.py:144-178 | an exact namespace match is a candidate scored by the path length; an entry without a pattern or whose pattern does not fit is only kept; a missing path raises; a fitting entry is searched |
| LinkedVocab.Scan | fuji_server/helper/linked_vocab_helper.py:131-178 | the scan keeps every entry in place, only adds candidates, finds one whenever some entry's namespace is the IRI, and, when no expression repeats, adds exactly the entries that match on their own (`Hit`), in order |
| LinkedVocab.ScanStep | fuji_server/helper/linked_vocab_helper.py:144-178 | every candidate comes from the scanned entries |
| LinkedVocab.NormaliseIri | fuji_server/helper/linked_vocab_helper.py:132-134 | an IRI is stripped, and a namespace also loses its trailing slashes and hashes and nothing else: the result is a prefix of the stripped IRI not ending in `/` or `#`, and everything cut is `/` or `#` |
| LinkedVocab.Candidates | fuji_server/helper/linked_vocab_helper.py:131-178 | only the IRI's own bucket is searched and rewritten; every candidate is an entry of that bucket; an exact namespace match always yields a candidate; when no expression repeats, the candidates are that bucket filtered by `Hit` |
| LinkedVocab.PickAsWrittenIsLast | fuji_server/helper/linked_vocab_helper.py:179-183 | as written, the best score is never raised, so the last candidate is returned |
| LinkedVocab.PickBestIsMax | fuji_server/helper/linked_vocab_helper.py:179-183 | corrected: with the best score raised as intended, the pick has the highest score and no later candidate ties it, and there is none exactly when there are no candidates |
| LinkedVocab.PickAsWritten | fuji_server/helper/linked_vocab_helper.py:179-183 | as written, the pick is the starting choice or one of the candidates |
| LinkedVocab.PickBest | fuji_server/helper/linked_vocab_helper.py:179-183 | corrected: the pick is the starting choice or a candidate scoring at least the starting maximum |
| LinkedVocab.PickDiffers | fuji_server/helper/linked_vocab_helper.py:179-183 | with scores 5 then 1, the source returns the 1-scored candidate and the corrected pick the 5-scored one |
| LinkedVocab.LinkedVocabByIriAsWritten | fuji_server/helper/linked_vocab_helper.py:131-185 | as written, the lookup returns the last candidate found, or nothing when there is none |
| LinkedVocab.LinkedVocabByIri | fuji_server/helper/linked_vocab_helper.py:131-185 | corrected: the lookup returns a candidate with the highest score, or nothing when there is none |

## Left out

- HTTP, TLS and cookies: `urllib`'s opener, the TLS-verification bypass and the cookie jar are I/O. A request is an `OutRequest` value, and the network is a function from request to outcome (`Request.Network`).
- Timeouts, threads and logging: the 10-second timeout, concurrency around the shared cache, and every logger call except the log stream that `get_log_messages_dict` reads back are left out.
- Foreign libraries: `gzip`, Tika, `mimetypes`, `rdflib` (parsing, `guess_format`, graph queries), `extruct`, `lxml`, `json`, `rapidfuzz` and `tldextract` are oracles. Their outputs are parameters, and the model makes no assumption about them.
- `IdentifierHelper`: PID resolution is not part of this model. The repeated-PID test takes the candidates it would produce as input.
- Floating point, `pandas` and `shapely`: spatial coverage geometry and numeric similarity thresholds are not modelled. The similarity test compares the oracle's integer score against 80.
- Other parts of F-UJI: the FAIR evaluators, the preprocessor, the RSS/Atom, OAI-PMH, CSW and SPARQL collectors, the web controller and the example scripts are outside the harvesting core.
- XML network half: `XmlCollector` models the mapping and root detection only. The part of `metadata_collector_xml.py` that fetches the XML calls `getHTTPResponse`, which the request helper no longer defines.
- Content.CacheKey: Python's `hash` of the tuple is modelled as the concatenation of URL and content type, so the cache keeps Python's behaviour only where `hash` has no collisions. The concatenation itself can collide (`.../a` + `text/html` and `.../atext/` + `html`).
- Content.Classify: the content size uses `sys.getsizeof`, which is modelled as 33 bytes of object header plus the length, as on 64-bit CPython.
- Harvester.MergeMetadata: of Python's object sharing, only the list a newly stored key shares between the merged record and the offering that supplied it is modelled. Other sharing (the namespace list, nested dictionaries, the caller's own dictionary) is not.
- Harvester.MergeMetadata: the test whether a record is already listed (metadata_harvester.py:258) compares dictionaries as ordered entry sequences. Python's dict `==` ignores key order, so a record whose metadata differs from a listed one only in key order is appended in the model but not in the source. The repeat test of `unique_merged` (:201-205) has the same difference for dictionary items.
- Harvester.MergeMetadata: the harvester's `related_resources` list, which :233-234 extends with the dictionary's `related_resources`, is not part of the state. It only feeds the related-resources metric, which this model does not cover.
- AcceptTypes.DistinctRanges: `list()` builds a Python `set`, whose order is unspecified. The model lists each range at its first occurrence, and the contract states membership and distinctness only.
- Collector.ExcludeNull: `list(set(...))` has unspecified order, so the model keeps each item's first occurrence. When an item is unhashable (a dictionary or a list), `set` raises `TypeError`. The source then falls back to the cleaned list with repeats kept, and so does the model.
- Collector.ExcludeNull: Python's `1 == True` key and set equality is not modelled. `Bool` and `Int` values are distinct here.
- MetadataCleaning.ReplaceNoneStrings: the `json.dumps`/`json.loads` round trip is modelled structurally. A record whose JSON text the replacement cuts open is kept unchanged, as the source's `except` does. That happens for a key `None`, or a text ending in `"None`.
- Strings.Lower: lower-casing is ASCII-only. Python's Unicode case mapping is not modelled.
- Strings.ParseInt: only the ASCII digits 0-9 are read. Python's `int` also accepts every other Unicode decimal digit (for example Arabic-Indic digits), which the model treats as invalid text.
- LinkedVocab.RegexFor: escaping `?` writes the escaped pattern back into the index entry, as the source does. The model returns the updated entry, and `Candidates` stores the rewritten bucket.
- LinkedVocab.LinkedVocabByIri: the `firstonly` parameter is accepted by the source but never read, so it is not modelled.
- LinkedVocab.SetLinkedVocabIndex: the index is a mutable default argument shared across helper instances. Here it is an explicit `Vocabs` value threaded through every call.
- LinkedVocab.IndexRecord: `rd.get` runs before the `isinstance(rd, dict)` test, so a non-dictionary fails before the test can reject it. The test is dead, and the model fails instead.
- LinkedVocab.Candidates: the candidates are given as the bucket filtered by `Hit` only when no two fitting vocabularies share a search expression. With a repeat, the source reuses the outcome and score of the last search, whichever expression that was; `ConsiderFitting` states that step, but no closed form is given for it.
- DublinCore.ParseCoverage: no Dublin Core mapping entry targets `coverage_spatial` or `coverage_temporal`, so `parse_coverage` is never reached from `parse_metadata`. It is modelled on its own, and `DublinCore.CoverageNeverMapped` proves the call unreachable.
- RdfCollector.RouteOf: the branch that skips `html` and `zip` formats is dead, because the format used for parsing always falls back to Turtle. The model keeps only live branches.
- Mapper: constant-table facts hold by evaluation (`CoreIsReference`, `AccessRightLevels`, `HighwireObjectTypes`, `ProvenanceTerms`). Required core keys are reference keys, access-right codes map to the five levels, and provenance terms carry the `prov:` prefix. They are stated as lemmas but need no proof.
- Mapper: the other tables of `metadata_mapper.py` (`SCHEMAORG_MAPPING`, `DATACITE_JSON_MAPPING`, the `XML_MAPPING_*` tables and the rest) are data, not behaviour. They are not transcribed; the XML collector takes its mapping as a parameter. Only the reference list, required core keys, access rights, Highwire, Dublin Core and provenance tables are transcribed.

## Findings

| source | as written | input that shows it | evidently intended | confidence | as-written member | corrected member |
|---|---|---|---|---|---|---|
| fuji_server/harvester/metadata_harvester.py:128-134 | the method's acronym string is looked up in a configured list of enum members, which never contains a string | any non-empty configured list, for example `[MetadataOfferingMethods.META_TAGS]`, asked about `META_TAGS` | a method is allowed exactly when it is configured | not executed | Harvester.ConfiguredMethodsNeverAllowedAsWritten | Harvester.HarvestingMethodAllowed |
| fuji_server/controllers/fair_check.py:604-607 | the repeat test looks for the raw message among the stored `level: message` entries, so for a line logged twice it never finds the first copy (and it can instead drop a different line whose message equals a stored entry, see `FairCheck.LookalikeDropped`) | the same `FsF-F1-01D : text|INFO` line logged twice | each message is listed once per metric | not executed | FairCheck.RepeatedLine | FairCheck.LogMessagesDistinct |
| fuji_server/controllers/fair_check.py:338-341 | the type is assigned its first list item, then indexed again, keeping only that item's first character | a content identifier with type `["text"]` ends with type `"t"` | the type becomes the list's first item | not executed | MetadataCleaning.ListTypeFirstChar | MetadataCleaning.ListTypesUnwrapped |
| fuji_server/helper/metadata_collector_xml.py:194-196 | a single found relation type is a string and is indexed by position, giving one character | a related resource with one relation type `IsPartOf` gets type `I` | a single value counts as the value at position 0 | not executed | XmlCollector.ScalarRelationType | XmlCollector.RelatedResources |
| fuji_server/helper/metadata_collector_xml.py:211-216 | a single content size or type is a string and is indexed by position | one content URL with size `1024` is recorded with size `1` | a single value counts as the value at position 0 | not executed | XmlCollector.ScalarContentSize | XmlCollector.At |
| fuji_server/helper/request_helper.py:290-292 | gzip decompression runs on `response_content`, which is still `None` on a fresh helper (decompressed to `b""`); the body read further down then replaces it without being decompressed | a fresh helper given a gzip-encoded `text/html` response stores and classifies the compressed bytes | the body just read is decompressed | not executed | Content.GzipHtmlKeptCompressed | Content.GzipHtmlIsHtml |
| fuji_server/helper/linked_vocab_helper.py:179-183 | `maxscore` is never raised, so every candidate passes `>= 0` and the last one wins | candidates scored 5 then 1 return the one scored 1 | the best-scoring candidate wins | not executed | LinkedVocab.PickDiffers | LinkedVocab.PickBestIsMax |

=== FILE: accept_types.dfy ===
/** The catalogue of Accept header values used for content negotiation
    (`AcceptTypes`), in declaration order, and the list of distinct media
    ranges the catalogue mentions. The header syntax is the one of section
    12.5.1 of RFC 9110: comma-separated media ranges, each optionally
    followed by `;` parameters. */
module AcceptTypes {
  import opened Strings
  import opened Seqs

  datatype AcceptType =
    | DataciteJson | DataciteXml | Schemaorg | Html | HtmlXml | Xml | Linkset
    | Json | Jsonld | Atom | Rdfjson | Nt | Rdfxml | Turtle | Rdf | Default
  {
    /** The member name, which the classification scan compares against. */
    function Name(): string {
      match this
      case DataciteJson => "datacite_json"
      case DataciteXml => "datacite_xml"
      case Schemaorg => "schemaorg"
      case Html => "html"
      case HtmlXml => "html_xml"
      case Xml => "xml"
      case Linkset => "linkset"
      case Json => "json"
      case Jsonld => "jsonld"
      case Atom => "atom"
      case Rdfjson => "rdfjson"
      case Nt => "nt"
      case Rdfxml => "rdfxml"
      case Turtle => "turtle"
      case Rdf => "rdf"
      case Default => "default"
    }

    /** The comma-separated items of the member's Accept value, each with
        the spacing and parameters it is written with. */
    function Items(): seq<string> {
      match this
      case DataciteJson => DataciteJsonItems
      case DataciteXml => DataciteXmlItems
      case Schemaorg => SchemaorgItems
      case Html => HtmlItems
      case HtmlXml => HtmlXmlItems
      case Xml => XmlItems
      case Linkset => LinksetItems
      case Json => JsonItems
      case Jsonld => JsonldItems
      case Atom => AtomItems
      case Rdfjson => RdfjsonItems
      case Nt => NtItems
      case Rdfxml => RdfxmlItems
      case Turtle => TurtleItems
      case Rdf => RdfItems
      case Default => DefaultItems
    }

    /** The member's Accept header value: its items joined by commas. */
    function Value(): string {
      Join(Items(), ",")
    }
  }

  const DataciteJsonItems: seq<string> := ["application/vnd.datacite.datacite+json"]
  const DataciteXmlItems: seq<string> := ["application/vnd.datacite.datacite+xml"]
  const SchemaorgItems: seq<string> := ["application/vnd.schemaorg.ld+json", " application/ld+json"]
  const HtmlItems: seq<string> := ["text/html", " application/xhtml+xml"]
  const HtmlXmlItems: seq<string> := ["text/html", " application/xhtml+xml", " application/xml;q=0.5", " text/xml;q=0.5", " application/rdf+xml;q=0.5"]
  const XmlItems: seq<string> := ["application/xml", " text/xml;q=0.5"]
  const LinksetItems: seq<string> := ["application/linkset+json", " application/linkset"]
  const JsonItems: seq<string> := ["application/json", " text/json;q=0.5"]
  const JsonldItems: seq<string> := ["application/ld+json"]
  const AtomItems: seq<string> := ["application/atom+xml"]
  const RdfjsonItems: seq<string> := ["application/rdf+json"]
  const NtItems: seq<string> := ["text/n3", " application/n-triples"]
  const RdfxmlItems: seq<string> := ["application/rdf+xml", " text/rdf;q=0.5", " application/xml;q=0.1", " text/xml;q=0.1"]
  const TurtleItems: seq<string> := ["text/ttl", " text/turtle", " application/turtle", " application/x-turtle;q=0.6", " text/n3;q=0.3", " text/rdf+n3;q=0.3", " application/rdf+n3;q=0.3"]
  const RdfItems: seq<string> := ["text/turtle", " application/turtle", " application/x-turtle;q=0.8", " application/rdf+xml", " text/n3;q=0.9", " text/rdf+n3;q=0.9", "application/ld+json"]
  const DefaultItems: seq<string> := ["text/html", " */*"]

  /** The members in declaration order, which is the order of iteration. */
  const Catalog: seq<AcceptType> := [
    DataciteJson, DataciteXml, Schemaorg, Html, HtmlXml, Xml, Linkset, Json,
    Jsonld, Atom, Rdfjson, Nt, Rdfxml, Turtle, Rdf, Default
  ]

  /** The position of a member in the catalogue. */
  function Position(t: AcceptType): (i: nat)
    ensures i < |Catalog| && Catalog[i] == t
  {
    match t
    case DataciteJson => 0
    case DataciteXml => 1
    case Schemaorg => 2
    case Html => 3
    case HtmlXml => 4
    case Xml => 5
    case Linkset => 6
    case Json => 7
    case Jsonld => 8
    case Atom => 9
    case Rdfjson => 10
    case Nt => 11
    case Rdfxml => 12
    case Turtle => 13
    case Rdf => 14
    case Default => 15
  }

  /** The catalogue lists every member once, and member names are distinct. */
  lemma CatalogComplete()
    ensures forall t: AcceptType :: t in Catalog
    ensures NoDup(Catalog)
    ensures forall t: AcceptType, u: AcceptType :: t != u ==> t.Name() != u.Name()
  {
    CatalogCovers();
  }

  /** Every member is in the catalogue. */
  lemma CatalogCovers()
    ensures forall t: AcceptType :: t in Catalog
  {
    forall t: AcceptType
      ensures t in Catalog
    {
      var i := Position(t);
    }
  }

  /** The media ranges of one Accept value: each comma-separated item,
      stripped and cut before its first `;`. */
  function MediaRanges(v: string): seq<string> {
    RangesOf(Split(v, ","))
  }

  /** Each item stripped and cut before its first `;`. */
  function RangesOf(items: seq<string>): (r: seq<string>)
    ensures |r| == |items|
    ensures forall i :: 0 <= i < |items| ==> r[i] == Before(Strip(items[i]), ";")
  {
    if |items| == 0 then [] else [Before(Strip(items[0]), ";")] + RangesOf(items[1..])
  }

  /** A media range carries no parameters and starts with no whitespace. */
  lemma MediaRangeShape(v: string, x: string)
    requires x in MediaRanges(v)
    ensures !Contains(x, ";")
    ensures |x| > 0 ==> x[0] !in Whitespace
  {
    var items := Split(v, ",");
    var i :| 0 <= i < |items| && x == Before(Strip(items[i]), ";");
    CutShape(Strip(items[i]), Whitespace);
  }

  /** Cutting a string before its first `;` leaves no `;` and keeps its
      first character. */
  lemma CutShape(t: string, chars: set<char>)
    requires |t| > 0 ==> t[0] !in chars
    ensures var x := Before(t, ";"); !Contains(x, ";") && (|x| > 0 ==> x[0] !in chars)
  {
    var x := Before(t, ";");
    assert |x| > 0 ==> x[0] == t[0];
  }

  /** The media ranges of a list of Accept values, concatenated in order. */
  function AllRanges(vs: seq<string>): (r: seq<string>)
    ensures forall x :: x in r <==> exists i :: 0 <= i < |vs| && x in MediaRanges(vs[i])
  {
    FlatMap(vs, MediaRanges)
  }

  /** The distinct media ranges of a list of Accept values, each kept at
      its first occurrence. */
  function DistinctRanges(vs: seq<string>): (r: seq<string>)
    ensures NoDup(r)
    ensures forall x :: x in r <==> exists i :: 0 <= i < |vs| && x in MediaRanges(vs[i])
    ensures forall x :: x in r ==> !Contains(x, ";") && (|x| > 0 ==> x[0] !in Whitespace)
  {
    var r := FirstOccurrences(AllRanges(vs));
    SameMembers(AllRanges(vs));
    RangesShape(vs, r);
    r
  }

  /** De-duplication keeps exactly the elements of the list. */
  lemma SameMembers(all: seq<string>)
    ensures forall x :: x in FirstOccurrences(all) <==> x in all
  {
    var r := FirstOccurrences(all);
    forall x | x in r
      ensures x in all
    {
      var i :| 0 <= i < |r| && r[i] == x;
    }
    forall x | x in all
      ensures x in r
    {
      var i :| 0 <= i < |all| && all[i] == x;
    }
  }

  /** Every media range drawn from the values carries no parameters and
      starts with no whitespace. */
  lemma RangesShape(vs: seq<string>, r: seq<string>)
    requires forall x :: x in r ==> exists i :: 0 <= i < |vs| && x in MediaRanges(vs[i])
    ensures forall x :: x in r ==> !Contains(x, ";") && (|x| > 0 ==> x[0] !in Whitespace)
  {
    forall x | x in r
      ensures !Contains(x, ";") && (|x| > 0 ==> x[0] !in Whitespace)
    {
      var i :| 0 <= i < |vs| && x in MediaRanges(vs[i]);
      MediaRangeShape(vs[i], x);
    }
  }

  /** The values of a list of members, in order. */
  function ValuesOf(ts: seq<AcceptType>): (r: seq<string>)
    ensures |r| == |ts| && forall i :: 0 <= i < |ts| ==> r[i] == ts[i].Value()
  {
    seq(|ts|, i requires 0 <= i < |ts| => ts[i].Value())
  }

  /** `AcceptTypes.list()`: every media range of the catalogue, once each.
      The source goes through a `set`, whose iteration order is not
      specified; the model keeps first occurrences in catalogue order. */
  function ListTypes(): (r: seq<string>)
    ensures NoDup(r)
    ensures forall x :: x in r <==> x in AllRanges(ValuesOf(Catalog))
  {
    DistinctRanges(ValuesOf(Catalog))
  }

  /** `AcceptTypes.list()` has no duplicates, and every element is a
      parameter-free media range without leading whitespace. */
  lemma ListTypesShape()
    ensures NoDup(ListTypes())
    ensures forall x :: x in ListTypes() ==> !Contains(x, ";") && (|x| > 0 ==> x[0] !in Whitespace)
  {
    var r := DistinctRanges(ValuesOf(Catalog));
  }

  /** Every element of `AcceptTypes.list()` is a media range of some
      member's value. */
  lemma ListTypesSound(x: string) returns (t: AcceptType)
    requires x in ListTypes()
    ensures x in MediaRanges(t.Value())
  {
    var vs := ValuesOf(Catalog);
    var i :| 0 <= i < |vs| && x in MediaRanges(vs[i]);
    t := Catalog[i];
  }

  /** Every media range of every member's value is in
      `AcceptTypes.list()`. */
  lemma ListTypesComplete(t: AcceptType, x: string)
    requires x in MediaRanges(t.Value())
    ensures x in ListTypes()
  {
    var vs := ValuesOf(Catalog);
    var i := Position(t);
    assert x in MediaRanges(vs[i]);
  }

  /** No catalogue value mentions the letter `z`, so no media range with a
      `z` in it (such as `application/zip`) matches any member. */
  lemma NoValueHasZ(t: AcceptType)
    ensures 'z' !in t.Value()
  {
    if t in {DataciteJson, DataciteXml} {
      NoZInItemsA(t);
    } else if t in {Schemaorg, Html} {
      NoZInItemsG(t);
    } else if t in {HtmlXml, Xml} {
      NoZInItemsB(t);
    } else if t in {Linkset, Json, Jsonld, Atom, Rdfjson, Nt} {
      NoZInItemsC(t);
    } else if t in {Rdfxml, Default} {
      NoZInItemsD(t);
    } else if t == Turtle {
      NoZInItemsE(t);
    } else {
      NoZInItemsF(t);
    }
    JoinAvoids(t.Items(), ",", 'z');
  }

  /** The members whose Accept value has no `j`. */
  const JFree: set<AcceptType> := {DataciteXml, Html, HtmlXml, Xml, Atom, Nt, Rdfxml, Turtle, Default}

  lemma NoJ(t: AcceptType)
    requires t in JFree
    ensures 'j' !in t.Value()
  {
    match t {
      case DataciteXml => NoJInItemsA(t);
      case Html => NoJInItemsA(t);
      case Xml => NoJInItemsA(t);
      case HtmlXml => NoJInItemsB(t);
      case Atom => NoJInItemsC(t);
      case Nt => NoJInItemsC(t);
      case Rdfxml => NoJInItemsD(t);
      case Default => NoJInItemsD(t);
      case Turtle => NoJInItemsE(t);
    }
    JoinAvoids(t.Items(), ",", 'j');
  }

  lemma NoJInItemsA(t: AcceptType)
    requires t in {DataciteXml, Html, Xml}
    ensures forall i :: 0 <= i < |t.Items()| ==> 'j' !in t.Items()[i]
  {
  }

  lemma NoJInItemsB(t: AcceptType)
    requires t == HtmlXml
    ensures forall i :: 0 <= i < |t.Items()| ==> 'j' !in t.Items()[i]
  {
  }

  lemma NoJInItemsC(t: AcceptType)
    requires t in {Atom, Nt}
    ensures forall i :: 0 <= i < |t.Items()| ==> 'j' !in t.Items()[i]
  {
  }

  lemma NoJInItemsD(t: AcceptType)
    requires t in {Rdfxml, Default}
    ensures forall i :: 0 <= i < |t.Items()| ==> 'j' !in t.Items()[i]
  {
  }

  lemma NoJInItemsE(t: AcceptType)
    requires t == Turtle
    ensures forall i :: 0 <= i < |t.Items()| ==> 'j' !in t.Items()[i]
  {
  }

  /** A value with no `j` contains no media type with a `j`. */
  lemma JFreeLacks(t: AcceptType, ct: string)
    requires t in JFree && 'j' in ct
    ensures !Contains(t.Value(), ct)
  {
    NoJ(t);
    OccursPointwise(t.Value(), ct);
  }

  /** The members whose Accept value contains `application/ld+json`:
      `schemaorg`, `jsonld` and `rdf`. */
  lemma LdJsonIn(t: AcceptType)
    ensures Contains(t.Value(), "application/ld+json") <==> t in {Schemaorg, Jsonld, Rdf}
  {
    match t {
      case Schemaorg => LdJsonListed(t);
      case Jsonld => LdJsonListed(t);
      case Rdf => LdJsonListed(t);
      case DataciteJson => LdJsonAbsentA(t);
      case Rdfjson => LdJsonAbsentA(t);
      case Linkset => LdJsonAbsentB(t);
      case Json => LdJsonAbsentC(t);
      case _ => JFreeLacks(t, "application/ld+json");
    }
  }

  lemma LdJsonListed(t: AcceptType)
    requires t in {Schemaorg, Jsonld, Rdf}
    ensures Contains(t.Value(), "application/ld+json")
  {
    match t {
      case Schemaorg => SchemaorgListsLdJson();
      case Jsonld => JoinContains(JsonldItems, ",", 0);
      case Rdf => JoinContains(RdfItems, ",", 6);
    }
  }

  lemma SchemaorgListsLdJson()
    ensures Contains(Schemaorg.Value(), "application/ld+json")
  {
    JoinContains(SchemaorgItems, ",", 1);
    SpacedLdJson();
    ContainsTrans(Schemaorg.Value(), SchemaorgItems[1], "application/ld+json");
  }

  /** The second Schema.org item is the JSON-LD type behind one space. */
  lemma SpacedLdJson()
    ensures Contains(SchemaorgItems[1], "application/ld+json")
  {
    var p := "application/ld+json";
    assert SchemaorgItems[1] == " " + p by {}
    OccursAfter(" ", p);
  }

  /** `datacite_json` and `rdfjson` have no `d` followed by `+`. */
  lemma LdJsonAbsentA(t: AcceptType)
    requires t in {DataciteJson, Rdfjson}
    ensures !Contains(t.Value(), "application/ld+json")
  {
    if t == DataciteJson {
      NoPairSplit("application/vnd.datacite.datacite", "+json", 'd', '+');
      assert DataciteJsonItems[0] == "application/vnd.datacite.datacite" + "+json";
      JoinLacks(DataciteJsonItems, ",", "application/ld+json", 14, 'd', '+');
    } else {
      NoPairSplit("application/rdf", "+json", 'd', '+');
      assert RdfjsonItems[0] == "application/rdf" + "+json";
      JoinLacks(RdfjsonItems, ",", "application/ld+json", 14, 'd', '+');
    }
  }

  /** `linkset` has no `d`. */
  lemma LdJsonAbsentB(t: AcceptType)
    requires t == Linkset
    ensures !Contains(t.Value(), "application/ld+json")
  {
    JoinLacks(LinksetItems, ",", "application/ld+json", 14, 'd', '+');
  }

  /** `json` has no `+`. */
  lemma LdJsonAbsentC(t: AcceptType)
    requires t == Json
    ensures !Contains(t.Value(), "application/ld+json")
  {
    JoinLacks(JsonItems, ",", "application/ld+json", 14, 'd', '+');
  }

  /** The only member whose Accept value contains `application/json` is
      `json`. */
  lemma JsonIn(t: AcceptType)
    ensures Contains(t.Value(), "application/json") <==> t == Json
  {
    match t {
      case Json => JoinContains(JsonItems, ",", 0);
      case DataciteJson => JsonAbsentA(t);
      case Schemaorg => JsonAbsentB(t);
      case Linkset => JsonAbsentC(t);
      case Jsonld => JsonAbsentC(t);
      case Rdfjson => JsonAbsentD(t);
      case Rdf => JsonAbsentE(t);
      case _ => JFreeLacks(t, "application/json");
    }
  }

  /** In the values that mention JSON, `/` is never followed by `j`: the
      JSON suffix always comes after a `+`. */
  lemma JsonAbsentA(t: AcceptType)
    requires t == DataciteJson
    ensures !Contains(t.Value(), "application/json")
  {
    NoPairSplit("application/vnd.datacite.datacite", "+json", '/', 'j');
    assert DataciteJsonItems[0] == "application/vnd.datacite.datacite" + "+json";
    JoinLacks(DataciteJsonItems, ",", "application/json", 12, '/', 'j');
  }

  lemma JsonAbsentB(t: AcceptType)
    requires t == Schemaorg
    ensures !Contains(t.Value(), "application/json")
  {
    SchemaorgNoPair();
    JoinLacks(SchemaorgItems, ",", "application/json", 12, '/', 'j');
  }

  /** No schema.org media range has a `/` directly before a `j`. */
  lemma SchemaorgNoPair()
    ensures forall i :: 0 <= i < |SchemaorgItems| ==> NoPair(SchemaorgItems[i], '/', 'j')
  {
    NoPairSplit("application/vnd.schemaorg.ld", "+json", '/', 'j');
    NoPairSplit(" application/ld", "+json", '/', 'j');
    assert SchemaorgItems[0] == "application/vnd.schemaorg.ld" + "+json";
    assert SchemaorgItems[1] == " application/ld" + "+json";
  }

  lemma JsonAbsentC(t: AcceptType)
    requires t in {Linkset, Jsonld}
    ensures !Contains(t.Value(), "application/json")
  {
    if t == Linkset {
      NoPairSplit("application/linkset", "+json", '/', 'j');
      assert LinksetItems[0] == "application/linkset" + "+json";
      JoinLacks(LinksetItems, ",", "application/json", 12, '/', 'j');
    } else {
      NoPairSplit("application/ld", "+json", '/', 'j');
      assert JsonldItems[0] == "application/ld" + "+json";
      JoinLacks(JsonldItems, ",", "application/json", 12, '/', 'j');
    }
  }

  lemma JsonAbsentD(t: AcceptType)
    requires t == Rdfjson
    ensures !Contains(t.Value(), "application/json")
  {
    NoPairSplit("application/rdf", "+json", '/', 'j');
    assert RdfjsonItems[0] == "application/rdf" + "+json";
    JoinLacks(RdfjsonItems, ",", "application/json", 12, '/', 'j');
  }

  lemma JsonAbsentE(t: AcceptType)
    requires t == Rdf
    ensures !Contains(t.Value(), "application/json")
  {
    NoPairSplit("application/ld", "+json", '/', 'j');
    assert RdfItems[6] == "application/ld" + "+json";
    RdfItemsLackJ();
    JoinLacks(RdfItems, ",", "application/json", 12, '/', 'j');
  }

  /** Only the last item of the `rdf` value mentions JSON. */
  lemma RdfItemsLackJ()
    ensures |RdfItems| == 7
    ensures forall i :: 0 <= i < 6 ==> 'j' !in RdfItems[i]
  {
  }

  lemma NoZInItemsA(t: AcceptType)
    requires t in {DataciteJson, DataciteXml}
    ensures forall i :: 0 <= i < |t.Items()| ==> 'z' !in t.Items()[i]
  {
  }

  lemma NoZInItemsG(t: AcceptType)
    requires t in {Schemaorg, Html}
    ensures forall i :: 0 <= i < |t.Items()| ==> 'z' !in t.Items()[i]
  {
  }

  lemma NoZInItemsB(t: AcceptType)
    requires t in {HtmlXml, Xml}
    ensures forall i :: 0 <= i < |t.Items()| ==> 'z' !in t.Items()[i]
  {
  }

  lemma NoZInItemsC(t: AcceptType)
    requires t in {Linkset, Json, Jsonld, Atom, Rdfjson, Nt}
    ensures forall i :: 0 <= i < |t.Items()| ==> 'z' !in t.Items()[i]
  {
  }

  lemma NoZInItemsD(t: AcceptType)
    requires t in {Rdfxml, Default}
    ensures forall i :: 0 <= i < |t.Items()| ==> 'z' !in t.Items()[i]
  {
  }

  lemma NoZInItemsE(t: AcceptType)
    requires t == Turtle
    ensures forall i :: 0 <= i < |t.Items()| ==> 'z' !in t.Items()[i]
  {
  }

  lemma NoZInItemsF(t: AcceptType)
    requires t == Rdf
    ensures forall i :: 0 <= i < |t.Items()| ==> 'z' !in t.Items()[i]
  {
  }
}

=== FILE: accumulation.dfy ===
/** Accumulating repeated elements into one metadata dictionary, as the
    embedded Dublin Core collector does when a page carries several tags
    for the same element. */

module Accumulation {
  import opened Wrappers
  import opened Values
  import Seqs

  /** Store a value under an element: a falsy value is dropped, a new
      element takes the value, a list is extended by a list value or
      appended to, and a scalar becomes a two-element list. */
  function Accumulate(meta: seq<(string, Value)>, elem: string, v: Value): (r: seq<(string, Value)>)
    ensures !Truthy(v) ==> r == meta
    ensures forall k :: k != elem ==> Lookup(r, k) == Lookup(meta, k)
    ensures Truthy(v) && Lookup(meta, elem).None? ==> Lookup(r, elem) == Some(v)
    ensures Truthy(v) && Lookup(meta, elem).Some? && Lookup(meta, elem).value.List? ==>
              Lookup(r, elem) == Some(List(Lookup(meta, elem).value.items + (if v.List? then v.items else [v])))
    ensures Truthy(v) && Lookup(meta, elem).Some? && !Lookup(meta, elem).value.List? ==>
              Lookup(r, elem) == Some(List([Lookup(meta, elem).value, v]))
  {
    if !Truthy(v) then meta
    else
      match Lookup(meta, elem)
      case None => Update(meta, elem, v)
      case Some(prev) =>
        if prev.List? then Update(meta, elem, List(prev.items + (if v.List? then v.items else [v])))
        else Update(meta, elem, List([prev, v]))
  }

  /** A non-empty list value starts the element's list or extends it. */
  lemma AccumulateList(meta: seq<(string, Value)>, elem: string, items: seq<Value>)
    requires |items| > 0
    ensures var prev := Lookup(meta, elem);
            var r := Lookup(Accumulate(meta, elem, List(items)), elem);
            (prev.None? ==> r == Some(List(items))) &&
            (prev.Some? && prev.value.List? ==> r == Some(List(prev.value.items + items)))
  {
  }

  /** Storing a sequence of values under one element, in order. */
  function AccumulateAll(meta: seq<(string, Value)>, elem: string, vs: seq<Value>): (r: seq<(string, Value)>)
    ensures forall k :: k != elem ==> Lookup(r, k) == Lookup(meta, k)
    decreases |vs|
  {
    if |vs| == 0 then meta else Accumulate(AccumulateAll(meta, elem, vs[..|vs| - 1]), elem, vs[|vs| - 1])
  }

  /** Storing one value is one accumulation step. */
  lemma AccumulateOne(meta: seq<(string, Value)>, elem: string, v: Value)
    ensures AccumulateAll(meta, elem, [v]) == Accumulate(meta, elem, v)
  {
    assert [v][..0] == [];
  }

  /** A scalar value is appended to the element's list. */
  lemma AccumulateScalar(meta: seq<(string, Value)>, elem: string, items: seq<Value>, v: Value)
    requires Lookup(meta, elem) == Some(List(items)) && Truthy(v) && !v.List?
    ensures Lookup(Accumulate(meta, elem, v), elem) == Some(List(items + [v]))
  {
  }

  /** The first value of a new element is stored as it is. */
  lemma AccumulateFirst(meta: seq<(string, Value)>, elem: string, v: Value)
    requires Lookup(meta, elem).None? && Truthy(v)
    ensures Lookup(Accumulate(meta, elem, v), elem) == Some(v)
  {
  }

  /** A second value next to a stored scalar makes a two-element list. */
  lemma AccumulateSecond(meta: seq<(string, Value)>, elem: string, prev: Value, v: Value)
    requires Lookup(meta, elem) == Some(prev) && !prev.List? && Truthy(v)
    ensures Lookup(Accumulate(meta, elem, v), elem) == Some(List([prev, v]))
  {
  }

  /** Repeated scalar values of one element accumulate, in order, into a
      list. */
  lemma {:induction false} ScalarsAccumulate(meta: seq<(string, Value)>, elem: string, vs: seq<Value>)
    requires |vs| >= 2 && Lookup(meta, elem).None?
    requires forall i :: 0 <= i < |vs| ==> Truthy(vs[i]) && !vs[i].List?
    ensures Lookup(AccumulateAll(meta, elem, vs), elem) == Some(List(vs))
    decreases |vs|
  {
    var init := vs[..|vs| - 1];
    var last := vs[|vs| - 1];
    var before := AccumulateAll(meta, elem, init);
    assert AccumulateAll(meta, elem, vs) == Accumulate(before, elem, last);
    if |vs| == 2 {
      assert init == [vs[0]];
      AccumulateOne(meta, elem, vs[0]);
      AccumulateFirst(meta, elem, vs[0]);
      AccumulateSecond(before, elem, vs[0], last);
      assert [vs[0], last] == vs;
    } else {
      ScalarsAccumulate(meta, elem, init);
      AccumulateScalar(before, elem, init, last);
      Seqs.InitLast(vs);
    }
  }
}

=== FILE: clean_metadata.dfy ===
/** The clean-up the FAIR check applies to the merged metadata before the
    evaluators read it (`clean_metadata`): "None" strings become null,
    content identifiers are normalised to a list, grouped by url and
    completed from their duplicates, media types in URI form are reduced
    to `type/subtype`, and empty top-level entries are dropped. */
module MetadataCleaning {
  import opened Wrappers
  import opened Strings
  import opened Seqs
  import opened Values

  // ---------------------------------------------------------------------
  // "None" strings
  // ---------------------------------------------------------------------

  /** No string equal to "None" occurs at any depth. */
  predicate NoNoneString(v: Value)
    decreases v
  {
    match v
    case Str(s) => s != "None"
    case List(xs) => forall i :: 0 <= i < |xs| ==> NoNoneString(xs[i])
    case Dict(es) => forall i :: 0 <= i < |es| ==> NoNoneString(es[i].1)
    case _ => true
  }

  /** Every string value equal to "None" becomes null, at any depth; keys
      and every other value are kept. */
  function NoneToNull(v: Value): (r: Value)
    ensures NoNoneString(r)
    ensures v.Dict? ==> r.Dict? && Keys(r.entries) == Keys(v.entries)
    ensures v.List? ==> r.List? && |r.items| == |v.items|
    ensures NoNoneString(v) ==> r == v
    decreases v
  {
    match v
    case Str(s) => if s == "None" then Null else v
    case List(xs) =>
      var ys := seq(|xs|, i requires 0 <= i < |xs| => NoneToNull(xs[i]));
      assert NoNoneString(v) ==> ys == xs;
      List(ys)
    case Dict(es) =>
      var fs := seq(|es|, i requires 0 <= i < |es| => (es[i].0, NoneToNull(es[i].1)));
      assert NoNoneString(v) ==> fs == es;
      Dict(fs)
    case _ => v
  }

  /** A string whose JSON form the textual replacement of `"None"` by
      `null` would cut open: one ending in `"None`, whose escaped quote is
      followed by the closing one. */
  predicate Cuts(s: string) {
    IsSuffix("\"None", s)
  }

  /** The JSON text of the value survives the replacement: no key is
      "None" (it would become a bare `null` key) and no key or string is
      cut open. */
  predicate JsonSafe(v: Value)
    decreases v
  {
    match v
    case Str(s) => !Cuts(s)
    case List(xs) => forall i :: 0 <= i < |xs| ==> JsonSafe(xs[i])
    case Dict(es) => forall i :: 0 <= i < |es| ==> SafeKey(es[i].0) && JsonSafe(es[i].1)
    case _ => true
  }

  predicate SafeKey(k: string) {
    k != "None" && !Cuts(k)
  }

  /** The whole record survives the replacement. */
  predicate RecordSafe(meta: map<string, Value>) {
    forall k | k in meta :: SafeKey(k) && JsonSafe(meta[k])
  }

  /** The JSON round trip that replaces `"None"` by `null`: when the text
      survives, every "None" string becomes null; otherwise reading the
      text back fails, the error is swallowed and the record is kept. */
  function ReplaceNoneStrings(meta: map<string, Value>): (r: map<string, Value>)
    ensures r.Keys == meta.Keys
    ensures RecordSafe(meta) ==> forall k | k in r :: r[k] == NoneToNull(meta[k]) && NoNoneString(r[k])
    ensures !RecordSafe(meta) ==> r == meta
  {
    if RecordSafe(meta) then map k | k in meta :: NoneToNull(meta[k]) else meta
  }

  /** Replacing "None" strings keeps a value's JSON text intact. */
  lemma {:induction false} NoneToNullSafe(v: Value)
    requires JsonSafe(v)
    ensures JsonSafe(NoneToNull(v))
    decreases v
  {
    match v
    case List(xs) =>
      forall i | 0 <= i < |xs|
        ensures JsonSafe(NoneToNull(xs[i]))
      {
        NoneToNullSafe(xs[i]);
      }
    case Dict(es) =>
      forall i | 0 <= i < |es|
        ensures JsonSafe(NoneToNull(es[i].1))
      {
        NoneToNullSafe(es[i].1);
      }
    case _ =>
  }

  /** The replacement is idempotent: a second round trip changes nothing. */
  lemma ReplaceNoneStringsIdempotent(meta: map<string, Value>)
    ensures ReplaceNoneStrings(ReplaceNoneStrings(meta)) == ReplaceNoneStrings(meta)
  {
    var once := ReplaceNoneStrings(meta);
    if RecordSafe(meta) {
      forall k | k in meta
        ensures JsonSafe(once[k])
      {
        NoneToNullSafe(meta[k]);
      }
      assert RecordSafe(once);
    }
  }

  // ---------------------------------------------------------------------
  // Content identifiers
  // ---------------------------------------------------------------------

  const ContentKey := "object_content_identifier"

  /** A content identifier record. */
  type Identifier = seq<(string, Value)>

  /** Python `d.get(k)` on a record. */
  function Get(es: seq<(string, Value)>, k: string): (r: Value)
    ensures Lookup(es, k).None? ==> r == Null
    ensures Lookup(es, k).Some? ==> r == Lookup(es, k).value
  {
    match Lookup(es, k)
    case None => Null
    case Some(v) => v
  }

  /** The identifiers that stand for none at all. */
  predicate NoIdentifier(d: Value) {
    d == Dict([("url", Null)]) || d == List([Null])
  }

  /** The first step: an empty identifier becomes null, and a single
      identifier is wrapped in a list. */
  function NormaliseIdentifiers(meta: map<string, Value>): (r: map<string, Value>)
    ensures r.Keys == meta.Keys
    ensures forall k | k in meta && k != ContentKey :: r[k] == meta[k]
    ensures ContentKey in meta && NoIdentifier(meta[ContentKey]) ==> r[ContentKey] == Null
    ensures ContentKey in meta && !NoIdentifier(meta[ContentKey]) && meta[ContentKey] != Null && !meta[ContentKey].List? ==>
              r[ContentKey] == List([meta[ContentKey]])
    ensures ContentKey in meta && meta[ContentKey].List? && !NoIdentifier(meta[ContentKey]) ==> r[ContentKey] == meta[ContentKey]
    ensures ContentKey in meta && meta[ContentKey] == Null ==> r[ContentKey] == Null
    ensures ContentKey in r ==> r[ContentKey] == Null || r[ContentKey].List?
  {
    if ContentKey !in meta then meta
    else
      var d := meta[ContentKey];
      if NoIdentifier(d) then meta[ContentKey := Null]
      else if d != Null && !d.List? then meta[ContentKey := List([d])]
      else meta
  }

  /** The url an identifier is grouped by (`dci.get("url")`). */
  function UrlOf(c: Identifier): Value {
    Get(c, "url")
  }

  /** Python `"/" in v` for a type value: substring for a string,
      membership for a list or the keys of a dictionary; it raises for
      anything else. */
  function SlashIn(v: Value): (r: Result<bool, string>)
    ensures v.Str? ==> r == Success('/' in v.s)
    ensures v.Null? || v.Bool? || v.Int? ==> r.Failure?
  {
    match v
    case Str(s) =>
      ContainsOne(s, '/');
      Success(Contains(s, "/"))
    case List(xs) => Success(Str("/") in xs)
    case Dict(es) => Success("/" in Keys(es))
    case _ => Failure("TypeError")
  }

  /** Completing the type of the first identifier with a url from a later
      duplicate: a missing type is taken over, and a type with `/`
      replaces one without. Testing for `/` raises on a type that is not
      a string, list or dictionary. */
  function CompleteType(first: Identifier, dup: Identifier): (r: Result<Identifier, string>)
    ensures r.Success? ==> forall k :: k != "type" ==> Lookup(r.value, k) == Lookup(first, k)
    ensures r.Success? && !Truthy(Get(first, "type")) && Truthy(Get(dup, "type")) ==> Get(r.value, "type") == Get(dup, "type")
    ensures r.Success? && Truthy(Get(first, "type")) ==> Truthy(Get(r.value, "type"))
    ensures !Truthy(Get(dup, "type")) ==> r == Success(first)
    ensures Truthy(Get(first, "type")) && Truthy(Get(dup, "type")) && Get(first, "type").Str? && Get(dup, "type").Str? ==>
              r.Success? &&
              Get(r.value, "type") == (if '/' in Get(dup, "type").s && '/' !in Get(first, "type").s then Get(dup, "type") else Get(first, "type"))
  {
    var t1 := Get(first, "type");
    var t2 := Get(dup, "type");
    if !Truthy(t1) && Truthy(t2) then Success(Update(first, "type", t2))
    else if Truthy(t2) && Truthy(t1) then
      match SlashIn(t2)
      case Failure(e) => Failure(e)
      case Success(b2) =>
        if !b2 then Success(first)
        else
          match SlashIn(t1)
          case Failure(e) => Failure(e)
          case Success(b1) => if b1 then Success(first) else Success(Update(first, "type", t2))
    else Success(first)
  }

  /** Completing the size: a missing size is taken over from the
      duplicate. */
  function CompleteSize(c: Identifier, dup: Identifier): (r: Identifier)
    ensures forall k :: k != "size" ==> Lookup(r, k) == Lookup(c, k)
    ensures !Truthy(Get(c, "size")) && Truthy(Get(dup, "size")) ==> Get(r, "size") == Get(dup, "size")
    ensures !(!Truthy(Get(c, "size")) && Truthy(Get(dup, "size"))) ==> r == c
  {
    if !Truthy(Get(c, "size")) && Truthy(Get(dup, "size")) then Update(c, "size", Get(dup, "size")) else c
  }

  /** Completing the first identifier with a url from a later duplicate:
      type, then size; nothing else changes. */
  function Complete(first: Identifier, dup: Identifier): (r: Result<Identifier, string>)
    ensures r.Success? ==> forall k :: k != "type" && k != "size" ==> Lookup(r.value, k) == Lookup(first, k)
    ensures r.Success? <==> CompleteType(first, dup).Success?
  {
    match CompleteType(first, dup)
    case Failure(e) => Failure(e)
    case Success(c) => Success(CompleteSize(c, dup))
  }

  /** The urls of a list of identifiers. */
  function Urls(cs: seq<Identifier>): (r: seq<Value>)
    ensures |r| == |cs| && forall i :: 0 <= i < |cs| ==> r[i] == UrlOf(cs[i])
  {
    seq(|cs|, i requires 0 <= i < |cs| => UrlOf(cs[i]))
  }

  /** The urls of the listed identifiers (null for a non-record). */
  function ItemUrls(items: seq<Value>): (r: seq<Value>)
    ensures |r| == |items|
    ensures forall i :: 0 <= i < |items| && items[i].Dict? ==> r[i] == UrlOf(items[i].entries)
    ensures forall i :: 0 <= i < |items| && !items[i].Dict? ==> r[i] == Null
  {
    seq(|items|, i requires 0 <= i < |items| => if items[i].Dict? then UrlOf(items[i].entries) else Null)
  }

  /** Where a url was first seen. */
  function FindUrl(groups: seq<Identifier>, url: Value): (r: Option<nat>)
    ensures r.None? <==> url !in Urls(groups)
    ensures r.Some? ==> r.value < |groups| && UrlOf(groups[r.value]) == url
  {
    if |groups| == 0 then None
    else if UrlOf(groups[|groups| - 1]) == url then Some(|groups| - 1)
    else
      var r := FindUrl(groups[..|groups| - 1], url);
      UrlsSnoc(groups);
      r
  }

  /** Dropping the last identifier drops the last url. */
  lemma UrlsSnoc(groups: seq<Identifier>)
    requires |groups| > 0
    ensures Urls(groups) == Urls(groups[..|groups| - 1]) + [UrlOf(groups[|groups| - 1])]
  {
  }

  /** One pass of the grouping loop: a record with a new url starts a
      group, one with a known url completes that group. A non-record
      raises (`.get` on it), and so does an unhashable url. */
  function AddToGroups(groups: seq<Identifier>, item: Value): (r: Result<seq<Identifier>, string>)
    ensures !item.Dict? ==> r.Failure?
    ensures r.Success? ==> Urls(r.value) == Urls(groups) + (if UrlOf(item.entries) in Urls(groups) then [] else [UrlOf(item.entries)])
  {
    if !item.Dict? then Failure("AttributeError")
    else
      var url := UrlOf(item.entries);
      if !Hashable(url) then Failure("TypeError")
      else
        match FindUrl(groups, url)
        case None => Success(groups + [item.entries])
        case Some(i) =>
          match Complete(groups[i], item.entries)
          case Failure(e) => Failure(e)
          case Success(c) =>
            assert Lookup(c, "url") == Lookup(groups[i], "url");
            assert Urls(groups[i := c]) == Urls(groups);
            Success(groups[i := c])
  }

  /** The grouping loop over the listed identifiers, in order. */
  function Group(items: seq<Value>): (r: Result<seq<Identifier>, string>)
    decreases |items|
  {
    if |items| == 0 then Success([])
    else
      match Group(items[..|items| - 1])
      case Failure(e) => Failure(e)
      case Success(groups) => AddToGroups(groups, items[|items| - 1])
  }

  /** Grouping fails on any listed value that is not a record. */
  lemma {:induction false} GroupNonRecord(items: seq<Value>, j: nat)
    requires j < |items| && !items[j].Dict?
    ensures Group(items).Failure?
    decreases |items|
  {
    var init := items[..|items| - 1];
    if j < |items| - 1 {
      assert init[j] == items[j];
      GroupNonRecord(init, j);
    } else if Group(init).Success? {
      assert Group(items) == AddToGroups(Group(init).value, items[j]);
    }
  }

  /** Grouping keeps one identifier per url, in the order the urls first
      appear. */
  lemma {:induction false} GroupUrls(items: seq<Value>)
    ensures Group(items).Success? ==> Urls(Group(items).value) == FirstOccurrences(ItemUrls(items))
    decreases |items|
  {
    if |items| > 0 {
      var init := items[..|items| - 1];
      var last := items[|items| - 1];
      GroupUrls(init);
      if Group(init).Success? {
        var groups := Group(init).value;
        assert Group(items) == AddToGroups(groups, last);
        if Group(items).Success? {
          var url := UrlOf(last.entries);
          ItemUrlsSnoc(items);
          DedupStep(ItemUrls(init), url, Urls(groups), Urls(Group(items).value));
        }
      }
    }
  }

  lemma ItemUrlsSnoc(items: seq<Value>)
    requires |items| > 0 && items[|items| - 1].Dict?
    ensures ItemUrls(items) == ItemUrls(items[..|items| - 1]) + [UrlOf(items[|items| - 1].entries)]
  {
    var init := items[..|items| - 1];
    var a, c := ItemUrls(items), ItemUrls(init);
    forall i | 0 <= i < |c|
      ensures a[i] == c[i]
    {
      assert items[i] == init[i];
    }
    SnocPointwise(a, c, UrlOf(items[|items| - 1].entries));
  }

  /** The inductive step of `GroupUrls`: a url is appended exactly when
      it is new, as de-duplication does. */
  lemma DedupStep(us: seq<Value>, url: Value, before: seq<Value>, after: seq<Value>)
    requires before == FirstOccurrences(us)
    requires after == before + (if url in before then [] else [url])
    ensures after == FirstOccurrences(us + [url])
  {
    FirstOccurrencesSnoc(us, url);
    assert url in before <==> url in us;
  }

  /** After grouping, no two identifiers share a url. */
  lemma GroupDistinct(items: seq<Value>)
    requires Group(items).Success?
    ensures NoDup(Urls(Group(items).value))
  {
    GroupUrls(items);
  }

  // ---------------------------------------------------------------------
  // Per-identifier clean-up
  // ---------------------------------------------------------------------

  /** The top-level media types of section 4.2 of RFC 6838. */
  predicate TopLevelType(t: string) {
    t in ["application", "audio", "font", "example", "image", "message", "model", "multipart", "text", "video"]
  }

  /** The type a list-valued type is replaced by, given its first element. */
  type Unwrap = Value -> Result<Value, string>

  /** The source as written: the record's type is first set to the first
      element and then indexed again, so a string yields its first
      character. Indexing an empty string or list raises, so does a
      dictionary (there is no key 0) and any other value. */
  function UnwrapAsWritten(e: Value): (r: Result<Value, string>)
    ensures e.Str? && |e.s| > 0 ==> r == Success(Str([e.s[0]]))
    ensures e.List? && |e.items| > 0 ==> r == Success(e.items[0])
    ensures !e.Str? && !e.List? ==> r.Failure?
  {
    match e
    case Str(s) => if |s| > 0 then Success(Str([s[0]])) else Failure("IndexError")
    case List(xs) => if |xs| > 0 then Success(xs[0]) else Failure("IndexError")
    case Dict(_) => Failure("KeyError")
    case _ => Failure("TypeError")
  }

  /** The evidently intended behaviour: the first element is the type. */
  function UnwrapFirst(e: Value): (r: Result<Value, string>)
    ensures r == Success(e)
  {
    Success(e)
  }

  /** Python `str(v)` of a type: a string is itself; the text of any other
      value is left to `show`. */
  function ShowType(v: Value, show: Value -> string): string {
    if v.Str? then v.s else show(v)
  }

  /** A type in URI form whose second-to-last `/` segment is a top-level
      media type is reduced to its last two segments. */
  function MediaType(text: string): (r: Option<string>)
    ensures r.Some? ==> Contains(r.value, "/")
  {
    var parts := Split(text, "/");
    if |parts| > 2 && TopLevelType(parts[|parts| - 2]) then
      var r := parts[|parts| - 2] + "/" + parts[|parts| - 1];
      assert OccursAt(r, "/", |parts[|parts| - 2]|);
      Some(r)
    else None
  }

  /** A type as it leaves the clean-up: reduced to its last two segments
      when it is a media type in URI form, unchanged otherwise. */
  function Reduced(tv: Value, show: Value -> string): (r: Value)
    ensures MediaType(ShowType(tv, show)).None? ==> r == tv
    ensures MediaType(ShowType(tv, show)).Some? ==> r.Str? && Contains(r.s, "/")
  {
    match MediaType(ShowType(tv, show))
    case Some(m) => Str(m)
    case None => tv
  }

  /** The clean-up of one identifier: a single sizeless identifier takes
      the record's `object_size`; a list-valued type is unwrapped; a type
      in URI form is reduced. */
  function CleanIdentifier(c: Identifier, objectSize: Value, single: bool, unwrap: Unwrap, show: Value -> string): (r: Result<Identifier, string>)
    ensures r.Success? ==> forall k :: k != "type" && k != "size" ==> Lookup(r.value, k) == Lookup(c, k)
    ensures r.Success? && single && !Truthy(Get(c, "size")) && Truthy(objectSize) ==> Get(r.value, "size") == objectSize
    ensures r.Success? && !(single && !Truthy(Get(c, "size")) && Truthy(objectSize)) ==> Get(r.value, "size") == Get(c, "size")
    ensures !Truthy(Get(c, "type")) ==> r.Success? && Get(r.value, "type") == Get(c, "type")
    ensures Truthy(Get(c, "type")) && !Get(c, "type").List? ==>
              r.Success? &&
              Get(r.value, "type") == Reduced(Get(c, "type"), show)
  {
    var c1 := WithObjectSize(c, objectSize, single);
    var t := Get(c1, "type");
    assert t == Get(c, "type");
    if !Truthy(t) then Success(c1)
    else
      var unwrapped := if t.List? then unwrap(t.items[0]) else Success(t);
      match unwrapped
      case Failure(e) => Failure(e)
      case Success(tv) => Success(Retype(c1, tv, t.List?, show))
  }

  /** The size step of the clean-up: a single identifier without a size
      takes the record's `object_size` when that is set. */
  function WithObjectSize(c: Identifier, objectSize: Value, single: bool): (r: Identifier)
    ensures forall k :: k != "size" ==> Lookup(r, k) == Lookup(c, k)
    ensures single && !Truthy(Get(c, "size")) && Truthy(objectSize) ==> Get(r, "size") == objectSize
    ensures !(single && !Truthy(Get(c, "size")) && Truthy(objectSize)) ==> r == c
  {
    if single && !Truthy(Get(c, "size")) && Truthy(objectSize) then Update(c, "size", objectSize) else c
  }

  /** The type step of the clean-up: an unwrapped type `tv` is stored
      when `replace` is set (otherwise it already is the type), and then
      reduced when it is a media type in URI form. */
  function Retype(c: Identifier, tv: Value, replace: bool, show: Value -> string): (r: Identifier)
    requires !replace ==> Get(c, "type") == tv
    ensures forall k :: k != "type" ==> Lookup(r, k) == Lookup(c, k)
    ensures Get(r, "type") == Reduced(tv, show)
  {
    var c2 := if replace then Update(c, "type", tv) else c;
    match MediaType(ShowType(tv, show))
    case Some(m) => Update(c2, "type", Str(m))
    case None => c2
  }

  /** A one-character text splits into at most two pieces. */
  lemma SplitShort(x: string)
    requires |x| <= 1
    ensures |Split(x, "/")| <= 2
  {
  }

  /** As written, a list-valued type whose first element is a plain
      string keeps only the string's first character. */
  lemma ListTypeFirstChar(c: Identifier, s: string, objectSize: Value, single: bool, show: Value -> string)
    requires Get(c, "type") == List([Str(s)]) && |s| > 1 && MediaType(s).None?
    ensures var r := CleanIdentifier(c, objectSize, single, UnwrapAsWritten, show);
            r.Success? && Get(r.value, "type") == Str([s[0]]) != Str(s)
  {
    SplitShort([s[0]]);
    assert MediaType(ShowType(Str([s[0]]), show)).None?;
    UnwrappedType(c, objectSize, single, UnwrapAsWritten, show, Str([s[0]]));
  }

  /** A list-valued type whose first element unwraps to `tv` is replaced
      by `tv`, reduced when it is a media type in URI form. */
  lemma UnwrappedType(c: Identifier, objectSize: Value, single: bool, unwrap: Unwrap, show: Value -> string, tv: Value)
    requires Get(c, "type").List? && Truthy(Get(c, "type"))
    requires unwrap(Get(c, "type").items[0]) == Success(tv)
    ensures var r := CleanIdentifier(c, objectSize, single, unwrap, show);
            r.Success? && Get(r.value, "type") == Reduced(tv, show)
  {
    var c1 := WithObjectSize(c, objectSize, single);
    assert Get(c1, "type") == Get(c, "type");
    assert CleanIdentifier(c, objectSize, single, unwrap, show) == Success(Retype(c1, tv, true, show));
  }

  /** The second loop, over the grouped identifiers: each is cleaned on
      its own, and the first failure ends the loop. */
  function CleanIdentifiers(cs: seq<Identifier>, objectSize: Value, single: bool, unwrap: Unwrap, show: Value -> string): (r: Result<seq<Identifier>, string>)
    ensures r.Success? <==> forall i :: 0 <= i < |cs| ==> CleanIdentifier(cs[i], objectSize, single, unwrap, show).Success?
    ensures r.Success? ==> |r.value| == |cs| && forall i :: 0 <= i < |cs| ==> CleanIdentifier(cs[i], objectSize, single, unwrap, show) == Success(r.value[i])
    ensures r.Failure? ==> exists i :: 0 <= i < |cs| && CleanIdentifier(cs[i], objectSize, single, unwrap, show) == Failure(r.error)
  {
    MapAll(cs, c => CleanIdentifier(c, objectSize, single, unwrap, show))
  }

  /** With the first element as the type, cleaning a list of identifiers
      never fails. */
  lemma UnwrapFirstSucceeds(cs: seq<Identifier>, objectSize: Value, single: bool, show: Value -> string)
    ensures CleanIdentifiers(cs, objectSize, single, UnwrapFirst, show).Success?
  {
    forall i | 0 <= i < |cs|
      ensures CleanIdentifier(cs[i], objectSize, single, UnwrapFirst, show).Success?
    {
      if Get(cs[i], "type").List? && Truthy(Get(cs[i], "type")) {
        UnwrappedType(cs[i], objectSize, single, UnwrapFirst, show, Get(cs[i], "type").items[0]);
      }
    }
  }

  /** A list-valued type of `c` has become its first element in `out`,
      reduced when it is a media type in URI form. */
  predicate ListTypeReplaced(c: Identifier, out: Identifier, show: Value -> string) {
    Get(c, "type").List? && Truthy(Get(c, "type")) ==> Get(out, "type") == Reduced(Get(c, "type").items[0], show)
  }

  /** With the first element as the type, one cleaned identifier has its
      list-valued type replaced. */
  lemma CleanedListType(c: Identifier, out: Identifier, objectSize: Value, single: bool, show: Value -> string)
    requires CleanIdentifier(c, objectSize, single, UnwrapFirst, show) == Success(out)
    ensures ListTypeReplaced(c, out, show)
  {
    if Get(c, "type").List? && Truthy(Get(c, "type")) {
      UnwrappedType(c, objectSize, single, UnwrapFirst, show, Get(c, "type").items[0]);
    }
  }

  /** With the first element as the type, every list-valued type is
      replaced by its first element, reduced when it is a media type in
      URI form. */
  lemma ListTypesUnwrapped(cs: seq<Identifier>, objectSize: Value, single: bool, show: Value -> string)
    ensures var r := CleanIdentifiers(cs, objectSize, single, UnwrapFirst, show);
            r.Success? && |r.value| == |cs| &&
            forall i :: 0 <= i < |cs| ==> ListTypeReplaced(cs[i], r.value[i], show)
  {
    UnwrapFirstSucceeds(cs, objectSize, single, show);
    var r := CleanIdentifiers(cs, objectSize, single, UnwrapFirst, show);
    forall i | 0 <= i < |cs|
      ensures ListTypeReplaced(cs[i], r.value[i], show)
    {
      CleanedListType(cs[i], r.value[i], objectSize, single, show);
    }
  }

  /** The identifiers as listed values again. */
  function AsValues(cs: seq<Identifier>): (r: seq<Value>)
    ensures |r| == |cs| && forall i :: 0 <= i < |cs| ==> r[i] == Dict(cs[i])
  {
    seq(|cs|, i requires 0 <= i < |cs| => Dict(cs[i]))
  }

  // ---------------------------------------------------------------------
  // The whole clean-up
  // ---------------------------------------------------------------------

  /** The last step: top-level entries that are "" or null are dropped. */
  function DropEmpty(meta: map<string, Value>): (r: map<string, Value>)
    ensures forall k :: k in r <==> k in meta && meta[k] != Str("") && meta[k] != Null
    ensures forall k | k in r :: r[k] == meta[k]
  {
    map k | k in meta && meta[k] != Str("") && meta[k] != Null :: meta[k]
  }

  /** After the last step no top-level value is "" or null, so repeating
      the step changes nothing, and only such entries were removed. */
  lemma DropEmptyFinal(meta: map<string, Value>)
    ensures forall k | k in DropEmpty(meta) :: DropEmpty(meta)[k] != Str("") && DropEmpty(meta)[k] != Null
    ensures DropEmpty(DropEmpty(meta)) == DropEmpty(meta)
    ensures forall k | k in meta && k !in DropEmpty(meta) :: meta[k] == Str("") || meta[k] == Null
  {
  }

  /** The identifier steps on a record whose "None" strings are already
      replaced. */
  function CleanContent(m: map<string, Value>, unwrap: Unwrap, show: Value -> string): (r: Result<map<string, Value>, string>)
    ensures r.Success? ==> r.value.Keys == m.Keys
    ensures r.Success? ==> forall k | k in m && k != ContentKey :: r.value[k] == m[k]
  {
    var m2 := NormaliseIdentifiers(m);
    if ContentKey in m2 && m2[ContentKey].List? && |m2[ContentKey].items| > 0 then
      match Group(m2[ContentKey].items)
      case Failure(e) => Failure(e)
      case Success(groups) =>
        var size := if "object_size" in m2 then m2["object_size"] else Null;
        match CleanIdentifiers(groups, size, |groups| == 1, unwrap, show)
        case Failure(e) => Failure(e)
        case Success(cs) => Success(m2[ContentKey := List(AsValues(cs))])
    else Success(m2)
  }

  /** The content identifiers a successful clean-up produces: one per
      distinct url, in the order the urls first appear in the (normalised)
      listing, each the clean-up of the merged group for that url, so its
      size is completed from `object_size` when it is the only one and its
      type is unwrapped and reduced. */
  lemma {:induction false} CleanContentIdentifiers(m: map<string, Value>, unwrap: Unwrap, show: Value -> string)
    requires CleanContent(m, unwrap, show).Success?
    requires var m2 := NormaliseIdentifiers(m); ContentKey in m2 && m2[ContentKey].List? && |m2[ContentKey].items| > 0
    ensures var m2 := NormaliseIdentifiers(m);
      var items := m2[ContentKey].items;
      var out := CleanContent(m, unwrap, show).value[ContentKey];
      var urls := FirstOccurrences(ItemUrls(items));
      var size := if "object_size" in m2 then m2["object_size"] else Null;
      Group(items).Success? && out.List? && |out.items| == |urls| == |Group(items).value| &&
      forall i :: 0 <= i < |urls| ==>
        out.items[i].Dict? && UrlOf(out.items[i].entries) == urls[i] &&
        CleanIdentifier(Group(items).value[i], size, |urls| == 1, unwrap, show) == Success(out.items[i].entries)
  {
    var m2 := NormaliseIdentifiers(m);
    var items := m2[ContentKey].items;
    var size := if "object_size" in m2 then m2["object_size"] else Null;
    CleanContentSteps(m, unwrap, show);
    var groups := Group(items).value;
    var cs := CleanIdentifiers(groups, size, |groups| == 1, unwrap, show).value;
    GroupUrls(items);
    CleanedUrls(groups, size, |groups| == 1, unwrap, show);
    assert Urls(cs) == FirstOccurrences(ItemUrls(items));
  }

  /** A successful clean-up with listed identifiers went through grouping
      and cleaning each group. */
  lemma CleanContentSteps(m: map<string, Value>, unwrap: Unwrap, show: Value -> string)
    requires CleanContent(m, unwrap, show).Success?
    requires var m2 := NormaliseIdentifiers(m); ContentKey in m2 && m2[ContentKey].List? && |m2[ContentKey].items| > 0
    ensures var m2 := NormaliseIdentifiers(m);
      var items := m2[ContentKey].items;
      var size := if "object_size" in m2 then m2["object_size"] else Null;
      Group(items).Success? &&
      CleanIdentifiers(Group(items).value, size, |Group(items).value| == 1, unwrap, show).Success? &&
      CleanContent(m, unwrap, show).value[ContentKey] ==
        List(AsValues(CleanIdentifiers(Group(items).value, size, |Group(items).value| == 1, unwrap, show).value))
  {
  }

  /** Cleaning keeps every identifier's url. */
  lemma CleanedUrls(cs: seq<Identifier>, objectSize: Value, single: bool, unwrap: Unwrap, show: Value -> string)
    requires CleanIdentifiers(cs, objectSize, single, unwrap, show).Success?
    ensures Urls(CleanIdentifiers(cs, objectSize, single, unwrap, show).value) == Urls(cs)
  {
    var out := CleanIdentifiers(cs, objectSize, single, unwrap, show).value;
    forall i | 0 <= i < |cs|
      ensures UrlOf(out[i]) == UrlOf(cs[i])
    {
      assert Lookup(out[i], "url") == Lookup(cs[i], "url");
    }
  }

  /** `clean_metadata` with the list-valued type handled by `unwrap`. */
  function CleanWith(meta: map<string, Value>, unwrap: Unwrap, show: Value -> string): (r: Result<map<string, Value>, string>)
    ensures r.Success? ==> forall k | k in r.value :: r.value[k] != Str("") && r.value[k] != Null
    ensures r.Success? ==> forall k | k in r.value :: k in meta
    ensures r.Success? ==> forall k | k in meta && k != ContentKey ::
              var v := ReplaceNoneStrings(meta)[k];
              (k in r.value <==> v != Str("") && v != Null) && (k in r.value ==> r.value[k] == v)
    ensures ContentKey !in meta ==> r.Success?
  {
    match CleanContent(ReplaceNoneStrings(meta), unwrap, show)
    case Failure(e) => Failure(e)
    case Success(m) => Success(DropEmpty(m))
  }

  /** The identifiers `CleanContent` produces survive the last step, so
      `CleanContentIdentifiers` describes the content identifiers of the
      whole clean-up. */
  lemma CleanWithKeepsIdentifiers(meta: map<string, Value>, unwrap: Unwrap, show: Value -> string)
    requires CleanWith(meta, unwrap, show).Success?
    requires var m2 := NormaliseIdentifiers(ReplaceNoneStrings(meta));
      ContentKey in m2 && m2[ContentKey].List? && |m2[ContentKey].items| > 0
    ensures ContentKey in CleanWith(meta, unwrap, show).value
    ensures CleanWith(meta, unwrap, show).value[ContentKey] == CleanContent(ReplaceNoneStrings(meta), unwrap, show).value[ContentKey]
  {
    CleanContentSteps(ReplaceNoneStrings(meta), unwrap, show);
  }

  /** Taking the first element as the type fails on fewer records than
      the source's double indexing. */
  lemma UnwrapFirstFailsLess(m: map<string, Value>, show: Value -> string)
    ensures CleanContent(m, UnwrapAsWritten, show).Success? ==> CleanContent(m, UnwrapFirst, show).Success?
  {
    var m2 := NormaliseIdentifiers(m);
    if ContentKey in m2 && m2[ContentKey].List? && |m2[ContentKey].items| > 0 && Group(m2[ContentKey].items).Success? {
      var groups := Group(m2[ContentKey].items).value;
      var size := if "object_size" in m2 then m2["object_size"] else Null;
      UnwrapFirstSucceeds(groups, size, |groups| == 1, show);
    }
  }

  /** Without content identifiers the unwrapping is never used. */
  lemma NoIdentifiersSameCleaning(m: map<string, Value>, u1: Unwrap, u2: Unwrap, show: Value -> string)
    requires ContentKey !in m
    ensures CleanContent(m, u1, show) == CleanContent(m, u2, show)
  {
    assert ContentKey !in NormaliseIdentifiers(m);
  }

  /** `clean_metadata` as written: whenever it succeeds, the corrected
      clean-up succeeds too. */
  function CleanMetadataAsWritten(meta: map<string, Value>, show: Value -> string): (r: Result<map<string, Value>, string>)
    ensures r.Success? ==> CleanMetadata(meta, show).Success?
  {
    UnwrapFirstFailsLess(ReplaceNoneStrings(meta), show);
    CleanWith(meta, UnwrapAsWritten, show)
  }

  /** `clean_metadata` with the evidently intended type unwrapping: on a
      record without content identifiers it agrees with the source. */
  function CleanMetadata(meta: map<string, Value>, show: Value -> string): (r: Result<map<string, Value>, string>)
    ensures ContentKey !in meta ==> r == CleanWith(meta, UnwrapAsWritten, show)
  {
    assert ContentKey !in meta ==> CleanWith(meta, UnwrapFirst, show) == CleanWith(meta, UnwrapAsWritten, show) by {
      if ContentKey !in meta {
        NoIdentifiersSameCleaning(ReplaceNoneStrings(meta), UnwrapFirst, UnwrapAsWritten, show);
      }
    }
    CleanWith(meta, UnwrapFirst, show)
  }
}

=== FILE: collector.dfy ===
/** The vocabulary shared by all metadata collectors: metadata formats,
    offering methods and metadata sources with their acronyms, the source
    lookup by offering method, the initial collector state and the
    recursive null-removal helper `exclude_null`. */
module Collector {
  import opened Wrappers
  import opened Strings
  import opened Seqs
  import opened Values

  /** `MetadataFormats`. */
  datatype Format = HTML | XHTML | XML | RDF | RDFA | JSON | JSONLD | MICRODATA | TEXT {

    /** `MetadataFormats.acronym()`. */
    function Acronym(): string {
      match this
      case HTML => "html"
      case XHTML => "xhtml"
      case XML => "xml"
      case RDF => "rdf"
      case RDFA => "rdfa"
      case JSON => "json"
      case JSONLD => "json-ld"
      case MICRODATA => "microdata"
      case TEXT => "text"
    }
  }

  /** `MetadataOfferingMethods`. */
  datatype Method =
    | META_TAGS | JSON_IN_HTML | MICRODATA_METHOD | RDFA_METHOD
    | TYPED_LINKS | SIGNPOSTING | CONTENT_NEGOTIATION
  {
    /** `MetadataOfferingMethods.acronym()`. */
    function Acronym(): string {
      match this
      case META_TAGS => "meta_tag"
      case JSON_IN_HTML => "json_in_html"
      case MICRODATA_METHOD => "microdata"
      case RDFA_METHOD => "rdfa"
      case TYPED_LINKS => "typed_links"
      case SIGNPOSTING => "signposting"
      case CONTENT_NEGOTIATION => "content_negotiation"
    }

    /** The Python member name, which `MetadataOfferingMethods[name]`
        resolves. */
    function Name(): string {
      match this
      case META_TAGS => "META_TAGS"
      case JSON_IN_HTML => "JSON_IN_HTML"
      case MICRODATA_METHOD => "MICRODATA"
      case RDFA_METHOD => "RDFA"
      case TYPED_LINKS => "TYPED_LINKS"
      case SIGNPOSTING => "SIGNPOSTING"
      case CONTENT_NEGOTIATION => "CONTENT_NEGOTIATION"
    }
  }

  /** All offering methods in declaration order. */
  const AllMethods: seq<Method> := [
    META_TAGS, JSON_IN_HTML, MICRODATA_METHOD, RDFA_METHOD,
    TYPED_LINKS, SIGNPOSTING, CONTENT_NEGOTIATION
  ]

  /** The `format` entry of a source: a format member, the bare string
      `"JSON"` that one source carries, or no entry at all. */
  datatype SourceFormat = FormatMember(f: Format) | FormatText(s: string) | NoFormat

  /** `MetadataSources`. */
  datatype Source =
    | HIGHWIRE_EPRINTS_EMBEDDED | DUBLINCORE_EMBEDDED | OPENGRAPH_EMBEDDED
    | SCHEMAORG_EMBEDDED | RDFA_EMBEDDED | MICRODATA_EMBEDDED
    | SCHEMAORG_NEGOTIATED | DATACITE_JSON_NEGOTIATED | RDF_NEGOTIATED
    | XML_NEGOTIATED | XML_TYPED_LINKS | RDF_TYPED_LINKS | SCHEMAORG_TYPED_LINKS
    | SIGNPOSTING_LINKS | RDF_SIGNPOSTING_LINKS | XML_SIGNPOSTING_LINKS
    | XML_GUESSED | OAI_ORE
  {
    /** The `method` entry; `XML_GUESSED` stores `None`. */
    function Method(): Option<Method> {
      match this
      case HIGHWIRE_EPRINTS_EMBEDDED => Some(META_TAGS)
      case DUBLINCORE_EMBEDDED => Some(META_TAGS)
      case OPENGRAPH_EMBEDDED => Some(RDFA_METHOD)
      case SCHEMAORG_EMBEDDED => Some(JSON_IN_HTML)
      case RDFA_EMBEDDED => Some(RDFA_METHOD)
      case MICRODATA_EMBEDDED => Some(MICRODATA_METHOD)
      case SCHEMAORG_NEGOTIATED => Some(CONTENT_NEGOTIATION)
      case DATACITE_JSON_NEGOTIATED => Some(CONTENT_NEGOTIATION)
      case RDF_NEGOTIATED => Some(CONTENT_NEGOTIATION)
      case XML_NEGOTIATED => Some(CONTENT_NEGOTIATION)
      case XML_TYPED_LINKS => Some(TYPED_LINKS)
      case RDF_TYPED_LINKS => Some(TYPED_LINKS)
      case SCHEMAORG_TYPED_LINKS => Some(TYPED_LINKS)
      case SIGNPOSTING_LINKS => Some(SIGNPOSTING)
      case RDF_SIGNPOSTING_LINKS => Some(SIGNPOSTING)
      case XML_SIGNPOSTING_LINKS => Some(SIGNPOSTING)
      case XML_GUESSED => None
      case OAI_ORE => Some(TYPED_LINKS)
    }

    /** The Python member name (`method.name`). */
    function Name(): string {
      match this
      case HIGHWIRE_EPRINTS_EMBEDDED => "HIGHWIRE_EPRINTS_EMBEDDED"
      case DUBLINCORE_EMBEDDED => "DUBLINCORE_EMBEDDED"
      case OPENGRAPH_EMBEDDED => "OPENGRAPH_EMBEDDED"
      case SCHEMAORG_EMBEDDED => "SCHEMAORG_EMBEDDED"
      case RDFA_EMBEDDED => "RDFA_EMBEDDED"
      case MICRODATA_EMBEDDED => "MICRODATA_EMBEDDED"
      case SCHEMAORG_NEGOTIATED => "SCHEMAORG_NEGOTIATED"
      case DATACITE_JSON_NEGOTIATED => "DATACITE_JSON_NEGOTIATED"
      case RDF_NEGOTIATED => "RDF_NEGOTIATED"
      case XML_NEGOTIATED => "XML_NEGOTIATED"
      case XML_TYPED_LINKS => "XML_TYPED_LINKS"
      case RDF_TYPED_LINKS => "RDF_TYPED_LINKS"
      case SCHEMAORG_TYPED_LINKS => "SCHEMAORG_TYPED_LINKS"
      case SIGNPOSTING_LINKS => "SIGNPOSTING_LINKS"
      case RDF_SIGNPOSTING_LINKS => "RDF_SIGNPOSTING_LINKS"
      case XML_SIGNPOSTING_LINKS => "XML_SIGNPOSTING_LINKS"
      case XML_GUESSED => "XML_GUESSED"
      case OAI_ORE => "OAI_ORE"
    }

    /** `MetadataSources.acronym()`: `value.get("acronym")`, which is `None`
        for `OAI_ORE`. */
    function Acronym(): Option<string> {
      match this
      case HIGHWIRE_EPRINTS_EMBEDDED => Some("highwire-eprints-html")
      case DUBLINCORE_EMBEDDED => Some("dublincore-html")
      case OPENGRAPH_EMBEDDED => Some("opengraph-html")
      case SCHEMAORG_EMBEDDED => Some("schemaorg-html")
      case RDFA_EMBEDDED => Some("rdfa-html")
      case MICRODATA_EMBEDDED => Some("microdata-html")
      case SCHEMAORG_NEGOTIATED => Some("schemaorg-negotiated")
      case DATACITE_JSON_NEGOTIATED => Some("datacite-negotiated")
      case RDF_NEGOTIATED => Some("rdf-negotiated")
      case XML_NEGOTIATED => Some("xml-negotiated")
      case XML_TYPED_LINKS => Some("xml-type-linked")
      case RDF_TYPED_LINKS => Some("rdf-type-linked")
      case SCHEMAORG_TYPED_LINKS => Some("schemaorg-type-linked")
      case SIGNPOSTING_LINKS => Some("signposting-linked")
      case RDF_SIGNPOSTING_LINKS => Some("rdf-signposting-linked")
      case XML_SIGNPOSTING_LINKS => Some("xml-signposting-linked")
      case XML_GUESSED => Some("xml-guessed")
      case OAI_ORE => None
    }

    /** `MetadataSources.format()`. */
    function Format(): SourceFormat {
      match this
      case HIGHWIRE_EPRINTS_EMBEDDED => FormatMember(HTML)
      case DUBLINCORE_EMBEDDED => FormatMember(XHTML)
      case OPENGRAPH_EMBEDDED => FormatMember(RDFA)
      case SCHEMAORG_EMBEDDED => FormatMember(JSONLD)
      case RDFA_EMBEDDED => FormatMember(RDFA)
      case MICRODATA_EMBEDDED => FormatMember(MICRODATA)
      case SCHEMAORG_NEGOTIATED => FormatMember(JSONLD)
      case DATACITE_JSON_NEGOTIATED => FormatText("JSON")
      case RDF_NEGOTIATED => FormatMember(RDF)
      case XML_NEGOTIATED => FormatMember(XML)
      case XML_TYPED_LINKS => FormatMember(XML)
      case RDF_TYPED_LINKS => FormatMember(RDF)
      case SCHEMAORG_TYPED_LINKS => FormatMember(JSONLD)
      case SIGNPOSTING_LINKS => NoFormat
      case RDF_SIGNPOSTING_LINKS => FormatMember(RDF)
      case XML_SIGNPOSTING_LINKS => FormatMember(XML)
      case XML_GUESSED => FormatMember(XML)
      case OAI_ORE => FormatMember(XML)
    }
  }

  /** All sources in declaration order (iteration order of the enum). */
  const AllSources: seq<Source> := [
    HIGHWIRE_EPRINTS_EMBEDDED, DUBLINCORE_EMBEDDED, OPENGRAPH_EMBEDDED,
    SCHEMAORG_EMBEDDED, RDFA_EMBEDDED, MICRODATA_EMBEDDED,
    SCHEMAORG_NEGOTIATED, DATACITE_JSON_NEGOTIATED, RDF_NEGOTIATED,
    XML_NEGOTIATED, XML_TYPED_LINKS, RDF_TYPED_LINKS, SCHEMAORG_TYPED_LINKS,
    SIGNPOSTING_LINKS, RDF_SIGNPOSTING_LINKS, XML_SIGNPOSTING_LINKS,
    XML_GUESSED, OAI_ORE
  ]

  /** The acronyms identify formats and methods: no two members share one. */
  lemma AcronymsDistinct()
    ensures forall f: Format, g: Format :: f != g ==> f.Acronym() != g.Acronym()
    ensures forall m: Method, n: Method :: m != n ==> m.Acronym() != n.Acronym()
    ensures forall s: Source, t: Source ::
              s != t && s.Acronym().Some? ==> s.Acronym() != t.Acronym()
  {
  }

  /** The position of a source in the enumeration. */
  function Ordinal(s: Source): (i: nat)
    ensures i < |AllSources| && AllSources[i] == s
  {
    match s
    case HIGHWIRE_EPRINTS_EMBEDDED => 0
    case DUBLINCORE_EMBEDDED => 1
    case OPENGRAPH_EMBEDDED => 2
    case SCHEMAORG_EMBEDDED => 3
    case RDFA_EMBEDDED => 4
    case MICRODATA_EMBEDDED => 5
    case SCHEMAORG_NEGOTIATED => 6
    case DATACITE_JSON_NEGOTIATED => 7
    case RDF_NEGOTIATED => 8
    case XML_NEGOTIATED => 9
    case XML_TYPED_LINKS => 10
    case RDF_TYPED_LINKS => 11
    case SCHEMAORG_TYPED_LINKS => 12
    case SIGNPOSTING_LINKS => 13
    case RDF_SIGNPOSTING_LINKS => 14
    case XML_SIGNPOSTING_LINKS => 15
    case XML_GUESSED => 16
    case OAI_ORE => 17
  }

  /** Every source is offered by some method, except `XML_GUESSED`, and the
      enumeration lists every source exactly once. */
  lemma SourceMethods()
    ensures forall s: Source :: s.Method().None? <==> s == XML_GUESSED
    ensures forall s: Source :: s in AllSources
    ensures NoDup(AllSources)
  {
    forall s: Source
      ensures s in AllSources
    {
      var i := Ordinal(s);
    }
  }

  /** An argument of `getSourcesbyMethod`: a method member, a member name,
      or `None`. */
  datatype MethodArg = ByMember(m: Method) | ByName(name: string) | NoMethod

  /** Whether a single argument or a list was passed. */
  datatype MethodArgs = One(arg: MethodArg) | Many(args: seq<MethodArg>)

  /** `MetadataOfferingMethods[name]`: lookup by member name, `KeyError`
      when there is none. */
  function MethodByName(name: string): (r: Option<Method>)
    ensures r.Some? ==> r.value.Name() == name
    ensures r.None? ==> forall m: Method :: m.Name() != name
  {
    if name == "META_TAGS" then Some(META_TAGS)
    else if name == "JSON_IN_HTML" then Some(JSON_IN_HTML)
    else if name == "MICRODATA" then Some(MICRODATA_METHOD)
    else if name == "RDFA" then Some(RDFA_METHOD)
    else if name == "TYPED_LINKS" then Some(TYPED_LINKS)
    else if name == "SIGNPOSTING" then Some(SIGNPOSTING)
    else if name == "CONTENT_NEGOTIATION" then Some(CONTENT_NEGOTIATION)
    else None
  }

  /** The value an argument is compared with: `None` matches only a source
      whose method is `None`. */
  function Resolve(a: MethodArg): Option<Option<Method>> {
    match a
    case ByMember(m) => Some(Some(m))
    case ByName(n) =>
      (match MethodByName(n)
       case Some(m) => Some(Some(m))
       case None => None)
    case NoMethod => Some(None)
  }

  function Wrap(methods: MethodArgs): seq<MethodArg> {
    match methods
    case One(a) => [a]
    case Many(args) => args
  }

  /** The test a source passes when `m` offers it. */
  function OfferedBy(m: Option<Method>): Source -> bool {
    (s: Source) => s.Method() == m
  }

  function SourcesFor(args: seq<MethodArg>): Result<seq<Source>, string> {
    if |args| == 0 then Success([])
    else
      match Resolve(args[0])
      case None => Failure("KeyError")
      case Some(m) =>
        match SourcesFor(args[1..])
        case Failure(e) => Failure(e)
        case Success(rest) => Success(Filter(AllSources, OfferedBy(m)) + rest)
  }

  /** Some argument names no method member. */
  predicate Unresolvable(args: seq<MethodArg>) {
    exists a :: a in args && Resolve(a).None?
  }

  /** Some argument resolves to the method of `s`. */
  predicate Requested(args: seq<MethodArg>, s: Source) {
    exists a :: a in args && Resolve(a) == Some(s.Method())
  }

  /** `MetadataSources.getSourcesbyMethod`: a single argument is wrapped in a
      list, names are resolved (an unknown name raises `KeyError`), and the
      result holds exactly the sources whose method equals one of the
      arguments. */
  function SourcesByMethod(methods: MethodArgs): (r: Result<seq<Source>, string>)
    ensures r.Failure? <==> Unresolvable(Wrap(methods))
    ensures r.Success? ==> forall s: Source :: s in r.value <==> Requested(Wrap(methods), s)
  {
    SourcesForSpec(Wrap(methods));
    SourcesFor(Wrap(methods))
  }

  /** The sources a single resolved method selects. */
  lemma FilterByMethod(m: Option<Method>)
    ensures forall s: Source ::
              s in Filter(AllSources, OfferedBy(m)) <==> s.Method() == m
  {
    SourceMethods();
    FilterCovering(AllSources, m);
  }

  lemma FilterCovering(all: seq<Source>, m: Option<Method>)
    requires forall s: Source :: s in all
    ensures forall s: Source :: s in Filter(all, OfferedBy(m)) <==> s.Method() == m
  {
    FilterEvery(all, OfferedBy(m));
  }

  lemma {:induction false} SourcesForSpec(args: seq<MethodArg>)
    ensures SourcesFor(args).Failure? <==> Unresolvable(args)
    ensures SourcesFor(args).Success? ==> forall s: Source ::
              s in SourcesFor(args).value <==> Requested(args, s)
  {
    if |args| > 0 {
      var tail := args[1..];
      SourcesForSpec(tail);
      ArgsCons(args);
      match Resolve(args[0])
      case None =>
      case Some(m) =>
        FilterByMethod(m);
    }
  }

  /** An argument list is resolvable, and requests a source, through its
      first argument or through the rest. */
  lemma ArgsCons(args: seq<MethodArg>)
    requires |args| > 0
    ensures Unresolvable(args) <==> Resolve(args[0]).None? || Unresolvable(args[1..])
    ensures forall s: Source :: Requested(args, s) <==> Resolve(args[0]) == Some(s.Method()) || Requested(args[1..], s)
  {
    assert forall a :: a in args <==> a == args[0] || a in args[1..];
  }

  /** The fields of `MetaDataCollector` that its constructor initialises. */
  datatype CollectorState = CollectorState(
    targetMetadata: map<string, Value>,
    namespaces: seq<string>,
    linkedNamespaces: map<string, Value>,
    contentType: Option<string>,
    uris: seq<string>,
    authTokenType: Option<string>,
    authToken: Option<string>,
    acceptType: Option<string>,
    metadataFormat: Option<Format>
  )

  /** `MetaDataCollector.__init__`: nothing collected yet, no credentials,
      and the token type defaulting to Basic. */
  function NewCollector(): (c: CollectorState)
    ensures c.targetMetadata == map[] && c.namespaces == [] && c.linkedNamespaces == map[]
    ensures c.uris == [] && c.contentType.None? && c.metadataFormat.None?
    ensures c.authToken.None? && c.authTokenType == Some("Basic") && c.acceptType.None?
  {
    CollectorState(map[], [], map[], None, [], Some("Basic"), None, None, None)
  }

  /** `MetaDataCollector.set_auth_token`: both values are stored as given
      and nothing else changes. */
  function SetAuthToken(c: CollectorState, token: Option<string>, tokenType: Option<string>): (r: CollectorState)
    ensures r.authToken == token && r.authTokenType == tokenType
    ensures r.(authToken := c.authToken, authTokenType := c.authTokenType) == c
  {
    c.(authToken := token, authTokenType := tokenType)
  }

  /** `exclude_null`: dictionaries keep the entries whose value and cleaned
      value are both truthy, lists keep the elements passing the same test
      and, when all kept elements are hashable, go through `list(set(...))`,
      strings are stripped, and every other value is returned as is. */
  function ExcludeNull(v: Value): (r: Value)
    ensures v.Dict? <==> r.Dict?
    ensures v.List? <==> r.List?
    ensures v.Str? ==> r == Str(Strip(v.s))
    ensures !v.Dict? && !v.List? && !v.Str? ==> r == v
    ensures r.Dict? ==> forall i :: 0 <= i < |r.entries| ==> Truthy(r.entries[i].1)
    ensures r.List? ==> forall i :: 0 <= i < |r.items| ==> Truthy(r.items[i])
    decreases v
  {
    match v
    case Dict(es) =>
      var cleaned := seq(|es|, i requires 0 <= i < |es| => (es[i].0, ExcludeNull(es[i].1)));
      var keep := seq(|es|, i requires 0 <= i < |es| => Truthy(es[i].1) && Truthy(cleaned[i].1));
      var kept := Select(cleaned, keep);
      assert forall j :: 0 <= j < |kept| ==> Truthy(kept[j].1) by {
        forall j | 0 <= j < |kept| ensures Truthy(kept[j].1) {
          assert kept[j] in kept;
        }
      }
      Dict(kept)
    case List(xs) =>
      var cleaned := seq(|xs|, i requires 0 <= i < |xs| => ExcludeNull(xs[i]));
      var keep := seq(|xs|, i requires 0 <= i < |xs| => Truthy(xs[i]) && Truthy(cleaned[i]));
      var kept := Select(cleaned, keep);
      assert forall j :: 0 <= j < |kept| ==> Truthy(kept[j]) by {
        forall j | 0 <= j < |kept| ensures Truthy(kept[j]) {
          assert kept[j] in kept;
        }
      }
      if forall i :: 0 <= i < |kept| ==> Hashable(kept[i]) then List(FirstOccurrences(kept))
      else List(kept)
    case Str(s) => Str(Strip(s))
    case _ => v
  }

  /** A dictionary key survives cleaning exactly when its value and the
      cleaned value are truthy, and then maps to the cleaned value. */
  lemma ExcludeNullKeys(es: seq<(string, Value)>, i: nat)
    requires i < |es| && NoDup(Keys(es))
    ensures Truthy(es[i].1) && Truthy(ExcludeNull(es[i].1)) <==>
              (es[i].0, ExcludeNull(es[i].1)) in ExcludeNull(Dict(es)).entries
  {
    var cleaned := seq(|es|, j requires 0 <= j < |es| => (es[j].0, ExcludeNull(es[j].1)));
    var keep := seq(|es|, j requires 0 <= j < |es| => Truthy(es[j].1) && Truthy(cleaned[j].1));
    assert ExcludeNull(Dict(es)).entries == Select(cleaned, keep);
    if (es[i].0, ExcludeNull(es[i].1)) in Select(cleaned, keep) {
      var j :| 0 <= j < |cleaned| && keep[j] && cleaned[j] == (es[i].0, ExcludeNull(es[i].1));
      assert Keys(es)[j] == Keys(es)[i];
    }
  }

  /** A value is in the cleaned list exactly when it is the cleaned form of
      an element whose value and cleaned value are both truthy; removing the
      repeats of a hashable list loses no value. */
  lemma ExcludeNullItems(xs: seq<Value>)
    ensures forall x :: x in ExcludeNull(List(xs)).items <==>
              exists i :: 0 <= i < |xs| && Truthy(xs[i]) && Truthy(ExcludeNull(xs[i])) && x == ExcludeNull(xs[i])
  {
    var cleaned := seq(|xs|, i requires 0 <= i < |xs| => ExcludeNull(xs[i]));
    var keep := seq(|xs|, i requires 0 <= i < |xs| => Truthy(xs[i]) && Truthy(cleaned[i]));
    var kept := Select(cleaned, keep);
    var r := ExcludeNull(List(xs)).items;
    forall x ensures x in r <==> x in kept {
      if r != kept {
        assert r == FirstOccurrences(kept);
        if x in kept {
          var j :| 0 <= j < |kept| && kept[j] == x;
        }
      }
    }
    forall x | x in kept
      ensures exists i :: 0 <= i < |xs| && Truthy(xs[i]) && Truthy(ExcludeNull(xs[i])) && x == ExcludeNull(xs[i])
    {
      var i :| 0 <= i < |cleaned| && keep[i] && cleaned[i] == x;
    }
    forall i | 0 <= i < |xs| && Truthy(xs[i]) && Truthy(ExcludeNull(xs[i]))
      ensures ExcludeNull(xs[i]) in kept
    {
      assert keep[i] && cleaned[i] == ExcludeNull(xs[i]);
    }
  }

  /** Strings are stripped, so stripping again changes nothing. */
  lemma StripIdempotent(s: string)
    ensures Strip(Strip(s)) == Strip(s)
  {
    var t := Strip(s);
    if |t| > 0 {
      TrimNoop(t, Whitespace);
    }
  }

  /** The dictionary case of idempotence, given idempotence of the values. */
  lemma ExcludeNullDictIdempotent(es: seq<(string, Value)>)
    requires forall i :: 0 <= i < |es| ==> ExcludeNull(ExcludeNull(es[i].1)) == ExcludeNull(es[i].1)
    ensures ExcludeNull(ExcludeNull(Dict(es))) == ExcludeNull(Dict(es))
  {
    var r := ExcludeNull(Dict(es)).entries;
    forall j | 0 <= j < |r|
      ensures ExcludeNull(r[j].1) == r[j].1
    {
      var cleaned := seq(|es|, i requires 0 <= i < |es| => (es[i].0, ExcludeNull(es[i].1)));
      var keep := seq(|es|, i requires 0 <= i < |es| => Truthy(es[i].1) && Truthy(cleaned[i].1));
      assert r == Select(cleaned, keep);
      assert r[j] in r;
      var i :| 0 <= i < |cleaned| && keep[i] && cleaned[i] == r[j];
    }
    var cleaned2 := seq(|r|, i requires 0 <= i < |r| => (r[i].0, ExcludeNull(r[i].1)));
    var keep2 := seq(|r|, i requires 0 <= i < |r| => Truthy(r[i].1) && Truthy(cleaned2[i].1));
    assert cleaned2 == r;
    SelectAll(cleaned2, keep2);
  }

  /** A list whose elements are truthy and already clean is only
      de-duplicated by cleaning, and only when all elements are hashable. */
  lemma ExcludeNullCleanList(out: seq<Value>)
    requires forall j :: 0 <= j < |out| ==> ExcludeNull(out[j]) == out[j] && Truthy(out[j])
    ensures ExcludeNull(List(out)) ==
              List(if forall j :: 0 <= j < |out| ==> Hashable(out[j]) then FirstOccurrences(out) else out)
  {
    var cleaned2 := seq(|out|, i requires 0 <= i < |out| => ExcludeNull(out[i]));
    var keep2 := seq(|out|, i requires 0 <= i < |out| => Truthy(out[i]) && Truthy(cleaned2[i]));
    assert cleaned2 == out;
    SelectAll(cleaned2, keep2);
  }

  /** The list case of idempotence, given idempotence of the elements. */
  lemma ExcludeNullListIdempotent(xs: seq<Value>)
    requires forall i :: 0 <= i < |xs| ==> ExcludeNull(ExcludeNull(xs[i])) == ExcludeNull(xs[i])
    ensures ExcludeNull(ExcludeNull(List(xs))) == ExcludeNull(List(xs))
  {
    var cleaned := seq(|xs|, i requires 0 <= i < |xs| => ExcludeNull(xs[i]));
    var keep := seq(|xs|, i requires 0 <= i < |xs| => Truthy(xs[i]) && Truthy(cleaned[i]));
    var kept := Select(cleaned, keep);
    var hashable := forall i :: 0 <= i < |kept| ==> Hashable(kept[i]);
    var out := if hashable then FirstOccurrences(kept) else kept;
    assert ExcludeNull(List(xs)) == List(out);
    forall j | 0 <= j < |kept|
      ensures ExcludeNull(kept[j]) == kept[j] && Truthy(kept[j])
    {
      assert kept[j] in kept;
      var i :| 0 <= i < |cleaned| && keep[i] && cleaned[i] == kept[j];
    }
    if hashable {
      forall j | 0 <= j < |out|
        ensures ExcludeNull(out[j]) == out[j] && Truthy(out[j]) && Hashable(out[j])
      {
        assert out[j] in kept;
      }
      ExcludeNullCleanList(out);
      FirstOccurrencesIdempotent(kept);
    } else {
      ExcludeNullCleanList(out);
    }
  }

  /** Cleaning a cleaned value changes nothing. */
  lemma {:induction false} ExcludeNullIdempotent(v: Value)
    ensures ExcludeNull(ExcludeNull(v)) == ExcludeNull(v)
    decreases v
  {
    match v
    case Dict(es) =>
      forall i | 0 <= i < |es|
        ensures ExcludeNull(ExcludeNull(es[i].1)) == ExcludeNull(es[i].1)
      {
        ExcludeNullIdempotent(es[i].1);
      }
      ExcludeNullDictIdempotent(es);
    case List(xs) =>
      forall i | 0 <= i < |xs|
        ensures ExcludeNull(ExcludeNull(xs[i])) == ExcludeNull(xs[i])
      {
        ExcludeNullIdempotent(xs[i]);
      }
      ExcludeNullListIdempotent(xs);
    case Str(s) =>
      StripIdempotent(s);
    case _ =>
  }
}

=== FILE: content.dfy ===
/** `RequestHelper.handle_content` and `content_negotiate`: how a received
    response is turned into a metadata format, a stored body and a parsed
    document, and the process-wide cache of classified responses
    (`checked_content`). Library calls whose behaviour is not part of the
    helper (gzip, the UTF-8 codec, `mimetypes`, Tika, `rdflib`'s format
    guess, lxml and `json.loads`) are the fields of `Oracles`. */
module Content {
  import opened Wrappers
  import opened Strings
  import opened Values
  import opened AcceptTypes
  import opened Collector
  import opened Request
  import opened Seqs

  /** Text as bytes, one byte per character (the markers below are ASCII). */
  function Ascii(s: string): (r: Bytes)
    ensures |r| == |s|
  {
    seq(|s|, i requires 0 <= i < |s| => (s[i] as int % 256) as Byte)
  }

  /** ASCII lower-casing of bytes, which is what `re.IGNORECASE` does to a
      bytes pattern. */
  function LowerBytes(b: Bytes): (r: Bytes)
    ensures |r| == |b|
    ensures forall i :: 0 <= i < |b| ==> (65 <= b[i] <= 90 ==> r[i] == b[i] + 32) && (!(65 <= b[i] <= 90) ==> r[i] == b[i])
  {
    seq(|b|, i requires 0 <= i < |b| => if 65 <= b[i] <= 90 then b[i] + 32 else b[i])
  }

  /** Lower-cased bytes hold no ASCII capital, so lower-casing again
      changes nothing. */
  lemma LowerBytesLowers(b: Bytes)
    ensures forall i :: 0 <= i < |b| ==> !(65 <= LowerBytes(b)[i] <= 90)
    ensures LowerBytes(LowerBytes(b)) == LowerBytes(b)
  {
  }

  const DoctypeMarker: Bytes := Ascii("<!doctype html>")
  const HtmlMarker: Bytes := Ascii("<html")
  const Newline: Byte := 10

  /** The body looks like HTML: it contains `<!doctype html>` or `<html`,
      in any letter case. Stripping the body first, as the source does,
      cannot change the outcome, since neither marker starts or ends with
      whitespace. */
  predicate LooksLikeHtml(body: Bytes) {
    Contains(LowerBytes(body), DoctypeMarker) || Contains(LowerBytes(body), HtmlMarker)
  }

  /* ---------------------------------------------------------------- */
  /* Headers                                                            */
  /* ---------------------------------------------------------------- */

  /** `dict(getheaders()).get(name)`: the name must match exactly and the
      last field of that name wins. */
  function HeaderGet(hs: Headers, name: string): (r: Option<string>)
    ensures r.None? <==> forall i :: 0 <= i < |hs| ==> hs[i].0 != name
    ensures r.Some? ==> exists i :: 0 <= i < |hs| && hs[i] == (name, r.value) && forall j :: i < j < |hs| ==> hs[j].0 != name
  {
    if |hs| == 0 then None
    else if hs[|hs| - 1].0 == name then Some(hs[|hs| - 1].1)
    else
      var r := HeaderGet(hs[..|hs| - 1], name);
      HeaderGetStep(hs, name, r);
      r
  }

  /** `HeaderGet`'s contract carries over from the fields before the last
      one when the last one has another name. */
  lemma HeaderGetStep(hs: Headers, name: string, r: Option<string>)
    requires |hs| > 0 && hs[|hs| - 1].0 != name
    requires var init := hs[..|hs| - 1];
             r.None? <==> forall i :: 0 <= i < |init| ==> init[i].0 != name
    requires var init := hs[..|hs| - 1];
             r.Some? ==> exists i :: 0 <= i < |init| && init[i] == (name, r.value) && forall j :: i < j < |init| ==> init[j].0 != name
    ensures r.None? <==> forall i :: 0 <= i < |hs| ==> hs[i].0 != name
    ensures r.Some? ==> exists i :: 0 <= i < |hs| && hs[i] == (name, r.value) && forall j :: i < j < |hs| ==> hs[j].0 != name
  {
    var init := hs[..|hs| - 1];
    assert forall i :: 0 <= i < |init| ==> init[i] == hs[i];
    if r.Some? {
      var i :| 0 <= i < |init| && init[i] == (name, r.value) && forall j :: i < j < |init| ==> init[j].0 != name;
      assert forall j :: i < j < |hs| ==> hs[j].0 != name;
    }
  }

  /** `info().get(name)`: the name matches in any letter case and the first
      field of that name wins. */
  function InfoGet(hs: Headers, name: string): (r: Option<string>)
    ensures r.None? <==> forall i :: 0 <= i < |hs| ==> Lower(hs[i].0) != Lower(name)
    ensures r.Some? ==> exists i :: 0 <= i < |hs| && Lower(hs[i].0) == Lower(name) && hs[i].1 == r.value
                                    && forall j :: 0 <= j < i ==> Lower(hs[j].0) != Lower(name)
  {
    if |hs| == 0 then None
    else if Lower(hs[0].0) == Lower(name) then Some(hs[0].1)
    else
      var r := InfoGet(hs[1..], name);
      assert forall i :: 1 <= i < |hs| ==> hs[1..][i - 1] == hs[i];
      r
  }

  /** The response declares a gzip content encoding. */
  predicate IsGzip(hs: Headers) {
    InfoGet(hs, "Content-Encoding") == Some("gzip")
  }

  /** The response declares zipped content. */
  predicate IsZip(hs: Headers) {
    InfoGet(hs, "Content-Type") == Some("application/zip")
  }

  /** The declared content type: `Content-Type`, or `content-type` when the
      former is missing or empty. */
  function DeclaredContentType(hs: Headers): (r: Option<string>)
    ensures HeaderGet(hs, "Content-Type").Some? && HeaderGet(hs, "Content-Type").value != "" ==> r == HeaderGet(hs, "Content-Type")
    ensures HeaderGet(hs, "Content-Type").None? || HeaderGet(hs, "Content-Type").value == "" ==> r == HeaderGet(hs, "content-type")
  {
    match HeaderGet(hs, "Content-Type")
    case Some(v) => if v != "" then Some(v) else HeaderGet(hs, "content-type")
    case None => HeaderGet(hs, "content-type")
  }

  /** The declared size: `Content-Length` read as an integer, then
      `content-length` when the former reads as zero; a missing or
      unreadable field counts as 0. */
  function ContentLength(hs: Headers): (r: int)
    ensures HeaderGet(hs, "Content-Length").None? ==> r == 0
    ensures HeaderGet(hs, "Content-Length").Some? && ParseInt(HeaderGet(hs, "Content-Length").value).None? ==> r == 0
    ensures HeaderGet(hs, "Content-Length").Some? && ParseInt(HeaderGet(hs, "Content-Length").value).Some?
            && ParseInt(HeaderGet(hs, "Content-Length").value).value != 0
            ==> r == ParseInt(HeaderGet(hs, "Content-Length").value).value
    ensures ParseInt(HeaderGet(hs, "Content-Length").GetOr("")) == Some(0)
            ==> r == ParseInt(HeaderGet(hs, "content-length").GetOr("")).GetOr(0)
    ensures r != 0 ==> ParseInt(HeaderGet(hs, "Content-Length").GetOr("")) == Some(r)
                       || ParseInt(HeaderGet(hs, "content-length").GetOr("")) == Some(r)
  {
    match HeaderGet(hs, "Content-Length")
    case None => 0
    case Some(v) =>
      match ParseInt(v)
      case None => 0
      case Some(n) =>
        if n != 0 then n
        else
          match HeaderGet(hs, "content-length")
          case None => 0
          case Some(w) => ParseInt(w).GetOr(0)
  }

  /** `sys.getsizeof` of a bytes object on 64-bit CPython: 33 bytes of
      object header plus the contents. */
  function SizeOf(b: Bytes): int {
    33 + |b|
  }

  /* ---------------------------------------------------------------- */
  /* Library behaviour                                                  */
  /* ---------------------------------------------------------------- */

  /** What lxml's recovering parser makes of a body: the root tag and the
      document serialized again. */
  datatype XmlTree = XmlTree(tag: string, serialized: Bytes)

  /** The answer of Tika: a failure, or its metadata, which may lack a
      content type. */
  datatype TikaAnswer = TikaFailed | TikaContentType(contentType: Option<string>)

  datatype Oracles = Oracles(
    gunzip: Bytes -> Option<Bytes>,
    isUtf8: Bytes -> bool,
    repairUtf8: Bytes -> Bytes,
    guessMimeType: string -> Option<string>,
    tika: Bytes -> TikaAnswer,
    guessRdfFormat: string -> Option<string>,
    parseXml: Bytes -> Option<XmlTree>,
    parseJson: Bytes -> Option<Value>
  )

  /* ---------------------------------------------------------------- */
  /* The body                                                           */
  /* ---------------------------------------------------------------- */

  /** `read(max_content_size)`: at most that many bytes of the body. */
  function ReadAtMost(body: Bytes, max: nat): (r: Bytes)
    ensures IsPrefix(r, body)
    ensures |r| == if |body| <= max then |body| else max
  {
    if |body| <= max then body else body[..max]
  }

  /** The stored body: bytes that are not valid UTF-8 are repaired, and a
      truncated body is cut back to its last complete line. */
  function StoredBody(read: Bytes, truncated: bool, env: Oracles): (r: Bytes)
    ensures var text := if |read| > 0 && !env.isUtf8(read) then env.repairUtf8(read) else read;
      && (!truncated ==> r == text)
      && (truncated && Newline !in text ==> r == text)
      && (truncated && Newline in text ==> IsPrefix(r + [Newline], text) && Newline !in text[|r| + 1..])
  {
    var text := if |read| > 0 && !env.isUtf8(read) then env.repairUtf8(read) else read;
    if truncated then
      var r := BeforeLast(text, Newline);
      assert Newline in text ==> (r + [Newline] == text[..|r| + 1]);
      r
    else text
  }

  /* ---------------------------------------------------------------- */
  /* The content type                                                   */
  /* ---------------------------------------------------------------- */

  /** The content type to classify by: the declared one, else the guess
      from the URL's extension, else `text/html` for a body that looks like
      HTML, else Tika's (`application/octet-stream` when Tika fails). Tika
      metadata without a content type makes the later substring test raise
      `TypeError`. */
  function ChooseContentType(declared: Option<string>, url: string, body: Bytes, env: Oracles): (r: Result<string, string>)
    ensures declared.Some? ==> r == Success(declared.value)
    ensures declared.None? && env.guessMimeType(url).Some? ==> r == Success(env.guessMimeType(url).value)
    ensures declared.None? && env.guessMimeType(url).None? && LooksLikeHtml(body) ==> r == Success("text/html")
    ensures r.Failure? <==>
      declared.None? && env.guessMimeType(url).None? && !LooksLikeHtml(body) && env.tika(body) == TikaContentType(None)
  {
    if declared.Some? then Success(declared.value)
    else if env.guessMimeType(url).Some? then Success(env.guessMimeType(url).value)
    else if LooksLikeHtml(body) then Success("text/html")
    else
      match env.tika(body)
      case TikaFailed => Success("application/octet-stream")
      case TikaContentType(ct) => if ct.Some? then Success(ct.value) else Failure("TypeError")
  }

  /** A declared XHTML type on a body that does not look like HTML is
      treated as generic XML. */
  function XhtmlCheck(ct: string, body: Bytes): (r: string)
    ensures r != ct ==> Contains(ct, "application/xhtml+xml") && !LooksLikeHtml(body) && r == "text/xml"
    ensures Contains(ct, "application/xhtml+xml") && !LooksLikeHtml(body) ==> r == "text/xml"
  {
    if Contains(ct, "application/xhtml+xml") && !LooksLikeHtml(body) then "text/xml" else ct
  }

  /** The media types `handle_content` assigns to `rdflib`'s format guesses
      for plain-text responses. Its `xml` entry is never used: an `xml`
      guess is handled before the table is consulted. */
  const GuessedTypes: map<string, string> := map[
    "xml" := "application/xml", "json-ld" := "application/ld+json", "turtle" := "text/ttl",
    "rdfa" := "application/xhtml+xml", "n3" := "text/rdf+n3", "nt" := "application/n-triples",
    "nquads" := "application/n-quads", "trix" := "text/xml"
  ]

  /** A plain-text response is re-typed by the URL's extension: an XML
      guess makes it XML, any other guess RDF (with the table's media type,
      or `application/rdf+` and the guess); without a guess it stays TEXT. */
  function PlainText(format: Option<Format>, ct: string, url: string, env: Oracles): (r: (Option<Format>, string))
    ensures !Contains(ct, "text/plain") ==> r == (format, ct)
    ensures Contains(ct, "text/plain") && env.guessRdfFormat(url).None? ==> r == (Some(TEXT), ct)
    ensures Contains(ct, "text/plain") && env.guessRdfFormat(url) == Some("xml") ==> r == (Some(XML), "application/xml")
    ensures Contains(ct, "text/plain") && env.guessRdfFormat(url).Some? && env.guessRdfFormat(url).value != "xml"
            ==> r.0 == Some(RDF)
                && (env.guessRdfFormat(url).value in GuessedTypes ==> r.1 == GuessedTypes[env.guessRdfFormat(url).value])
                && (env.guessRdfFormat(url).value !in GuessedTypes ==> r.1 == "application/rdf+" + env.guessRdfFormat(url).value)
  {
    if !Contains(ct, "text/plain") then (format, ct)
    else
      match env.guessRdfFormat(url)
      case None => (Some(TEXT), ct)
      case Some(g) =>
        if g == "xml" then (Some(XML), "application/xml")
        else if g in GuessedTypes then (Some(RDF), GuessedTypes[g])
        else (Some(RDF), "application/rdf+" + g)
  }

  /* ---------------------------------------------------------------- */
  /* The classification scan                                            */
  /* ---------------------------------------------------------------- */

  /** The Accept members whose name marks a JSON flavour. */
  const JsonMembers: set<AcceptType> := {Json, Jsonld, DataciteJson, Schemaorg}

  /** The Accept members whose name marks an RDF serialization. The names
      `ntriples`, `ttl` and `n3` the source also lists belong to no member. */
  const RdfMembers: set<AcceptType> := {Nt, Rdf, Rdfjson, Rdfxml, Turtle}

  /** The root tag matches `(\{.+\})?RDF` at its start: it begins with
      `RDF`, or with a braced namespace of at least one character (no line
      break) directly followed by `RDF`. */
  predicate RdfRoot(tag: string) {
    IsPrefix("RDF", tag)
    || (|tag| > 0 && tag[0] == '{' &&
        exists j :: 2 <= j < |tag| && tag[j] == '}' && '\n' !in tag[1..j] && OccursAt(tag, "RDF", j + 1))
  }

  /** A namespaced RDF root such as the one of RDF/XML documents
      (`{http://www.w3.org/1999/02/22-rdf-syntax-ns#}RDF`) is recognised. */
  lemma NamespacedRdfRoot(ns: string, rest: string)
    requires |ns| > 0 && '\n' !in ns
    ensures RdfRoot("{" + ns + "}RDF" + rest)
  {
    var tag := "{" + ns + "}RDF" + rest;
    var j := |ns| + 1;
    assert tag[j] == '}';
    assert tag[1..j] == ns;
    assert tag[j + 1..j + 4] == "RDF";
  }

  /** A recognised RDF root names `RDF`. */
  lemma RdfRootNamesRdf(tag: string)
    requires RdfRoot(tag)
    ensures Contains(tag, "RDF")
  {
    if !IsPrefix("RDF", tag) {
      var j :| 2 <= j < |tag| && tag[j] == '}' && '\n' !in tag[1..j] && OccursAt(tag, "RDF", j + 1);
    } else {
      assert OccursAt(tag, "RDF", 0);
    }
  }

  /** What the scan carries: the content type, the format so far, the
      parsed document and the stored body. */
  datatype ScanState = ScanState(ct: string, format: Option<Format>, parse: Parsed, content: Bytes)

  /** What the scan consults besides the state. */
  datatype ScanContext = ScanContext(truncated: bool, ignoreHtml: bool, env: Oracles)

  /** What one matching member decides: `Some` ends the scan with the new
      state, `None` moves on to the next member with the state unchanged.
      HTML ends it (dropping the parsed document when HTML is ignored); XML
      ends it as RDF or XML by the root tag; JSON ends it when the body
      parses; an RDF member ends it as RDF and `linkset` as JSON. */
  function Decide(t: AcceptType, st: ScanState, cx: ScanContext): (r: Option<ScanState>)
    ensures t == Html ==> r == Some(st.(format := Some(HTML), parse := if cx.ignoreHtml then NoParse else st.parse))
    ensures t != Html && (t == Xml || IsSuffix("+xml", st.ct)) ==>
      && r.Some? && r.value.ct == st.ct
      && (r.value.format == Some(RDF) <==> cx.env.parseXml(st.content).Some? && RdfRoot(cx.env.parseXml(st.content).value.tag))
      && (r.value.format == Some(XML) <==> !(cx.env.parseXml(st.content).Some? && RdfRoot(cx.env.parseXml(st.content).value.tag)))
      && (r.value.content != st.content ==> cx.truncated)
    ensures r.Some? && r.value.format == Some(JSON) && t != Linkset ==>
      (t in JsonMembers || IsSuffix("+json", st.ct)) && cx.env.parseJson(st.content).Some?
      && r.value.parse == JsonDoc(cx.env.parseJson(st.content).value)
    ensures r.None? ==> t !in RdfMembers && t != Linkset && t != Html && t != Xml
    ensures r.Some? ==> r.value.ct == st.ct && r.value.format.Some?
    ensures r.Some? && r.value.content != st.content ==> cx.truncated && r.value.format in {Some(RDF), Some(XML)}
  {
    if t == Html then
      Some(st.(format := Some(HTML), parse := if cx.ignoreHtml then NoParse else st.parse))
    else if t == Xml || IsSuffix("+xml", st.ct) then
      match cx.env.parseXml(st.content)
      case None => Some(st.(format := Some(XML)))
      case Some(tree) =>
        var st1 := if cx.truncated then st.(parse := RawBody(tree.serialized), content := tree.serialized) else st;
        Some(st1.(format := Some(if RdfRoot(tree.tag) then RDF else XML)))
    else
      var json := if t in JsonMembers || IsSuffix("+json", st.ct) then cx.env.parseJson(st.content) else None;
      if json.Some? then Some(st.(parse := JsonDoc(json.value), format := Some(JSON)))
      else if t in RdfMembers then Some(st.(format := Some(RDF)))
      else if t == Linkset then Some(st.(format := Some(JSON)))
      else None
  }

  /** At the `xml` member a content type ending in `+xml` becomes
      `text/xml` before it is compared. */
  function AdjustAt(t: AcceptType, ct: string): (r: string)
    ensures r == ct || (t == Xml && IsSuffix("+xml", ct) && r == "text/xml")
  {
    if t == Xml && IsSuffix("+xml", ct) then "text/xml" else ct
  }

  /** The single pass over the members `ts` in order: a member takes part
      when the content type is a substring of its Accept value
      (`ct in at.value`), and the first member that decides ends the
      scan. `handle_content` scans the whole catalogue. */
  function Scan(ts: seq<AcceptType>, st: ScanState, cx: ScanContext): (r: ScanState)
    ensures r.ct == st.ct || (IsSuffix("+xml", st.ct) && r.ct == "text/xml")
    ensures r.format != st.format ==> r.format.Some?
  {
    if |ts| == 0 then st
    else
      TextXmlIsFinal();
      var st1 := st.(ct := AdjustAt(ts[0], st.ct));
      if Contains(ts[0].Value(), st1.ct) then
        match Decide(ts[0], st1, cx)
        case Some(d) => d
        case None => Scan(ts[1..], st1, cx)
      else Scan(ts[1..], st1, cx)
  }

  /** Which member decided a scan: `-1` when none did, and then only the
      content type may have changed; otherwise a member whose Accept value
      contains the final content type, which leaves a format set and the
      body as it was, unless a truncated XML body was re-serialised. */
  lemma {:induction false} ScanDecidedBy(ts: seq<AcceptType>, st: ScanState, cx: ScanContext) returns (i: int)
    ensures -1 <= i < |ts|
    ensures i == -1 ==> Scan(ts, st, cx) == st.(ct := Scan(ts, st, cx).ct)
    ensures i >= 0 ==> Contains(ts[i].Value(), Scan(ts, st, cx).ct) && Scan(ts, st, cx).format.Some?
    ensures Scan(ts, st, cx).content == st.content
            || (cx.truncated && Scan(ts, st, cx).format in {Some(RDF), Some(XML)})
  {
    if |ts| == 0 {
      i := -1;
    } else {
      var st1 := st.(ct := AdjustAt(ts[0], st.ct));
      if Contains(ts[0].Value(), st1.ct) && Decide(ts[0], st1, cx).Some? {
        i := 0;
      } else {
        var j := ScanDecidedBy(ts[1..], st1, cx);
        i := if j == -1 then -1 else j + 1;
      }
    }
  }

  /** `text/xml` does not end in `+xml`, so the adjustment happens once. */
  lemma TextXmlIsFinal()
    ensures !IsSuffix("+xml", "text/xml")
  {
    assert "text/xml"[4] != '+';
  }

  /** The content type compared at position `i` of a scan over `ts` that
      started with `ct`: once the `xml` member is reached, a `+xml` type
      reads `text/xml`. */
  function CtAt(ts: seq<AcceptType>, i: nat, ct: string): string
    requires i < |ts|
  {
    if Xml in ts[..i + 1] && IsSuffix("+xml", ct) then "text/xml" else ct
  }

  /** The member at position `i` of `ts` takes part and decides, for a scan
      that started in state `st`. */
  predicate Fires(ts: seq<AcceptType>, i: nat, st: ScanState, cx: ScanContext)
    requires i < |ts|
  {
    Contains(ts[i].Value(), CtAt(ts, i, st.ct)) && Decide(ts[i], st.(ct := CtAt(ts, i, st.ct)), cx).Some?
  }

  /** The state in which the scan reaches position `k` when no member
      before it fired. */
  function Entering(ts: seq<AcceptType>, k: nat, st: ScanState): ScanState
    requires k <= |ts|
  {
    if k == 0 then st else st.(ct := CtAt(ts, k - 1, st.ct))
  }

  /** Adjusting the entering content type at position `k` gives the one
      compared there. */
  lemma AdjustEntering(ts: seq<AcceptType>, k: nat, st: ScanState)
    requires k < |ts|
    ensures AdjustAt(ts[k], Entering(ts, k, st).ct) == CtAt(ts, k, st.ct)
  {
    TextXmlIsFinal();
    assert ts[..k + 1] == ts[..k] + [ts[k]];
    if k > 0 {
      assert ts[..k] == ts[..k - 1 + 1];
    }
  }

  /** No member before position `k` fires. */
  predicate Quiet(ts: seq<AcceptType>, k: nat, st: ScanState, cx: ScanContext)
    requires k <= |ts|
  {
    k == 0 || (Quiet(ts, k - 1, st, cx) && !Fires(ts, k - 1, st, cx))
  }

  lemma {:induction false} QuietBefore(ts: seq<AcceptType>, k: nat, st: ScanState, cx: ScanContext)
    requires k <= |ts|
    requires forall j :: 0 <= j < k ==> !Fires(ts, j, st, cx)
    ensures Quiet(ts, k, st, cx)
  {
    if k > 0 {
      QuietBefore(ts, k - 1, st, cx);
    }
  }

  /** Before position `k`, the scan only adjusts the content type. */
  lemma {:induction false} ScanPrefix(ts: seq<AcceptType>, st: ScanState, cx: ScanContext, k: nat)
    requires k <= |ts| && Quiet(ts, k, st, cx)
    ensures Scan(ts, st, cx) == Scan(ts[k..], Entering(ts, k, st), cx)
  {
    if k > 0 {
      ScanPrefix(ts, st, cx, k - 1);
      ScanSkips(ts, st, cx, k);
    } else {
      assert ts[0..] == ts;
    }
  }

  /** A member that does not fire only passes the adjusted content type
      on. */
  lemma ScanSkips(ts: seq<AcceptType>, st: ScanState, cx: ScanContext, k: nat)
    requires 0 < k <= |ts| && !Fires(ts, k - 1, st, cx)
    ensures Scan(ts[k - 1..], Entering(ts, k - 1, st), cx) == Scan(ts[k..], Entering(ts, k, st), cx)
  {
    var j := k - 1;
    AdjustEntering(ts, j, st);
    var ej := Entering(ts, j, st);
    assert Entering(ts, j + 1, st) == ej.(ct := CtAt(ts, j, st.ct));
    assert ts[j..][0] == ts[j] && ts[j..][1..] == ts[j + 1..];
  }

  /** The scan ends in the decision of the first member that fires. */
  lemma FirstFiringDecides(ts: seq<AcceptType>, st: ScanState, cx: ScanContext, i: nat)
    requires i < |ts| && Fires(ts, i, st, cx)
    requires forall j :: 0 <= j < i ==> !Fires(ts, j, st, cx)
    ensures Scan(ts, st, cx) == Decide(ts[i], st.(ct := CtAt(ts, i, st.ct)), cx).value
  {
    QuietBefore(ts, i, st, cx);
    ScanPrefix(ts, st, cx, i);
    AdjustEntering(ts, i, st);
  }

  /** When no member fires, the scan changes nothing but the content type. */
  lemma NoneFiresKeepsState(ts: seq<AcceptType>, st: ScanState, cx: ScanContext)
    requires forall j :: 0 <= j < |ts| ==> !Fires(ts, j, st, cx)
    ensures Scan(ts, st, cx) == Entering(ts, |ts|, st)
  {
    QuietBefore(ts, |ts|, st, cx);
    ScanPrefix(ts, st, cx, |ts|);
  }

  /** A content type is only a substring of a value that has all its
      characters. */
  lemma SubstringChars(v: string, ct: string, c: char)
    requires Contains(v, ct) && c in ct
    ensures c in v
  {
    var i :| OccursAt(v, ct, i);
    var k :| 0 <= k < |ct| && ct[k] == c;
    assert v[i + k] == v[i..i + |ct|][k];
  }

  /** A content type with a `z` (`application/zip`, say) and no `+xml`
      suffix matches no member, so the scan keeps the state it started
      with. */
  lemma ZipMatchesNothing(ts: seq<AcceptType>, st: ScanState, cx: ScanContext)
    requires 'z' in st.ct && !IsSuffix("+xml", st.ct)
    ensures Scan(ts, st, cx) == st
  {
    forall j | 0 <= j < |ts|
      ensures !Fires(ts, j, st, cx)
    {
      NoValueHasZ(ts[j]);
      if Contains(ts[j].Value(), st.ct) {
        SubstringChars(ts[j].Value(), st.ct, 'z');
      }
    }
    NoneFiresKeepsState(ts, st, cx);
  }

  /** `text/html` is first matched by the `html` member: the format is HTML
      and the parsed document is dropped exactly when HTML is ignored. */
  lemma HtmlMatchesHtml(st: ScanState, cx: ScanContext)
    requires st.ct == "text/html"
    ensures Scan(Catalog, st, cx) == st.(format := Some(HTML), parse := if cx.ignoreHtml then NoParse else st.parse)
  {
    var ts := Catalog;
    CatalogHead();
    NotInDataciteJson();
    NotInDataciteXml();
    NotInSchemaorg();
    HtmlValueHasTextHtml();
    assert Scan(ts, st, cx) == Scan(ts[1..], st, cx);
    assert Scan(ts[1..], st, cx) == Scan(ts[2..], st, cx);
    assert Scan(ts[2..], st, cx) == Scan(ts[3..], st, cx);
  }

  /** The first four members of the catalogue, as the scan meets them. */
  lemma CatalogHead()
    ensures Catalog[0] == DataciteJson && Catalog[1..][0] == DataciteXml
    ensures Catalog[2..][0] == Schemaorg && Catalog[3..][0] == Html
    ensures Catalog[1..][1..] == Catalog[2..] && Catalog[2..][1..] == Catalog[3..]
  {
  }

  lemma HtmlValueHasTextHtml()
    ensures Contains(Html.Value(), "text/html")
  {
    assert Html.Value() == "text/html" + "," + " application/xhtml+xml";
    assert OccursAt(Html.Value(), "text/html", 0);
  }

  /** An Accept value whose items all lack a character of `text` does
      not contain `text`. */
  lemma AvoidsText(items: seq<string>, c: char, text: string)
    requires c in text && c != ',' && forall i :: 0 <= i < |items| ==> c !in items[i]
    ensures !Contains(Join(items, ","), text)
  {
    JoinAvoids(items, ",", c);
    if Contains(Join(items, ","), text) {
      SubstringChars(Join(items, ","), text, c);
    }
  }

  /** The `datacite_json` value has no `x`, so it does not contain
      `text/html`. */
  lemma NotInDataciteJson()
    ensures !Contains(DataciteJson.Value(), "text/html")
  {
    assert 'x' !in DataciteJsonItems[0];
    AvoidsText(DataciteJsonItems, 'x', "text/html");
  }

  /** The `datacite_xml` value has no `h`. */
  lemma NotInDataciteXml()
    ensures !Contains(DataciteXml.Value(), "text/html")
  {
    assert 'h' !in DataciteXmlItems[0];
    AvoidsText(DataciteXmlItems, 'h', "text/html");
  }

  /** The `schemaorg` value has no `x`. */
  lemma NotInSchemaorg()
    ensures !Contains(Schemaorg.Value(), "text/html")
  {
    SchemaorgLacksX();
    AvoidsText(SchemaorgItems, 'x', "text/html");
  }

  lemma SchemaorgLacksX()
    ensures forall i :: 0 <= i < |SchemaorgItems| ==> 'x' !in SchemaorgItems[i]
  {
    assert 'x' !in SchemaorgItems[0];
    assert 'x' !in SchemaorgItems[1];
  }

  /* ---------------------------------------------------------------- */
  /* handle_content                                                     */
  /* ---------------------------------------------------------------- */

  /** One entry of `checked_content`. */
  datatype CacheEntry = CacheEntry(
    format: Option<Format>, parse: Parsed, content: Option<Bytes>,
    contentType: Option<string>, size: int, truncated: bool)

  /** `RequestHelper.checked_content`, shared by all helpers. Entries are
      keyed by the text whose hash the source uses. */
  type Cache = map<string, CacheEntry>

  /** `reset_cache`. */
  function ResetCache(): (c: Cache)
    ensures forall k :: k !in c
  {
    map[]
  }

  /** The cache key: the final URL followed by the declared content type,
      `None` standing for a missing one. */
  function CacheKey(url: string, ct: Option<string>): (k: string)
    ensures IsPrefix(url, k)
    ensures ct.Some? ==> k == url + ct.value
  {
    url + (if ct.Some? then ct.value else "None")
  }

  /** Two different (URL, content type) pairs can share a cache entry,
      since the key is a plain concatenation. */
  lemma CacheKeyCollides()
    ensures CacheKey("https://example.org/a", Some("text/html")) == CacheKey("https://example.org/atext/", Some("html"))
  {
  }

  /** The outcome of `handle_content`: the helper, the cache and the
      returned format. */
  datatype Handled = Handled(helper: Helper, cache: Cache, format: Option<Format>)

  /** The as-written gzip step (`handle_content` before anything is read):
      it decompresses the body the helper already holds. A fresh helper
      holds none, and `gzip.decompress(None)` reads an empty stream and
      gives the empty body; a previous body that is not gzip data raises. */
  function GunzipStale(h: Helper, env: Oracles): (r: Result<Helper, string>)
    ensures h.responseContent.None? ==> r.Success? && r.value.responseContent == Some([])
    ensures r.Failure? <==> h.responseContent.Some? && env.gunzip(h.responseContent.value).None?
    ensures r.Success? ==> r.value == h.(responseContent := r.value.responseContent)
    ensures r.Success? && h.responseContent.Some? ==> r.value.responseContent == env.gunzip(h.responseContent.value)
  {
    match h.responseContent
    case None => Success(h.(responseContent := Some([])))
    case Some(c) =>
      match env.gunzip(c)
      case None => Failure("BadGzipFile")
      case Some(d) => Success(h.(responseContent := Some(d)))
  }

  /** The received body as classified: read up to the limit, decompressed
      first when `gunzip` is set, then repaired and cut as `StoredBody`
      says. */
  function Received(body: Bytes, max: nat, truncated: bool, gunzip: bool, env: Oracles): (r: Result<Bytes, string>)
    ensures !gunzip ==> r == Success(StoredBody(ReadAtMost(body, max), truncated, env))
    ensures gunzip ==> (r.Failure? <==> env.gunzip(ReadAtMost(body, max)).None?)
    ensures gunzip && r.Success? ==> r.value == StoredBody(env.gunzip(ReadAtMost(body, max)).value, truncated, env)
  {
    var read := ReadAtMost(body, max);
    if !gunzip then Success(StoredBody(read, truncated, env))
    else
      match env.gunzip(read)
      case None => Failure("BadGzipFile")
      case Some(d) => Success(StoredBody(d, truncated, env))
  }

  /** A status-200 response that is not cached: the body is read and
      classified, and the result is stored under `key`. */
  function Classify(h: Helper, cache: Cache, key: string, rs: Response, format: Option<Format>,
                    ignoreHtml: bool, gunzip: bool, env: Oracles): (r: Result<Handled, string>)
    ensures r.Success? ==> key in r.value.cache && r.value.cache == cache[key := r.value.cache[key]]
    ensures r.Success? ==> r.value.cache[key].format == r.value.format
    ensures r.Success? ==> r.value.cache[key].parse == r.value.helper.parseResponse
    ensures r.Success? ==> r.value.cache[key].content == r.value.helper.responseContent
    ensures r.Success? ==> r.value.cache[key].contentType == r.value.helper.contentType
    ensures r.Success? ==> r.value.cache[key].size == r.value.helper.contentSize
    ensures r.Success? ==> r.value.helper.contentType.Some? && !Contains(r.value.helper.contentType.value, ";")
    ensures r.Success? ==> r.value.cache[key].truncated == (ContentLength(rs.headers) > h.maxContentSize)
    ensures r.Success? ==> r.value.helper.contentSize == ContentLength(rs.headers)
                           || (ContentLength(rs.headers) == 0 && r.value.helper.contentSize == SizeOf(ReadAtMost(rs.body, h.maxContentSize)))
    ensures var b := Received(rs.body, h.maxContentSize, ContentLength(rs.headers) > h.maxContentSize, gunzip, env);
      && (r.Failure? <==> b.Failure? || ChooseContentType(h.contentType, h.requestUrl, b.value, env).Failure?)
      && (r.Success? ==> r.value.helper.responseContent == Some(b.value)
                         || (ContentLength(rs.headers) > h.maxContentSize && r.value.format in {Some(RDF), Some(XML)}))
  {
    var declared := ContentLength(rs.headers);
    var truncated := declared > h.maxContentSize;
    var size := if declared == 0 then SizeOf(ReadAtMost(rs.body, h.maxContentSize)) else declared;
    match Received(rs.body, h.maxContentSize, truncated, gunzip, env)
    case Failure(e) => Failure(e)
    case Success(body) =>
      match ChooseContentType(h.contentType, h.requestUrl, body, env)
      case Failure(e) => Failure(e)
      case Success(ct1) =>
        var (format1, ct2) := PlainText(format, XhtmlCheck(ct1, body), h.requestUrl, env);
        var ct3 := Before(ct2, ";");
        var st := Scan(Catalog, ScanState(ct3, format1, RawBody(body), body), ScanContext(truncated, ignoreHtml, env));
        assert !Contains(st.ct, ";") by { ScanKeepsNoSemicolon(Catalog, ScanState(ct3, format1, RawBody(body), body), ScanContext(truncated, ignoreHtml, env)); }
        assert st.content == body || (truncated && st.format in {Some(RDF), Some(XML)}) by {
          var _ := ScanDecidedBy(Catalog, ScanState(ct3, format1, RawBody(body), body), ScanContext(truncated, ignoreHtml, env));
        }
        var h1 := h.(contentSize := size, responseContent := Some(st.content), contentType := Some(st.ct), parseResponse := st.parse);
        Success(Handled(h1, cache[key := CacheEntry(st.format, st.parse, Some(st.content), Some(st.ct), size, truncated)], st.format))
  }

  /** The format a classified response ends with comes from its final
      content type: either some catalogue member whose Accept value
      contains that type decided it, or no member did and the format is
      the one handed in, unless the chosen type was `text/plain` and was
      re-sniffed. */
  lemma ClassifyFormat(h: Helper, cache: Cache, key: string, rs: Response, format: Option<Format>,
                       ignoreHtml: bool, gunzip: bool, env: Oracles) returns (t: Option<AcceptType>)
    requires Classify(h, cache, key, rs, format, ignoreHtml, gunzip, env).Success?
    ensures var r := Classify(h, cache, key, rs, format, ignoreHtml, gunzip, env).value;
      && (t.Some? ==> t.value in Catalog && Contains(t.value.Value(), r.helper.contentType.value) && r.format.Some?)
      && (t.None? ==> r.format == format
                      || Contains(ChooseContentType(h.contentType, h.requestUrl,
                                    Received(rs.body, h.maxContentSize, ContentLength(rs.headers) > h.maxContentSize, gunzip, env).value,
                                    env).value, "text/plain"))
  {
    var truncated := ContentLength(rs.headers) > h.maxContentSize;
    var body := Received(rs.body, h.maxContentSize, truncated, gunzip, env).value;
    var ct1 := ChooseContentType(h.contentType, h.requestUrl, body, env).value;
    var (format1, ct2) := PlainText(format, XhtmlCheck(ct1, body), h.requestUrl, env);
    var st0 := ScanState(Before(ct2, ";"), format1, RawBody(body), body);
    var cx := ScanContext(truncated, ignoreHtml, env);
    var i := ScanDecidedBy(Catalog, st0, cx);
    t := if i == -1 then None else Some(Catalog[i]);
    if i == -1 && !Contains(ct1, "text/plain") {
      assert XhtmlCheck(ct1, body) == ct1 || XhtmlCheck(ct1, body) == "text/xml";
      if XhtmlCheck(ct1, body) == "text/xml" {
        assert !Contains("text/xml", "text/plain");
      }
    }
  }

  /** The scan never introduces a `;` into the content type. */
  lemma {:induction false} ScanKeepsNoSemicolon(ts: seq<AcceptType>, st: ScanState, cx: ScanContext)
    requires !Contains(st.ct, ";")
    ensures !Contains(Scan(ts, st, cx).ct, ";")
  {
    if |ts| > 0 {
      var ct1 := AdjustAt(ts[0], st.ct);
      if ct1 != st.ct {
        assert ';' !in ct1;
        NoCharNoContains(ct1, ';');
      }
      ScanKeepsNoSemicolon(ts[1..], st.(ct := ct1), cx);
    }
  }

  /** A one-character pattern occurs only where its character does. */
  lemma NoCharNoContains(s: string, c: char)
    requires c !in s
    ensures !Contains(s, [c])
  {
    forall i | 0 <= i < |s|
      ensures !OccursAt(s, [c], i)
    {
      assert s[i..i + 1][0] == s[i];
    }
  }

  /** `handle_content` for the helper's state after `request_content`,
      with the gzip step moved after the body is read. Without a response
      the format is HTML and nothing changes. A zipped response has no
      format. A response whose URL and declared type are cached gets the
      cached classification. Otherwise only a status-200 response is read,
      classified and cached; any other response keeps the default
      format. */
  function HandleContent(h: Helper, cache: Cache, resp: Option<Response>, ignoreHtml: bool, env: Oracles): (r: Result<Handled, string>)
    ensures resp.None? ==> r == Success(Handled(h, cache, Some(HTML)))
    ensures resp.Some? && r.Success? ==>
      && r.value.helper.responseStatus == Some(resp.value.status)
      && r.value.helper.redirectUrl == Some(resp.value.url)
      && r.value.helper.responseHeader == Some(resp.value.headers)
    ensures resp.Some? && CacheKey(resp.value.url, DeclaredContentType(resp.value.headers)) in cache ==>
      var e := cache[CacheKey(resp.value.url, DeclaredContentType(resp.value.headers))];
      && r.Success? && r.value.cache == cache && r.value.format == e.format
      && r.value.helper.parseResponse == e.parse && r.value.helper.responseContent == e.content
      && r.value.helper.contentType == e.contentType && r.value.helper.contentSize == e.size
    ensures resp.Some? && r.Success? && r.value.cache != cache ==>
      resp.value.status == 200 && CacheKey(resp.value.url, DeclaredContentType(resp.value.headers)) !in cache
      && CacheKey(resp.value.url, DeclaredContentType(resp.value.headers)) in r.value.cache
      && r.value.cache == cache[CacheKey(resp.value.url, DeclaredContentType(resp.value.headers)) := r.value.cache[CacheKey(resp.value.url, DeclaredContentType(resp.value.headers))]]
    ensures resp.Some? && resp.value.status != 200 ==> r.Success? && r.value.cache == cache
    ensures r.Failure? ==> resp.Some? && resp.value.status == 200
  {
    match resp
    case None => Success(Handled(h, cache, Some(HTML)))
    case Some(rs) => Respond(h, cache, rs, ignoreHtml, IsGzip(rs.headers), env)
  }

  /** The helper state `handle_content` classifies with: the response's
      fields recorded, the body dropped for zipped content. */
  function Recorded(h: Helper, rs: Response): Helper {
    (if IsZip(rs.headers) then h.(responseContent := None) else h)
      .(responseHeader := Some(rs.headers), redirectUrl := Some(rs.url), responseStatus := Some(rs.status),
        contentType := DeclaredContentType(rs.headers))
  }

  /** `handle_content` once a response is there; `gunzip` says whether the
      body read is decompressed. */
  function Respond(h: Helper, cache: Cache, rs: Response, ignoreHtml: bool, gunzip: bool, env: Oracles): (r: Result<Handled, string>)
    ensures r.Success? ==>
      && r.value.helper.responseStatus == Some(rs.status)
      && r.value.helper.redirectUrl == Some(rs.url)
      && r.value.helper.responseHeader == Some(rs.headers)
    ensures CacheKey(rs.url, DeclaredContentType(rs.headers)) in cache ==>
      var e := cache[CacheKey(rs.url, DeclaredContentType(rs.headers))];
      && r.Success? && r.value.cache == cache && r.value.format == e.format
      && r.value.helper.parseResponse == e.parse && r.value.helper.responseContent == e.content
      && r.value.helper.contentType == e.contentType && r.value.helper.contentSize == e.size
    ensures r.Success? && r.value.cache != cache ==>
      rs.status == 200 && CacheKey(rs.url, DeclaredContentType(rs.headers)) !in cache
      && CacheKey(rs.url, DeclaredContentType(rs.headers)) in r.value.cache
      && r.value.cache == cache[CacheKey(rs.url, DeclaredContentType(rs.headers)) := r.value.cache[CacheKey(rs.url, DeclaredContentType(rs.headers))]]
    ensures rs.status != 200 ==> r.Success? && r.value.cache == cache
    ensures r.Failure? ==> rs.status == 200
  {
    var hs := rs.headers;
    var zipped := IsZip(hs);
    var format := if zipped then None else Some(HTML);
    var h1 := Recorded(h, rs);
    var key := CacheKey(rs.url, DeclaredContentType(hs));
    if key in cache then
      var e := cache[key];
      Success(Handled(h1.(checkedContentHash := Some(key), parseResponse := e.parse, responseContent := e.content,
                          contentType := e.contentType, contentSize := e.size), cache, e.format))
    else if rs.status != 200 then Success(Handled(h1, cache, format))
    else Classify(h1, cache, key, rs, format, ignoreHtml, gunzip, env)
  }

  /** `handle_content` as written: the gzip step runs before the body is
      read, on whatever body the helper held before, and the body read
      afterwards is classified without being decompressed. */
  function HandleContentAsWritten(h: Helper, cache: Cache, resp: Option<Response>, ignoreHtml: bool, env: Oracles): (r: Result<Handled, string>)
    ensures resp.None? ==> r == Success(Handled(h, cache, Some(HTML)))
    ensures resp.Some? && !IsGzip(resp.value.headers) ==> r == HandleContent(h, cache, resp, ignoreHtml, env)
    ensures resp.Some? && r.Success? ==>
      && r.value.helper.responseStatus == Some(resp.value.status)
      && r.value.helper.redirectUrl == Some(resp.value.url)
      && r.value.helper.responseHeader == Some(resp.value.headers)
    ensures r.Failure? ==>
      resp.Some? && (resp.value.status == 200 || (h.responseContent.Some? && env.gunzip(h.responseContent.value).None?))
    ensures resp.Some? && h.responseContent.None? && resp.value.status != 200 ==> r.Success?
  {
    match resp
    case None => Success(Handled(h, cache, Some(HTML)))
    case Some(rs) =>
      if IsGzip(rs.headers) then
        match GunzipStale(h, env)
        case Failure(e) => Failure(e)
        case Success(h1) => Respond(h1, cache, rs, ignoreHtml, false, env)
      else Respond(h, cache, rs, ignoreHtml, false, env)
  }

  /* ---------------------------------------------------------------- */
  /* Properties of handle_content                                       */
  /* ---------------------------------------------------------------- */

  /** A declared type the preparation steps leave alone: no XHTML, no plain
      text and no parameters. */
  lemma PlainDeclaredType(ct: string, body: Bytes, format: Option<Format>, url: string, env: Oracles, c: char)
    requires c in "application/xhtml+xml" && c in "text/plain"
    requires c !in ct && ';' !in ct
    ensures XhtmlCheck(ct, body) == ct
    ensures PlainText(format, ct, url, env) == (format, ct)
    ensures Before(ct, ";") == ct
  {
    if Contains(ct, "application/xhtml+xml") {
      SubstringChars(ct, "application/xhtml+xml", c);
    }
    if Contains(ct, "text/plain") {
      SubstringChars(ct, "text/plain", c);
    }
    NoCharNoContains(ct, ';');
  }

  /** Classifying a body whose declared type the preparation steps leave
      alone is the scan of that type. */
  lemma ClassifyDeclared(h: Helper, cache: Cache, key: string, rs: Response, format: Option<Format>,
                         ignoreHtml: bool, gunzip: bool, env: Oracles, body: Bytes)
    requires h.contentType.Some? && ';' !in h.contentType.value
    requires ('x' !in h.contentType.value) || ('p' !in h.contentType.value)
    requires Received(rs.body, h.maxContentSize, ContentLength(rs.headers) > h.maxContentSize, gunzip, env) == Success(body)
    ensures var st := Scan(Catalog, ScanState(h.contentType.value, format, RawBody(body), body),
                           ScanContext(ContentLength(rs.headers) > h.maxContentSize, ignoreHtml, env));
      var r := Classify(h, cache, key, rs, format, ignoreHtml, gunzip, env);
      && r.Success? && r.value.format == st.format
      && r.value.helper.parseResponse == st.parse && r.value.helper.contentType == Some(st.ct)
      && r.value.helper.responseContent == Some(st.content)
  {
    var c := if 'x' !in h.contentType.value then 'x' else 'p';
    SharedLetters();
    PlainDeclaredType(h.contentType.value, body, format, h.requestUrl, env, c);
    ClassifyPrepared(h, cache, key, rs, format, ignoreHtml, gunzip, env, body, format, h.contentType.value);
  }

  /** `Classify` scans the prepared content type from the prepared format. */
  lemma ClassifyPrepared(h: Helper, cache: Cache, key: string, rs: Response, format: Option<Format>,
                         ignoreHtml: bool, gunzip: bool, env: Oracles, body: Bytes, format1: Option<Format>, ct3: string)
    requires Received(rs.body, h.maxContentSize, ContentLength(rs.headers) > h.maxContentSize, gunzip, env) == Success(body)
    requires ChooseContentType(h.contentType, h.requestUrl, body, env).Success?
    requires var p := PlainText(format, XhtmlCheck(ChooseContentType(h.contentType, h.requestUrl, body, env).value, body), h.requestUrl, env);
             p.0 == format1 && Before(p.1, ";") == ct3
    ensures var st := Scan(Catalog, ScanState(ct3, format1, RawBody(body), body),
                           ScanContext(ContentLength(rs.headers) > h.maxContentSize, ignoreHtml, env));
      var r := Classify(h, cache, key, rs, format, ignoreHtml, gunzip, env);
      && r.Success? && r.value.format == st.format
      && r.value.helper.parseResponse == st.parse && r.value.helper.contentType == Some(st.ct)
      && r.value.helper.responseContent == Some(st.content)
  {
  }

  /** An uncached status-200 response is classified by `Classify`. */
  lemma FreshResponseIsClassified(h: Helper, cache: Cache, rs: Response, ignoreHtml: bool, env: Oracles)
    requires rs.status == 200 && CacheKey(rs.url, DeclaredContentType(rs.headers)) !in cache
    ensures HandleContent(h, cache, Some(rs), ignoreHtml, env)
            == Classify(Recorded(h, rs), cache, CacheKey(rs.url, DeclaredContentType(rs.headers)), rs,
                        if IsZip(rs.headers) then None else Some(HTML), ignoreHtml, IsGzip(rs.headers), env)
  {
  }

  /** A zipped response that is not cached ends without a format, whatever
      its status: the `zip` branch clears the format and no Accept value
      matches `application/zip`. */
  lemma ZipHasNoFormat(h: Helper, cache: Cache, rs: Response, ignoreHtml: bool, env: Oracles)
    requires IsZip(rs.headers) && !IsGzip(rs.headers)
    requires DeclaredContentType(rs.headers) == Some("application/zip")
    requires CacheKey(rs.url, Some("application/zip")) !in cache
    ensures HandleContent(h, cache, Some(rs), ignoreHtml, env).Success?
    ensures HandleContent(h, cache, Some(rs), ignoreHtml, env).value.format.None?
  {
    if rs.status == 200 {
      FreshResponseIsClassified(h, cache, rs, ignoreHtml, env);
      ZipClassifiedWithoutFormat(h, cache, rs, ignoreHtml, env);
    } else {
      OtherStatusKeepsDefault(h, cache, rs, ignoreHtml, env);
    }
  }

  /** `x` and `p` occur in both `application/xhtml+xml` and `text/plain`. */
  lemma SharedLetters()
    ensures 'x' in "application/xhtml+xml" && 'x' in "text/plain"
    ensures 'p' in "application/xhtml+xml" && 'p' in "text/plain"
  {
  }

  lemma TextHtmlFacts()
    ensures 'p' !in "text/html" && ';' !in "text/html"
  {
  }

  lemma ZipTypeFacts()
    ensures 'x' !in "application/zip" && ';' !in "application/zip" && 'z' in "application/zip"
    ensures !IsSuffix("+xml", "application/zip")
  {
  }

  lemma ZipClassifiedWithoutFormat(h: Helper, cache: Cache, rs: Response, ignoreHtml: bool, env: Oracles)
    requires IsZip(rs.headers)
    requires DeclaredContentType(rs.headers) == Some("application/zip")
    ensures var r := Classify(Recorded(h, rs), cache, CacheKey(rs.url, Some("application/zip")), rs, None, ignoreHtml, false, env);
      r.Success? && r.value.format.None?
  {
    var ct := "application/zip";
    ZipTypeFacts();
    var h1 := Recorded(h, rs);
    var truncated := ContentLength(rs.headers) > h1.maxContentSize;
    var body := StoredBody(ReadAtMost(rs.body, h1.maxContentSize), truncated, env);
    ClassifyDeclared(h1, cache, CacheKey(rs.url, Some(ct)), rs, None, ignoreHtml, false, env, body);
    ZipMatchesNothing(Catalog, ScanState(ct, None, RawBody(body), body), ScanContext(truncated, ignoreHtml, env));
  }

  /** A status-200 HTML response that is not cached is classified as HTML;
      its body is kept as the parsed document unless HTML is ignored. */
  lemma HtmlResponseIsHtml(h: Helper, cache: Cache, rs: Response, ignoreHtml: bool, env: Oracles)
    requires rs.status == 200 && !IsZip(rs.headers) && !IsGzip(rs.headers)
    requires DeclaredContentType(rs.headers) == Some("text/html")
    requires CacheKey(rs.url, Some("text/html")) !in cache
    ensures var r := HandleContent(h, cache, Some(rs), ignoreHtml, env);
      && r.Success? && r.value.format == Some(HTML)
      && (r.value.helper.parseResponse.NoParse? <==> ignoreHtml)
      && r.value.helper.contentType == Some("text/html")
  {
    var ct := "text/html";
    TextHtmlFacts();
    var h1 := Recorded(h, rs);
    var truncated := ContentLength(rs.headers) > h1.maxContentSize;
    var body := StoredBody(ReadAtMost(rs.body, h1.maxContentSize), truncated, env);
    FreshResponseIsClassified(h, cache, rs, ignoreHtml, env);
    ClassifyDeclared(h1, cache, CacheKey(rs.url, Some(ct)), rs, Some(HTML), ignoreHtml, false, env, body);
    HtmlMatchesHtml(ScanState(ct, Some(HTML), RawBody(body), body), ScanContext(truncated, ignoreHtml, env));
  }

  /** A response that is not status 200 and not cached keeps the default
      format: HTML, or none for zipped content. */
  lemma OtherStatusKeepsDefault(h: Helper, cache: Cache, rs: Response, ignoreHtml: bool, env: Oracles)
    requires rs.status != 200
    requires CacheKey(rs.url, DeclaredContentType(rs.headers)) !in cache
    ensures var r := HandleContent(h, cache, Some(rs), ignoreHtml, env);
      && r.Success? && r.value.cache == cache
      && r.value.format == (if IsZip(rs.headers) then None else Some(HTML))
  {
  }

  /** A content type not ending in `+xml` is compared unchanged at every
      position. */
  lemma CtAtKeeps(ts: seq<AcceptType>, i: nat, ct: string)
    requires i < |ts| && !IsSuffix("+xml", ct)
    ensures CtAt(ts, i, ct) == ct
  {
  }

  /** For a content type that is not XML, a member that attempts JSON
      on a body that parses decides JSON. */
  lemma JsonDecides(t: AcceptType, st: ScanState, cx: ScanContext)
    requires !IsSuffix("+xml", st.ct) && cx.env.parseJson(st.content).Some?
    requires t != Html && t != Xml && (t in JsonMembers || IsSuffix("+json", st.ct))
    ensures Decide(t, st, cx) == Some(st.(parse := JsonDoc(cx.env.parseJson(st.content).value), format := Some(JSON)))
  {
  }

  /** For a content type that is not XML and a body that does not parse as
      JSON, an RDF member decides RDF and every member other than `html`,
      `xml` and `linkset` passes. */
  lemma NoJsonDecides(t: AcceptType, st: ScanState, cx: ScanContext)
    requires !IsSuffix("+xml", st.ct) && cx.env.parseJson(st.content).None?
    requires t != Html && t != Xml && t != Linkset
    ensures t in RdfMembers ==> Decide(t, st, cx) == Some(st.(format := Some(RDF)))
    ensures t !in RdfMembers ==> Decide(t, st, cx).None?
  {
  }

  /** For a content type that is not XML, the first member matching it
      decides the scan as JSON when that member attempts JSON and the body
      parses. */
  lemma FirstMatchParsesJson(ts: seq<AcceptType>, st: ScanState, cx: ScanContext, i: nat)
    requires !IsSuffix("+xml", st.ct) && cx.env.parseJson(st.content).Some?
    requires i < |ts| && Contains(ts[i].Value(), st.ct) && ts[i] != Html && ts[i] != Xml
    requires ts[i] in JsonMembers || IsSuffix("+json", st.ct)
    requires forall j :: 0 <= j < i ==> !Contains(ts[j].Value(), st.ct)
    ensures Scan(ts, st, cx) == st.(parse := JsonDoc(cx.env.parseJson(st.content).value), format := Some(JSON))
  {
    forall j | 0 <= j < i
      ensures !Fires(ts, j, st, cx)
    {
      CtAtKeeps(ts, j, st.ct);
    }
    CtAtKeeps(ts, i, st.ct);
    JsonDecides(ts[i], st, cx);
    assert st.(ct := CtAt(ts, i, st.ct)) == st;
    FirstFiringDecides(ts, st, cx, i);
  }

  lemma RdfMemberIsNotOther(t: AcceptType)
    requires t in RdfMembers
    ensures t != Html && t != Xml && t != Linkset
  {
  }

  /** For a content type that is not XML and a body that does not parse as
      JSON, a member other than `html`, `xml`, `linkset` and the RDF members
      passes; the first RDF member that matches decides the scan as RDF. */
  lemma RejectedJsonFallsToRdf(ts: seq<AcceptType>, st: ScanState, cx: ScanContext, i: nat)
    requires !IsSuffix("+xml", st.ct) && cx.env.parseJson(st.content).None?
    requires i < |ts| && Contains(ts[i].Value(), st.ct) && ts[i] in RdfMembers
    requires forall j :: 0 <= j < i && Contains(ts[j].Value(), st.ct) ==> ts[j] !in RdfMembers && ts[j] != Html && ts[j] != Xml && ts[j] != Linkset
    ensures Scan(ts, st, cx) == st.(format := Some(RDF))
  {
    forall j | 0 <= j < i
      ensures !Fires(ts, j, st, cx)
    {
      CtAtKeeps(ts, j, st.ct);
      if Contains(ts[j].Value(), st.ct) {
        NoJsonDecides(ts[j], st, cx);
      }
    }
    CtAtKeeps(ts, i, st.ct);
    RdfMemberIsNotOther(ts[i]);
    NoJsonDecides(ts[i], st, cx);
    assert st.(ct := CtAt(ts, i, st.ct)) == st;
    FirstFiringDecides(ts, st, cx, i);
  }

  /** When no matching member is `html`, `xml`, `linkset` or an RDF
      member, a body that does not parse as JSON leaves the scan state as
      it was. */
  lemma RejectedJsonKeepsState(ts: seq<AcceptType>, st: ScanState, cx: ScanContext)
    requires !IsSuffix("+xml", st.ct) && cx.env.parseJson(st.content).None?
    requires forall j :: 0 <= j < |ts| && Contains(ts[j].Value(), st.ct) ==> ts[j] !in RdfMembers && ts[j] != Html && ts[j] != Xml && ts[j] != Linkset
    ensures Scan(ts, st, cx) == st
  {
    forall j | 0 <= j < |ts|
      ensures !Fires(ts, j, st, cx)
    {
      CtAtKeeps(ts, j, st.ct);
      if Contains(ts[j].Value(), st.ct) {
        NoJsonDecides(ts[j], st, cx);
      }
    }
    NoneFiresKeepsState(ts, st, cx);
    if |ts| > 0 {
      CtAtKeeps(ts, |ts| - 1, st.ct);
    }
  }

  lemma LdJsonTypeFacts()
    ensures !IsSuffix("+xml", "application/ld+json") && IsSuffix("+json", "application/ld+json")
    ensures 'x' !in "application/ld+json" && ';' !in "application/ld+json"
  {
    assert "application/ld+json"[|"application/ld+json"| - 4] != '+';
  }

  lemma JsonTypeFacts()
    ensures !IsSuffix("+xml", "application/json") && !IsSuffix("+json", "application/json")
    ensures 'x' !in "application/json" && ';' !in "application/json"
  {
    assert "application/json"[|"application/json"| - 4] != '+';
    assert "application/json"[|"application/json"| - 5] != '+';
  }

  /** Scanning members `ts` for a `+json` type that exactly `schemaorg`,
      `jsonld` and `rdf` list (as they list `application/ld+json`), where
      `schemaorg` comes before the other two and each member is listed
      once: a body that parses is JSON (decided by `schemaorg`); one that
      does not is RDF (decided by `rdf`, after `schemaorg` and `jsonld`
      found no JSON). */
  lemma {:induction false} LdJsonMembersScan(ts: seq<AcceptType>, st: ScanState, cx: ScanContext, s: nat, r: nat)
    requires !IsSuffix("+xml", st.ct) && IsSuffix("+json", st.ct) && NoDup(ts)
    requires forall t: AcceptType :: Contains(t.Value(), st.ct) <==> t in {Schemaorg, Jsonld, Rdf}
    requires s < |ts| && ts[s] == Schemaorg && r < |ts| && ts[r] == Rdf
    requires forall j :: 0 <= j < s ==> ts[j] !in {Jsonld, Rdf}
    ensures cx.env.parseJson(st.content).Some? ==>
      Scan(ts, st, cx) == st.(parse := JsonDoc(cx.env.parseJson(st.content).value), format := Some(JSON))
    ensures cx.env.parseJson(st.content).None? ==> Scan(ts, st, cx) == st.(format := Some(RDF))
  {
    if cx.env.parseJson(st.content).Some? {
      forall j | 0 <= j < s
        ensures !Contains(ts[j].Value(), st.ct)
      {
        assert ts[j] != ts[s];
      }
      FirstMatchParsesJson(ts, st, cx, s);
    } else {
      forall j | 0 <= j < r && Contains(ts[j].Value(), st.ct)
        ensures ts[j] !in RdfMembers && ts[j] != Html && ts[j] != Xml && ts[j] != Linkset
      {
        assert ts[j] in {Schemaorg, Jsonld, Rdf} && ts[j] != ts[r];
        JsonOnlyMember(ts[j]);
      }
      RejectedJsonFallsToRdf(ts, st, cx, r);
    }
  }

  /** `schemaorg` and `jsonld` only attempt JSON. */
  lemma JsonOnlyMember(t: AcceptType)
    requires t in {Schemaorg, Jsonld, Rdf} && t != Rdf
    ensures t !in RdfMembers && t != Html && t != Xml && t != Linkset
  {
  }

  /** The catalogue scan of `application/ld+json`. */
  lemma LdJsonScan(st: ScanState, cx: ScanContext)
    requires st.ct == "application/ld+json"
    ensures cx.env.parseJson(st.content).Some? ==>
      Scan(Catalog, st, cx) == st.(parse := JsonDoc(cx.env.parseJson(st.content).value), format := Some(JSON))
    ensures cx.env.parseJson(st.content).None? ==> Scan(Catalog, st, cx) == st.(format := Some(RDF))
  {
    LdJsonTypeFacts();
    forall t: AcceptType
      ensures Contains(t.Value(), st.ct) <==> t in {Schemaorg, Jsonld, Rdf}
    {
      LdJsonIn(t);
    }
    CatalogComplete();
    LdJsonMembersScan(Catalog, st, cx, Position(Schemaorg), Position(Rdf));
  }

  /** Scanning members `ts` for a type that only `json` lists (as it
      lists `application/json`), each member listed once: a body that parses
      is JSON, and one that does not leaves the state, and with it the
      format the scan started from, unchanged. */
  lemma {:induction false} JsonMembersScan(ts: seq<AcceptType>, st: ScanState, cx: ScanContext, k: nat)
    requires !IsSuffix("+xml", st.ct) && NoDup(ts)
    requires forall t: AcceptType :: Contains(t.Value(), st.ct) <==> t == Json
    requires k < |ts| && ts[k] == Json
    ensures cx.env.parseJson(st.content).Some? ==>
      Scan(ts, st, cx) == st.(parse := JsonDoc(cx.env.parseJson(st.content).value), format := Some(JSON))
    ensures cx.env.parseJson(st.content).None? ==> Scan(ts, st, cx) == st
  {
    if cx.env.parseJson(st.content).Some? {
      forall j | 0 <= j < k
        ensures !Contains(ts[j].Value(), st.ct)
      {
        assert ts[j] != ts[k];
      }
      FirstMatchParsesJson(ts, st, cx, k);
    } else {
      RejectedJsonKeepsState(ts, st, cx);
    }
  }

  /** The catalogue scan of `application/json`. */
  lemma JsonScan(st: ScanState, cx: ScanContext)
    requires st.ct == "application/json"
    ensures cx.env.parseJson(st.content).Some? ==>
      Scan(Catalog, st, cx) == st.(parse := JsonDoc(cx.env.parseJson(st.content).value), format := Some(JSON))
    ensures cx.env.parseJson(st.content).None? ==> Scan(Catalog, st, cx) == st
  {
    JsonTypeFacts();
    forall t: AcceptType
      ensures Contains(t.Value(), st.ct) <==> t == Json
    {
      JsonIn(t);
    }
    CatalogComplete();
    JsonMembersScan(Catalog, st, cx, Position(Json));
  }

  /** An uncached status-200 response declared `application/ld+json` is
      JSON, with the parsed document, when its body parses, and RDF when it
      does not; either way the body is stored. */
  lemma LdJsonResponse(h: Helper, cache: Cache, rs: Response, ignoreHtml: bool, env: Oracles, body: Bytes)
    requires rs.status == 200
    requires DeclaredContentType(rs.headers) == Some("application/ld+json")
    requires CacheKey(rs.url, Some("application/ld+json")) !in cache
    requires Received(rs.body, h.maxContentSize, ContentLength(rs.headers) > h.maxContentSize, IsGzip(rs.headers), env) == Success(body)
    ensures var r := HandleContent(h, cache, Some(rs), ignoreHtml, env);
      && r.Success? && r.value.helper.responseContent == Some(body)
      && r.value.helper.contentType == Some("application/ld+json")
      && (r.value.format == Some(JSON) <==> env.parseJson(body).Some?)
      && (r.value.format == Some(RDF) <==> env.parseJson(body).None?)
      && (env.parseJson(body).Some? ==> r.value.helper.parseResponse == JsonDoc(env.parseJson(body).value))
  {
    var ct := "application/ld+json";
    LdJsonTypeFacts();
    var h1 := Recorded(h, rs);
    var truncated := ContentLength(rs.headers) > h1.maxContentSize;
    var format := if IsZip(rs.headers) then None else Some(HTML);
    FreshResponseIsClassified(h, cache, rs, ignoreHtml, env);
    ClassifyDeclared(h1, cache, CacheKey(rs.url, Some(ct)), rs, format, ignoreHtml, IsGzip(rs.headers), env, body);
    LdJsonScan(ScanState(ct, format, RawBody(body), body), ScanContext(truncated, ignoreHtml, env));
  }

  /** An uncached status-200 response declared `application/json` is JSON,
      with the parsed document, when its body parses; when it does not, it
      keeps the default format (HTML, or none for zipped content) and the
      raw body as its parsed document. */
  lemma JsonResponse(h: Helper, cache: Cache, rs: Response, ignoreHtml: bool, env: Oracles, body: Bytes)
    requires rs.status == 200
    requires DeclaredContentType(rs.headers) == Some("application/json")
    requires CacheKey(rs.url, Some("application/json")) !in cache
    requires Received(rs.body, h.maxContentSize, ContentLength(rs.headers) > h.maxContentSize, IsGzip(rs.headers), env) == Success(body)
    ensures var r := HandleContent(h, cache, Some(rs), ignoreHtml, env);
      && r.Success? && r.value.helper.responseContent == Some(body)
      && r.value.helper.contentType == Some("application/json")
      && (env.parseJson(body).Some? ==>
            r.value.format == Some(JSON) && r.value.helper.parseResponse == JsonDoc(env.parseJson(body).value))
      && (env.parseJson(body).None? ==>
            r.value.format == (if IsZip(rs.headers) then None else Some(HTML)) && r.value.helper.parseResponse == RawBody(body))
  {
    var ct := "application/json";
    JsonTypeFacts();
    var h1 := Recorded(h, rs);
    var truncated := ContentLength(rs.headers) > h1.maxContentSize;
    var format := if IsZip(rs.headers) then None else Some(HTML);
    FreshResponseIsClassified(h, cache, rs, ignoreHtml, env);
    ClassifyDeclared(h1, cache, CacheKey(rs.url, Some(ct)), rs, format, ignoreHtml, IsGzip(rs.headers), env, body);
    JsonScan(ScanState(ct, format, RawBody(body), body), ScanContext(truncated, ignoreHtml, env));
  }

  /** Once a status-200 response has been classified, handling the same
      response again (with any helper, and whether or not HTML is ignored)
      returns the stored format, parsed document and body. */
  lemma CachedReplay(h: Helper, cache: Cache, rs: Response, ignoreHtml: bool, g: Helper, ignoreHtml2: bool, env: Oracles)
    requires rs.status == 200
    requires HandleContent(h, cache, Some(rs), ignoreHtml, env).Success?
    ensures var first := HandleContent(h, cache, Some(rs), ignoreHtml, env).value;
      var again := HandleContent(g, first.cache, Some(rs), ignoreHtml2, env);
      && again.Success? && again.value.cache == first.cache
      && again.value.format == first.format
      && again.value.helper.parseResponse == first.helper.parseResponse
      && again.value.helper.responseContent == first.helper.responseContent
      && again.value.helper.contentType == first.helper.contentType
  {
    var key := CacheKey(rs.url, DeclaredContentType(rs.headers));
    var first := HandleContent(h, cache, Some(rs), ignoreHtml, env).value;
    if key !in cache {
      FreshResponseIsClassified(h, cache, rs, ignoreHtml, env);
    }
  }

  /** After `reset_cache` nothing is served from the cache: a status-200
      response is classified afresh and becomes the only entry. */
  lemma ResetCacheForcesFetch(h: Helper, rs: Response, ignoreHtml: bool, env: Oracles)
    requires rs.status == 200
    requires HandleContent(h, ResetCache(), Some(rs), ignoreHtml, env).Success?
    ensures var r := HandleContent(h, ResetCache(), Some(rs), ignoreHtml, env).value;
      r.cache.Keys == {CacheKey(rs.url, DeclaredContentType(rs.headers))}
  {
    FreshResponseIsClassified(h, ResetCache(), rs, ignoreHtml, env);
  }

  /** As written, a fresh helper classifies an uncached gzip-encoded
      status-200 response from the raw read: the decompression has already
      run on the empty body, and the read is not decompressed. The
      corrected handler differs only in decompressing the read
      (`FreshResponseIsClassified`). */
  lemma GzipClassifiedRaw(h: Helper, cache: Cache, rs: Response, ignoreHtml: bool, env: Oracles)
    requires h.responseContent.None? && IsGzip(rs.headers)
    requires rs.status == 200 && CacheKey(rs.url, DeclaredContentType(rs.headers)) !in cache
    ensures HandleContentAsWritten(h, cache, Some(rs), ignoreHtml, env)
            == Classify(Recorded(h.(responseContent := Some([])), rs), cache, CacheKey(rs.url, DeclaredContentType(rs.headers)), rs,
                        if IsZip(rs.headers) then None else Some(HTML), ignoreHtml, false, env)
  {
  }

  /** As written, a fresh helper that receives an uncached gzip-encoded
      `text/html` response classifies it as HTML and keeps the compressed
      read as its body. */
  lemma GzipHtmlKeptCompressed(h: Helper, cache: Cache, rs: Response, ignoreHtml: bool, env: Oracles)
    requires h.responseContent.None? && IsGzip(rs.headers) && rs.status == 200 && !IsZip(rs.headers)
    requires DeclaredContentType(rs.headers) == Some("text/html")
    requires CacheKey(rs.url, Some("text/html")) !in cache
    ensures var r := HandleContentAsWritten(h, cache, Some(rs), ignoreHtml, env);
      && r.Success? && r.value.format == Some(HTML)
      && r.value.helper.responseContent
         == Some(StoredBody(ReadAtMost(rs.body, h.maxContentSize), ContentLength(rs.headers) > h.maxContentSize, env))
  {
    var ct := "text/html";
    TextHtmlFacts();
    var h1 := Recorded(h.(responseContent := Some([])), rs);
    var truncated := ContentLength(rs.headers) > h1.maxContentSize;
    var body := StoredBody(ReadAtMost(rs.body, h1.maxContentSize), truncated, env);
    GzipClassifiedRaw(h, cache, rs, ignoreHtml, env);
    ClassifyDeclared(h1, cache, CacheKey(rs.url, Some(ct)), rs, Some(HTML), ignoreHtml, false, env, body);
    HtmlMatchesHtml(ScanState(ct, Some(HTML), RawBody(body), body), ScanContext(truncated, ignoreHtml, env));
  }

  /** With the gzip step moved after the read, a gzipped HTML response that
      decompresses is classified as HTML, even by a fresh helper, and keeps
      the decompressed body. */
  lemma GzipHtmlIsHtml(h: Helper, cache: Cache, rs: Response, ignoreHtml: bool, env: Oracles)
    requires IsGzip(rs.headers) && rs.status == 200 && !IsZip(rs.headers)
    requires DeclaredContentType(rs.headers) == Some("text/html")
    requires CacheKey(rs.url, Some("text/html")) !in cache
    requires env.gunzip(ReadAtMost(rs.body, h.maxContentSize)).Some?
    ensures HandleContent(h, cache, Some(rs), ignoreHtml, env).Success?
    ensures HandleContent(h, cache, Some(rs), ignoreHtml, env).value.format == Some(HTML)
    ensures HandleContent(h, cache, Some(rs), ignoreHtml, env).value.helper.responseContent
            == Some(StoredBody(env.gunzip(ReadAtMost(rs.body, h.maxContentSize)).value, ContentLength(rs.headers) > h.maxContentSize, env))
  {
    var ct := "text/html";
    TextHtmlFacts();
    var h1 := Recorded(h, rs);
    var truncated := ContentLength(rs.headers) > h1.maxContentSize;
    var body := StoredBody(env.gunzip(ReadAtMost(rs.body, h1.maxContentSize)).value, truncated, env);
    FreshResponseIsClassified(h, cache, rs, ignoreHtml, env);
    ClassifyDeclared(h1, cache, CacheKey(rs.url, Some(ct)), rs, Some(HTML), ignoreHtml, true, env, body);
    HtmlMatchesHtml(ScanState(ct, Some(HTML), RawBody(body), body), ScanContext(truncated, ignoreHtml, env));
  }

  /* ---------------------------------------------------------------- */
  /* content_negotiate                                                  */
  /* ---------------------------------------------------------------- */

  /** `content_negotiate`: request, then handle; the result is the format
      and the parsed document. */
  function ContentNegotiate(h: Helper, cache: Cache, net: Network, ignoreHtml: bool, env: Oracles)
    : (r: Result<(Helper, Cache, Option<Format>, Parsed), string>)
    ensures var f := RequestContent(h, net);
      && (f.response.None? ==> r == Success((f.helper, cache, Some(HTML), f.helper.parseResponse)))
      && (r.Success? ==> r.value.3 == r.value.0.parseResponse)
      && (r.Failure? ==> HandleContent(f.helper, cache, f.response, ignoreHtml, env).Failure?)
  {
    var f := RequestContent(h, net);
    match HandleContent(f.helper, cache, f.response, ignoreHtml, env)
    case Failure(e) => Failure(e)
    case Success(d) => Success((d.helper, d.cache, d.format, d.helper.parseResponse))
  }

  /** `content_negotiate` as written, over the handler that decompresses
      before reading. */
  function ContentNegotiateAsWritten(h: Helper, cache: Cache, net: Network, ignoreHtml: bool, env: Oracles)
    : (r: Result<(Helper, Cache, Option<Format>, Parsed), string>)
    ensures var f := RequestContent(h, net);
      && (f.response.None? ==> r == Success((f.helper, cache, Some(HTML), f.helper.parseResponse)))
      && (r.Success? ==> r.value.3 == r.value.0.parseResponse)
      && (r.Failure? ==> HandleContentAsWritten(f.helper, cache, f.response, ignoreHtml, env).Failure?)
  {
    var f := RequestContent(h, net);
    match HandleContentAsWritten(f.helper, cache, f.response, ignoreHtml, env)
    case Failure(e) => Failure(e)
    case Success(d) => Success((d.helper, d.cache, d.format, d.helper.parseResponse))
  }

  /** The two negotiations differ only on a gzip-encoded response. */
  lemma NegotiationsAgree(h: Helper, cache: Cache, net: Network, ignoreHtml: bool, env: Oracles)
    requires var f := RequestContent(h, net); f.response.None? || !IsGzip(f.response.value.headers)
    ensures ContentNegotiateAsWritten(h, cache, net, ignoreHtml, env) == ContentNegotiate(h, cache, net, ignoreHtml, env)
  {
  }

  /** A request that cannot be sent (no scheme, or a token without a type)
      negotiates to HTML with the helper unchanged. */
  lemma UnsendableNegotiatesHtml(h: Helper, cache: Cache, net: Network, ignoreHtml: bool, env: Oracles)
    requires !HasScheme(h.requestUrl) || RequestHeaders(h).Failure?
    ensures ContentNegotiate(h, cache, net, ignoreHtml, env) == Success((h, cache, Some(HTML), h.parseResponse))
  {
  }
}

=== FILE: dublincore.dfy ===
/** The Dublin Core collector: which `<meta>` tags it reads, how it
    normalises their names, how each element is mapped onto a reference
    key, and how repeated elements, date qualifiers, relations and
    coverage values are stored. The HTML parser is left out: a page is
    given as its `<meta>` tags in document order. */
module DublinCore {
  import opened Wrappers
  import opened Strings
  import opened Seqs
  import opened Values
  import opened Accumulation
  import opened Mapper
  import Collector

  // ---------------------------------------------------------------------
  // parse_coverage
  // ---------------------------------------------------------------------

  const SpatialKinds: seq<string> := ["Point", "Box", "Location"]
  const TemporalKinds: seq<string> := ["Period", "PeriodOfTime"]
  const CoordinateKeys: seq<string> := ["east", "north", "northlimit", "eastlimit", "southlimit", "westlimit"]
  const PeriodKeys: seq<string> := ["start", "end"]

  /** The kinds of coverage. */
  datatype Kind = Spatial | Temporal

  /** The kind a coverage type names, by the text after its last `.`. */
  function KindOf(typ: string): (r: Option<Kind>)
    ensures r == Some(Spatial) <==> AfterLast(typ, '.') in SpatialKinds
    ensures r == Some(Temporal) <==> AfterLast(typ, '.') in TemporalKinds
  {
    var last := AfterLast(typ, '.');
    if last in SpatialKinds then Some(Spatial)
    else if last in TemporalKinds then Some(Temporal)
    else None
  }

  /** The parsed coverage: its kind, its values and its name. */
  datatype Coverage = Coverage(kind: Option<Kind>, values: seq<string>, name: Option<string>)

  const NoCoverage := Coverage(None, [], None)

  /** `cpt.split("=")` when it has exactly two pieces. */
  function KeyValue(cpt: string): (r: Option<(string, string)>)
    ensures r.Some? <==> |Split(cpt, "=")| == 2
    ensures r.Some? ==> cpt == r.value.0 + "=" + r.value.1 && !Contains(r.value.0, "=") && !Contains(r.value.1, "=")
  {
    var pieces := Split(cpt, "=");
    if |pieces| == 2 then
      assert Join(pieces, "=") == pieces[0] + "=" + pieces[1];
      Some((pieces[0], pieces[1]))
    else None
  }

  /** The keys whose values a coverage of this kind collects. */
  function KindKeys(kind: Option<Kind>): seq<string> {
    match kind
    case Some(Spatial) => CoordinateKeys
    case Some(Temporal) => PeriodKeys
    case None => []
  }

  /** The value a part contributes, as an independent statement of which
      parts count: a `key=value` part whose stripped key is one of the
      kind's keys. */
  function Picked(kind: Option<Kind>, cpt: string): Option<string> {
    var kv := KeyValue(cpt);
    if kv.Some? && Strip(kv.value.0) in KindKeys(kind) then Some(kv.value.1) else None
  }

  /** The elements of an optional value. */
  function OptSeq<T>(o: Option<T>): (r: seq<T>)
    ensures |r| <= 1 && (o.Some? <==> |r| == 1) && (o.Some? ==> r[0] == o.value)
  {
    if o.Some? then [o.value] else []
  }

  /** Some part is a `key=value` pair. */
  predicate HasPair(parts: seq<string>) {
    exists i :: 0 <= i < |parts| && KeyValue(parts[i]).Some?
  }

  lemma HasPairSnoc(init: seq<string>, last: string)
    ensures HasPair(init + [last]) <==> HasPair(init) || KeyValue(last).Some?
  {
    var parts := init + [last];
    if HasPair(parts) && !KeyValue(last).Some? {
      var i :| 0 <= i < |parts| && KeyValue(parts[i]).Some?;
      assert i < |init| && init[i] == parts[i];
    }
    if HasPair(init) {
      var i :| 0 <= i < |init| && KeyValue(init[i]).Some?;
      assert parts[i] == init[i];
    }
    if KeyValue(last).Some? {
      assert parts[|init|] == last;
    }
  }

  /** One step of the loop over the `;`-separated parts. */
  function CoverageStep(cov: Coverage, kind: Option<Kind>, cpt: string): (r: Coverage)
    ensures r.values == cov.values + OptSeq(Picked(kind, cpt))
    ensures r.kind == (if KeyValue(cpt).Some? && kind.Some? then kind else cov.kind)
  {
    match KeyValue(cpt)
    case None => cov
    case Some((key, value)) =>
      if kind.Some? then
        var k := Strip(key);
        Coverage(kind, cov.values + (if k in KindKeys(kind) then [value] else []),
                 if k == "name" then Some(value) else cov.name)
      else cov
  }

  /** The loop over the parts, in order. */
  function CoverageParts(kind: Option<Kind>, parts: seq<string>): (r: Coverage)
    ensures r.values == FilterMap(parts, cpt => Picked(kind, cpt))
    decreases |parts|
  {
    if |parts| == 0 then NoCoverage
    else
      var init := parts[..|parts| - 1];
      var last := parts[|parts| - 1];
      assert parts == init + [last];
      FilterMapAppend(init, [last], cpt => Picked(kind, cpt));
      CoverageStep(CoverageParts(kind, init), kind, last)
  }

  /** The kind is set exactly when the type names a kind and some part is
      a `key=value` pair; a type naming no kind collects nothing. */
  lemma {:induction false} CoverageKind(kind: Option<Kind>, parts: seq<string>)
    ensures CoverageParts(kind, parts).kind == (if HasPair(parts) then kind else None)
    ensures kind.None? ==> CoverageParts(kind, parts) == NoCoverage
    decreases |parts|
  {
    if |parts| > 0 {
      var init := parts[..|parts| - 1];
      var last := parts[|parts| - 1];
      CoverageKind(kind, init);
      assert parts == init + [last];
      HasPairSnoc(init, last);
    }
  }

  /** `parse_coverage`: parsing a missing coverage fails and leaves the
      default; otherwise the kind is that of the type when some part is
      a pair, and the values are those the picked parts give, in order. */
  function ParseCoverage(coverage: Option<string>, typ: string): (r: Coverage)
    ensures KindOf(typ).None? || coverage.None? ==> r == NoCoverage
    ensures coverage.Some? ==> r.kind == (if HasPair(Split(coverage.value, ";")) then KindOf(typ) else None)
    ensures coverage.Some? ==> r.values == FilterMap(Split(coverage.value, ";"), cpt => Picked(KindOf(typ), cpt))
  {
    match coverage
    case None => NoCoverage
    case Some(c) =>
      CoverageKind(KindOf(typ), Split(c, ";"));
      CoverageParts(KindOf(typ), Split(c, ";"))
  }

  // ---------------------------------------------------------------------
  // Meta tags and their names
  // ---------------------------------------------------------------------

  /** A `<meta>` tag with a `name` attribute, and its `content`. */
  datatype MetaTag = MetaTag(name: string, content: Option<string>)

  /** The base Dublin Core properties. */
  const BaseProps: seq<string> := [
    "contributor", "coverage", "spatial", "temporal", "creator", "date", "issued",
    "description", "format", "identifier", "language", "publisher", "relation",
    "rights", "source", "subject", "title", "type"
  ]

  const DcPrefixes: seq<string> := ["DC", "dc", "DCTERMS", "dcterms"]

  predicate IsAsciiLetter(c: char) {
    'A' <= c <= 'Z' || 'a' <= c <= 'z'
  }

  /** The name matches `(DC|dc|DCTERMS|dcterms)\.([A-Za-z]+)` somewhere. */
  predicate DcQualified(name: string) {
    exists p :: p in DcPrefixes && exists i :: (0 <= i < |name| &&
      OccursAt(name, p + ".", i) && i + |p| + 1 < |name| && IsAsciiLetter(name[i + |p| + 1]))
  }

  /** The name mentions a base property somewhere. */
  predicate MentionsBaseProp(name: string) {
    exists p :: p in BaseProps && Contains(name, p)
  }

  /** The tags passing `first`, or, when there are none, those passing
      `second`. */
  function FilterOr<T(!new)>(xs: seq<T>, first: T -> bool, second: T -> bool): (r: seq<T>)
    ensures (exists x :: x in xs && first(x)) ==> forall x :: x in r <==> x in xs && first(x)
    ensures (forall x :: x in xs ==> !first(x)) ==> forall x :: x in r <==> x in xs && second(x)
  {
    var a := Filter(xs, first);
    forall x | x in xs
      ensures x in a <==> first(x)
    {
      FilterMember(xs, first, x);
    }
    if |a| > 0 then
      assert a[0] in xs && first(a[0]);
      a
    else
      var b := Filter(xs, second);
      forall x | x in xs
        ensures x in b <==> second(x)
      {
        FilterMember(xs, second, x);
      }
      b
  }

  /** The tags read: those with a qualified Dublin Core name, or, when
      there are none, those whose name mentions a base property. */
  function SelectedTags(tags: seq<MetaTag>): (r: seq<MetaTag>)
    ensures (exists t :: t in tags && DcQualified(t.name)) ==>
              forall t :: t in r <==> t in tags && DcQualified(t.name)
    ensures (forall t :: t in tags ==> !DcQualified(t.name)) ==>
              forall t :: t in r <==> t in tags && MentionsBaseProp(t.name)
  {
    FilterOr(tags, (t: MetaTag) => DcQualified(t.name), (t: MetaTag) => MentionsBaseProp(t.name))
  }

  /** The element name and optional qualifier read from a tag name: the
      second and third `.`-separated parts, with a bare base property
      read as `dc.<property>`. */
  function NormaliseName(name: string): (r: Option<(string, Option<string>)>)
    ensures r.None? <==> !Contains(name, ".") && name !in BaseProps
    ensures !Contains(name, ".") && name in BaseProps ==> r == Some((name, None))
  {
    var parts := Split(name, ".");
    SplitSingle(name, ".");
    if |parts| == 1 then
      assert parts[0] == name by { assert Join(parts, ".") == parts[0]; }
      if parts[0] in BaseProps then Some((parts[0], None)) else None
    else Some((parts[1], if |parts| == 3 then Some(parts[2]) else None))
  }

  /** A dotted name gives the text between its first and second `.` as the
      element, and a qualifier only when the name has exactly three
      parts, which it then spells out. */
  lemma DottedName(name: string)
    requires Contains(name, ".")
    ensures var r := NormaliseName(name);
            r.Some? && !Contains(r.value.0, ".") && IsPrefix(Before(name, ".") + "." + r.value.0, name) &&
            (r.value.1.Some? ==> name == Before(name, ".") + "." + r.value.0 + "." + r.value.1.value && !Contains(r.value.1.value, "."))
  {
    var parts := Split(name, ".");
    SplitSingle(name, ".");
    SplitPieces(name, ".");
    assert NormaliseName(name) == Some((parts[1], if |parts| == 3 then Some(parts[2]) else None));
  }

  /** A name of two or more dot-free parts joined by `.` reads its second
      part as the element, and has a qualifier, its third part, exactly
      when there are three parts: `dc.title` and `a.b.c.d` give none. */
  lemma JoinedName(parts: seq<string>)
    requires |parts| >= 2 && forall i :: 0 <= i < |parts| ==> '.' !in parts[i]
    ensures NormaliseName(Join(parts, ".")) == Some((parts[1], if |parts| == 3 then Some(parts[2]) else None))
  {
    SplitJoin(parts, '.');
  }

  /** `p.e.q` with dot-free parts gives element `e` qualified by `q`. */
  lemma ThreePartName(p: string, e: string, q: string)
    requires '.' !in p && '.' !in e && '.' !in q
    ensures NormaliseName(p + "." + e + "." + q) == Some((e, Some(q)))
  {
    var parts := [p, e, q];
    JoinThree(parts, ".");
    JoinedName(parts);
  }

  /** A tag read as Dublin Core: element, qualifier and content. */
  datatype DcMatch = DcMatch(key: string, qualifier: Option<string>, content: Option<string>)

  function MatchOf(tag: MetaTag): Option<DcMatch> {
    match NormaliseName(tag.name)
    case None => None
    case Some((k, q)) => Some(DcMatch(k, q, tag.content))
  }

  /** The matches of a page, in document order. */
  function DcMatches(tags: seq<MetaTag>): (r: seq<DcMatch>)
    ensures forall m :: m in r ==> exists t :: t in SelectedTags(tags) && MatchOf(t) == Some(m)
    ensures forall t :: t in SelectedTags(tags) && (Contains(t.name, ".") || t.name in BaseProps) ==> MatchOf(t).value in r
  {
    FilterMap(SelectedTags(tags), MatchOf)
  }

  // ---------------------------------------------------------------------
  // Element lookup in DC_MAPPING
  // ---------------------------------------------------------------------

  /** Python `str(item).lower()` for a list item of a mapping entry. The
      brackets, quotes and separators are unaffected by lowering. */
  function ItemText(it: Item): string {
    match it
    case Plain(n) => Lower(n)
    case Tuple(p) => "('" + Join(seq(|p|, i requires 0 <= i < |p| => Lower(p[i])), "', '") + "')"
  }

  function ItemTexts(items: seq<Item>): (r: seq<string>)
    ensures |r| == |items| && forall i :: 0 <= i < |items| ==> r[i] == ItemText(items[i])
  {
    seq(|items|, i requires 0 <= i < |items| => ItemText(items[i]))
  }

  /** Python `str(value).lower()` for a mapping entry's value. */
  function ValueText(v: MapValue): string {
    match v
    case One(n) => Lower(n)
    case Several(items) => "['" + Join(ItemTexts(items), "', '") + "']"
  }

  /** The lowered terms of a mapping entry's value. */
  function EntryTerms(v: MapValue): seq<string> {
    match v
    case One(n) => [Lower(n)]
    case Several(items) => ItemTexts(items)
  }

  /** The lowered terms of all entries (`dcterms`). */
  function Terms(table: Table): (r: seq<string>)
    ensures forall x :: x in r <==> exists i :: 0 <= i < |table| && x in EntryTerms(table[i].1)
  {
    if |table| == 0 then []
    else
      var rest := Terms(table[1..]);
      assert forall i :: 1 <= i < |table| ==> table[i] == table[1..][i - 1];
      EntryTerms(table[0].1) + rest
  }

  /** The first key whose value text contains the lowered element name. */
  function ElementFor(table: Table, term: string): (r: Option<string>)
    ensures r.Some? ==> exists i :: 0 <= i < |table| && table[i].0 == r.value && Contains(ValueText(table[i].1), term) &&
                                    forall j :: 0 <= j < i ==> !Contains(ValueText(table[j].1), term)
    ensures r.None? ==> forall i :: 0 <= i < |table| ==> !Contains(ValueText(table[i].1), term)
  {
    if |table| == 0 then None
    else if Contains(ValueText(table[0].1), term) then Some(table[0].0)
    else
      var r := ElementFor(table[1..], term);
      assert forall i :: 1 <= i < |table| ==> table[i] == table[1..][i - 1];
      r
  }

  /** Each term is found in its own entry's value text. */
  lemma EntryTermInText(v: MapValue, term: string)
    requires term in EntryTerms(v)
    ensures Contains(ValueText(v), term)
  {
    match v
    case One(n) =>
      assert OccursAt(ValueText(v), term, 0);
    case Several(items) =>
      var texts := ItemTexts(items);
      var j :| 0 <= j < |texts| && texts[j] == term;
      JoinContains(texts, "', '", j);
      ContainsInfix("['", Join(texts, "', '"), "']", term);
  }

  /** Every term of the table leads to an element. */
  lemma {:induction false} TermHasElement(table: Table, term: string)
    requires term in Terms(table)
    ensures ElementFor(table, term).Some?
  {
    var i :| 0 <= i < |table| && term in EntryTerms(table[i].1);
    EntryTermInText(table[i].1, term);
  }

  /** `DC_MAPPING` has no coverage keys, so coverage parsing never runs
      when the collector reads a page. */
  lemma CoverageNeverMapped(term: string)
    ensures ElementFor(DC_MAPPING, term) != Some("coverage_spatial")
    ensures ElementFor(DC_MAPPING, term) != Some("coverage_temporal")
  {
    NoCoverageKeys();
  }

  /** None of the keys of `DC_MAPPING` is a coverage key. */
  lemma NoCoverageKeys()
    ensures forall i :: 0 <= i < |DC_MAPPING| ==> DC_MAPPING[i].0 != "coverage_spatial" && DC_MAPPING[i].0 != "coverage_temporal"
  {
  }

  // ---------------------------------------------------------------------
  // Storing elements (parse_metadata)
  // ---------------------------------------------------------------------

  /** The relation type of a related resource. */
  function RelationType(k: string, qualifier: Option<string>): (r: string)
    ensures k == "source" || k == "references" ==> r == "wasDerivedFrom"
    ensures k == "relation" && (qualifier.None? || qualifier == Some("")) ==> r == "isRelatedTo"
    ensures k == "relation" && qualifier.Some? && qualifier != Some("") ==> r == qualifier.value
    ensures !(k in ["source", "references", "relation"]) ==> r == k
  {
    if k in ["source", "references"] then "wasDerivedFrom"
    else if k == "relation" then
      if qualifier.None? || qualifier == Some("") then "isRelatedTo" else qualifier.value
    else k
  }

  /** The coverage value stored for a coverage element. */
  function CoverageValue(content: Option<string>, elem: string): (string, Value) {
    var info := ParseCoverage(content, AfterLast(elem, '_'));
    var values := List(seq(|info.values|, i requires 0 <= i < |info.values| => Str(info.values[i])));
    var base := [("name", OptValue(info.name)), ("reference", Null)];
    if info.kind == Some(Spatial) then ("coverage_spatial", List([Dict(base + [("coordinates", values)])]))
    else ("coverage_temporal", List([Dict(base + [("dates", values)])]))
  }

  /** The related-resource value stored for a relation element. */
  function RelatedValue(m: DcMatch): Value {
    List([Dict([("related_resource", OptValue(m.content)), ("relation_type", Str(RelationType(m.key, m.qualifier)))])])
  }

  /** How an element's value is stored. */
  datatype Role = CoverageRole | RelatedRole | PlainRole

  function RoleOf(elem: string): (r: Role)
    ensures r == CoverageRole <==> elem == "coverage_spatial" || elem == "coverage_temporal"
    ensures r == RelatedRole <==> elem == "related_resources"
  {
    if elem in ["coverage_spatial", "coverage_temporal"] then CoverageRole
    else if elem == "related_resources" then RelatedRole
    else PlainRole
  }

  /** The element and value a mapped tag is stored as. */
  function Stored(m: DcMatch, elem: string): (r: (string, Value))
    ensures RoleOf(elem) == RelatedRole ==> r == (elem, RelatedValue(m))
    ensures RoleOf(elem) == PlainRole ==> r == (elem, OptValue(m.content))
  {
    match RoleOf(elem)
    case CoverageRole => CoverageValue(m.content, elem)
    case RelatedRole => (elem, RelatedValue(m))
    case PlainRole => (elem, OptValue(m.content))
  }

  /** The date qualifiers: `date.dateAccepted` and `date.dateSubmitted`
      set the acceptance and submission dates. */
  function DateQualified(meta: seq<(string, Value)>, m: DcMatch): (r: seq<(string, Value)>)
    ensures Lower(m.key) == "date" && m.qualifier == Some("dateAccepted") ==> Lookup(r, "accepted_date") == Some(OptValue(m.content))
    ensures Lower(m.key) == "date" && m.qualifier == Some("dateSubmitted") ==> Lookup(r, "submitted_date") == Some(OptValue(m.content))
    ensures !(Lower(m.key) == "date" && m.qualifier in [Some("dateAccepted"), Some("dateSubmitted")]) ==> r == meta
    ensures forall k :: k != "accepted_date" && k != "submitted_date" ==> Lookup(r, k) == Lookup(meta, k)
  {
    if Lower(m.key) == "date" then
      if m.qualifier == Some("dateAccepted") then Update(meta, "accepted_date", OptValue(m.content))
      else if m.qualifier == Some("dateSubmitted") then Update(meta, "submitted_date", OptValue(m.content))
      else meta
    else meta
  }

  /** The element a match is stored under: the first reference key whose
      value text mentions the lowered tag name, for a name the mapping
      knows. The collector is built with `DC_MAPPING`, which serves both
      as the list of known elements and for the lookup. */
  function Target(table: Table, m: DcMatch): (r: Option<string>)
    ensures r.Some? <==> Lower(m.key) in Terms(table)
    ensures r.Some? ==> r == ElementFor(table, Lower(m.key))
  {
    if Lower(m.key) in Terms(table) then
      TermHasElement(table, Lower(m.key));
      ElementFor(table, Lower(m.key))
    else None
  }

  /** One match: the date qualifiers, then the value stored under the
      match's element, if it has one. */
  function DcStep(table: Table, meta: seq<(string, Value)>, m: DcMatch): (r: seq<(string, Value)>)
    ensures Target(table, m).None? ==> r == DateQualified(meta, m)
    ensures forall k :: !Touches(table, m, k) ==> Lookup(r, k) == Lookup(meta, k)
  {
    var dated := DateQualified(meta, m);
    match Target(table, m)
    case None => dated
    case Some(elem) =>
      var stored := Stored(m, elem);
      Accumulate(dated, stored.0, stored.1)
  }

  /** The match `m` may write the key `k`: a date qualifier, or the key
      its element's value is stored under. */
  predicate Touches(table: Table, m: DcMatch, k: string) {
    k == "accepted_date" || k == "submitted_date" ||
    (Target(table, m).Some? && Stored(m, Target(table, m).value).0 == k)
  }

  /** The loop over the matches, in document order. A key that no match
      may write keeps its value. */
  function DcFold(table: Table, meta: seq<(string, Value)>, ms: seq<DcMatch>): (r: seq<(string, Value)>)
    ensures forall k :: (forall i :: 0 <= i < |ms| ==> !Touches(table, ms[i], k)) ==> Lookup(r, k) == Lookup(meta, k)
    decreases |ms|
  {
    if |ms| == 0 then meta
    else
      assert forall i :: 0 <= i < |ms| - 1 ==> ms[1..][i] == ms[i + 1];
      DcFold(table, DcStep(table, meta, ms[0]), ms[1..])
  }

  /** `parse_metadata`: the source (and the Dublin Core namespace) when
      some tag was read, and the metadata collected. */
  function ParseMetadata(tags: seq<MetaTag>): (r: (Option<Collector.Source>, seq<(string, Value)>))
    ensures r.0.Some? <==> |DcMatches(tags)| > 0
    ensures r.0.Some? ==> r.0 == Some(Collector.DUBLINCORE_EMBEDDED)
    ensures r.0.None? ==> r.1 == []
  {
    var ms := DcMatches(tags);
    if |ms| > 0 then (Some(Collector.DUBLINCORE_EMBEDDED), DcFold(DC_MAPPING, [], ms)) else (None, [])
  }

  /** The namespaces recorded: the Dublin Core elements namespace when
      some tag was read. */
  function DcNamespaces(tags: seq<MetaTag>): (r: seq<string>)
    ensures |r| <= 1 && (|r| == 1 <==> ParseMetadata(tags).0.Some?)
  {
    if |DcMatches(tags)| > 0 then ["http://purl.org/dc/elements/1.1/"] else []
  }

  // ---------------------------------------------------------------------
  // Properties
  // ---------------------------------------------------------------------

  /** A match with an element accumulates its stored value after the
      date qualifiers. */
  lemma StepStores(table: Table, meta: seq<(string, Value)>, m: DcMatch, elem: string)
    requires Target(table, m) == Some(elem)
    ensures DcStep(table, meta, m) == Accumulate(DateQualified(meta, m), Stored(m, elem).0, Stored(m, elem).1)
  {
  }

  lemma RelatedStored(m: DcMatch)
    ensures Stored(m, "related_resources") == ("related_resources", RelatedValue(m))
  {
    assert RoleOf("related_resources") == RelatedRole;
  }

  /** A tag whose element the table maps to `related_resources` adds one
      record, typed by `RelationType`, at the end of the related
      resources; a first one starts the list. */
  lemma RelationStored(table: Table, meta: seq<(string, Value)>, m: DcMatch)
    requires Target(table, m) == Some("related_resources")
    ensures var r := DcStep(table, meta, m);
            var prev := Lookup(meta, "related_resources");
            var rec := Dict([("related_resource", OptValue(m.content)), ("relation_type", Str(RelationType(m.key, m.qualifier)))]);
            (prev.None? ==> Lookup(r, "related_resources") == Some(List([rec]))) &&
            (prev.Some? && prev.value.List? ==> Lookup(r, "related_resources") == Some(List(prev.value.items + [rec])))
  {
    var dated := DateQualified(meta, m);
    var rec := Dict([("related_resource", OptValue(m.content)), ("relation_type", Str(RelationType(m.key, m.qualifier)))]);
    StepStores(table, meta, m, "related_resources");
    RelatedStored(m);
    AccumulateList(dated, "related_resources", [rec]);
    assert Lookup(dated, "related_resources") == Lookup(meta, "related_resources");
  }

  /** A `date.dateAccepted` tag records the acceptance date and, when the
      table maps `date` to the publication date, also the publication
      date. */
  lemma DateAcceptedStored(table: Table, meta: seq<(string, Value)>, m: DcMatch)
    requires Lower(m.key) == "date" && m.qualifier == Some("dateAccepted") && m.content.Some? && |m.content.value| > 0
    requires Target(table, m) == Some("publication_date")
    requires Lookup(meta, "publication_date").None?
    ensures var r := DcStep(table, meta, m);
            Lookup(r, "accepted_date") == Some(Str(m.content.value)) && Lookup(r, "publication_date") == Some(Str(m.content.value))
  {
    assert RoleOf("publication_date") == PlainRole;
    DcStepPlain(table, meta, m, "publication_date");
    DateQualifiedAccepted(meta, m);
    AccumulateFresh(DateQualified(meta, m), "publication_date", "accepted_date", Str(m.content.value));
  }

  /** A match whose element is stored plainly accumulates its text. */
  lemma DcStepPlain(table: Table, meta: seq<(string, Value)>, m: DcMatch, elem: string)
    requires Target(table, m) == Some(elem) && RoleOf(elem) == PlainRole
    ensures DcStep(table, meta, m) == Accumulate(DateQualified(meta, m), elem, OptValue(m.content))
  {
  }

  /** `date.dateAccepted` sets the acceptance date and nothing else. */
  lemma DateQualifiedAccepted(meta: seq<(string, Value)>, m: DcMatch)
    requires Lower(m.key) == "date" && m.qualifier == Some("dateAccepted") && m.content.Some?
    ensures Lookup(DateQualified(meta, m), "accepted_date") == Some(Str(m.content.value))
    ensures Lookup(DateQualified(meta, m), "publication_date") == Lookup(meta, "publication_date")
  {
  }

  /** Storing a truthy value under a new element sets it and keeps
      another element's value. */
  lemma AccumulateFresh(meta: seq<(string, Value)>, elem: string, other: string, v: Value)
    requires Truthy(v) && Lookup(meta, elem).None? && other != elem
    ensures Lookup(Accumulate(meta, elem, v), elem) == Some(v)
    ensures Lookup(Accumulate(meta, elem, v), other) == Lookup(meta, other)
  {
  }
}

=== FILE: fair_check.dfy ===
/** The FAIR check controller's own logic around a harvest: how the
    constructor routes the metadata service endpoint, how an
    authentication token is stored, how the log stream is turned into
    per-metric messages, and how the merged metadata is cleaned before the
    evaluators read it. */
module FairCheck {
  import opened Wrappers
  import opened Strings
  import opened Seqs
  import opened Values

  // ---------------------------------------------------------------------
  // Service endpoints (constructor)
  // ---------------------------------------------------------------------

  /** The service attributes the constructor leaves behind. */
  datatype Endpoints = Endpoints(
    serviceUrl: Option<string>,
    serviceType: Option<string>,
    oaipmh: Option<string>,
    csw: Option<string>,
    sparql: Option<string>)

  /** Python truthiness of an optional string. */
  predicate Given(o: Option<string>) {
    o.Some? && |o.value| > 0
  }

  /** Python `str(x)` of an optional string. */
  function Show(o: Option<string>): string {
    if o.Some? then o.value else "None"
  }

  /** The endpoint routing of the constructor: an OAI-PMH endpoint
      overrides the service; an OAI-PMH service is its own OAI-PMH
      endpoint, and a CSW or SPARQL service type names the service URL as
      that endpoint. */
  function Route(serviceUrl: Option<string>, serviceType: Option<string>, oaipmh: Option<string>): (r: Endpoints)
    ensures Given(oaipmh) ==> r == Endpoints(oaipmh, Some("oai_pmh"), oaipmh, None, None)
    ensures !Given(oaipmh) ==> r.serviceUrl == serviceUrl && r.serviceType == serviceType
    ensures r.serviceType == Some("oai_pmh") ==> r.oaipmh == r.serviceUrl && r.csw.None? && r.sparql.None?
    ensures r.serviceType != Some("oai_pmh") ==> r.oaipmh == oaipmh
    ensures r.csw == if r.serviceType != Some("oai_pmh") && Contains(Show(r.serviceType), "csw") then r.serviceUrl else None
    ensures r.sparql == if r.serviceType == Some("sparql") then r.serviceUrl else None
  {
    NoCsw("sparql");
    var url := if Given(oaipmh) then oaipmh else serviceUrl;
    var typ := if Given(oaipmh) then Some("oai_pmh") else serviceType;
    if typ == Some("oai_pmh") then Endpoints(url, typ, url, None, None)
    else if Contains(Show(typ), "csw") then Endpoints(url, typ, oaipmh, url, None)
    else if typ == Some("sparql") then Endpoints(url, typ, oaipmh, None, url)
    else Endpoints(url, typ, oaipmh, None, None)
  }

  /** A service type without a `c` does not mention `csw`. */
  lemma NoCsw(t: string)
    requires 'c' !in t
    ensures !Contains(t, "csw")
  {
    forall i | 0 <= i < |t|
      ensures !OccursAt(t, "csw", i)
    {
      assert t[i] != 'c';
    }
  }

  /** Routing is stable: constructing a check from the attributes another
      one ended with routes them to themselves. */
  lemma RouteStable(serviceUrl: Option<string>, serviceType: Option<string>, oaipmh: Option<string>)
    ensures var r := Route(serviceUrl, serviceType, oaipmh);
            Route(r.serviceUrl, r.serviceType, r.oaipmh) == r
  {
  }

  // ---------------------------------------------------------------------
  // Authentication (set_auth_token)
  // ---------------------------------------------------------------------

  /** A token and its type, as held by the check and by its harvester. */
  datatype Auth = Auth(token: Option<string>, tokenType: string)

  datatype AuthState = AuthState(check: Auth, harvester: Auth)

  /** The token types the harvester can send. */
  predicate KnownType(t: string) {
    t == "Basic" || t == "Bearer"
  }

  /** `set_auth_token`: a given token is stored in both places; a known
      type is stored in both places, any other given type sets the
      check's type to `Basic` and leaves the harvester's alone. */
  function SetAuthToken(st: AuthState, token: Option<string>, tokenType: Option<string>): (r: AuthState)
    ensures Given(token) ==> r.check.token == token && r.harvester.token == token
    ensures !Given(token) ==> r.check.token == st.check.token && r.harvester.token == st.harvester.token
    ensures Given(tokenType) && KnownType(tokenType.value) ==>
              r.check.tokenType == tokenType.value && r.harvester.tokenType == tokenType.value
    ensures Given(tokenType) && !KnownType(tokenType.value) ==>
              r.check.tokenType == "Basic" && r.harvester.tokenType == st.harvester.tokenType
    ensures !Given(tokenType) ==> r.check.tokenType == st.check.tokenType && r.harvester.tokenType == st.harvester.tokenType
  {
    var st1 := if Given(token) then AuthState(st.check.(token := token), st.harvester.(token := token)) else st;
    if !Given(tokenType) then st1
    else if KnownType(tokenType.value) then
      AuthState(st1.check.(tokenType := tokenType.value), st1.harvester.(tokenType := tokenType.value))
    else AuthState(st1.check.(tokenType := "Basic"), st1.harvester)
  }

  /** A sequence of `set_auth_token` calls, in order. */
  function SetAuthTokens(st: AuthState, calls: seq<(Option<string>, Option<string>)>): AuthState
    decreases |calls|
  {
    if |calls| == 0 then st
    else SetAuthTokens(SetAuthToken(st, calls[0].0, calls[0].1), calls[1..])
  }

  /** Starting from known types, whatever the callers pass, the check and
      its harvester only ever hold `Basic` or `Bearer`. */
  lemma {:induction false} TokenTypesStayKnown(st: AuthState, calls: seq<(Option<string>, Option<string>)>)
    requires KnownType(st.check.tokenType) && KnownType(st.harvester.tokenType)
    ensures var r := SetAuthTokens(st, calls);
            KnownType(r.check.tokenType) && KnownType(r.harvester.tokenType)
    decreases |calls|
  {
    if |calls| > 0 {
      TokenTypesStayKnown(SetAuthToken(st, calls[0].0, calls[0].1), calls[1..]);
    }
  }

  // ---------------------------------------------------------------------
  // Log messages (get_log_messages_dict)
  // ---------------------------------------------------------------------

  /** Only lines about a metric are read. */
  predicate IsMetricLine(line: string) {
    IsPrefix("FsF-", line) || IsPrefix("FRSM-", line)
  }

  /** What one metric line contributes: its metric, the message the
      duplicate check looks for, and the entry recorded. */
  datatype LogLine = LogLine(metric: string, message: string, entry: string)

  /** Reading one metric line: the metric is the stripped text before the
      first `:`; the rest is stripped and split at the first `|` into the
      message and the level (`INFO` when there is no `|`); the entry is
      `level: message`. A line without `:` gives `None` (the source raises
      an `IndexError`). */
  function ReadLine(line: string): (r: Option<LogLine>)
    ensures r.None? <==> !Contains(line, ":")
    ensures r.Some? ==> r.value.metric == Strip(Before(line, ":"))
  {
    var m := SplitOnce(line, ":");
    if |m| < 2 then None
    else
      var rest := SplitOnce(Strip(m[1]), "|");
      var level := if |rest| > 1 then rest[1] else "INFO";
      var message := rest[0];
      Some(LogLine(Strip(m[0]), message, ReplaceAll(level, "\n", "") + ": " + Strip(message)))
  }

  /** How the loop treats one line: skipped, raising, or read. */
  datatype LineRead = Skip | Broken | Read(l: LogLine)

  function ReadOf(line: string): (r: LineRead)
    ensures r.Skip? <==> !IsMetricLine(line)
    ensures r.Broken? <==> IsMetricLine(line) && !Contains(line, ":")
    ensures r.Read? ==> Some(r.l) == ReadLine(line)
  {
    if !IsMetricLine(line) then Skip
    else match ReadLine(line)
      case None => Broken
      case Some(l) => Read(l)
  }

  function ReadAll(lines: seq<string>): (r: seq<LineRead>)
    ensures |r| == |lines| && forall i :: 0 <= i < |lines| ==> r[i] == ReadOf(lines[i])
  {
    seq(|lines|, i requires 0 <= i < |lines| => ReadOf(lines[i]))
  }

  /** A line as the check's stream handler writes it, with the format
      `%(message)s|%(levelname)s`, for a message `metric : text`. */
  function FormatLine(metric: string, text: string, level: string): string {
    metric + " : " + text + "|" + level + "\n"
  }

  /** The shape of the messages the evaluators log. */
  predicate Loggable(metric: string, text: string, level: string) {
    (IsPrefix("FsF-", metric) || IsPrefix("FRSM-", metric)) &&
    ':' !in metric && metric[|metric| - 1] !in Whitespace &&
    '|' !in text && '\n' !in text && |text| > 0 && text[0] !in Whitespace && text[|text| - 1] !in Whitespace &&
    '\n' !in level && |level| > 0 && level[|level| - 1] !in Whitespace
  }

  /** The first split of a formatted line, at the `:` after the metric. */
  lemma FormatSplit(metric: string, text: string, level: string)
    requires Loggable(metric, text, level)
    ensures SplitOnce(FormatLine(metric, text, level), ":") == [metric + " ", " " + (text + "|" + level) + "\n"]
  {
    var tail := " " + (text + "|" + level) + "\n";
    assert FormatLine(metric, text, level) == (metric + " ") + [':'] + tail;
    SplitOnceAt(metric + " ", ':', tail);
  }

  /** The second split, at the `|` before the level. */
  lemma BodySplit(metric: string, text: string, level: string)
    requires Loggable(metric, text, level)
    ensures SplitOnce(text + "|" + level, "|") == [text, level]
    ensures ReplaceAll(level, "\n", "") == level
  {
    assert text + "|" + level == text + ['|'] + level;
    SplitOnceAt(text, '|', level);
    ContainsOne(level, '\n');
  }

  /** The stripping steps of a formatted line. */
  lemma FormatStrips(metric: string, text: string, level: string)
    requires Loggable(metric, text, level)
    ensures Strip(metric + " ") == metric
    ensures Strip(" " + (text + "|" + level) + "\n") == text + "|" + level
    ensures Strip(text) == text
  {
    StripMetric(metric);
    assert (text + "|" + level)[0] == text[0];
    StripBody(text + "|" + level);
    TrimNoop(text, Whitespace);
  }

  lemma StripMetric(metric: string)
    requires |metric| > 0 && metric[0] !in Whitespace && metric[|metric| - 1] !in Whitespace
    ensures Strip(metric + " ") == metric
  {
    assert ' ' in Whitespace;
    StripPadded([], metric, " ");
    assert [] + metric + " " == metric + " ";
  }

  lemma StripBody(body: string)
    requires |body| > 0 && body[0] !in Whitespace && body[|body| - 1] !in Whitespace
    ensures Strip(" " + body + "\n") == body
  {
    assert ' ' in Whitespace && '\n' in Whitespace;
    StripPadded(" ", body, "\n");
  }

  /** Reading a formatted line gives back its metric and message, and the
      entry `level: text`. */
  lemma ReadFormatted(metric: string, text: string, level: string)
    requires Loggable(metric, text, level)
    ensures ReadOf(FormatLine(metric, text, level)) == Read(LogLine(metric, text, level + ": " + text))
  {
    var line := FormatLine(metric, text, level);
    assert line[..|metric|] == metric;
    assert IsMetricLine(line);
    FormatSplit(metric, text, level);
    FormatStrips(metric, text, level);
    BodySplit(metric, text, level);
    ReadLineParts(line, metric + " ", " " + (text + "|" + level) + "\n", metric, text + "|" + level, text, level);
  }

  /** Reading a line from the pieces its splits and strips give. */
  lemma ReadLineParts(line: string, head: string, tail: string, metric: string, body: string, text: string, level: string)
    requires SplitOnce(line, ":") == [head, tail] && Strip(head) == metric && Strip(tail) == body
    requires SplitOnce(body, "|") == [text, level] && Strip(text) == text && ReplaceAll(level, "\n", "") == level
    ensures ReadLine(line) == Some(LogLine(metric, text, level + ": " + text))
  {
  }

  /** The per-metric messages collected so far. */
  type LogMessages = map<string, seq<string>>

  /** Whether a line counts as already recorded for its metric. */
  type Seen = (seq<string>, LogLine) -> bool

  /** The source's duplicate check: the raw message is looked for among
      the recorded `level: message` entries. */
  function SeenAsWritten(recorded: seq<string>, l: LogLine): bool {
    l.message in recorded
  }

  /** The evidently intended duplicate check: the entry itself. */
  function SeenEntry(recorded: seq<string>, l: LogLine): bool {
    l.entry in recorded
  }

  /** Recording one line: the metric gets a (possibly empty) list, and the
      entry is appended unless it counts as seen. */
  function RecordLine(log: LogMessages, l: LogLine, seen: Seen): (r: LogMessages)
    ensures r.Keys == log.Keys + {l.metric}
    ensures forall k :: k in log && k != l.metric ==> r[k] == log[k]
    ensures var before := if l.metric in log then log[l.metric] else [];
            (r[l.metric] == before || r[l.metric] == before + [l.entry]) &&
            (r[l.metric] == before + [l.entry] <==> !seen(before, l))
  {
    var recorded := if l.metric in log then log[l.metric] else [];
    if seen(recorded, l) then log[l.metric := recorded] else log[l.metric := recorded + [l.entry]]
  }

  /** The loop over the lines of the stream, in order; it stops with an
      error at the first metric line without `:`. */
  function LogFold(rs: seq<LineRead>, seen: Seen): (r: Result<LogMessages, string>)
    ensures r.Success? ==>
              forall k, e :: k in r.value && e in r.value[k] ==>
                exists i :: 0 <= i < |rs| && About(rs[i], k) && rs[i].l.entry == e
    ensures r.Success? ==> forall k :: k in r.value ==> |r.value[k]| <= |rs|
    decreases |rs|
  {
    if |rs| == 0 then Success(map[])
    else
      var init := rs[..|rs| - 1];
      match LogFold(init, seen)
      case Failure(e) => Failure(e)
      case Success(log) =>
        assert forall i :: 0 <= i < |init| ==> rs[i] == init[i];
        match rs[|rs| - 1]
        case Skip => Success(log)
        case Broken => Failure("IndexError")
        case Read(l) =>
          var r := RecordLine(log, l, seen);
          assert forall k, e :: k in r && e in r[k] && !(k in log && e in log[k]) ==> k == l.metric && e == l.entry;
          Success(r)
  }

  /** `get_log_messages_dict` as written: it fails exactly when the
      intended reading fails, and lists the same metrics. */
  function LogMessagesAsWritten(lines: seq<string>): (r: Result<LogMessages, string>)
    ensures r.Success? <==> LogMessagesOf(lines).Success?
    ensures r.Success? ==> r.value.Keys == LogMessagesOf(lines).value.Keys
  {
    LogMetrics(ReadAll(lines), SeenAsWritten);
    LogMetrics(ReadAll(lines), SeenEntry);
    LogFold(ReadAll(lines), SeenAsWritten)
  }

  /** `get_log_messages_dict` with the intended duplicate check: each
      metric lists the distinct entries of its lines in the order they
      were first logged. */
  function LogMessagesOf(lines: seq<string>): (r: Result<LogMessages, string>)
    ensures r.Success? ==> forall k :: k in r.value ==> r.value[k] == FirstOccurrences(EntriesFor(ReadAll(lines), k))
  {
    LogMessagesDistinctAll(ReadAll(lines));
    LogFold(ReadAll(lines), SeenEntry)
  }

  /** `LogMessagesDistinct` for every metric at once. */
  lemma LogMessagesDistinctAll(rs: seq<LineRead>)
    ensures LogFold(rs, SeenEntry).Success? ==>
              forall k :: k in LogFold(rs, SeenEntry).value ==>
                LogFold(rs, SeenEntry).value[k] == FirstOccurrences(EntriesFor(rs, k))
  {
    if LogFold(rs, SeenEntry).Success? {
      forall k | k in LogFold(rs, SeenEntry).value
        ensures LogFold(rs, SeenEntry).value[k] == FirstOccurrences(EntriesFor(rs, k))
      {
        LogMessagesDistinct(rs, k);
      }
    }
  }

  /** A read line about metric `k`. */
  predicate About(rd: LineRead, k: string) {
    rd.Read? && rd.l.metric == k
  }

  /** The loop fails exactly when some metric line has no `:`, and
      otherwise records exactly the metrics of the lines it read. */
  lemma {:induction false} LogMetrics(rs: seq<LineRead>, seen: Seen)
    ensures LogFold(rs, seen).Failure? <==> exists i :: 0 <= i < |rs| && rs[i].Broken?
    ensures LogFold(rs, seen).Success? ==>
              forall k :: k in LogFold(rs, seen).value <==> exists i :: 0 <= i < |rs| && About(rs[i], k)
    decreases |rs|
  {
    if |rs| > 0 {
      var init := rs[..|rs| - 1];
      LogMetrics(init, seen);
      assert forall i :: 0 <= i < |init| ==> rs[i] == init[i];
      var r := LogFold(rs, seen);
      if r.Success? {
        forall k | k in r.value
          ensures exists i :: 0 <= i < |rs| && About(rs[i], k)
        {
          if k !in LogFold(init, seen).value {
            assert About(rs[|rs| - 1], k);
          }
        }
      }
    }
  }

  /** The entries of the lines about metric `k`, in order. */
  function EntriesFor(rs: seq<LineRead>, k: string): seq<string>
    decreases |rs|
  {
    if |rs| == 0 then []
    else
      var rd := rs[|rs| - 1];
      EntriesFor(rs[..|rs| - 1], k) + (if About(rd, k) then [rd.l.entry] else [])
  }

  /** A metric no line is about has no entries. */
  lemma {:induction false} EntriesNone(rs: seq<LineRead>, k: string)
    requires forall i :: 0 <= i < |rs| ==> !About(rs[i], k)
    ensures EntriesFor(rs, k) == []
    decreases |rs|
  {
    if |rs| > 0 {
      EntriesNone(rs[..|rs| - 1], k);
    }
  }

  /** With the intended duplicate check, each metric keeps the distinct
      entries of its lines in the order they were first logged. */
  lemma {:induction false} LogMessagesDistinct(rs: seq<LineRead>, k: string)
    requires LogFold(rs, SeenEntry).Success? && k in LogFold(rs, SeenEntry).value
    ensures LogFold(rs, SeenEntry).value[k] == FirstOccurrences(EntriesFor(rs, k))
    decreases |rs|
  {
    var init := rs[..|rs| - 1];
    var log := LogFold(init, SeenEntry).value;
    var es := EntriesFor(init, k);
    if k in log {
      LogMessagesDistinct(init, k);
    } else {
      LogMetrics(init, SeenEntry);
      EntriesNone(init, k);
    }
    var before := if k in log then log[k] else [];
    assert before == FirstOccurrences(es);
    var rd := rs[|rs| - 1];
    assert EntriesFor(rs, k) == es + (if About(rd, k) then [rd.l.entry] else []);
    if rd.Broken? {
      assert false;
    } else {
      assert LogFold(rs, SeenEntry) == Success(if rd.Read? then RecordLine(log, rd.l, SeenEntry) else log);
      DistinctStep(log, rd, es, k);
    }
  }

  /** One step of `LogMessagesDistinct`: a skipped or read line keeps the
      entries under `k` the distinct entries seen so far. */
  lemma DistinctStep(log: LogMessages, rd: LineRead, es: seq<string>, k: string)
    requires !rd.Broken?
    requires (if k in log then log[k] else []) == FirstOccurrences(es)
    ensures var after := if rd.Read? then RecordLine(log, rd.l, SeenEntry) else log;
            k in after ==> after[k] == FirstOccurrences(es + (if About(rd, k) then [rd.l.entry] else []))
  {
    if rd.Read? && k in RecordLine(log, rd.l, SeenEntry) {
      var l := rd.l;
      RecordLineEntry(log, l, k);
      if l.metric == k {
        FirstOccurrencesSnoc(es, l.entry);
      } else {
        assert es + [] == es;
      }
    } else {
      assert es + [] == es;
    }
  }

  /** What `RecordLine` with the intended check leaves under metric `k`. */
  lemma RecordLineEntry(log: LogMessages, l: LogLine, k: string)
    requires k in RecordLine(log, l, SeenEntry)
    ensures var before := if k in log then log[k] else [];
            RecordLine(log, l, SeenEntry)[k] ==
              if l.metric != k || l.entry in before then before else before + [l.entry]
  {
  }

  /** The same line logged twice is recorded twice as written, because the
      raw message is never one of the `level: message` entries; the
      intended check records it once. */
  lemma RepeatedLine(metric: string, text: string, level: string)
    requires Loggable(metric, text, level)
    ensures var line := FormatLine(metric, text, level);
            var e := level + ": " + text;
            LogMessagesAsWritten([line, line]) == Success(map[metric := [e, e]]) &&
            LogMessagesOf([line, line]) == Success(map[metric := [e]])
  {
    var line := FormatLine(metric, text, level);
    var e := level + ": " + text;
    var l := LogLine(metric, text, e);
    ReadFormatted(metric, text, level);
    ReadAllPair(line, line);
    RecordedTwice(l);
  }

  /** As written, a line whose raw message equals an entry already listed
      for its metric (`INFO: a` after `a|INFO`) is dropped although its
      own entry is new; the intended check lists it. */
  lemma LookalikeDropped(l1: LogLine, l2: LogLine)
    requires l2.metric == l1.metric && l2.message == l1.entry && l2.entry != l1.entry
    ensures LogFold([Read(l1), Read(l2)], SeenAsWritten) == Success(map[l1.metric := [l1.entry]])
    ensures LogFold([Read(l1), Read(l2)], SeenEntry) == Success(map[l1.metric := [l1.entry, l2.entry]])
  {
    var rs := [Read(l1), Read(l2)];
    assert rs[..1] == [Read(l1)];
    assert [Read(l1)][..0] == [];
    var one := map[l1.metric := [l1.entry]];
    assert LogFold([], SeenAsWritten) == Success(map[]);
    assert LogFold([], SeenEntry) == Success(map[]);
    assert !SeenAsWritten([], l1) && !SeenEntry([], l1);
    assert [] + [l1.entry] == [l1.entry];
    assert RecordLine(map[], l1, SeenAsWritten) == one;
    assert RecordLine(map[], l1, SeenEntry) == one;
    assert LogFold([Read(l1)], SeenAsWritten) == Success(one);
    assert LogFold([Read(l1)], SeenEntry) == Success(one);
    assert SeenAsWritten([l1.entry], l2);
    assert !SeenEntry([l1.entry], l2);
    assert RecordLine(one, l2, SeenAsWritten) == one;
    assert [l1.entry] + [l2.entry] == [l1.entry, l2.entry];
    assert RecordLine(one, l2, SeenEntry) == map[l1.metric := [l1.entry, l2.entry]];
  }

  /** Reading two lines reads each. */
  lemma ReadAllPair(a: string, b: string)
    ensures ReadAll([a, b]) == [ReadOf(a), ReadOf(b)]
  {
    var r := ReadAll([a, b]);
    assert [a, b][0] == a && [a, b][1] == b;
    Pair(r, ReadOf(a), ReadOf(b));
  }

  lemma Pair<T>(r: seq<T>, x: T, y: T)
    requires |r| == 2 && r[0] == x && r[1] == y
    ensures r == [x, y]
  {
  }

  /** The fold part of `RepeatedLine`. */
  lemma RecordedTwice(l: LogLine)
    requires |l.entry| > |l.message|
    ensures LogFold([Read(l), Read(l)], SeenAsWritten) == Success(map[l.metric := [l.entry, l.entry]])
    ensures LogFold([Read(l), Read(l)], SeenEntry) == Success(map[l.metric := [l.entry]])
  {
    assert [Read(l), Read(l)][..1] == [Read(l)];
    assert [Read(l)][..0] == [];
    var one := map[l.metric := [l.entry]];
    assert LogFold([], SeenAsWritten) == Success(map[]);
    assert !SeenAsWritten([], l) && !SeenEntry([], l);
    assert [] + [l.entry] == [l.entry];
    assert RecordLine(map[], l, SeenAsWritten) == one;
    assert LogFold([Read(l)], SeenAsWritten) == Success(one);
    assert LogFold([], SeenEntry) == Success(map[]);
    assert RecordLine(map[], l, SeenEntry) == one;
    assert LogFold([Read(l)], SeenEntry) == Success(one);
    assert l.message != l.entry;
    assert !SeenAsWritten([l.entry], l);
    assert SeenEntry([l.entry], l);
    assert [l.entry] + [l.entry] == [l.entry, l.entry];
    assert RecordLine(one, l, SeenAsWritten) == map[l.metric := [l.entry, l.entry]];
    assert RecordLine(one, l, SeenEntry) == one;
  }

  /** The stream the log handler writes to. After the first read the
      source replaces it by the `StringIO` class itself, not a new
      buffer. */
  datatype LogStream = Buffer(lines: seq<string>) | StreamClass

  /** `get_log_messages_dict` on the stream: reading the class object
      fails (a `TypeError` at `seek`); a successful read leaves the class
      behind. */
  function GetLogMessagesDict(stream: LogStream): (r: (Result<LogMessages, string>, LogStream))
    ensures stream.StreamClass? ==> r.0.Failure? && r.1 == StreamClass
    ensures stream.Buffer? ==> r.0 == LogMessagesAsWritten(stream.lines)
    ensures r.0.Success? ==> r.1 == StreamClass
    ensures r.0.Failure? ==> r.1 == stream
  {
    match stream
    case StreamClass => (Failure("TypeError"), StreamClass)
    case Buffer(lines) =>
      var r := LogMessagesAsWritten(lines);
      if r.Success? then (r, StreamClass) else (r, stream)
  }
}

=== FILE: harvester.dfy ===
/** The metadata harvester's bookkeeping: folding each collector's
    dictionary into the merged record, the list of per-source records,
    the check of allowed offering methods, the set of URLs to negotiate
    with, the choice of a PID found in the metadata, and the description
    of a metadata standard. Similarity scoring and metadata-standard
    lookup are oracles. */
module Harvester {
  import opened Wrappers
  import opened Strings
  import opened Seqs
  import opened Values
  import opened Collector

  // ---------------------------------------------------------------------
  // merge_metadata
  // ---------------------------------------------------------------------

  /** The keys whose string values are turned into lists. */
  const ListKeys: seq<string> := ["keywords", "access_level", "license", "object_type"]

  function StrItems(parts: seq<string>): (r: seq<Value>)
    ensures |r| == |parts| && forall i :: 0 <= i < |parts| ==> r[i] == Str(parts[i])
  {
    seq(|parts|, i requires 0 <= i < |parts| => Str(parts[i]))
  }

  /** The list enforcement of one reference key: a string `keywords` is
      split on commas, a string `access_level`, `license` or
      `object_type` becomes a one-element list. */
  function Enforced(k: string, v: Value): (r: Value)
    ensures k in ListKeys && v.Str? ==> r.List? && |r.items| > 0
    ensures !(k in ListKeys && v.Str?) ==> r == v
  {
    if k in ListKeys && v.Str? then
      if k == "keywords" then List(StrItems(Split(v.s, ","))) else List([v])
    else v
  }

  /** The metadata dictionary after list enforcement of its reference
      keys, which the source performs in place. */
  function EnforceAll(es: seq<(string, Value)>, refs: seq<string>): (r: seq<(string, Value)>)
    ensures |r| == |es|
    ensures forall i :: 0 <= i < |es| ==> r[i].0 == es[i].0
    ensures forall i :: 0 <= i < |es| ==> r[i].1 == (if es[i].0 in refs then Enforced(es[i].0, es[i].1) else es[i].1)
  {
    seq(|es|, i requires 0 <= i < |es| => (es[i].0, if es[i].0 in refs then Enforced(es[i].0, es[i].1) else es[i].1))
  }

  /** The items a new value contributes to a merged list. */
  function NewItems(v: Value): seq<Value> {
    if v.List? then v.items else [v]
  }

  /** One reference key merged into `merged`. `sim` stands for the
      token-sort similarity of the old string and the printed new value. */
  function MergeKey(merged: map<string, Value>, k: string, v: Value, sim: (string, Value) -> int): (r: map<string, Value>)
    ensures r.Keys == merged.Keys + {k}
    ensures forall j :: j in merged && j != k ==> r[j] == merged[j]
    ensures !(k in merged && Truthy(merged[k])) ==> r[k] == v
  {
    if k in merged && Truthy(merged[k]) then
      var prev := merged[k];
      var score := if prev.Str? && prev != v then sim(prev.s, v) else 0;
      if prev.List? then merged[k := List(FirstOccurrences(prev.items + NewItems(v)))]
      else if prev.Str? && v.Str? && |prev.s| < |v.s| && score > 80 then merged[k := v]
      else merged
    else merged[k := v]
  }

  /** Deduplicating an extended list keeps every new item, adds nothing
      else, and leaves a distinct old list in front and in order. */
  lemma {:induction false} ExtendedList<T>(prev: seq<T>, items: seq<T>)
    ensures var r := FirstOccurrences(prev + items);
            (forall x :: x in items ==> x in r) &&
            (forall x :: x in r ==> x in prev || x in items) &&
            (NoDup(prev) ==> |prev| <= |r| && r[..|prev|] == prev)
  {
    var all := prev + items;
    var r := FirstOccurrences(all);
    forall x | x in items
      ensures x in r
    {
      var i :| 0 <= i < |items| && items[i] == x;
      assert all[|prev| + i] == x;
    }
    FirstOccurrencesPrefix(prev, items);
    if NoDup(prev) {
      FirstOccurrencesOfDistinct(prev);
    }
  }

  /** Merging into a list extends it without duplicates: the old entries
      stay first and in order (when they were distinct), every new item
      is present, and nothing else is. */
  lemma MergeIntoList(merged: map<string, Value>, k: string, v: Value, sim: (string, Value) -> int)
    requires k in merged && merged[k].List? && |merged[k].items| > 0
    ensures var r := MergeKey(merged, k, v, sim)[k];
            r.List? && NoDup(r.items) &&
            (forall x :: x in NewItems(v) ==> x in r.items) &&
            (forall x :: x in r.items ==> x in merged[k].items || x in NewItems(v)) &&
            (NoDup(merged[k].items) ==> |merged[k].items| <= |r.items| && r.items[..|merged[k].items|] == merged[k].items)
  {
    assert MergeKey(merged, k, v, sim)[k] == List(FirstOccurrences(merged[k].items + NewItems(v)));
    ExtendedList(merged[k].items, NewItems(v));
  }

  /** An existing string is replaced only by a strictly longer string
      that is more than 80 per cent similar to it; otherwise it stays. */
  lemma MergeIntoString(merged: map<string, Value>, k: string, v: Value, sim: (string, Value) -> int)
    requires k in merged && merged[k].Str? && |merged[k].s| > 0
    ensures var r := MergeKey(merged, k, v, sim)[k];
            (r == v <==> v == merged[k] || (v.Str? && |merged[k].s| < |v.s| && sim(merged[k].s, v) > 80)) &&
            (r != v ==> r == merged[k])
  {
  }

  /** All entries of the (list-enforced) dictionary, in order; entries
      whose key is not a reference key are skipped. */
  function MergeEntries(merged: map<string, Value>, es: seq<(string, Value)>, refs: seq<string>, sim: (string, Value) -> int): (r: map<string, Value>)
    ensures forall j :: j !in refs ==> (j in r <==> j in merged) && (j in merged ==> r[j] == merged[j])
    ensures forall i :: 0 <= i < |es| && es[i].0 in refs ==> es[i].0 in r
    ensures merged.Keys <= r.Keys
    decreases |es|
  {
    if |es| == 0 then merged
    else
      var next := if es[0].0 in refs then MergeKey(merged, es[0].0, es[0].1, sim) else merged;
      var r := MergeEntries(next, es[1..], refs, sim);
      assert forall i :: 1 <= i < |es| ==> es[i] == es[1..][i - 1];
      r
  }

  /** The argument naming the harvesting method: a `MetadataSources`
      member, or a plain string. */
  datatype MethodName = BySource(s: Source) | ByText(name: string)

  /** The `method` and `offering_method` of a record; a source without an
      offering method (`XML_GUESSED`) makes the source raise. */
  function Offering(m: MethodName): Result<(string, Option<string>), string> {
    match m
    case BySource(s) =>
      (match s.Method()
       case None => Failure("AttributeError")
       case Some(om) => Success((s.Name(), Some(om.Acronym()))))
    case ByText(n) => Success((n, None))
  }

  /** The `namespaces` argument: a single value or a list. */
  datatype Namespaces = OneNamespace(ns: string) | NamespaceList(nss: seq<string>)

  /** One entry of `metadata_unmerged`. */
  datatype MergeRecord = MergeRecord(
    methodName: string,
    offeringMethod: Option<string>,
    url: string,
    format: string,
    standard: Option<string>,
    mime: Option<string>,
    schema: string,
    metadata: seq<(string, Value)>,
    namespaces: seq<string>
  )

  /** The harvester state merge_metadata updates. `shared` maps a merged
      key to the index of the record whose metadata holds, under the same
      key, the very list object that is the merged value: the source
      stores a new dictionary's list itself in `metadata_merged`, so
      extending the merged list later extends that record's list too. */
  datatype MergeState = MergeState(merged: map<string, Value>, unmerged: seq<MergeRecord>, shared: map<string, nat>)

  /** Two records that agree on everything but their metadata. */
  predicate SameOffering(a: MergeRecord, b: MergeRecord) {
    a.(metadata := b.metadata) == b
  }

  /** The state while the keys of one dictionary are merged: `own` holds
      the keys whose merged value is now that dictionary's own list. */
  datatype Pass = Pass(merged: map<string, Value>, unmerged: seq<MergeRecord>, shared: map<string, nat>, own: set<string>)

  /** Record `j`'s list under `k`, extended in place to `items`. */
  function ExtendShared(recs: seq<MergeRecord>, j: nat, k: string, items: seq<Value>): (r: seq<MergeRecord>)
    ensures |r| == |recs|
    ensures forall i :: 0 <= i < |recs| && i != j ==> r[i] == recs[i]
    ensures j < |recs| ==> SameOffering(r[j], recs[j]) && Lookup(r[j].metadata, k) == Some(List(items))
    ensures j < |recs| ==> forall k' :: k' != k ==> Lookup(r[j].metadata, k') == Lookup(recs[j].metadata, k')
  {
    if j < |recs| then recs[j := recs[j].(metadata := Update(recs[j].metadata, k, List(items)))] else recs
  }

  /** One reference key merged during a pass. Extending a merged list
      first extends, without de-duplication, the record sharing it; every
      merge of the key ends that sharing, and storing the dictionary's
      own list starts a new one. */
  function PassKey(p: Pass, k: string, v: Value, sim: (string, Value) -> int): (r: Pass)
    ensures r.merged == MergeKey(p.merged, k, v, sim)
    ensures r.shared == p.shared - {k}
    ensures |r.unmerged| == |p.unmerged|
    ensures forall i :: 0 <= i < |p.unmerged| ==> SameOffering(r.unmerged[i], p.unmerged[i])
    ensures forall i :: 0 <= i < |p.unmerged| && !(k in p.shared && p.shared[k] == i) ==> r.unmerged[i] == p.unmerged[i]
    ensures forall i :: 0 <= i < |p.unmerged| ==> SameOutside(p.unmerged[i].metadata, r.unmerged[i].metadata, {k})
    ensures k in p.shared && p.shared[k] < |p.unmerged| && k in p.merged && p.merged[k].List? && |p.merged[k].items| > 0 ==>
              Lookup(r.unmerged[p.shared[k]].metadata, k) == Some(List(p.merged[k].items + NewItems(v)))
  {
    var merged := MergeKey(p.merged, k, v, sim);
    if k in p.merged && Truthy(p.merged[k]) then
      var unmerged := if k in p.shared && p.merged[k].List?
                      then ExtendShared(p.unmerged, p.shared[k], k, p.merged[k].items + NewItems(v))
                      else p.unmerged;
      Pass(merged, unmerged, p.shared - {k}, p.own - {k})
    else
      Pass(merged, p.unmerged, p.shared - {k}, if v.List? then p.own + {k} else p.own - {k})
  }

  /** What a pass may do to the shared records, between states `p` and
      `r`: sharing only ends, the records keep their number and everything
      but their metadata, a record no key shares is untouched, and a
      record's metadata changes only under a reference key it shared. */
  ghost predicate PassFrame(p: Pass, r: Pass, refs: seq<string>) {
    && r.shared.Keys <= p.shared.Keys
    && (forall k :: k in r.shared ==> r.shared[k] == p.shared[k])
    && |r.unmerged| == |p.unmerged|
    && (forall i :: 0 <= i < |p.unmerged| ==> SameOffering(r.unmerged[i], p.unmerged[i]))
    && (forall i :: 0 <= i < |p.unmerged| && (forall k :: k in p.shared ==> p.shared[k] != i) ==> r.unmerged[i] == p.unmerged[i])
    && MetadataFrame(p.unmerged, r.unmerged, p.shared, refs)
  }

  /** Record `i`'s metadata changes only under reference keys `shared`
      maps to `i`. */
  ghost predicate MetadataFrame(before: seq<MergeRecord>, after: seq<MergeRecord>, shared: map<string, nat>, refs: seq<string>)
    requires |after| == |before|
  {
    forall i :: 0 <= i < |before| ==> SameOutside(before[i].metadata, after[i].metadata, SharedWith(shared, refs, i))
  }

  /** The reference keys `shared` maps to record `i`. */
  ghost function SharedWith(shared: map<string, nat>, refs: seq<string>, i: int): set<string> {
    set k | k in shared && shared[k] == i && k in refs
  }

  /** Two dictionaries that agree on every key outside `ks`. */
  ghost predicate SameOutside(x: seq<(string, Value)>, y: seq<(string, Value)>, ks: set<string>) {
    forall k :: k !in ks ==> Lookup(y, k) == Lookup(x, k)
  }

  /** All entries of the (list-enforced) dictionary merged in order: the
      merged values are those of `MergeEntries`, and the records change
      only as `PassFrame` allows. */
  function PassEntries(p: Pass, es: seq<(string, Value)>, refs: seq<string>, sim: (string, Value) -> int): (r: Pass)
    ensures r.merged == MergeEntries(p.merged, es, refs, sim)
    ensures PassFrame(p, r, refs)
    decreases |es|
  {
    if |es| == 0 then p
    else
      var next := if es[0].0 in refs then PassKey(p, es[0].0, es[0].1, sim) else p;
      var r := PassEntries(next, es[1..], refs, sim);
      NextShape(p, next, es, refs, sim);
      PassFrameTrans(p, next, r, refs);
      r
  }

  /** The frame of two consecutive parts of a pass is the frame of both. */
  lemma PassFrameTrans(p: Pass, next: Pass, r: Pass, refs: seq<string>)
    requires PassFrame(p, next, refs) && PassFrame(next, r, refs)
    ensures PassFrame(p, r, refs)
  {
    KeepOffering(p.unmerged, next.unmerged, r.unmerged);
    KeepUnshared(p, next, r);
    KeepLookups(p.unmerged, next.unmerged, r.unmerged, p.shared, next.shared, refs);
  }

  /** One step of a pass: the merged values go as `MergeEntries` goes,
      and the records change within the frame. */
  lemma NextShape(p: Pass, next: Pass, es: seq<(string, Value)>, refs: seq<string>, sim: (string, Value) -> int)
    requires |es| > 0
    requires next == if es[0].0 in refs then PassKey(p, es[0].0, es[0].1, sim) else p
    ensures MergeEntries(p.merged, es, refs, sim) == MergeEntries(next.merged, es[1..], refs, sim)
    ensures PassFrame(p, next, refs)
  {
    if es[0].0 in refs {
      var k0 := es[0].0;
      forall i | 0 <= i < |p.unmerged| && (forall k :: k in p.shared ==> p.shared[k] != i)
        ensures next.unmerged[i] == p.unmerged[i]
      {
        assert !(k0 in p.shared && p.shared[k0] == i);
      }
      forall i | 0 <= i < |p.unmerged|
        ensures SameOutside(p.unmerged[i].metadata, next.unmerged[i].metadata, SharedWith(p.shared, refs, i))
      {
        if k0 in p.shared && p.shared[k0] == i {
          assert k0 in SharedWith(p.shared, refs, i);
        } else {
          assert next.unmerged[i] == p.unmerged[i];
        }
      }
    }
  }

  /** Records that only differ in metadata, twice over. */
  lemma KeepOffering(a: seq<MergeRecord>, b: seq<MergeRecord>, c: seq<MergeRecord>)
    requires |b| == |a| && forall i :: 0 <= i < |a| ==> SameOffering(b[i], a[i])
    requires |c| == |b| && forall i :: 0 <= i < |b| ==> SameOffering(c[i], b[i])
    ensures forall i :: 0 <= i < |a| ==> SameOffering(c[i], a[i])
  {
    forall i | 0 <= i < |a|
      ensures SameOffering(c[i], a[i])
    {
      assert SameOffering(b[i], a[i]);
    }
  }

  /** A record no key shares is untouched by both parts of a pass. */
  lemma KeepUnshared(p: Pass, next: Pass, r: Pass)
    requires next.shared.Keys <= p.shared.Keys && forall k :: k in next.shared ==> next.shared[k] == p.shared[k]
    requires |next.unmerged| == |p.unmerged| && |r.unmerged| == |next.unmerged|
    requires forall i :: 0 <= i < |p.unmerged| && (forall k :: k in p.shared ==> p.shared[k] != i) ==> next.unmerged[i] == p.unmerged[i]
    requires forall i :: 0 <= i < |next.unmerged| && (forall k :: k in next.shared ==> next.shared[k] != i) ==> r.unmerged[i] == next.unmerged[i]
    ensures forall i :: 0 <= i < |p.unmerged| && (forall k :: k in p.shared ==> p.shared[k] != i) ==> r.unmerged[i] == p.unmerged[i]
  {
  }

  /** A record's metadata changes only under keys it shared, through both
      parts of a pass. */
  lemma KeepLookups(a: seq<MergeRecord>, b: seq<MergeRecord>, c: seq<MergeRecord>, sa: map<string, nat>, sb: map<string, nat>, refs: seq<string>)
    requires sb.Keys <= sa.Keys && forall k :: k in sb ==> sb[k] == sa[k]
    requires |b| == |a| && |c| == |b|
    requires MetadataFrame(a, b, sa, refs) && MetadataFrame(b, c, sb, refs)
    ensures MetadataFrame(a, c, sa, refs)
  {
    forall i | 0 <= i < |a|
      ensures SameOutside(a[i].metadata, c[i].metadata, SharedWith(sa, refs, i))
    {
      assert SharedWith(sb, refs, i) <= SharedWith(sa, refs, i);
      SameOutsideTrans(a[i].metadata, b[i].metadata, c[i].metadata, SharedWith(sa, refs, i), SharedWith(sb, refs, i));
    }
  }

  lemma SameOutsideTrans(x: seq<(string, Value)>, y: seq<(string, Value)>, z: seq<(string, Value)>, ks: set<string>, ks2: set<string>)
    requires SameOutside(x, y, ks) && SameOutside(y, z, ks2) && ks2 <= ks
    ensures SameOutside(x, z, ks)
  {
  }

  /** A key a record shares, merged again with a non-empty merged list,
      leaves in that record the old list followed by every item of the
      first new value for the key, duplicates included. */
  lemma {:induction false} SharedExtended(p: Pass, es: seq<(string, Value)>, refs: seq<string>, sim: (string, Value) -> int, k: string)
    requires k in p.shared && p.shared[k] < |p.unmerged| && k in refs && k in Keys(es)
    requires k in p.merged && p.merged[k].List? && |p.merged[k].items| > 0
    ensures Lookup(PassEntries(p, es, refs, sim).unmerged[p.shared[k]].metadata, k) ==
            Some(List(p.merged[k].items + NewItems(Lookup(es, k).value)))
    decreases |es|
  {
    if es[0].0 == k {
      SharedHit(p, es, refs, sim, k);
    } else {
      var next := if es[0].0 in refs then PassKey(p, es[0].0, es[0].1, sim) else p;
      SharedMiss(p, es, refs, sim, k);
      SharedExtended(next, es[1..], refs, sim, k);
    }
  }

  /** The first entry merges the shared key: the record's list is extended
      here and, the sharing ended, kept by the rest of the pass. */
  lemma SharedHit(p: Pass, es: seq<(string, Value)>, refs: seq<string>, sim: (string, Value) -> int, k: string)
    requires k in p.shared && p.shared[k] < |p.unmerged| && k in refs && |es| > 0 && es[0].0 == k
    requires k in p.merged && p.merged[k].List? && |p.merged[k].items| > 0
    ensures Lookup(PassEntries(p, es, refs, sim).unmerged[p.shared[k]].metadata, k) ==
            Some(List(p.merged[k].items + NewItems(Lookup(es, k).value)))
  {
    var next := PassKey(p, k, es[0].1, sim);
    var r := PassEntries(next, es[1..], refs, sim);
    assert PassEntries(p, es, refs, sim) == r;
    var j := p.shared[k];
    assert Lookup(es, k) == Some(es[0].1);
    assert k !in SharedWith(next.shared, refs, j);
    assert SameOutside(next.unmerged[j].metadata, r.unmerged[j].metadata, SharedWith(next.shared, refs, j));
  }

  /** The first entry merges another key: the sharing of `k` and its
      merged list survive, and the rest of the pass decides. */
  lemma SharedMiss(p: Pass, es: seq<(string, Value)>, refs: seq<string>, sim: (string, Value) -> int, k: string)
    requires k in p.shared && p.shared[k] < |p.unmerged| && k in refs && k in Keys(es) && es[0].0 != k
    requires k in p.merged && p.merged[k].List?
    ensures var next := if es[0].0 in refs then PassKey(p, es[0].0, es[0].1, sim) else p;
            && PassEntries(p, es, refs, sim) == PassEntries(next, es[1..], refs, sim)
            && k in next.shared && next.shared[k] == p.shared[k] && |next.unmerged| == |p.unmerged|
            && k in next.merged && next.merged[k] == p.merged[k]
            && k in Keys(es[1..]) && Lookup(es, k) == Lookup(es[1..], k)
  {
    assert Keys(es) == [es[0].0] + Keys(es[1..]);
    if es[0].0 in refs {
      var next := PassKey(p, es[0].0, es[0].1, sim);
      assert next.shared == p.shared - {es[0].0};
      assert next.merged == MergeKey(p.merged, es[0].0, es[0].1, sim);
    }
  }

  /** A truthy `spatial_resolution` dictionary copies its first entry into
      the metadata; any other truthy value makes the source raise. */
  function WithResolution(es: seq<(string, Value)>): (r: Result<seq<(string, Value)>, string>)
    ensures r.Success? && Lookup(es, "spatial_resolution").None? ==> r.value == es
  {
    match Lookup(es, "spatial_resolution")
    case Some(sr) =>
      if !Truthy(sr) then Success(es)
      else if !sr.Dict? then Failure("AttributeError")
      else Success(Update(es, sr.entries[0].0, sr.entries[0].1))
    case None => Success(es)
  }

  /** A truthy `object_identifier` that is not a list is wrapped in one. */
  function WrapIdentifier(es: seq<(string, Value)>): seq<(string, Value)> {
    match Lookup(es, "object_identifier")
    case Some(v) => if Truthy(v) && !v.List? then Update(es, "object_identifier", List([v])) else es
    case None => es
  }

  /** Merging is allowed when no standards are configured, or when the
      detected standard is one of them. */
  predicate MergeAllowed(standard: Option<string>, allowed: seq<string>) {
    |allowed| == 0 || (standard.Some? && standard.value in allowed)
  }

  /** The URIs tested for a metadata standard: the namespaces with the
      schema, if any, put in front. */
  function TestUris(schema: string, namespaces: Namespaces): seq<string> {
    var nss := match namespaces
      case OneNamespace(n) => [n]
      case NamespaceList(ns) => ns;
    if schema != "" then [schema] + nss else nss
  }

  /** How merge_metadata leaves the records: at most one record is added,
      and not one equal to an earlier record; the earlier records keep
      their offering, and their metadata changes only under the
      reference keys they share; new sharing points at the added record. */
  ghost predicate MergeOutcome(st: MergeState, r: MergeState, refs: seq<string>) {
    && (|r.unmerged| == |st.unmerged| || |r.unmerged| == |st.unmerged| + 1)
    && (forall i :: 0 <= i < |st.unmerged| ==> SameOffering(r.unmerged[i], st.unmerged[i]))
    && (forall i :: 0 <= i < |st.unmerged| && (forall k :: k in st.shared ==> st.shared[k] != i) ==> r.unmerged[i] == st.unmerged[i])
    && (forall i :: 0 <= i < |st.unmerged| ==> SameOutside(st.unmerged[i].metadata, r.unmerged[i].metadata, SharedWith(st.shared, refs, i)))
    && (|r.unmerged| > |st.unmerged| ==> r.unmerged[|st.unmerged|] !in r.unmerged[..|st.unmerged|])
    && (NoDup(r.unmerged[..|st.unmerged|]) ==> NoDup(r.unmerged))
    && (forall k :: k in r.shared ==> (k in st.shared && r.shared[k] == st.shared[k]) || r.shared[k] == |st.unmerged| < |r.unmerged|)
  }

  /** `merge_metadata` (without PID resolution): `standardOf` stands for
      the metadata-standard lookup and `sim` for the similarity score. */
  function MergeMetadata(st: MergeState, metadict: Value, url: string, via: MethodName, format: Format,
                         mime: Option<string>, schema: string, namespaces: Namespaces, refs: seq<string>,
                         allowed: seq<string>, standardOf: seq<string> -> Option<string>,
                         sim: (string, Value) -> int): (r: MergeState)
    ensures !MergeAllowed(standardOf(TestUris(schema, namespaces)), allowed) ==> r == st
    ensures !metadict.Dict? ==> r == st
    ensures forall j :: j !in refs ==> (j in r.merged <==> j in st.merged) && (j in st.merged ==> r.merged[j] == st.merged[j])
    ensures MergeOutcome(st, r, refs)
  {
    var uris := TestUris(schema, namespaces);
    var standard := standardOf(uris);
    if !metadict.Dict? || !MergeAllowed(standard, allowed) then
      KeptOutcome(st, Pass(st.merged, st.unmerged, st.shared, {}), refs);
      st
    else
      match WithResolution(metadict.entries)
      case Failure(_) =>
        KeptOutcome(st, Pass(st.merged, st.unmerged, st.shared, {}), refs);
        st
      case Success(es) =>
        var enforced := EnforceAll(es, refs);
        var p := PassEntries(Pass(st.merged, st.unmerged, st.shared, {}), enforced, refs, sim);
        KeptOutcome(st, p, refs);
        match Offering(via)
        case Failure(_) => MergeState(p.merged, p.unmerged, p.shared)
        case Success(names) =>
          var rec := MergeRecord(names.0, names.1, url, format.Acronym(), standard, mime, schema,
                                 WrapIdentifier(enforced), uris);
          if rec in p.unmerged then MergeState(p.merged, p.unmerged, p.shared)
          else
            AppendedOutcome(st, p, rec, refs);
            MergeState(p.merged, p.unmerged + [rec], p.shared + map k | k in p.own :: |p.unmerged|)
  }

  /** A merge that adds no record stays within the outcome. */
  lemma KeptOutcome(st: MergeState, p: Pass, refs: seq<string>)
    requires PassFrame(Pass(st.merged, st.unmerged, st.shared, {}), p, refs)
    ensures MergeOutcome(st, MergeState(p.merged, p.unmerged, p.shared), refs)
  {
    assert p.unmerged[..|st.unmerged|] == p.unmerged;
  }

  /** A merge that adds a new record stays within the outcome. */
  lemma AppendedOutcome(st: MergeState, p: Pass, rec: MergeRecord, refs: seq<string>)
    requires PassFrame(Pass(st.merged, st.unmerged, st.shared, {}), p, refs)
    requires rec !in p.unmerged
    ensures MergeOutcome(st, MergeState(p.merged, p.unmerged + [rec], p.shared + map k | k in p.own :: |p.unmerged|), refs)
  {
    AppendFresh(p.unmerged, rec);
    var all := p.unmerged + [rec];
    forall i | 0 <= i < |st.unmerged|
      ensures all[i] == p.unmerged[i]
    {
    }
  }

  /** Appending a record not yet listed keeps the list repeat-free. */
  lemma AppendFresh(xs: seq<MergeRecord>, x: MergeRecord)
    requires x !in xs
    ensures (xs + [x])[..|xs|] == xs && (xs + [x])[|xs|] == x
    ensures NoDup(xs) ==> NoDup(xs + [x])
  {
    assert (xs + [x])[..|xs|] == xs;
  }

  /** A string of keywords merged into a record without keywords becomes
      the list of its comma-separated parts, which joined with commas give
      the string back. */
  lemma KeywordsAreSplit(st: MergeState, s: string, url: string, via: MethodName, format: Format,
                         refs: seq<string>, standardOf: seq<string> -> Option<string>, sim: (string, Value) -> int)
    requires "keywords" in refs && "keywords" !in st.merged
    ensures var r := MergeMetadata(st, Dict([("keywords", Str(s))]), url, via, format, None, "",
                                   NamespaceList([]), refs, [], standardOf, sim);
            "keywords" in r.merged && r.merged["keywords"] == List(StrItems(Split(s, ","))) &&
            Join(Split(s, ","), ",") == s
  {
    var es := [("keywords", Str(s))];
    assert Lookup(es, "spatial_resolution").None?;
    var enforced := EnforceAll(es, refs);
    assert enforced == [("keywords", List(StrItems(Split(s, ","))))];
    var m1 := MergeKey(st.merged, "keywords", List(StrItems(Split(s, ","))), sim);
    assert MergeEntries(st.merged, enforced, refs, sim) == MergeEntries(m1, [], refs, sim);
    MergedEntries(st, es, url, via, format, refs, standardOf, sim);
  }

  /** Without `spatial_resolution` and with no standard restriction, the
      merged record is that of `MergeEntries` over the enforced entries. */
  lemma MergedEntries(st: MergeState, es: seq<(string, Value)>, url: string, via: MethodName, format: Format,
                      refs: seq<string>, standardOf: seq<string> -> Option<string>, sim: (string, Value) -> int)
    requires Lookup(es, "spatial_resolution").None?
    ensures MergeMetadata(st, Dict(es), url, via, format, None, "", NamespaceList([]), refs, [], standardOf, sim).merged
            == MergeEntries(st.merged, EnforceAll(es, refs), refs, sim)
  {
    assert WithResolution(es) == Success(es);
  }

  /** The sharing in action: a list merged under a reference key into an
      empty state is stored by the first record; merging a second list
      under the key then extends that record's list in place, so the
      record ends with both lists' items, not the one it was stored with. */
  lemma SharedListExtended(k: string, xs: seq<Value>, ys: seq<Value>, name: string, url: string, format: Format,
                           refs: seq<string>, standardOf: seq<string> -> Option<string>, sim: (string, Value) -> int)
    requires k in refs && k != "spatial_resolution" && |xs| > 0
    ensures var r1 := MergeMetadata(MergeState(map[], [], map[]), Dict([(k, List(xs))]), url, ByText(name), format,
                                    None, "", NamespaceList([]), refs, [], standardOf, sim);
            var r2 := MergeMetadata(r1, Dict([(k, List(ys))]), url, ByText(name), format,
                                    None, "", NamespaceList([]), refs, [], standardOf, sim);
            |r1.unmerged| == 1 && Lookup(r1.unmerged[0].metadata, k) == Some(List(xs)) &&
            |r2.unmerged| >= 1 && Lookup(r2.unmerged[0].metadata, k) == Some(List(xs + ys))
  {
    var r1 := FirstListShared(k, xs, name, url, format, refs, standardOf, sim);
    SecondListExtends(r1, k, xs, ys, name, url, format, refs, standardOf, sim);
  }

  /** merge_metadata of a plain dictionary without `spatial_resolution`,
      offered under a plain method name with no schema or namespaces. */
  lemma PlainMerge(st: MergeState, es: seq<(string, Value)>, url: string, name: string, format: Format, refs: seq<string>,
                   standardOf: seq<string> -> Option<string>, sim: (string, Value) -> int)
    requires Lookup(es, "spatial_resolution").None?
    ensures var p := PassEntries(Pass(st.merged, st.unmerged, st.shared, {}), EnforceAll(es, refs), refs, sim);
            var rec := MergeRecord(name, None, url, format.Acronym(), standardOf([]), None, "", WrapIdentifier(EnforceAll(es, refs)), []);
            MergeMetadata(st, Dict(es), url, ByText(name), format, None, "", NamespaceList([]), refs, [], standardOf, sim) ==
              if rec in p.unmerged then MergeState(p.merged, p.unmerged, p.shared)
              else MergeState(p.merged, p.unmerged + [rec], p.shared + map k | k in p.own :: |p.unmerged|)
  {
    assert TestUris("", NamespaceList([])) == [];
    assert WithResolution(es) == Success(es);
  }

  /** The first merge stores the list and shares it with its record. */
  lemma FirstListShared(k: string, xs: seq<Value>, name: string, url: string, format: Format, refs: seq<string>,
                        standardOf: seq<string> -> Option<string>, sim: (string, Value) -> int) returns (r1: MergeState)
    requires k in refs && k != "spatial_resolution" && |xs| > 0
    ensures r1 == MergeMetadata(MergeState(map[], [], map[]), Dict([(k, List(xs))]), url, ByText(name), format,
                                None, "", NamespaceList([]), refs, [], standardOf, sim)
    ensures r1.merged == map[k := List(xs)] && r1.shared == map[k := 0]
    ensures |r1.unmerged| == 1 && r1.unmerged[0].metadata == [(k, List(xs))]
  {
    var es := [(k, List(xs))];
    assert Lookup(es, "spatial_resolution").None?;
    assert EnforceAll(es, refs) == es;
    assert WrapIdentifier(es) == es;
    var p0 := Pass(map[], [], map[], {});
    var p1 := PassKey(p0, k, List(xs), sim);
    assert p1 == Pass(map[k := List(xs)], [], map[], {k});
    assert PassEntries(p0, es, refs, sim) == PassEntries(p1, [], refs, sim);
    PlainMerge(MergeState(map[], [], map[]), es, url, name, format, refs, standardOf, sim);
    r1 := MergeMetadata(MergeState(map[], [], map[]), Dict(es), url, ByText(name), format,
                        None, "", NamespaceList([]), refs, [], standardOf, sim);
    assert (map j | j in p1.own :: 0) == map[k := 0];
  }

  /** The second merge extends the shared list in place. */
  lemma SecondListExtends(r1: MergeState, k: string, xs: seq<Value>, ys: seq<Value>, name: string, url: string, format: Format,
                          refs: seq<string>, standardOf: seq<string> -> Option<string>, sim: (string, Value) -> int)
    requires k in refs && k != "spatial_resolution" && |xs| > 0
    requires r1.merged == map[k := List(xs)] && r1.shared == map[k := 0]
    requires |r1.unmerged| == 1 && r1.unmerged[0].metadata == [(k, List(xs))]
    ensures var r2 := MergeMetadata(r1, Dict([(k, List(ys))]), url, ByText(name), format,
                                    None, "", NamespaceList([]), refs, [], standardOf, sim);
            |r2.unmerged| >= 1 && Lookup(r2.unmerged[0].metadata, k) == Some(List(xs + ys))
  {
    var es := [(k, List(ys))];
    assert Lookup(es, "spatial_resolution").None?;
    assert EnforceAll(es, refs) == es;
    var p0 := Pass(r1.merged, r1.unmerged, r1.shared, {});
    var p1 := PassKey(p0, k, List(ys), sim);
    assert PassEntries(p0, es, refs, sim) == PassEntries(p1, [], refs, sim) == p1;
    assert Lookup(p1.unmerged[0].metadata, k) == Some(List(xs + ys));
    PlainMerge(r1, es, url, name, format, refs, standardOf, sim);
  }

  // ---------------------------------------------------------------------
  // is_harvesting_method_allowed
  // ---------------------------------------------------------------------

  /** An entry of `allowed_harvesting_methods`: the default list holds
      acronym strings, a configured list holds method members. */
  datatype AllowedEntry = AcronymEntry(acronym: string) | MemberEntry(m: Method)

  /** The default: every offering method's acronym, in declaration order. */
  function DefaultAllowed(): (r: seq<AllowedEntry>)
    ensures |r| == |AllMethods| && forall i :: 0 <= i < |r| ==> r[i] == AcronymEntry(AllMethods[i].Acronym())
  {
    seq(|AllMethods|, i requires 0 <= i < |AllMethods| => AcronymEntry(AllMethods[i].Acronym()))
  }

  /** The constructor keeps a configured list only when it is non-empty and
      holds method members only. */
  function AllowedMethods(configured: seq<AllowedEntry>): (r: seq<AllowedEntry>)
    ensures |configured| > 0 && (forall i :: 0 <= i < |configured| ==> configured[i].MemberEntry?) ==> r == configured
    ensures !(|configured| > 0 && (forall i :: 0 <= i < |configured| ==> configured[i].MemberEntry?)) ==> r == DefaultAllowed()
  {
    if |configured| > 0 && forall i :: 0 <= i < |configured| ==> configured[i].MemberEntry? then configured
    else DefaultAllowed()
  }

  /** `is_harvesting_method_allowed` as written: the method is turned into
      its acronym string and looked up in the list, which, once
      configured, holds members and never a string. */
  predicate IsHarvestingMethodAllowedAsWritten(allowed: seq<AllowedEntry>, m: Method): (r: bool)
    ensures (forall i :: 0 <= i < |allowed| ==> allowed[i].MemberEntry?) ==> !r
  {
    AcronymEntry(m.Acronym()) in allowed
  }

  /** The check as intended: a method is allowed when its acronym or the
      member itself is listed. */
  predicate IsHarvestingMethodAllowed(allowed: seq<AllowedEntry>, m: Method): (r: bool)
    ensures IsHarvestingMethodAllowedAsWritten(allowed, m) ==> r
    ensures (forall i :: 0 <= i < |allowed| ==> allowed[i].MemberEntry?) ==> (r <==> MemberEntry(m) in allowed)
  {
    AcronymEntry(m.Acronym()) in allowed || MemberEntry(m) in allowed
  }

  /** Every method is in the default list. */
  lemma DefaultAllowsAll(m: Method)
    ensures AcronymEntry(m.Acronym()) in DefaultAllowed()
  {
    var i: nat := match m
      case META_TAGS => 0
      case JSON_IN_HTML => 1
      case MICRODATA_METHOD => 2
      case RDFA_METHOD => 3
      case TYPED_LINKS => 4
      case SIGNPOSTING => 5
      case CONTENT_NEGOTIATION => 6;
    assert DefaultAllowed()[i] == AcronymEntry(m.Acronym());
  }

  /** As written, configuring the allowed methods disables every method:
      the configured list holds members, the lookup uses a string. */
  lemma ConfiguredMethodsNeverAllowedAsWritten(configured: seq<AllowedEntry>, m: Method)
    requires |configured| > 0 && forall i :: 0 <= i < |configured| ==> configured[i].MemberEntry?
    ensures !IsHarvestingMethodAllowedAsWritten(AllowedMethods(configured), m)
  {
    forall i | 0 <= i < |configured|
      ensures configured[i] != AcronymEntry(m.Acronym())
    {
    }
  }

  /** The intended check allows exactly the configured methods, and every
      method when nothing is configured. */
  lemma HarvestingMethodAllowed(configured: seq<AllowedEntry>, m: Method)
    ensures |configured| > 0 && (forall i :: 0 <= i < |configured| ==> configured[i].MemberEntry?) ==>
              (IsHarvestingMethodAllowed(AllowedMethods(configured), m) <==> MemberEntry(m) in configured)
    ensures |configured| == 0 ==> IsHarvestingMethodAllowed(AllowedMethods(configured), m)
  {
    if |configured| > 0 && forall i :: 0 <= i < |configured| ==> configured[i].MemberEntry? {
      forall i | 0 <= i < |configured|
        ensures configured[i] != AcronymEntry(m.Acronym())
      {
      }
    } else {
      DefaultAllowsAll(m);
    }
  }

  // ---------------------------------------------------------------------
  // The target URLs of retrieve_metadata_external
  // ---------------------------------------------------------------------

  /** A URL is used when it is set and not empty (Python truthiness). */
  predicate Given(u: Option<string>) {
    u.Some? && |u.value| > 0
  }

  /** `u` is the URL `o` with its fragment cut off. */
  predicate Cut(o: Option<string>, u: string) {
    o.Some? && u == Before(o.value, "#")
  }

  /** The fragment-free form of an optional URL, as a set. */
  function CutSet(o: Option<string>): (r: set<string>)
    ensures forall u :: u in r <==> Cut(o, u)
    ensures forall u :: u in r ==> !Contains(u, "#")
  {
    if o.Some? then {Before(o.value, "#")} else {}
  }

  /** The URLs content negotiation is attempted on, with fragments cut
      off and `None` dropped; `None` when nothing is attempted: no allowed
      method, neither landing nor PID URL, or an explicit target while a
      DOI is resolved without DataCite. Without DataCite a DOI's own URL is
      only used when it is the origin URL. */
  function TargetUrls(anyMethodAllowed: bool, origin: Option<string>, pid: Option<string>, landing: Option<string>,
                      useDatacite: bool, pidScheme: Option<string>, target: Option<string>): (r: Option<set<string>>)
    ensures r.Some? <==> anyMethodAllowed && (Given(landing) || Given(pid)) &&
                         (target.Some? ==> useDatacite || pidScheme != Some("doi"))
    ensures r.Some? ==> forall u :: u in r.value ==> !Contains(u, "#")
    ensures r.Some? && target.Some? ==> forall u :: u in r.value <==> Cut(target, u)
    ensures r.Some? && target.None? && !useDatacite && pidScheme == Some("doi") ==>
              forall u :: u in r.value <==> (origin != pid && Cut(origin, u)) || Cut(landing, u)
    ensures r.Some? && target.None? && !(!useDatacite && pidScheme == Some("doi")) ==>
              forall u :: u in r.value <==> Cut(origin, u) || Cut(pid, u) || Cut(landing, u)
  {
    if !anyMethodAllowed || !(Given(landing) || Given(pid)) then None
    else
      var doiOnly := !useDatacite && pidScheme == Some("doi");
      if target.Some? then (if doiOnly then None else Some(CutSet(target)))
      else if doiOnly then Some((if origin == pid then {} else CutSet(origin)) + CutSet(landing))
      else Some(CutSet(origin) + CutSet(pid) + CutSet(landing))
  }

  // ---------------------------------------------------------------------
  // check_pidtest_repeat
  // ---------------------------------------------------------------------

  /** An identifier found in the merged metadata, as the identifier helper
      sees it: its preferred scheme, its URL, whether it is persistent and
      whether it resolved to the landing page. */
  datatype PidCandidate = PidCandidate(scheme: string, url: string, persistent: bool, verified: bool)

  predicate Qualifies(c: PidCandidate) {
    c.persistent && c.verified
  }

  /** Candidate `i` is the last persistent, verified one of scheme `k`. */
  predicate LastOfScheme(cands: seq<PidCandidate>, i: int, k: string) {
    0 <= i < |cands| && Qualifies(cands[i]) && cands[i].scheme == k &&
    forall j :: i < j < |cands| && Qualifies(cands[j]) ==> cands[j].scheme != k
  }

  /** Candidate `i` is the first persistent, verified one. */
  predicate FirstQualifying(cands: seq<PidCandidate>, i: int) {
    0 <= i < |cands| && Qualifies(cands[i]) && forall j :: 0 <= j < i ==> !Qualifies(cands[j])
  }

  /** The `found_pids` dictionary: scheme to URL, later candidates
      overwriting earlier ones. */
  function FoundPids(cands: seq<PidCandidate>): (r: map<string, string>)
    ensures forall k :: k in r <==> exists i :: 0 <= i < |cands| && Qualifies(cands[i]) && cands[i].scheme == k
    ensures forall k :: k in r ==> exists i :: LastOfScheme(cands, i, k) && cands[i].url == r[k]
  {
    if |cands| == 0 then map[]
    else
      var init := cands[..|cands| - 1];
      var c := cands[|cands| - 1];
      var f := FoundPids(init);
      assert forall i :: 0 <= i < |init| ==> init[i] == cands[i];
      assert forall i, k :: LastOfScheme(init, i, k) && !(Qualifies(c) && c.scheme == k) ==> LastOfScheme(cands, i, k);
      if Qualifies(c) then
        assert LastOfScheme(cands, |cands| - 1, c.scheme);
        f[c.scheme := c.url]
      else f
  }

  /** The scheme inserted first into `found_pids`, which dictionary
      iteration visits first. */
  function FirstScheme(cands: seq<PidCandidate>): (r: Option<string>)
    ensures r.None? <==> forall i :: 0 <= i < |cands| ==> !Qualifies(cands[i])
    ensures r.Some? ==> exists i :: FirstQualifying(cands, i) && cands[i].scheme == r.value
  {
    if |cands| == 0 then None
    else
      var init := cands[..|cands| - 1];
      var c := cands[|cands| - 1];
      var f := FirstScheme(init);
      assert forall i :: 0 <= i < |init| ==> init[i] == cands[i];
      assert forall i :: FirstQualifying(init, i) ==> FirstQualifying(cands, i);
      if f.Some? then f
      else if Qualifies(c) then
        assert FirstQualifying(cands, |cands| - 1);
        Some(c.scheme)
      else None
  }

  /** The PID check is repeated with the scheme and URL chosen here: a DOI
      when one was found, otherwise the first scheme found. Nothing is
      chosen when a scheme is already known, the check was repeated
      before, or no identifier is persistent and verified. */
  function RepeatedPid(pidScheme: Option<string>, repeated: bool, cands: seq<PidCandidate>): (r: Option<(string, string)>)
    ensures r.None? <==> pidScheme.Some? || repeated || forall i :: 0 <= i < |cands| ==> !Qualifies(cands[i])
    ensures r.Some? && (exists i :: 0 <= i < |cands| && Qualifies(cands[i]) && cands[i].scheme == "doi") ==> r.value.0 == "doi"
    ensures r.Some? ==> exists i :: LastOfScheme(cands, i, r.value.0) && cands[i].url == r.value.1
    ensures r.Some? && r.value.0 != "doi" ==> exists i :: FirstQualifying(cands, i) && cands[i].scheme == r.value.0
  {
    if pidScheme.Some? || repeated then None
    else
      var urls := FoundPids(cands);
      match FirstScheme(cands)
      case None => None
      case Some(first) =>
        if "doi" in urls then Some(("doi", urls["doi"]))
        else Some((first, urls[first]))
  }

  // ---------------------------------------------------------------------
  // get_metadata_standard_info
  // ---------------------------------------------------------------------

  /** An identifier of a metadata standard (`type` and `value` entries). */
  datatype StandardId = StandardId(idType: Option<string>, value: Option<string>)

  /** A metadata standard of the reference list. */
  datatype Standard = Standard(subject: Option<seq<string>>, identifiers: Option<seq<StandardId>>,
                               title: Option<string>, acronym: Option<string>)

  /** The description `get_metadata_standard_info` returns. */
  datatype StandardInfo = StandardInfo(id: string, subject: Option<seq<string>>, name: Option<string>, acronym: string,
                                       externalIds: seq<StandardId>, stype: Option<string>, catalogue: seq<string>)

  const MscPrefix := "msc:"
  const MscBase := "https://rdamsc.bath.ac.uk/msc/"

  /** A local catalogue id, with `msc:` ids rewritten to catalogue URLs. */
  function CatalogueUri(v: string): (r: string)
    ensures !IsPrefix(MscPrefix, r)
    ensures !IsPrefix(MscPrefix, v) ==> r == v
    ensures IsPrefix(MscPrefix, v) ==> IsPrefix(MscBase, r) && IsSuffix(AfterLast(v, ':'), r)
  {
    if IsPrefix(MscPrefix, v) then
      var r := MscBase + AfterLast(v, ':');
      assert r[0] == 'h';
      r
    else v
  }

  /** The entry `id` is a local identifier. */
  predicate IsLocal(id: StandardId) {
    id.idType == Some("local")
  }

  /** The local identifiers in catalogue form, in order; a local
      identifier without a value makes the source raise. */
  function Catalogue(ids: seq<StandardId>): (r: Result<seq<string>, string>)
    ensures r.Success? ==> |r.value| <= |ids|
    ensures r.Success? ==> forall i :: 0 <= i < |r.value| ==> !IsPrefix(MscPrefix, r.value[i])
    ensures r.Failure? <==> exists j :: 0 <= j < |ids| && IsLocal(ids[j]) && ids[j].value.None?
  {
    if |ids| == 0 then Success([])
    else
      var rest := Catalogue(ids[1..]);
      assert forall j :: 1 <= j < |ids| ==> ids[j] == ids[1..][j - 1];
      if !IsLocal(ids[0]) then rest
      else if ids[0].value.None? then Failure("AttributeError")
      else if rest.Failure? then rest
      else Success([CatalogueUri(ids[0].value.value)] + rest.value)
  }

  /** Every catalogue entry comes from a local identifier's value, and
      every local value has its entry. */
  lemma {:induction false} CatalogueContents(ids: seq<StandardId>)
    requires Catalogue(ids).Success?
    ensures forall x :: x in Catalogue(ids).value ==>
              exists j :: 0 <= j < |ids| && IsLocal(ids[j]) && ids[j].value.Some? && x == CatalogueUri(ids[j].value.value)
    ensures forall j :: 0 <= j < |ids| && IsLocal(ids[j]) ==> ids[j].value.Some? && CatalogueUri(ids[j].value.value) in Catalogue(ids).value
  {
    CatalogueSound(ids);
    CatalogueComplete(ids);
  }

  /** Every catalogue entry comes from a local identifier's value. */
  lemma {:induction false} CatalogueSound(ids: seq<StandardId>)
    requires Catalogue(ids).Success?
    ensures forall x :: x in Catalogue(ids).value ==>
              exists j :: 0 <= j < |ids| && IsLocal(ids[j]) && ids[j].value.Some? && x == CatalogueUri(ids[j].value.value)
  {
    if |ids| > 0 {
      var t := ids[1..];
      assert Catalogue(t).Success?;
      CatalogueSound(t);
      var r := Catalogue(ids).value;
      var rt := Catalogue(t).value;
      assert r == if IsLocal(ids[0]) then [CatalogueUri(ids[0].value.value)] + rt else rt;
      forall x | x in Catalogue(ids).value
        ensures exists j :: 0 <= j < |ids| && IsLocal(ids[j]) && ids[j].value.Some? && x == CatalogueUri(ids[j].value.value)
      {
        if IsLocal(ids[0]) && x == r[0] {
          assert ids[0].value.Some? && x == CatalogueUri(ids[0].value.value);
        } else {
          assert x in rt;
          var j :| 0 <= j < |t| && IsLocal(t[j]) && t[j].value.Some? && x == CatalogueUri(t[j].value.value);
          assert ids[j + 1] == t[j];
        }
      }
    }
  }

  /** Every local value has its catalogue entry. */
  lemma {:induction false} CatalogueComplete(ids: seq<StandardId>)
    requires Catalogue(ids).Success?
    ensures forall j :: 0 <= j < |ids| && IsLocal(ids[j]) ==> ids[j].value.Some? && CatalogueUri(ids[j].value.value) in Catalogue(ids).value
  {
    if |ids| > 0 {
      var t := ids[1..];
      assert Catalogue(t).Success?;
      CatalogueComplete(t);
      var r := Catalogue(ids).value;
      var rt := Catalogue(t).value;
      assert r == if IsLocal(ids[0]) then [CatalogueUri(ids[0].value.value)] + rt else rt;
      forall j | 0 <= j < |ids| && IsLocal(ids[j])
        ensures ids[j].value.Some? && CatalogueUri(ids[j].value.value) in Catalogue(ids).value
      {
        if j > 0 {
          assert ids[j] == t[j - 1];
        }
      }
    }
  }

  /** A subject list makes a standard generic when it is exactly
      `["sciences"]` or consists of "Multidisciplinary" only. */
  predicate GenericSubject(subject: seq<string>) {
    subject == ["sciences"] || forall i :: 0 <= i < |subject| ==> subject[i] == "Multidisciplinary"
  }

  /** `get_metadata_standard_info`: `None` for no id, and an error when the
      id is unknown or the record lacks what the source reads. */
  function MetadataStandardInfo(id: Option<string>, standards: map<string, Standard>): (r: Result<Option<StandardInfo>, string>)
    ensures !Given(id) ==> r == Success(None)
    ensures Given(id) && id.value !in standards ==> r.Failure?
    ensures r.Success? && r.value.Some? ==> Given(id) && r.value.value.id == id.value
    ensures r.Success? && r.value.Some? ==>
              var info := r.value.value;
              (info.stype == Some("generic") <==> info.subject.Some? && |info.subject.value| > 0 && GenericSubject(info.subject.value)) &&
              (info.stype == Some("disciplinary") <==> info.subject.Some? && |info.subject.value| > 0 && !GenericSubject(info.subject.value)) &&
              (info.stype.None? <==> info.subject.None? || |info.subject.value| == 0)
    ensures r.Success? && r.value.Some? ==> forall i :: 0 <= i < |r.value.value.catalogue| ==> !IsPrefix(MscPrefix, r.value.value.catalogue[i])
  {
    if !Given(id) then Success(None)
    else if id.value !in standards then Failure("AttributeError")
    else
      var std := standards[id.value];
      if std.identifiers.None? then Failure("TypeError")
      else
        match Catalogue(std.identifiers.value)
        case Failure(e) => Failure(e)
        case Success(cat) =>
          if std.acronym.None? then Failure("KeyError")
          else
            var stype := match std.subject
              case Some(subj) =>
                if |subj| > 0 then Some(if GenericSubject(subj) then "generic" else "disciplinary") else None
              case None => None;
            Success(Some(StandardInfo(id.value, std.subject, std.title, std.acronym.value,
                                      std.identifiers.value, stype, cat)))
  }
}

=== FILE: linked_vocab.dfy ===
/** The linked-vocabulary index: registry records with a URI format are
    indexed by the domain and subdomain of that format, and an IRI is
    looked up by matching its path against the patterns indexed under its
    own domain and subdomain. Splitting a URL into subdomain, domain and
    public suffix is an oracle (`extract`); so is regular-expression
    search (`search`). */
module LinkedVocab {
  import opened Wrappers
  import opened Strings
  import opened Seqs
  import opened Values

  // ---------------------------------------------------------------------
  // Splitting an IRI
  // ---------------------------------------------------------------------

  /** What the public-suffix splitter reports for a URL. */
  datatype DomainParts = DomainParts(subdomain: string, domain: string, suffix: string)

  type Extract = string -> DomainParts

  /** The parts of an IRI; `None` stands for a missing or null entry. */
  datatype IriParts = IriParts(domain: Option<string>, subdomain: Option<string>, iri: string, path: Option<string>)

  /** The registered domain: domain and public suffix. */
  function Host(d: DomainParts): string {
    d.domain + "." + d.suffix
  }

  /** `split_iri`: the registered domain, the subdomain ("www" when there
      is none) and the path, which is the text between the first and the
      second occurrence of the registered domain. The split raises when
      the IRI does not contain the registered domain. */
  function SplitIri(iri: string, extract: Extract): (r: Result<IriParts, string>)
    ensures var d := extract(iri);
            r.Failure? <==> d.suffix != "" && d.domain != "" && !Contains(iri, Host(d))
    ensures r.Success? ==> r.value.iri == iri
    ensures r.Success? && extract(iri).suffix == "" ==>
              r.value.domain.None? && r.value.subdomain.None? && r.value.path.None?
    ensures r.Success? && extract(iri).suffix != "" ==> r.value.domain == Some(Host(extract(iri)))
    ensures r.Success? && extract(iri).suffix != "" && extract(iri).domain != "" ==>
              r.value.subdomain == Some(if extract(iri).subdomain == "" then "www" else extract(iri).subdomain)
    ensures r.Success? && extract(iri).domain == "" ==> r.value.subdomain.None? && r.value.path.None?
    ensures r.Success? && r.value.path.Some? ==>
              var h := Host(extract(iri));
              IsPrefix(Before(iri, h) + h + r.value.path.value, iri) && !Contains(r.value.path.value, h)
    ensures r.Success? && extract(iri).domain != "" && extract(iri).suffix != "" ==>
              var h := Host(extract(iri));
              r.value.path.Some? && |Before(iri, h)| + |h| <= |iri| &&
              r.value.path.value == Before(iri[|Before(iri, h)| + |h|..], h)
  {
    var d := extract(iri);
    var domain := if d.suffix != "" then Some(Host(d)) else None;
    var subdomain := if d.suffix != "" && d.domain != "" then Some(if d.subdomain == "" then "www" else d.subdomain) else None;
    if d.domain != "" && d.suffix != "" then
      var pieces := Split(iri, Host(d));
      SplitSingle(iri, Host(d));
      if |pieces| < 2 then Failure("IndexError")
      else
        SplitPieces(iri, Host(d));
        SplitSecond(iri, Host(d));
        Success(IriParts(domain, subdomain, iri, Some(pieces[1])))
    else Success(IriParts(domain, subdomain, iri, None))
  }

  // ---------------------------------------------------------------------
  // The index
  // ---------------------------------------------------------------------

  /** One indexed vocabulary. `pattern` is the path of its URI format,
      `regex` the registry's own pattern, `namespace` the URI format up to
      the placeholder. */
  datatype VocabEntry = VocabEntry(prefix: Value, pattern: Option<string>, regex: Value, subjects: Value, name: Value, namespace: string)

  /** Domain -> subdomain -> vocabularies, in insertion order. */
  type Index = map<Option<string>, map<Option<string>, seq<VocabEntry>>>

  /** The index together with every namespace seen while building it. */
  datatype Vocabs = Vocabs(index: Index, namespaces: seq<string>)

  /** Registry prefixes that name identifier schemes, not vocabularies. */
  const IgnorePrefixes: seq<string> := ["orcid", "doi", "isni", "ror", "wikipedia", "github", "arxiv"]

  /** Domains that serve identifiers only. */
  const IgnoreDomains: seq<string> := ["orcid.org", "doi.org", "ror.org", "zenodo.org", "isni.org", "github.com", "arxiv.org", "fairsharing.org"]

  /** Whether the registered domain of a URI format is ignored (a missing
      domain is not). */
  predicate Ignored(domain: Option<string>) {
    domain.Some? && domain.value in IgnoreDomains
  }

  /** The vocabularies under a domain and subdomain (none when a level is
      missing). */
  function Bucket(index: Index, d: Option<string>, s: Option<string>): seq<VocabEntry> {
    if d in index && s in index[d] then index[d][s] else []
  }

  /** Python `d.get(k)` on a registry record. */
  function Get(es: seq<(string, Value)>, k: string): Value {
    match Lookup(es, k)
    case None => Null
    case Some(v) => v
  }

  /** The namespace of a URI format: the text before the `$1` placeholder. */
  function Namespace(uriFormat: string): (r: string)
    ensures IsPrefix(r, uriFormat) && !Contains(r, "$1")
    ensures !Contains(uriFormat, "$1") ==> r == uriFormat
    ensures Contains(uriFormat, "$1") ==> OccursAt(uriFormat, "$1", |r|)
  {
    Before(uriFormat, "$1")
  }

  /** The index with a vocabulary appended under a domain and subdomain,
      creating missing levels. */
  function Append(index: Index, d: Option<string>, s: Option<string>, entry: VocabEntry): (r: Index)
    ensures Bucket(r, d, s) == Bucket(index, d, s) + [entry]
    ensures forall d', s' :: (d', s') != (d, s) ==> Bucket(r, d', s') == Bucket(index, d', s')
  {
    var level := if d in index then index[d] else map[];
    index[d := level[s := Bucket(index, d, s) + [entry]]]
  }

  /** The vocabulary a registry record describes, given the parts of its
      URI format. */
  function EntryOf(reg: seq<(string, Value)>, parts: IriParts, uriFormat: string): VocabEntry {
    VocabEntry(Get(reg, "prefix"), parts.path, Get(reg, "pattern"), Get(reg, "subjects"), Get(reg, "name"), Namespace(uriFormat))
  }

  /** `add_linked_vocab_index_entry`: the namespace is recorded; unless
      the domain of the URI format is ignored, the vocabulary is appended
      under its domain and subdomain. A URI format that is not a string
      raises, and so does one the IRI split fails on. */
  function AddEntry(vs: Vocabs, reg: seq<(string, Value)>, extract: Extract): (r: Result<Vocabs, string>)
    ensures !Get(reg, "uri_format").Str? ==> r.Failure?
    ensures Get(reg, "uri_format").Str? ==> (r.Failure? <==> SplitIri(Get(reg, "uri_format").s, extract).Failure?)
    ensures r.Success? ==> r.value.namespaces == vs.namespaces + [Namespace(Get(reg, "uri_format").s)]
    ensures r.Success? && Ignored(SplitIri(Get(reg, "uri_format").s, extract).value.domain) ==> r.value.index == vs.index
  {
    match Get(reg, "uri_format")
    case Str(uf) =>
      (match SplitIri(uf, extract)
       case Failure(e) => Failure(e)
       case Success(parts) =>
         var namespaces := vs.namespaces + [Namespace(uf)];
         if Ignored(parts.domain) then Success(Vocabs(vs.index, namespaces))
         else Success(Vocabs(Append(vs.index, parts.domain, parts.subdomain, EntryOf(reg, parts, uf)), namespaces)))
    case _ => Failure("AttributeError")
  }

  /** Unless its domain is ignored, a vocabulary added to the index is
      appended under its domain and subdomain, and nothing else in the
      index changes. */
  lemma AddEntryAppends(vs: Vocabs, reg: seq<(string, Value)>, extract: Extract)
    requires AddEntry(vs, reg, extract).Success?
    ensures var uf := Get(reg, "uri_format").s;
            var parts := SplitIri(uf, extract).value;
            var after := AddEntry(vs, reg, extract).value.index;
            !Ignored(parts.domain) ==>
              Bucket(after, parts.domain, parts.subdomain) == Bucket(vs.index, parts.domain, parts.subdomain) + [EntryOf(reg, parts, uf)] &&
              forall d, s :: (d, s) != (parts.domain, parts.subdomain) ==> Bucket(after, d, s) == Bucket(vs.index, d, s)
  {
  }

  /** Every vocabulary already indexed keeps its place: each bucket of the
      old index is a prefix of the same bucket of the new one. */
  ghost predicate Extends(before: Vocabs, after: Vocabs) {
    IsPrefix(before.namespaces, after.namespaces) &&
    forall d, s :: IsPrefix(Bucket(before.index, d, s), Bucket(after.index, d, s))
  }

  lemma AddEntryExtends(vs: Vocabs, reg: seq<(string, Value)>, extract: Extract)
    requires AddEntry(vs, reg, extract).Success?
    ensures Extends(vs, AddEntry(vs, reg, extract).value)
  {
    AddEntryAppends(vs, reg, extract);
  }

  lemma ExtendsTransitive(a: Vocabs, b: Vocabs, c: Vocabs)
    requires Extends(a, b) && Extends(b, c)
    ensures Extends(a, c)
  {
  }

  // ---------------------------------------------------------------------
  // What indexing adds
  // ---------------------------------------------------------------------

  /** A vocabulary as placed in the index: the domain and subdomain it
      goes under, and its entry. */
  datatype Placed = Placed(domain: Option<string>, subdomain: Option<string>, entry: VocabEntry)

  /** What indexing one vocabulary adds to the index: its entry, under the
      domain and subdomain of its URI format, unless that domain is
      ignored; nothing when the URI format is not text or cannot be split
      (indexing fails then). */
  function Added(reg: seq<(string, Value)>, extract: Extract): seq<Placed> {
    match Get(reg, "uri_format")
    case Str(uf) =>
      (match SplitIri(uf, extract)
       case Success(parts) =>
         if Ignored(parts.domain) then [] else [Placed(parts.domain, parts.subdomain, EntryOf(reg, parts, uf))]
       case Failure(_) => [])
    case _ => []
  }

  /** The entries of a list of placed vocabularies that go under one
      domain and subdomain, in order. */
  function Into(ps: seq<Placed>, d: Option<string>, s: Option<string>): (r: seq<VocabEntry>)
    ensures forall e :: e in r <==> exists i :: 0 <= i < |ps| && ps[i] == Placed(d, s, e)
    decreases |ps|
  {
    if |ps| == 0 then []
    else
      var rest := Into(ps[1..], d, s);
      assert forall i :: 1 <= i < |ps| ==> ps[i] == ps[1..][i - 1];
      if ps[0].domain == d && ps[0].subdomain == s then [ps[0].entry] + rest else rest
  }

  /** `after` is `before` with the placed vocabularies appended, in
      order, each to the bucket of its own domain and subdomain. */
  ghost predicate Places(before: Index, after: Index, ps: seq<Placed>) {
    forall d, s :: Bucket(after, d, s) == Bucket(before, d, s) + Into(ps, d, s)
  }

  lemma {:induction false} IntoConcat(xs: seq<Placed>, ys: seq<Placed>, d: Option<string>, s: Option<string>)
    ensures Into(xs + ys, d, s) == Into(xs, d, s) + Into(ys, d, s)
    decreases |xs|
  {
    if |xs| > 0 {
      assert (xs + ys)[1..] == xs[1..] + ys;
      IntoConcat(xs[1..], ys, d, s);
    } else {
      assert xs + ys == ys;
    }
  }

  lemma PlacesNone(a: Index)
    ensures Places(a, a, [])
  {
  }

  lemma PlacesChain(a: Index, b: Index, c: Index, xs: seq<Placed>, ys: seq<Placed>)
    requires Places(a, b, xs) && Places(b, c, ys)
    ensures Places(a, c, xs + ys)
  {
    forall d, s ensures Bucket(c, d, s) == Bucket(a, d, s) + Into(xs + ys, d, s) {
      IntoConcat(xs, ys, d, s);
      BucketChain(Bucket(a, d, s), Bucket(b, d, s), Bucket(c, d, s), Into(xs, d, s), Into(ys, d, s), Into(xs + ys, d, s));
    }
  }

  lemma BucketChain(a: seq<VocabEntry>, b: seq<VocabEntry>, c: seq<VocabEntry>, x: seq<VocabEntry>, y: seq<VocabEntry>, xy: seq<VocabEntry>)
    requires b == a + x && c == b + y && xy == x + y
    ensures c == a + xy
  {
  }

  lemma IntoOne(p: Placed, d: Option<string>, s: Option<string>)
    ensures Into([p], d, s) == if p.domain == d && p.subdomain == s then [p.entry] else []
  {
    assert [p][1..] == [];
  }

  /** Adding one vocabulary places exactly what `Added` says. */
  lemma AddEntryPlaces(vs: Vocabs, reg: seq<(string, Value)>, extract: Extract)
    requires AddEntry(vs, reg, extract).Success?
    ensures Places(vs.index, AddEntry(vs, reg, extract).value.index, Added(reg, extract))
  {
    AddEntryAppends(vs, reg, extract);
    var uf := Get(reg, "uri_format").s;
    var parts := SplitIri(uf, extract).value;
    var after := AddEntry(vs, reg, extract).value.index;
    if Ignored(parts.domain) {
      assert Added(reg, extract) == [];
      PlacesNone(vs.index);
    } else {
      var p := Placed(parts.domain, parts.subdomain, EntryOf(reg, parts, uf));
      assert Added(reg, extract) == [p];
      forall d, s ensures Bucket(after, d, s) == Bucket(vs.index, d, s) + Into([p], d, s) {
        IntoOne(p, d, s);
      }
    }
  }

  // ---------------------------------------------------------------------
  // Building the index from the registry
  // ---------------------------------------------------------------------

  /** A value that is indexed as a vocabulary of its own. */
  predicate Indexable(v: Value) {
    v.Dict? && Truthy(Get(v.entries, "uri_format"))
  }

  /** The name a nameless nested vocabulary takes: the first truthy name
      among the record's values, scanning until a value that is not a
      dictionary (its `.get` raises and the scan is abandoned). */
  function FirstName(vals: seq<Value>): (r: Option<Value>)
    ensures r.Some? ==> Truthy(r.value)
    ensures r.Some? ==> exists i :: 0 <= i < |vals| && vals[i].Dict? && Get(vals[i].entries, "name") == r.value
  {
    if |vals| == 0 || !vals[0].Dict? then None
    else if Truthy(Get(vals[0].entries, "name")) then Some(Get(vals[0].entries, "name"))
    else
      var r := FirstName(vals[1..]);
      assert forall i :: 1 <= i < |vals| ==> vals[i] == vals[1..][i - 1];
      r
  }

  /** The scan for a name stops with a name at `vals[i]`: a dictionary
      with a truthy name, after dictionaries without one. */
  ghost predicate NameAt(vals: seq<Value>, i: int) {
    0 <= i < |vals| && vals[i].Dict? && Truthy(Get(vals[i].entries, "name")) &&
    forall k :: 0 <= k < i ==> vals[k].Dict? && !Truthy(Get(vals[k].entries, "name"))
  }

  /** The borrowed name is found exactly when some dictionary has a
      truthy name and every value before it is a dictionary without one,
      and it is that dictionary's name. */
  lemma {:induction false} FirstNameIsFirst(vals: seq<Value>)
    ensures FirstName(vals).Some? <==> exists i :: NameAt(vals, i)
    ensures forall i :: NameAt(vals, i) ==> FirstName(vals) == Some(Get(vals[i].entries, "name"))
    decreases |vals|
  {
    if |vals| > 0 && vals[0].Dict? && !Truthy(Get(vals[0].entries, "name")) {
      FirstNameIsFirst(vals[1..]);
      forall i | NameAt(vals, i) ensures i > 0 && NameAt(vals[1..], i - 1) {
        NameAtShift(vals, i - 1);
      }
      forall i | NameAt(vals[1..], i) ensures NameAt(vals, i + 1) {
        NameAtShift(vals, i);
      }
      if FirstName(vals).Some? {
        var i :| NameAt(vals[1..], i);
        NameAtShift(vals, i);
      }
    } else if |vals| > 0 && vals[0].Dict? {
      assert NameAt(vals, 0);
    }
  }

  /** Past a dictionary without a name, the scan goes on in the rest. */
  lemma NameAtShift(vals: seq<Value>, i: int)
    requires |vals| > 0 && vals[0].Dict? && !Truthy(Get(vals[0].entries, "name"))
    ensures NameAt(vals, i + 1) <==> NameAt(vals[1..], i)
  {
    if NameAt(vals, i + 1) {
      assert forall k :: 0 <= k < i ==> vals[1..][k] == vals[k + 1];
    }
    if NameAt(vals[1..], i) {
      assert forall k :: 1 <= k < i + 1 ==> vals[k] == vals[1..][k - 1];
    }
  }

  /** Giving the `j`-th value the name the scan would borrow leaves the
      borrowed name as it was: that value then carries it, or the scan
      found it earlier. */
  lemma {:induction false} FirstNameKept(vals: seq<Value>, j: nat, e: Value)
    requires j < |vals| && vals[j].Dict? && e.Dict?
    requires Truthy(Get(vals[j].entries, "name")) || FirstName(vals).None? ==> Get(e.entries, "name") == Get(vals[j].entries, "name")
    requires !Truthy(Get(vals[j].entries, "name")) && FirstName(vals).Some? ==> Get(e.entries, "name") == FirstName(vals).value
    ensures FirstName(vals[j := e]) == FirstName(vals)
    decreases j, 1
  {
    if j > 0 && vals[0].Dict? && !Truthy(Get(vals[0].entries, "name")) {
      FirstNameKeptTail(vals, j, e);
    } else {
      FirstNameHead(vals, vals[j := e]);
    }
  }

  /** `FirstNameKept` past a first dictionary without a name. */
  lemma {:induction false} FirstNameKeptTail(vals: seq<Value>, j: nat, e: Value)
    requires 0 < j < |vals| && vals[j].Dict? && e.Dict?
    requires vals[0].Dict? && !Truthy(Get(vals[0].entries, "name"))
    requires Truthy(Get(vals[j].entries, "name")) || FirstName(vals).None? ==> Get(e.entries, "name") == Get(vals[j].entries, "name")
    requires !Truthy(Get(vals[j].entries, "name")) && FirstName(vals).Some? ==> Get(e.entries, "name") == FirstName(vals).value
    ensures FirstName(vals[j := e]) == FirstName(vals)
    decreases j, 0
  {
    var vals' := vals[j := e];
    FirstNameHead(vals, vals');
    var tail := vals[1..];
    assert vals'[1..] == tail[j - 1 := e];
    assert tail[j - 1] == vals[j];
    FirstNameKept(tail, j - 1, e);
  }

  /** The scan decided by the first value, or passing it by. */
  lemma FirstNameHead(vals: seq<Value>, vals': seq<Value>)
    requires |vals| > 0 && |vals'| > 0
    ensures vals[0].Dict? && !Truthy(Get(vals[0].entries, "name")) ==> FirstName(vals) == FirstName(vals[1..])
    ensures !vals[0].Dict? ==> FirstName(vals).None?
    ensures vals'[0].Dict? && Truthy(Get(vals'[0].entries, "name")) ==> FirstName(vals') == Some(Get(vals'[0].entries, "name"))
    ensures vals'[0].Dict? && !Truthy(Get(vals'[0].entries, "name")) ==> FirstName(vals') == FirstName(vals'[1..])
    ensures vals'[0] == vals[0] && vals[1..] == vals'[1..] ==> FirstName(vals') == FirstName(vals)
    ensures vals'[0] == vals[0] && (!vals[0].Dict? || Truthy(Get(vals[0].entries, "name"))) ==> FirstName(vals') == FirstName(vals)
  {
  }

  /** The values of a record, in order. */
  function RecordValues(es: seq<(string, Value)>): (r: seq<Value>)
    ensures |r| == |es| && forall i :: 0 <= i < |es| ==> r[i] == es[i].1
  {
    seq(|es|, i requires 0 <= i < |es| => es[i].1)
  }

  /** The namespaces the nested vocabularies of a record contribute. */
  function NestedNamespaces(es: seq<(string, Value)>): seq<string>
    decreases |es|
  {
    if |es| == 0 then []
    else
      NestedNamespace(es[0].1) + NestedNamespaces(es[1..])
  }

  /** The namespace one value of a record contributes. */
  function NestedNamespace(v: Value): seq<string> {
    if Indexable(v) && Get(v.entries, "uri_format").Str? then [Namespace(Get(v.entries, "uri_format").s)] else []
  }

  lemma NestedNamespacesAt(rd: seq<(string, Value)>, j: nat)
    requires j < |rd|
    ensures NestedNamespaces(rd[j..]) == NestedNamespace(rd[j].1) + NestedNamespaces(rd[j + 1..])
  {
    assert rd[j..][1..] == rd[j + 1..];
  }

  /** A nested vocabulary as it is indexed: without a name it takes the
      first name the record offers, if any. */
  function NameFilled(rd: seq<(string, Value)>, d: seq<(string, Value)>): (r: seq<(string, Value)>)
    ensures Get(r, "uri_format") == Get(d, "uri_format")
    ensures forall k :: k != "name" ==> Get(r, k) == Get(d, k)
    ensures Truthy(Get(d, "name")) || FirstName(RecordValues(rd)).None? ==> r == d
    ensures !Truthy(Get(d, "name")) && FirstName(RecordValues(rd)).Some? ==> Get(r, "name") == FirstName(RecordValues(rd)).value
  {
    if !Truthy(Get(d, "name")) then
      match FirstName(RecordValues(rd))
      case Some(n) => Update(d, "name", n)
      case None => d
    else d
  }

  /** What indexing the nested vocabularies among `vals` adds, each named
      from the record `rd` before it is indexed. */
  function NestedAdded(rd: seq<(string, Value)>, vals: seq<Value>, extract: Extract): seq<Placed>
    decreases |vals|
  {
    if |vals| == 0 then []
    else (if Indexable(vals[0]) then Added(NameFilled(rd, vals[0].entries), extract) else []) + NestedAdded(rd, vals[1..], extract)
  }

  /** The loop over a record's values from position `j` on. `rd` is the
      record as the loop sees it: a nameless nested vocabulary is given a
      name in place before it is indexed. */
  function IndexNested(vs: Vocabs, rd: seq<(string, Value)>, j: nat, extract: Extract): (r: Result<Vocabs, string>)
    requires j <= |rd|
    ensures r.Success? ==> Extends(vs, r.value)
    decreases |rd| - j
  {
    if j == |rd| then Success(vs)
    else
      var d := rd[j].1;
      if !Indexable(d) then IndexNested(vs, rd, j + 1, extract)
      else
        var named := NameFilled(rd, d.entries);
        var rd' := rd[j := (rd[j].0, Dict(named))];
        match AddEntry(vs, named, extract)
        case Failure(e) => Failure(e)
        case Success(vs') =>
          AddEntryExtends(vs, named, extract);
          match IndexNested(vs', rd', j + 1, extract)
          case Failure(e) => Failure(e)
          case Success(vs'') =>
            ExtendsTransitive(vs, vs', vs'');
            Success(vs'')
  }

  /** The loop over a record's values records the namespace of every
      nested vocabulary, in order. */
  lemma {:induction false} IndexNestedNamespaces(vs: Vocabs, rd: seq<(string, Value)>, j: nat, extract: Extract)
    requires j <= |rd| && IndexNested(vs, rd, j, extract).Success?
    ensures IndexNested(vs, rd, j, extract).value.namespaces == vs.namespaces + NestedNamespaces(rd[j..])
    decreases |rd| - j, 1
  {
    if j < |rd| {
      if Indexable(rd[j].1) {
        IndexNestedAdds(vs, rd, j, extract);
      } else {
        IndexNestedSkips(vs, rd, j, extract);
      }
    } else {
      assert rd[j..] == [];
    }
  }

  /** `IndexNestedNamespaces` at a value that is not a vocabulary. */
  lemma {:induction false} IndexNestedSkips(vs: Vocabs, rd: seq<(string, Value)>, j: nat, extract: Extract)
    requires j < |rd| && !Indexable(rd[j].1) && IndexNested(vs, rd, j, extract).Success?
    ensures IndexNested(vs, rd, j, extract).value.namespaces == vs.namespaces + NestedNamespaces(rd[j..])
    decreases |rd| - j, 0
  {
    IndexNestedSkipped(vs, rd, j, extract);
    IndexNestedNamespaces(vs, rd, j + 1, extract);
    NestedNamespacesAt(rd, j);
    SkippedNamespaces(IndexNested(vs, rd, j, extract), IndexNested(vs, rd, j + 1, extract), vs.namespaces,
                      NestedNamespaces(rd[j..]), NestedNamespace(rd[j].1), NestedNamespaces(rd[j + 1..]));
  }

  lemma SkippedNamespaces(a: Result<Vocabs, string>, b: Result<Vocabs, string>, base: seq<string>,
                          whole: seq<string>, head: seq<string>, tail: seq<string>)
    requires a == b && b.Success? && b.value.namespaces == base + tail
    requires whole == head + tail && head == []
    ensures a.value.namespaces == base + whole
  {
    assert whole == tail;
  }

  /** A value that is not a vocabulary leaves the loop's state alone. */
  lemma IndexNestedSkipped(vs: Vocabs, rd: seq<(string, Value)>, j: nat, extract: Extract)
    requires j < |rd| && !Indexable(rd[j].1)
    ensures IndexNested(vs, rd, j, extract) == IndexNested(vs, rd, j + 1, extract)
  {
  }

  /** `IndexNestedNamespaces` at a nested vocabulary. */
  lemma {:induction false} IndexNestedAdds(vs: Vocabs, rd: seq<(string, Value)>, j: nat, extract: Extract)
    requires j < |rd| && Indexable(rd[j].1) && IndexNested(vs, rd, j, extract).Success?
    ensures IndexNested(vs, rd, j, extract).value.namespaces == vs.namespaces + NestedNamespaces(rd[j..])
    decreases |rd| - j, 0
  {
    NestedNamespacesAt(rd, j);
    var named := NameFilled(rd, rd[j].1.entries);
    var rd' := rd[j := (rd[j].0, Dict(named))];
    SameTail(rd, j, (rd[j].0, Dict(named)));
    IndexNestedIndexable(vs, rd, j, extract);
    var vs' := AddEntry(vs, named, extract).value;
    IndexNestedNamespaces(vs', rd', j + 1, extract);
    var ns := Namespace(Get(named, "uri_format").s);
    NamespacesStep(vs.namespaces, vs'.namespaces, IndexNested(vs, rd, j, extract).value.namespaces, ns,
                   NestedNamespaces(rd[j..]), NestedNamespaces(rd[j + 1..]));
  }

  /** A successful step of the loop at an indexable value: the value,
      named, is added, and the loop goes on over the record as changed. */
  lemma IndexNestedIndexable(vs: Vocabs, rd: seq<(string, Value)>, j: nat, extract: Extract)
    requires j < |rd| && Indexable(rd[j].1) && IndexNested(vs, rd, j, extract).Success?
    ensures var named := NameFilled(rd, rd[j].1.entries);
            var rd' := rd[j := (rd[j].0, Dict(named))];
            AddEntry(vs, named, extract).Success? &&
            IndexNested(vs, rd, j, extract) == IndexNested(AddEntry(vs, named, extract).value, rd', j + 1, extract)
  {
  }

  /** The loop over a record's values from position `j` on adds exactly
      the nested vocabularies among those values, in order, each named
      from the record as the loop found it. */
  lemma IndexNestedContents(vs: Vocabs, rd: seq<(string, Value)>, j: nat, extract: Extract)
    requires j <= |rd| && IndexNested(vs, rd, j, extract).Success?
    ensures Places(vs.index, IndexNested(vs, rd, j, extract).value.index, NestedAdded(rd, RecordValues(rd)[j..], extract))
  {
    IndexNestedPlaces(vs, rd, j, extract, rd);
  }

  /** `IndexNestedContents` for a record `rd` changed in place by earlier
      steps, which leaves the name it lends as in the original `orig`. */
  lemma {:induction false} IndexNestedPlaces(vs: Vocabs, rd: seq<(string, Value)>, j: nat, extract: Extract, orig: seq<(string, Value)>)
    requires j <= |rd| && IndexNested(vs, rd, j, extract).Success?
    requires FirstName(RecordValues(rd)) == FirstName(RecordValues(orig))
    ensures Places(vs.index, IndexNested(vs, rd, j, extract).value.index, NestedAdded(orig, RecordValues(rd)[j..], extract))
    decreases |rd| - j, 1
  {
    if j == |rd| {
      assert RecordValues(rd)[j..] == [];
      PlacesNone(vs.index);
    } else if Indexable(rd[j].1) {
      IndexNestedNamed(vs, rd, j, extract, orig);
    } else {
      IndexNestedSkipped(vs, rd, j, extract);
      IndexNestedPlaces(vs, rd, j + 1, extract, orig);
      NestedAddedSkip(orig, RecordValues(rd), j, extract);
    }
  }

  /** `IndexNestedPlaces` at a nested vocabulary. */
  lemma {:induction false} IndexNestedNamed(vs: Vocabs, rd: seq<(string, Value)>, j: nat, extract: Extract, orig: seq<(string, Value)>)
    requires j < |rd| && Indexable(rd[j].1) && IndexNested(vs, rd, j, extract).Success?
    requires FirstName(RecordValues(rd)) == FirstName(RecordValues(orig))
    ensures Places(vs.index, IndexNested(vs, rd, j, extract).value.index, NestedAdded(orig, RecordValues(rd)[j..], extract))
    decreases |rd| - j, 0
  {
    var named := NameFilled(rd, rd[j].1.entries);
    var rd' := rd[j := (rd[j].0, Dict(named))];
    IndexNestedIndexable(vs, rd, j, extract);
    var vs' := AddEntry(vs, named, extract).value;
    AddEntryPlaces(vs, named, extract);
    RenamedKeepsName(rd, j, orig);
    IndexNestedPlaces(vs', rd', j + 1, extract, orig);
    NestedAddedNamed(orig, RecordValues(rd), j, extract);
    PlacesChain(vs.index, vs'.index, IndexNested(vs, rd, j, extract).value.index,
                Added(named, extract), NestedAdded(orig, RecordValues(rd)[j + 1..], extract));
  }

  /** Naming the `j`-th value in place keeps the name the record lends
      and the values after it. */
  lemma RenamedKeepsName(rd: seq<(string, Value)>, j: nat, orig: seq<(string, Value)>)
    requires j < |rd| && Indexable(rd[j].1)
    requires FirstName(RecordValues(rd)) == FirstName(RecordValues(orig))
    ensures var named := NameFilled(rd, rd[j].1.entries);
            var rd' := rd[j := (rd[j].0, Dict(named))];
            named == NameFilled(orig, rd[j].1.entries) &&
            FirstName(RecordValues(rd')) == FirstName(RecordValues(orig)) &&
            RecordValues(rd')[j + 1..] == RecordValues(rd)[j + 1..]
  {
    var named := NameFilled(rd, rd[j].1.entries);
    var rd' := rd[j := (rd[j].0, Dict(named))];
    var vals := RecordValues(rd);
    assert named == NameFilled(orig, rd[j].1.entries);
    assert RecordValues(rd') == vals[j := Dict(named)] by {
      assert forall i :: 0 <= i < |rd| ==> RecordValues(rd')[i] == vals[j := Dict(named)][i];
    }
    FirstNameKept(vals, j, Dict(named));
  }

  lemma NestedAddedSkip(rd: seq<(string, Value)>, vals: seq<Value>, j: nat, extract: Extract)
    requires j < |vals| && !Indexable(vals[j])
    ensures NestedAdded(rd, vals[j..], extract) == NestedAdded(rd, vals[j + 1..], extract)
  {
    assert vals[j..][1..] == vals[j + 1..];
  }

  lemma NestedAddedNamed(rd: seq<(string, Value)>, vals: seq<Value>, j: nat, extract: Extract)
    requires j < |vals| && Indexable(vals[j])
    ensures NestedAdded(rd, vals[j..], extract) == Added(NameFilled(rd, vals[j].entries), extract) + NestedAdded(rd, vals[j + 1..], extract)
  {
    assert vals[j..][1..] == vals[j + 1..];
  }

  /** Replacing one element leaves the elements after it alone. */
  lemma SameTail<T>(xs: seq<T>, j: nat, x: T)
    requires j < |xs|
    ensures xs[j := x][j + 1..] == xs[j + 1..]
  {
  }

  lemma Chain(a: seq<string>, b: seq<string>, c: seq<string>, x: seq<string>, y: seq<string>)
    requires b == a + x && c == b + y
    ensures c == a + x + y
  {
  }

  lemma NamespacesStep(a: seq<string>, b: seq<string>, c: seq<string>, ns: string, here: seq<string>, rest: seq<string>)
    requires b == a + [ns] && c == b + rest && here == [ns] + rest
    ensures c == a + here
  {
  }

  /** Python `str(v).lower()` of a registry prefix; `str` of a value that
      is neither a string nor null is left to `show`. */
  function PrefixText(v: Value, show: Value -> string): string {
    Lower(if v.Str? then v.s else if v.Null? then "None" else show(v))
  }

  /** What indexing a registry record that is not skipped adds: the
      record itself when it has a URI format, then its nested
      vocabularies. */
  function RecordAdded(rd: seq<(string, Value)>, extract: Extract): seq<Placed> {
    (if Indexable(Dict(rd)) then Added(rd, extract) else []) + NestedAdded(rd, RecordValues(rd), extract)
  }

  /** What indexing the registry records adds, in order; a record whose
      prefix is in `ignore` adds nothing. */
  function RegistryAdded(registry: seq<(string, Value)>, ignore: seq<string>, extract: Extract, show: Value -> string): seq<Placed>
    decreases |registry|
  {
    if |registry| == 0 then []
    else ValueAdded(registry[0].1, ignore, extract, show) + RegistryAdded(registry[1..], ignore, extract, show)
  }

  /** What indexing one registry value adds. */
  function ValueAdded(rd: Value, ignore: seq<string>, extract: Extract, show: Value -> string): seq<Placed> {
    if rd.Dict? && PrefixText(Get(rd.entries, "prefix"), show) !in ignore then RecordAdded(rd.entries, extract) else []
  }

  /** One registry record: a record that is not a dictionary raises (its
      `.get` is called before the type test); one whose prefix is ignored
      is skipped; otherwise the record itself is indexed when it has a
      URI format, and so is each nested vocabulary. */
  function IndexRecord(vs: Vocabs, rd: Value, ignore: seq<string>, extract: Extract, show: Value -> string): (r: Result<Vocabs, string>)
    ensures !rd.Dict? ==> r.Failure?
    ensures rd.Dict? && PrefixText(Get(rd.entries, "prefix"), show) in ignore ==> r == Success(vs)
    ensures r.Success? ==> Extends(vs, r.value)
    ensures r.Success? && rd.Dict? && PrefixText(Get(rd.entries, "prefix"), show) !in ignore ==>
              r.value.namespaces == vs.namespaces + NestedNamespace(rd) + NestedNamespaces(rd.entries)
    ensures r.Success? && rd.Dict? && PrefixText(Get(rd.entries, "prefix"), show) !in ignore ==>
              Places(vs.index, r.value.index, RecordAdded(rd.entries, extract))
  {
    if !rd.Dict? then Failure("AttributeError")
    else if PrefixText(Get(rd.entries, "prefix"), show) in ignore then Success(vs)
    else IndexDict(vs, rd.entries, extract)
  }

  /** A registry record that is not skipped: the record itself when it
      has a URI format, then its nested vocabularies. */
  function IndexDict(vs: Vocabs, rd: seq<(string, Value)>, extract: Extract): (r: Result<Vocabs, string>)
    ensures r.Success? ==> Extends(vs, r.value)
    ensures r.Success? ==> r.value.namespaces == vs.namespaces + NestedNamespace(Dict(rd)) + NestedNamespaces(rd)
    ensures r.Success? ==> Places(vs.index, r.value.index, RecordAdded(rd, extract))
  {
    var top := if Indexable(Dict(rd)) then AddEntry(vs, rd, extract) else Success(vs);
    match top
    case Failure(e) => Failure(e)
    case Success(vs') =>
      assert Extends(vs, vs') by {
        if Indexable(Dict(rd)) { AddEntryExtends(vs, rd, extract); }
      }
      assert vs'.namespaces == vs.namespaces + NestedNamespace(Dict(rd));
      match IndexNested(vs', rd, 0, extract)
      case Failure(e) => Failure(e)
      case Success(vs'') =>
        ExtendsTransitive(vs, vs', vs'');
        IndexNestedNamespaces(vs', rd, 0, extract);
        assert rd[0..] == rd;
        IndexDictPlaces(vs, vs', vs'', rd, extract);
        Chain(vs.namespaces, vs'.namespaces, vs''.namespaces, NestedNamespace(Dict(rd)), NestedNamespaces(rd));
        Success(vs'')
  }

  lemma IndexDictPlaces(vs: Vocabs, vs': Vocabs, vs'': Vocabs, rd: seq<(string, Value)>, extract: Extract)
    requires (if Indexable(Dict(rd)) then AddEntry(vs, rd, extract) else Success(vs)) == Success(vs')
    requires IndexNested(vs', rd, 0, extract) == Success(vs'')
    ensures Places(vs.index, vs''.index, RecordAdded(rd, extract))
  {
    if Indexable(Dict(rd)) {
      AddEntryPlaces(vs, rd, extract);
    } else {
      PlacesNone(vs.index);
    }
    IndexNestedContents(vs', rd, 0, extract);
    assert RecordValues(rd)[0..] == RecordValues(rd);
    PlacesChain(vs.index, vs'.index, vs''.index, if Indexable(Dict(rd)) then Added(rd, extract) else [], NestedAdded(rd, RecordValues(rd), extract));
  }

  /** The loop of `set_linked_vocab_index` over the registry records, in
      order, skipping records whose prefix is in `ignore`. */
  function IndexRegistry(vs: Vocabs, registry: seq<(string, Value)>, ignore: seq<string>, extract: Extract, show: Value -> string): (r: Result<Vocabs, string>)
    ensures r.Success? ==> Extends(vs, r.value)
    ensures (exists i :: 0 <= i < |registry| && !registry[i].1.Dict?) ==> r.Failure?
    ensures r.Success? ==> Places(vs.index, r.value.index, RegistryAdded(registry, ignore, extract, show))
    decreases |registry|
  {
    if |registry| == 0 then Success(vs)
    else
      match IndexRecord(vs, registry[0].1, ignore, extract, show)
      case Failure(e) => Failure(e)
      case Success(vs') =>
        assert forall i :: 1 <= i < |registry| ==> registry[i] == registry[1..][i - 1];
        match IndexRegistry(vs', registry[1..], ignore, extract, show)
        case Failure(e) => Failure(e)
        case Success(vs'') =>
          ExtendsTransitive(vs, vs', vs'');
          IndexRecordPlaces(vs, vs', registry[0].1, ignore, extract, show);
          PlacesChain(vs.index, vs'.index, vs''.index, ValueAdded(registry[0].1, ignore, extract, show),
                      RegistryAdded(registry[1..], ignore, extract, show));
          Success(vs'')
  }

  lemma IndexRecordPlaces(vs: Vocabs, vs': Vocabs, rd: Value, ignore: seq<string>, extract: Extract, show: Value -> string)
    requires IndexRecord(vs, rd, ignore, extract, show) == Success(vs')
    ensures Places(vs.index, vs'.index, ValueAdded(rd, ignore, extract, show))
  {
    if PrefixText(Get(rd.entries, "prefix"), show) in ignore {
      PlacesNone(vs.index);
    }
  }

  /** `set_linked_vocab_index` with the helper's list of ignored prefixes. */
  function SetLinkedVocabIndex(vs: Vocabs, registry: seq<(string, Value)>, extract: Extract, show: Value -> string): (r: Result<Vocabs, string>)
    ensures r.Success? ==> Extends(vs, r.value)
    ensures (exists i :: 0 <= i < |registry| && !registry[i].1.Dict?) ==> r.Failure?
    ensures r.Success? ==> Places(vs.index, r.value.index, RegistryAdded(registry, IgnorePrefixes, extract, show))
  {
    IndexRegistry(vs, registry, IgnorePrefixes, extract, show)
  }

  // ---------------------------------------------------------------------
  // Character overlap
  // ---------------------------------------------------------------------

  /** The distinct characters of `s1` that occur in `s2`, in the order of
      their first occurrence in `s1`. */
  function CommonChars(s1: string, s2: string): (r: string)
    ensures NoDup(r) && |r| <= |s1|
    ensures forall c :: c in r <==> c in s1 && c in s2
    decreases |s1|
  {
    if |s1| == 0 then []
    else
      var init := CommonChars(s1[..|s1| - 1], s2);
      var c := s1[|s1| - 1];
      assert forall x :: x in s1 <==> x in s1[..|s1| - 1] || x == c;
      if c in s2 && c !in init then init + [c] else init
  }

  /** A list without duplicates has as many elements as its set. */
  lemma {:induction false} DistinctCard<T>(xs: seq<T>)
    requires NoDup(xs)
    ensures |set x | x in xs| == |xs|
  {
    if |xs| > 0 {
      var init := xs[..|xs| - 1];
      var last := xs[|xs| - 1];
      assert NoDup(init);
      DistinctCard(init);
      assert last !in init;
      assert (set x | x in xs) == (set x | x in init) + {last};
    }
  }

  /** The number of distinct characters of `s1` found in `s2`. */
  function Overlap(s1: string, s2: string): (r: nat)
    ensures r == |set c | c in s1 && c in s2|
    ensures r <= |s1|
  {
    var common := CommonChars(s1, s2);
    DistinctCard(common);
    assert (set c | c in common) == (set c | c in s1 && c in s2);
    |common|
  }

  /** `get_overlap`: each character of `s1` found in `s2` is collected
      once. */
  method GetOverlap(s1: string, s2: string) returns (n: nat)
    ensures n == |set c | c in s1 && c in s2|
    ensures n <= |s1|
  {
    var result: string := [];
    var i := 0;
    while i < |s1|
      invariant 0 <= i <= |s1|
      invariant result == CommonChars(s1[..i], s2)
    {
      assert s1[..i + 1][..i] == s1[..i];
      if s1[i] in s2 && s1[i] !in result {
        result := result + [s1[i]];
      }
      i := i + 1;
    }
    assert s1[..i] == s1;
    n := |result|;
    assert n == Overlap(s1, s2);
  }

  // ---------------------------------------------------------------------
  // Lookup
  // ---------------------------------------------------------------------

  /** Regular-expression search: whether the pattern matches somewhere in
      the text, or the compile error. */
  type Search = (string, string) -> Result<bool, string>

  /** A matched vocabulary and its score. */
  datatype Candidate = Candidate(score: nat, vocab: VocabEntry)

  /** The state of the loop over a bucket: the candidates so far, the
      regular expressions already tried, the outcome and score of the last
      one tried (reused, stale, for a repeated expression), and the bucket
      as the loop leaves it. */
  datatype ScanState = ScanState(candidates: seq<Candidate>, tested: seq<string>, matched: bool, score: nat, bucket: seq<VocabEntry>)

  const Slashes: set<char> := {'/', '#'}

  /** Whether a vocabulary's pattern fits the IRI path. */
  function PatternFits(pattern: string, path: string, isNamespace: bool): bool {
    if isNamespace then Contains(TrimRight(path, Slashes), TrimRight(Before(pattern, "$1"), Slashes))
    else Contains(path, Before(pattern, "$1"))
  }

  /** A pattern with `?` escaped for use as a regular expression. */
  function Escape(pattern: string): (r: string)
    ensures '?' !in pattern ==> r == pattern
  {
    ContainsOne(pattern, '?');
    if '?' in pattern then ReplaceAll(pattern, "?", "\\?") else pattern
  }

  /** The regular expression a fitting vocabulary is searched with: the
      registry's own pattern without its anchors, or else the escaped
      pattern up to the placeholder, in which case the escaped pattern is
      stored back in the vocabulary. A registry pattern that is not a
      string raises. */
  function RegexFor(e: VocabEntry): (r: Result<(string, VocabEntry), string>)
    requires e.pattern.Some?
    ensures r.Success? ==> r.value.1 == e.(pattern := r.value.1.pattern) && r.value.1.pattern.Some?
    ensures Truthy(e.regex) && e.regex.Str? ==> r == Success((TrimRight(TrimLeft(e.regex.s, {'^'}), {'$'}), e))
    ensures Truthy(e.regex) && !e.regex.Str? ==> r.Failure?
    ensures !Truthy(e.regex) ==> r.Success? && r.value.1.pattern == Some(Escape(e.pattern.value)) &&
                                 r.value.0 == TrimRight(Before(Escape(e.pattern.value), "$1"), Slashes)
  {
    if Truthy(e.regex) then
      if e.regex.Str? then Success((TrimRight(TrimLeft(e.regex.s, {'^'}), {'$'}), e)) else Failure("AttributeError")
    else
      var escaped := Escape(e.pattern.value);
      Success((TrimRight(Before(escaped, "$1"), Slashes), e.(pattern := Some(escaped))))
  }

  /** Searching a regular expression in the path unless it was tried
      before; for a repeated one the outcome and score of the last search
      stand. The score is the overlap of the path with the pattern up to
      the placeholder. */
  function Try(sc: ScanState, comb: string, path: string, pattern: string, search: Search): (r: Result<(seq<string>, bool, nat), string>)
    ensures comb in sc.tested ==> r == Success((sc.tested, sc.matched, sc.score))
    ensures comb !in sc.tested ==>
              (search(comb, path).Failure? <==> r.Failure?) &&
              (r.Success? ==> r.value == (sc.tested + [comb], search(comb, path).value, Overlap(path, Before(pattern, "$1"))))
  {
    if comb in sc.tested then Success((sc.tested, sc.matched, sc.score))
    else
      match search(comb, path)
      case Failure(err) => Failure(err)
      case Success(m) => Success((sc.tested + [comb], m, Overlap(path, Before(pattern, "$1"))))
  }

  /** What the loop keeps across one vocabulary: the bucket grows by the
      vocabulary (its pattern possibly escaped), and the candidates by at
      most that vocabulary. */
  predicate Advances(before: ScanState, after: ScanState, e: VocabEntry) {
    |after.bucket| == |before.bucket| + 1 &&
    after.bucket[..|before.bucket|] == before.bucket &&
    after.bucket[|before.bucket|].namespace == e.namespace &&
    IsPrefix(before.candidates, after.candidates) &&
    |after.candidates| <= |before.candidates| + 1 &&
    (|after.candidates| > |before.candidates| ==> after.candidates[|before.candidates|].vocab == after.bucket[|before.bucket|])
  }

  /** A vocabulary whose pattern fits the path. */
  function ConsiderFitting(sc: ScanState, e: VocabEntry, path: string, search: Search): (r: Result<ScanState, string>)
    requires e.pattern.Some?
    ensures r.Success? ==> Advances(sc, r.value, e)
    ensures r.Success? ==> (|r.value.candidates| > |sc.candidates| <==> r.value.matched)
    ensures r.Success? && r.value.matched ==> r.value.candidates[|sc.candidates|].score == r.value.score
    ensures r.Success? ==> RegexFor(e).Success? && r.value.bucket == sc.bucket + [RegexFor(e).value.1]
    ensures RegexFor(e).Success? && RegexFor(e).value.0 in sc.tested ==>
              r.Success? && r.value.tested == sc.tested && r.value.matched == sc.matched && r.value.score == sc.score
    ensures RegexFor(e).Success? && RegexFor(e).value.0 !in sc.tested ==>
              (r.Failure? <==> search(RegexFor(e).value.0, path).Failure?)
    ensures r.Success? && RegexFor(e).value.0 !in sc.tested ==>
              var (comb, e') := RegexFor(e).value;
              search(comb, path) == Success(r.value.matched) && r.value.tested == sc.tested + [comb] &&
              r.value.score == Overlap(path, Before(e'.pattern.value, "$1"))
  {
    match RegexFor(e)
    case Failure(err) => Failure(err)
    case Success((comb, e')) =>
      match Try(sc, comb, path, e'.pattern.value, search)
      case Failure(err) => Failure(err)
      case Success((tested, matched, score)) =>
        var cands := if matched then sc.candidates + [Candidate(score, e')] else sc.candidates;
        Success(ScanState(cands, tested, matched, score, sc.bucket + [e']))
  }

  /** One vocabulary of the bucket. A full namespace match is a candidate
      scored by the path length; otherwise a vocabulary whose pattern fits
      the path is searched for. A missing path raises in either case. */
  function Consider(sc: ScanState, e: VocabEntry, iri: string, path: Option<string>, isNamespace: bool, search: Search): (r: Result<ScanState, string>)
    ensures r.Success? ==> Advances(sc, r.value, e)
    ensures e.namespace == iri && path.Some? ==> r == Success(sc.(candidates := sc.candidates + [Candidate(|path.value|, e)], bucket := sc.bucket + [e]))
    ensures e.namespace == iri && path.None? ==> r.Failure?
    ensures e.namespace != iri && e.pattern.Some? && e.pattern != Some("") && path.None? ==> r.Failure?
    ensures Searched(e, iri, path, isNamespace) ==> r == ConsiderFitting(sc, e, path.value, search)
    ensures e.namespace != iri && (e.pattern.None? || e.pattern == Some("")) ==> r == Success(sc.(bucket := sc.bucket + [e]))
    ensures e.namespace != iri && e.pattern.Some? && e.pattern != Some("") && path.Some? && !PatternFits(e.pattern.value, path.value, isNamespace) ==>
              r == Success(sc.(bucket := sc.bucket + [e]))
  {
    if e.namespace == iri then
      if path.None? then Failure("TypeError")
      else Success(sc.(candidates := sc.candidates + [Candidate(|path.value|, e)], bucket := sc.bucket + [e]))
    else if e.pattern.None? || e.pattern == Some("") then Success(sc.(bucket := sc.bucket + [e]))
    else if path.None? then Failure(if isNamespace then "AttributeError" else "TypeError")
    else if !PatternFits(e.pattern.value, path.value, isNamespace) then Success(sc.(bucket := sc.bucket + [e]))
    else ConsiderFitting(sc, e, path.value, search)
  }

  /** Every candidate is a vocabulary of the bucket. */
  predicate FromBucket(sc: ScanState) {
    forall k :: 0 <= k < |sc.candidates| ==> sc.candidates[k].vocab in sc.bucket
  }

  /** The loop over a bucket from position `i` on. When no vocabulary
      repeats an expression already tried, the candidates it adds are
      exactly the bucket filtered by `Hit`, in order. */
  function Scan(sc: ScanState, entries: seq<VocabEntry>, i: nat, iri: string, path: Option<string>, isNamespace: bool, search: Search): (r: Result<ScanState, string>)
    requires i <= |entries|
    requires |sc.bucket| == i && |sc.candidates| <= i && FromBucket(sc)
    ensures r.Success? ==> |r.value.bucket| == |entries| && |r.value.candidates| <= |entries| && FromBucket(r.value)
    ensures r.Success? ==> r.value.bucket[..i] == sc.bucket && IsPrefix(sc.candidates, r.value.candidates)
    ensures r.Success? ==> forall j :: i <= j < |entries| ==> r.value.bucket[j].namespace == entries[j].namespace
    ensures r.Success? && path.Some? && (exists j :: i <= j < |entries| && entries[j].namespace == iri) ==>
              |r.value.candidates| > |sc.candidates|
    ensures r.Success? && Fresh(entries, i, sc.tested, iri, path, isNamespace) ==>
              r.value.candidates == sc.candidates + Hits(entries, i, iri, path, isNamespace, search)
    decreases |entries| - i
  {
    if i == |entries| then Success(sc)
    else
      match Consider(sc, entries[i], iri, path, isNamespace, search)
      case Failure(e) => Failure(e)
      case Success(sc') =>
        ScanStep(sc, sc', entries[i]);
        var r := Scan(sc', entries, i + 1, iri, path, isNamespace, search);
        ScanCombineIf(sc, sc', r, entries, i, iri, path);
        ScanFilterStep(sc, sc', r, entries, i, iri, path, isNamespace, search);
        r
  }

  /** `ScanCombine` when the rest of the loop succeeds. */
  lemma ScanCombineIf(sc: ScanState, sc': ScanState, r: Result<ScanState, string>, entries: seq<VocabEntry>, i: nat, iri: string, path: Option<string>)
    requires i < |entries| && |sc.bucket| == i && Advances(sc, sc', entries[i])
    requires entries[i].namespace == iri && path.Some? ==> |sc'.candidates| > |sc.candidates|
    requires r.Success? ==> |r.value.bucket| == |entries| && r.value.bucket[..i + 1] == sc'.bucket && IsPrefix(sc'.candidates, r.value.candidates)
    requires r.Success? ==> forall j :: i + 1 <= j < |entries| ==> r.value.bucket[j].namespace == entries[j].namespace
    requires r.Success? && path.Some? && (exists j :: i + 1 <= j < |entries| && entries[j].namespace == iri) ==> |r.value.candidates| > |sc'.candidates|
    ensures r.Success? ==> r.value.bucket[..i] == sc.bucket && IsPrefix(sc.candidates, r.value.candidates)
    ensures r.Success? ==> forall j :: i <= j < |entries| ==> r.value.bucket[j].namespace == entries[j].namespace
    ensures r.Success? && path.Some? && (exists j :: i <= j < |entries| && entries[j].namespace == iri) ==> |r.value.candidates| > |sc.candidates|
  {
    if r.Success? {
      ScanCombine(sc, sc', r.value, entries, i, iri, path);
    }
  }

  /** What the rest of the loop keeps, extended by one step. */
  lemma ScanCombine(sc: ScanState, sc': ScanState, rv: ScanState, entries: seq<VocabEntry>, i: nat, iri: string, path: Option<string>)
    requires i < |entries| && |sc.bucket| == i && Advances(sc, sc', entries[i])
    requires entries[i].namespace == iri && path.Some? ==> |sc'.candidates| > |sc.candidates|
    requires |rv.bucket| == |entries| && rv.bucket[..i + 1] == sc'.bucket && IsPrefix(sc'.candidates, rv.candidates)
    requires forall j :: i + 1 <= j < |entries| ==> rv.bucket[j].namespace == entries[j].namespace
    requires path.Some? && (exists j :: i + 1 <= j < |entries| && entries[j].namespace == iri) ==> |rv.candidates| > |sc'.candidates|
    ensures rv.bucket[..i] == sc.bucket && IsPrefix(sc.candidates, rv.candidates)
    ensures forall j :: i <= j < |entries| ==> rv.bucket[j].namespace == entries[j].namespace
    ensures path.Some? && (exists j :: i <= j < |entries| && entries[j].namespace == iri) ==> |rv.candidates| > |sc.candidates|
  {
    assert rv.bucket[..i + 1][..i] == rv.bucket[..i];
    assert rv.bucket[i] == sc'.bucket[i];
    assert rv.candidates[..|sc.candidates|] == rv.candidates[..|sc'.candidates|][..|sc.candidates|];
    if path.Some? && (exists j :: i <= j < |entries| && entries[j].namespace == iri) {
      if entries[i].namespace != iri {
        var j :| i <= j < |entries| && entries[j].namespace == iri;
        assert i + 1 <= j;
      }
    }
  }

  /** One step of the loop keeps the candidates within the bucket. */
  lemma ScanStep(sc: ScanState, sc': ScanState, e: VocabEntry)
    requires FromBucket(sc) && Advances(sc, sc', e)
    ensures FromBucket(sc')
  {
    forall k | 0 <= k < |sc'.candidates|
      ensures sc'.candidates[k].vocab in sc'.bucket
    {
      if k < |sc.candidates| {
        assert sc'.candidates[k] == sc.candidates[k];
        assert sc.candidates[k].vocab in sc'.bucket[..|sc.bucket|];
      } else {
        assert sc'.candidates[k].vocab == sc'.bucket[|sc.bucket|];
      }
    }
  }

  /** Whether a vocabulary is searched with a regular expression: its
      namespace is not the IRI, and it has a pattern that fits the path. */
  predicate Searched(e: VocabEntry, iri: string, path: Option<string>, isNamespace: bool) {
    e.namespace != iri && path.Some? && e.pattern.Some? && e.pattern != Some("") && PatternFits(e.pattern.value, path.value, isNamespace)
  }

  /** The regular expression a vocabulary is searched with, if any. */
  function RegexOf(e: VocabEntry, iri: string, path: Option<string>, isNamespace: bool): Option<string> {
    if Searched(e, iri, path, isNamespace) && RegexFor(e).Success? then Some(RegexFor(e).value.0) else None
  }

  /** The candidate a vocabulary yields when its regular expression, if
      any, is searched afresh: a full namespace match scores the path
      length, a matching search the overlap of the path with the
      (escaped) pattern up to the placeholder. */
  function Hit(e: VocabEntry, iri: string, path: Option<string>, isNamespace: bool, search: Search): seq<Candidate> {
    if path.None? then []
    else if e.namespace == iri then [Candidate(|path.value|, e)]
    else if !Searched(e, iri, path, isNamespace) then []
    else
      match RegexFor(e)
      case Success((comb, e')) =>
        if search(comb, path.value) == Success(true) then [Candidate(Overlap(path.value, Before(e'.pattern.value, "$1")), e')] else []
      case Failure(_) => []
  }

  /** The candidates of the vocabularies from position `i` on, each
      judged on its own: the bucket filtered by `Hit`. */
  function Hits(entries: seq<VocabEntry>, i: nat, iri: string, path: Option<string>, isNamespace: bool, search: Search): seq<Candidate>
    requires i <= |entries|
    decreases |entries| - i
  {
    if i == |entries| then [] else Hit(entries[i], iri, path, isNamespace, search) + Hits(entries, i + 1, iri, path, isNamespace, search)
  }

  /** No vocabulary from position `i` on is searched with an expression
      tried before it. */
  ghost predicate Fresh(entries: seq<VocabEntry>, i: nat, tested: seq<string>, iri: string, path: Option<string>, isNamespace: bool) {
    (forall j :: i <= j < |entries| && RegexOf(entries[j], iri, path, isNamespace).Some? ==>
       RegexOf(entries[j], iri, path, isNamespace).value !in tested) &&
    (forall j, k :: i <= j < k < |entries| && RegexOf(entries[j], iri, path, isNamespace).Some? ==>
       RegexOf(entries[k], iri, path, isNamespace) != RegexOf(entries[j], iri, path, isNamespace))
  }

  /** One vocabulary whose expression, if any, is new: it yields its
      `Hit`, and its expression is recorded. */
  lemma ConsiderHit(sc: ScanState, e: VocabEntry, iri: string, path: Option<string>, isNamespace: bool, search: Search)
    requires Consider(sc, e, iri, path, isNamespace, search).Success?
    requires RegexOf(e, iri, path, isNamespace).Some? ==> RegexOf(e, iri, path, isNamespace).value !in sc.tested
    ensures var r := Consider(sc, e, iri, path, isNamespace, search).value;
            r.candidates == sc.candidates + Hit(e, iri, path, isNamespace, search) &&
            r.tested == sc.tested + (if RegexOf(e, iri, path, isNamespace).Some? then [RegexOf(e, iri, path, isNamespace).value] else [])
  {
    if Searched(e, iri, path, isNamespace) {
      var r := ConsiderFitting(sc, e, path.value, search).value;
      if r.matched {
        assert r.candidates == r.candidates[..|sc.candidates|] + [r.candidates[|sc.candidates|]];
      }
    }
  }

  /** One step of the loop, for `Scan`'s filter clause. */
  lemma ScanFilterStep(sc: ScanState, sc': ScanState, r: Result<ScanState, string>, entries: seq<VocabEntry>, i: nat,
                       iri: string, path: Option<string>, isNamespace: bool, search: Search)
    requires i < |entries| && Consider(sc, entries[i], iri, path, isNamespace, search) == Success(sc')
    requires r.Success? && Fresh(entries, i + 1, sc'.tested, iri, path, isNamespace) ==>
               r.value.candidates == sc'.candidates + Hits(entries, i + 1, iri, path, isNamespace, search)
    ensures r.Success? && Fresh(entries, i, sc.tested, iri, path, isNamespace) ==>
              r.value.candidates == sc.candidates + Hits(entries, i, iri, path, isNamespace, search)
  {
    if r.Success? && Fresh(entries, i, sc.tested, iri, path, isNamespace) {
      ConsiderHit(sc, entries[i], iri, path, isNamespace, search);
      FreshStep(entries, i, sc.tested, sc'.tested, iri, path, isNamespace);
      HitsUnfold(entries, i, iri, path, isNamespace, search);
      CandidatesChain(sc.candidates, sc'.candidates, r.value.candidates,
                      Hit(entries[i], iri, path, isNamespace, search), Hits(entries, i + 1, iri, path, isNamespace, search),
                      Hits(entries, i, iri, path, isNamespace, search));
    }
  }

  lemma HitsUnfold(entries: seq<VocabEntry>, i: nat, iri: string, path: Option<string>, isNamespace: bool, search: Search)
    requires i < |entries|
    ensures Hits(entries, i, iri, path, isNamespace, search) == Hit(entries[i], iri, path, isNamespace, search) + Hits(entries, i + 1, iri, path, isNamespace, search)
  {
  }

  lemma CandidatesChain(a: seq<Candidate>, b: seq<Candidate>, c: seq<Candidate>, x: seq<Candidate>, y: seq<Candidate>, xy: seq<Candidate>)
    requires b == a + x && c == b + y && xy == x + y
    ensures c == a + xy
  {
  }

  /** Freshness survives recording the expression at position `i`. */
  lemma FreshStep(entries: seq<VocabEntry>, i: nat, tested: seq<string>, tested': seq<string>, iri: string, path: Option<string>, isNamespace: bool)
    requires i < |entries| && Fresh(entries, i, tested, iri, path, isNamespace)
    requires tested' == tested + (if RegexOf(entries[i], iri, path, isNamespace).Some? then [RegexOf(entries[i], iri, path, isNamespace).value] else [])
    ensures Fresh(entries, i + 1, tested', iri, path, isNamespace)
  {
  }

  /** The IRI as looked up: stripped of white space and, for a namespace
      IRI, of trailing `/` and `#`. */
  function NormaliseIri(iri: string, isNamespace: bool): (r: string)
    ensures !isNamespace ==> r == Strip(iri)
    ensures isNamespace ==> IsPrefix(r, Strip(iri)) && (|r| > 0 ==> r[|r| - 1] !in Slashes)
    ensures isNamespace ==> forall i :: |r| <= i < |Strip(iri)| ==> Strip(iri)[i] in Slashes
  {
    if isNamespace then TrimRight(Strip(iri), Slashes) else Strip(iri)
  }

  /** The candidates for a normalised IRI among the vocabularies under
      its domain and subdomain, and the index with the patterns the loop
      escaped. When no two vocabularies of the bucket are searched with
      the same expression, the candidates are the bucket filtered by
      `Hit`. */
  function Candidates(vs: Vocabs, text: string, isNamespace: bool, extract: Extract, search: Search): (r: Result<(seq<Candidate>, Vocabs), string>)
    ensures r.Success? ==> r.value.1.namespaces == vs.namespaces
    ensures r.Success? ==> SplitIri(text, extract).Success?
    ensures r.Success? ==>
              var parts := SplitIri(text, extract).value;
              |r.value.0| <= |Bucket(vs.index, parts.domain, parts.subdomain)| &&
              forall c :: c in r.value.0 ==> c.vocab in Bucket(r.value.1.index, parts.domain, parts.subdomain)
    ensures r.Success? ==>
              var parts := SplitIri(text, extract).value;
              var bucket := Bucket(vs.index, parts.domain, parts.subdomain);
              parts.path.Some? && (exists j :: 0 <= j < |bucket| && bucket[j].namespace == text) ==> |r.value.0| > 0
    ensures r.Success? ==>
              var parts := SplitIri(text, extract).value;
              forall d, s :: (d, s) != (parts.domain, parts.subdomain) ==> Bucket(r.value.1.index, d, s) == Bucket(vs.index, d, s)
    ensures r.Success? ==>
              var parts := SplitIri(text, extract).value;
              var bucket := Bucket(vs.index, parts.domain, parts.subdomain);
              Fresh(bucket, 0, [], text, parts.path, isNamespace) ==> r.value.0 == Hits(bucket, 0, text, parts.path, isNamespace, search)
  {
    match SplitIri(text, extract)
    case Failure(e) => Failure(e)
    case Success(parts) =>
      var bucket := Bucket(vs.index, parts.domain, parts.subdomain);
      if |bucket| == 0 then
        assert Hits(bucket, 0, text, parts.path, isNamespace, search) == [];
        Success(([], vs))
      else
        match Scan(ScanState([], [], false, 0, []), bucket, 0, text, parts.path, isNamespace, search)
        case Failure(e) => Failure(e)
        case Success(sc) =>
          assert sc.bucket[0..] == sc.bucket;
          ScanFromStart(bucket, text, parts.path, isNamespace, search);
          Success((sc.candidates, Vocabs(Replace(vs.index, parts.domain, parts.subdomain, sc.bucket), vs.namespaces)))
  }

  /** The loop over a whole bucket adds the bucket filtered by `Hit` when
      no expression repeats. */
  lemma ScanFromStart(bucket: seq<VocabEntry>, iri: string, path: Option<string>, isNamespace: bool, search: Search)
    requires Scan(ScanState([], [], false, 0, []), bucket, 0, iri, path, isNamespace, search).Success?
    ensures Fresh(bucket, 0, [], iri, path, isNamespace) ==>
              Scan(ScanState([], [], false, 0, []), bucket, 0, iri, path, isNamespace, search).value.candidates == Hits(bucket, 0, iri, path, isNamespace, search)
  {
    assert [] + Hits(bucket, 0, iri, path, isNamespace, search) == Hits(bucket, 0, iri, path, isNamespace, search);
  }

  /** The index with one existing bucket replaced. */
  function Replace(index: Index, d: Option<string>, s: Option<string>, bucket: seq<VocabEntry>): (r: Index)
    requires d in index && s in index[d]
    ensures Bucket(r, d, s) == bucket
    ensures forall d', s' :: (d', s') != (d, s) ==> Bucket(r, d', s') == Bucket(index, d', s')
  {
    index[d := index[d][s := bucket]]
  }

  // ---------------------------------------------------------------------
  // Choosing among the candidates
  // ---------------------------------------------------------------------

  /** The selection loop as written: the running maximum is never raised
      from where it starts, so with 0 every candidate passes the `>=`
      test. */
  function PickAsWritten(cands: seq<Candidate>, maxscore: nat, chosen: Option<VocabEntry>): (r: Option<VocabEntry>)
    ensures r == chosen || exists i :: 0 <= i < |cands| && r == Some(cands[i].vocab)
    decreases |cands|
  {
    if |cands| == 0 then chosen
    else if cands[0].score >= maxscore then PickAsWritten(cands[1..], maxscore, Some(cands[0].vocab))
    else PickAsWritten(cands[1..], maxscore, chosen)
  }

  /** As written, the pick is the last candidate, whatever the scores. */
  lemma {:induction false} PickAsWrittenIsLast(cands: seq<Candidate>, chosen: Option<VocabEntry>)
    ensures |cands| == 0 ==> PickAsWritten(cands, 0, chosen) == chosen
    ensures |cands| > 0 ==> PickAsWritten(cands, 0, chosen) == Some(cands[|cands| - 1].vocab)
    decreases |cands|
  {
    if |cands| > 0 {
      PickAsWrittenIsLast(cands[1..], Some(cands[0].vocab));
    }
  }

  /** The evidently intended selection: the running maximum follows the
      candidates, so the result has the highest score, the last one among
      equals. */
  function PickBest(cands: seq<Candidate>, maxscore: nat, chosen: Option<VocabEntry>): (r: Option<VocabEntry>)
    ensures r == chosen || exists i :: 0 <= i < |cands| && r == Some(cands[i].vocab) && cands[i].score >= maxscore
    decreases |cands|
  {
    if |cands| == 0 then chosen
    else if cands[0].score >= maxscore then PickBest(cands[1..], cands[0].score, Some(cands[0].vocab))
    else PickBest(cands[1..], maxscore, chosen)
  }

  /** The intended pick is a candidate with the highest score, and no later
      candidate has that score. */
  lemma {:induction false} PickBestIsMax(cands: seq<Candidate>)
    ensures |cands| == 0 <==> PickBest(cands, 0, None).None?
    ensures |cands| > 0 ==> exists i :: 0 <= i < |cands| && PickBest(cands, 0, None) == Some(cands[i].vocab) &&
                                      (forall j :: 0 <= j < |cands| ==> cands[j].score <= cands[i].score) &&
                                      (forall j :: i < j < |cands| ==> cands[j].score < cands[i].score)
  {
    if |cands| > 0 {
      var i := PickBestFrom(cands, 0, 0, None);
    }
  }

  /** The invariant of the intended selection loop, from position `k`
      on with the best so far at `best`. */
  lemma {:induction false} PickBestFrom(all: seq<Candidate>, k: nat, best: nat, chosenAt: Option<nat>) returns (i: nat)
    requires k <= |all| && |all| > 0
    requires k == 0 <==> chosenAt.None?
    requires k == 0 ==> best == 0
    requires chosenAt.Some? ==>
               chosenAt.value < k && all[chosenAt.value].score == best &&
               (forall j :: 0 <= j < k ==> all[j].score <= best) &&
               (forall j :: chosenAt.value < j < k ==> all[j].score < best)
    ensures i < |all| && PickBest(all[k..], best, if chosenAt.Some? then Some(all[chosenAt.value].vocab) else None) == Some(all[i].vocab)
    ensures forall j :: 0 <= j < |all| ==> all[j].score <= all[i].score
    ensures forall j :: i < j < |all| ==> all[j].score < all[i].score
    decreases |all| - k
  {
    var chosen := if chosenAt.Some? then Some(all[chosenAt.value].vocab) else None;
    if k == |all| {
      i := chosenAt.value;
    } else {
      PickBestStep(all, k, best, chosen);
      if all[k].score >= best {
        i := PickBestFrom(all, k + 1, all[k].score, Some(k));
      } else {
        i := PickBestFrom(all, k + 1, best, chosenAt);
      }
    }
  }

  /** One step of the intended selection loop. */
  lemma PickBestStep(all: seq<Candidate>, k: nat, best: nat, chosen: Option<VocabEntry>)
    requires k < |all|
    ensures PickBest(all[k..], best, chosen) ==
            if all[k].score >= best then PickBest(all[k + 1..], all[k].score, Some(all[k].vocab))
            else PickBest(all[k + 1..], best, chosen)
  {
    assert all[k..][0] == all[k] && all[k..][1..] == all[k + 1..];
  }

  /** The two selections differ as soon as an earlier candidate outscores
      the last one. */
  lemma PickDiffers(a: VocabEntry, b: VocabEntry)
    requires a != b
    ensures PickAsWritten([Candidate(5, a), Candidate(1, b)], 0, None) == Some(b)
    ensures PickBest([Candidate(5, a), Candidate(1, b)], 0, None) == Some(a)
  {
    var cands := [Candidate(5, a), Candidate(1, b)];
    assert cands[1..] == [Candidate(1, b)];
    assert cands[1..][1..] == [];
    assert PickAsWritten(cands, 0, None) == PickAsWritten([Candidate(1, b)], 0, Some(a));
    assert PickBest(cands, 0, None) == PickBest([Candidate(1, b)], 5, Some(a));
  }

  /** `get_linked_vocab_by_iri` as written: the last candidate. */
  function LinkedVocabByIriAsWritten(vs: Vocabs, iri: string, isNamespace: bool, extract: Extract, search: Search): (r: Result<(Option<VocabEntry>, Vocabs), string>)
    ensures r.Success? ==>
              Candidates(vs, NormaliseIri(iri, isNamespace), isNamespace, extract, search).Success? &&
              var cands := Candidates(vs, NormaliseIri(iri, isNamespace), isNamespace, extract, search).value.0;
              (r.value.0.None? <==> |cands| == 0) && (|cands| > 0 ==> r.value.0 == Some(cands[|cands| - 1].vocab))
  {
    match Candidates(vs, NormaliseIri(iri, isNamespace), isNamespace, extract, search)
    case Failure(e) => Failure(e)
    case Success((cands, vs')) =>
      PickAsWrittenIsLast(cands, None);
      Success((PickAsWritten(cands, 0, None), vs'))
  }

  /** `get_linked_vocab_by_iri` with the evidently intended selection: a
      best-scoring candidate. */
  function LinkedVocabByIri(vs: Vocabs, iri: string, isNamespace: bool, extract: Extract, search: Search): (r: Result<(Option<VocabEntry>, Vocabs), string>)
    ensures r.Success? ==>
              Candidates(vs, NormaliseIri(iri, isNamespace), isNamespace, extract, search).Success? &&
              var cands := Candidates(vs, NormaliseIri(iri, isNamespace), isNamespace, extract, search).value.0;
              IsBest(cands, r.value.0)
  {
    match Candidates(vs, NormaliseIri(iri, isNamespace), isNamespace, extract, search)
    case Failure(e) => Failure(e)
    case Success((cands, vs')) =>
      PickBestIsBest(cands);
      Success((PickBest(cands, 0, None), vs'))
  }

  /** `pick` is a candidate with the highest score, and there is one
      exactly when there are candidates. */
  predicate IsBest(cands: seq<Candidate>, pick: Option<VocabEntry>) {
    && (pick.None? <==> |cands| == 0)
    && (|cands| > 0 ==> exists i :: 0 <= i < |cands| && pick == Some(cands[i].vocab) &&
                                   forall j :: 0 <= j < |cands| ==> cands[j].score <= cands[i].score)
  }

  lemma PickBestIsBest(cands: seq<Candidate>)
    ensures IsBest(cands, PickBest(cands, 0, None))
  {
    PickBestIsMax(cands);
  }
}

=== FILE: mapper.dfy ===
/** `Mapper`: the reference metadata vocabulary, the mapping tables of the
    embedded-metadata collectors and `flip_dict`, which inverts a mapping
    table so that a source element name leads back to the reference key. */
module Mapper {
  import opened Wrappers
  import opened Seqs
  import opened Strings

  /** An element of a list-valued mapping entry: a plain element name, or a
      tuple `(element, tag)`. */
  datatype Item = Plain(name: string) | Tuple(parts: seq<string>)

  /** The value of a mapping entry: one element name or a list of items. */
  datatype MapValue = One(name: string) | Several(items: seq<Item>)

  /** A mapping table in declaration order. */
  type Table = seq<(string, MapValue)>

  /** The argument of `flip_dict`: a mapping table or some non-dict value. */
  datatype FlipInput = NotADict | Mapping(table: Table)

  /** A value of the flipped dictionary: the reference key, or the pair
      `(key, tag)` built from a tuple item. */
  datatype Flipped = Key(key: string) | KeyAndTag(key: string, tag: string)

  /** The dictionary key an item is flipped to; a tuple shorter than two
      raises `IndexError`, which `flip_dict` swallows. */
  function ItemHead(it: Item): Option<string> {
    match it
    case Plain(n) => Some(n)
    case Tuple(p) => if |p| >= 2 then Some(p[0]) else None
  }

  /** The element names a list of items contributes as flipped keys. */
  function ItemHeads(items: seq<Item>): set<string> {
    set i | 0 <= i < |items| && ItemHead(items[i]).Some? :: ItemHead(items[i]).value
  }

  /** The element names a mapping entry contributes as flipped keys. */
  function EntryHeads(v: MapValue): set<string> {
    match v
    case One(n) => {n}
    case Several(items) => ItemHeads(items)
  }

  /** The element names a whole table contributes as flipped keys. */
  function Mentioned(t: Table): set<string> {
    set i, x | 0 <= i < |t| && x in EntryHeads(t[i].1) :: x
  }

  /** The heads of a list are those of its first item and of the rest. */
  lemma ItemHeadsCons(items: seq<Item>)
    requires |items| > 0
    ensures ItemHeads(items) == ItemHeads(items[..1]) + ItemHeads(items[1..])
    ensures items[0].Plain? ==> ItemHeads(items[..1]) == {items[0].name}
  {
    forall x | x in ItemHeads(items)
      ensures x in ItemHeads(items[..1]) + ItemHeads(items[1..])
    {
      var i :| 0 <= i < |items| && ItemHead(items[i]) == Some(x);
      if i > 0 {
        assert items[1..][i - 1] == items[i];
      }
    }
    forall x | x in ItemHeads(items[1..])
      ensures x in ItemHeads(items)
    {
      var i :| 0 <= i < |items| - 1 && ItemHead(items[1..][i]) == Some(x);
      assert items[i + 1] == items[1..][i];
    }
    if items[0].Plain? {
      assert ItemHead(items[..1][0]) == Some(items[0].name);
    }
  }

  function FlipItem(m: map<string, Flipped>, key: string, it: Item): map<string, Flipped> {
    match it
    case Plain(n) => m[n := Key(key)]
    case Tuple(p) => if |p| >= 2 then m[p[0] := KeyAndTag(key, p[1])] else m
  }

  /** What an item of the entry `key` stands for in the flipped dictionary:
      the key itself for a plain name, and the key with the tuple's second
      part as its tag for a tuple. */
  function ItemValue(key: string, it: Item): (r: Flipped)
    ensures r.key == key
    ensures it.Plain? <==> r.Key?
  {
    match it
    case Plain(_) => Key(key)
    case Tuple(p) => KeyAndTag(key, if |p| >= 2 then p[1] else "")
  }

  /** `j` is the last position of `items` whose item is flipped to `x`. */
  predicate LastItem(items: seq<Item>, j: int, x: string) {
    0 <= j < |items| && ItemHead(items[j]) == Some(x) &&
    forall k :: j < k < |items| ==> ItemHead(items[k]) != Some(x)
  }

  /** The inner loop of `flip_dict` over a list-valued entry: every item's
      element name now maps back to `key`, tagged as the last item naming
      it says, and every other entry is kept. */
  function FlipItems(m: map<string, Flipped>, key: string, items: seq<Item>): (r: map<string, Flipped>)
    ensures r.Keys == m.Keys + ItemHeads(items)
    ensures forall x :: x in ItemHeads(items) ==> r[x].key == key
    ensures forall x :: x in ItemHeads(items) ==>
              exists j :: LastItem(items, j, x) && r[x] == ItemValue(key, items[j])
    ensures forall x :: x in m && x !in ItemHeads(items) ==> r[x] == m[x]
    decreases |items|
  {
    if |items| == 0 then m
    else
      ItemHeadsCons(items);
      var m1 := FlipItem(m, key, items[0]);
      var r := FlipItems(m1, key, items[1..]);
      FlipItemsStep(m, m1, r, key, items);
      FlipItemsRest(m, m1, r, key, items);
      r
  }

  /** Flipping the head item and then the tail keeps the other keys and
      gives every head the entry's key. */
  lemma FlipItemsRest(m: map<string, Flipped>, m1: map<string, Flipped>, r: map<string, Flipped>, key: string, items: seq<Item>)
    requires |items| > 0 && m1 == FlipItem(m, key, items[0])
    requires ItemHeads(items) == ItemHeads(items[..1]) + ItemHeads(items[1..])
    requires r.Keys == m1.Keys + ItemHeads(items[1..])
    requires forall x :: x in ItemHeads(items[1..]) ==> r[x].key == key
    requires forall x :: x in m1 && x !in ItemHeads(items[1..]) ==> r[x] == m1[x]
    ensures r.Keys == m.Keys + ItemHeads(items)
    ensures forall x :: x in ItemHeads(items) ==> r[x].key == key
    ensures forall x :: x in m && x !in ItemHeads(items) ==> r[x] == m[x]
  {
    var h := ItemHead(items[0]);
    assert ItemHeads(items[..1]) == if h.Some? then {h.value} else {} by {
      assert items[..1][0] == items[0];
    }
    assert m1 == if h.Some? then m[h.value := ItemValue(key, items[0])] else m;
  }

  /** The last item naming `x` in a list is the last one in its tail, or
      the head when the tail does not name `x`. */
  lemma FlipItemsStep(m: map<string, Flipped>, m1: map<string, Flipped>, r: map<string, Flipped>, key: string, items: seq<Item>)
    requires |items| > 0 && m1 == FlipItem(m, key, items[0])
    requires ItemHeads(items) == ItemHeads(items[..1]) + ItemHeads(items[1..])
    requires r.Keys == m1.Keys + ItemHeads(items[1..]) && ItemHeads(items[..1]) <= m1.Keys
    requires forall x :: x in ItemHeads(items[1..]) ==>
               exists j :: LastItem(items[1..], j, x) && r[x] == ItemValue(key, items[1..][j])
    requires forall x :: x in m1 && x !in ItemHeads(items[1..]) ==> r[x] == m1[x]
    ensures forall x :: x in ItemHeads(items) ==>
              exists j :: LastItem(items, j, x) && r[x] == ItemValue(key, items[j])
  {
    forall x | x in ItemHeads(items)
      ensures exists j :: LastItem(items, j, x) && r[x] == ItemValue(key, items[j])
    {
      if x in ItemHeads(items[1..]) {
        var j :| LastItem(items[1..], j, x) && r[x] == ItemValue(key, items[1..][j]);
        assert items[j + 1] == items[1..][j];
        forall k | j + 1 < k < |items|
          ensures ItemHead(items[k]) != Some(x)
        {
          assert items[k] == items[1..][k - 1];
        }
        assert LastItem(items, j + 1, x);
      } else {
        assert ItemHead(items[..1][0]) == Some(x);
        assert items[..1][0] == items[0];
        forall k | 0 < k < |items|
          ensures ItemHead(items[k]) != Some(x)
        {
          assert items[1..][k - 1] == items[k];
        }
        assert LastItem(items, 0, x);
      }
    }
  }

  /** What the entry `e` alone makes of the element name `x`: a scalar
      entry points back to its key, a list entry as its last item naming
      `x` says. */
  predicate EntryGives(e: (string, MapValue), x: string, v: Flipped) {
    match e.1
    case One(n) => n == x && v == Key(e.0)
    case Several(items) => exists j :: 0 <= j < |items| && LastItem(items, j, x) && v == ItemValue(e.0, items[j])
  }

  /** One entry of the outer loop: the entry's element names now map back
      to its key, as the entry says, and every other name is kept. */
  function FlipEntry(m: map<string, Flipped>, e: (string, MapValue)): (r: map<string, Flipped>)
    ensures r.Keys == m.Keys + EntryHeads(e.1)
    ensures forall x :: x in EntryHeads(e.1) ==> r[x].key == e.0 && EntryGives(e, x, r[x])
    ensures forall x :: x in m && x !in EntryHeads(e.1) ==> r[x] == m[x]
  {
    match e.1
    case One(n) => m[n := Key(e.0)]
    case Several(items) => FlipItems(m, e.0, items)
  }

  /** `i` is the last entry of `t` that names `x`. */
  predicate LastEntry(t: Table, i: int, x: string) {
    0 <= i < |t| && x in EntryHeads(t[i].1) &&
    forall k :: i < k < |t| ==> x !in EntryHeads(t[k].1)
  }

  /** The outer loop of `flip_dict`: entries are processed in order and a
      later entry overwrites an earlier one for the same element name, so
      every name ends as the last entry naming it says. */
  function FlipEntries(m: map<string, Flipped>, t: Table): (r: map<string, Flipped>)
    ensures r.Keys == m.Keys + Mentioned(t)
    ensures forall x :: x in Mentioned(t) ==>
              exists i :: LastEntry(t, i, x) && r[x].key == t[i].0 && EntryGives(t[i], x, r[x])
    ensures forall x :: x in m && x !in Mentioned(t) ==> r[x] == m[x]
    decreases |t|
  {
    if |t| == 0 then m
    else
      var m1 := FlipEntry(m, t[0]);
      var r := FlipEntries(m1, t[1..]);
      MentionedCons(t);
      FlipEntriesStep(m, m1, r, t);
      r
  }

  /** The names of a table are those of its first entry and of the rest. */
  lemma MentionedCons(t: Table)
    requires |t| > 0
    ensures Mentioned(t) == EntryHeads(t[0].1) + Mentioned(t[1..])
  {
    forall x | x in Mentioned(t)
      ensures x in EntryHeads(t[0].1) + Mentioned(t[1..])
    {
      var i :| 0 <= i < |t| && x in EntryHeads(t[i].1);
      if i > 0 {
        assert t[1..][i - 1] == t[i];
      }
    }
    forall x | x in Mentioned(t[1..])
      ensures x in Mentioned(t)
    {
      var i :| 0 <= i < |t| - 1 && x in EntryHeads(t[1..][i].1);
      assert t[i + 1] == t[1..][i];
    }
  }

  /** Every name of the table ends as the last entry naming it says, given
      that this holds for the rest of the table after the first entry. */
  lemma FlipEntriesStep(m: map<string, Flipped>, m1: map<string, Flipped>, r: map<string, Flipped>, t: Table)
    requires |t| > 0 && Mentioned(t) == EntryHeads(t[0].1) + Mentioned(t[1..])
    requires r.Keys == m1.Keys + Mentioned(t[1..]) && EntryHeads(t[0].1) <= m1.Keys
    requires forall x :: x in EntryHeads(t[0].1) ==> m1[x].key == t[0].0 && EntryGives(t[0], x, m1[x])
    requires forall x :: x in Mentioned(t[1..]) ==>
               exists i :: LastEntry(t[1..], i, x) && r[x].key == t[1..][i].0 && EntryGives(t[1..][i], x, r[x])
    requires forall x :: x in m1 && x !in Mentioned(t[1..]) ==> r[x] == m1[x]
    ensures forall x :: x in Mentioned(t) ==>
              exists i :: LastEntry(t, i, x) && r[x].key == t[i].0 && EntryGives(t[i], x, r[x])
  {
    forall x | x in Mentioned(t)
      ensures exists i :: LastEntry(t, i, x) && r[x].key == t[i].0 && EntryGives(t[i], x, r[x])
    {
      if x in Mentioned(t[1..]) {
        var i :| LastEntry(t[1..], i, x) && r[x].key == t[1..][i].0 && EntryGives(t[1..][i], x, r[x]);
        assert t[i + 1] == t[1..][i];
        forall k | i + 1 < k < |t|
          ensures x !in EntryHeads(t[k].1)
        {
          assert t[k] == t[1..][k - 1];
        }
        assert LastEntry(t, i + 1, x);
      } else {
        assert x in EntryHeads(t[0].1) && r[x] == m1[x];
        forall k | 0 < k < |t|
          ensures x !in EntryHeads(t[k].1)
        {
          assert t[1..][k - 1] == t[k];
        }
        assert LastEntry(t, 0, x);
      }
    }
  }

  /** `Mapper.flip_dict`: the keys of the result are exactly the element
      names (scalar values, list elements and heads of tuples of length at
      least two) mentioned in the table; each maps back to the key of the
      LAST entry naming it, tagged when that entry's last item naming it is
      a tuple; a non-dict argument yields `{}`. */
  function FlipDict(input: FlipInput): (r: map<string, Flipped>)
    ensures input.NotADict? ==> r == map[]
    ensures input.Mapping? ==> r.Keys == Mentioned(input.table)
    ensures input.Mapping? ==> forall x :: x in r ==>
              exists i :: LastEntry(input.table, i, x) &&
                r[x].key == input.table[i].0 && EntryGives(input.table[i], x, r[x])
  {
    match input
    case NotADict => map[]
    case Mapping(t) => FlipEntries(map[], t)
  }

  /** For a list of plain element names, order and repetition do not
      matter: every name maps to the entry's key. */
  lemma {:induction false} FlipPlainItems(m: map<string, Flipped>, key: string, items: seq<Item>)
    requires forall i :: 0 <= i < |items| ==> items[i].Plain?
    ensures FlipItems(m, key, items) == m + map x | x in ItemHeads(items) :: Key(key)
    decreases |items|
  {
    if |items| > 0 {
      FlipPlainItems(FlipItem(m, key, items[0]), key, items[1..]);
      FlipPlainStep(m, key, items);
    } else {
      var expected := m + map x | x in ItemHeads(items) :: Key(key);
      assert ItemHeads(items) == {};
      assert expected.Keys == m.Keys;
    }
  }

  /** One step of `FlipPlainItems`: the first name joins the names of the
      rest. */
  lemma FlipPlainStep(m: map<string, Flipped>, key: string, items: seq<Item>)
    requires |items| > 0 && items[0].Plain?
    requires FlipItems(FlipItem(m, key, items[0]), key, items[1..]) ==
             FlipItem(m, key, items[0]) + map x | x in ItemHeads(items[1..]) :: Key(key)
    ensures FlipItems(m, key, items) == m + map x | x in ItemHeads(items) :: Key(key)
  {
    FlipPlainStepValues(m, key, items);
    MapOverlay(m, ItemHeads(items), Key(key), FlipItems(m, key, items));
  }

  /** A map with the keys of `m` and `s` that holds `v` on `s` and agrees
      with `m` elsewhere is `m` overlaid with `v` on `s`. */
  lemma MapOverlay<K, V>(m: map<K, V>, s: set<K>, v: V, r: map<K, V>)
    requires r.Keys == m.Keys + s
    requires forall x :: x in r ==> r[x] == if x in s then v else m[x]
    ensures r == m + map x | x in s :: v
  {
  }

  /** The values half of `FlipPlainStep`. */
  lemma FlipPlainStepValues(m: map<string, Flipped>, key: string, items: seq<Item>)
    requires |items| > 0 && items[0].Plain?
    requires FlipItems(FlipItem(m, key, items[0]), key, items[1..]) ==
             FlipItem(m, key, items[0]) + map x | x in ItemHeads(items[1..]) :: Key(key)
    ensures var r := FlipItems(m, key, items);
            forall x :: x in r ==> r[x] == if x in ItemHeads(items) then Key(key) else m[x]
  {
    var r := FlipItems(m, key, items);
    ItemHeadsCons(items);
    var m1 := FlipItem(m, key, items[0]);
    assert m1 == m[items[0].name := Key(key)];
    forall x | x in r
      ensures r[x] == if x in ItemHeads(items) then Key(key) else m[x]
    {
      if x in ItemHeads(items) && x !in ItemHeads(items[1..]) {
        assert x == items[0].name;
        assert r[x] == m1[x];
      }
    }
  }

  /** Lists with the same members contribute the same element names. */
  lemma SameItemsSameHeads(a: seq<Item>, b: seq<Item>)
    requires forall it :: it in a <==> it in b
    ensures ItemHeads(a) == ItemHeads(b)
  {
    forall x | x in ItemHeads(a)
      ensures x in ItemHeads(b)
    {
      var i :| 0 <= i < |a| && ItemHead(a[i]) == Some(x);
      assert a[i] in b;
      var j :| 0 <= j < |b| && b[j] == a[i];
    }
    forall x | x in ItemHeads(b)
      ensures x in ItemHeads(a)
    {
      var i :| 0 <= i < |b| && ItemHead(b[i]) == Some(x);
      assert b[i] in a;
      var j :| 0 <= j < |a| && a[j] == b[i];
    }
  }

  /** Plain lists with the same element names flip identically, so a
      repeated entry in a list changes nothing. */
  lemma FlipIgnoresRepeats(m: map<string, Flipped>, key: string, items: seq<Item>)
    requires forall i :: 0 <= i < |items| ==> items[i].Plain?
    ensures FlipItems(m, key, FirstOccurrences(items)) == FlipItems(m, key, items)
  {
    var d := FirstOccurrences(items);
    forall i | 0 <= i < |d|
      ensures d[i].Plain?
    {
      assert d[i] in items;
    }
    FlipPlainItems(m, key, items);
    FlipPlainItems(m, key, d);
    SameItemsSameHeads(d, items);
  }

  /** `REFERENCE_METADATA_LIST` (its keys, in order). */
  const REFERENCE_METADATA_LIST: seq<string> := [
    "object_identifier", "creator", "title", "publisher", "publication_date",
    "summary", "keywords", "object_content_identifier", "access_level",
    "access_free", "related_resources", "provenance_general",
    "measured_variable", "contributor", "license", "object_type",
    "datacite_client", "modified_date", "created_date", "right_holder",
    "object_size", "language", "license_path", "metadata_service",
    "spatial_coverage", "spatialResolutionInMeters",
    "spatialResolutionAsDistance", "spatialResolutionAsScale",
    "spatialResolutionAsVerticalDistance", "spatialResolutionAsAngularDistance"
  ]

  /** `REQUIRED_CORE_METADATA`. */
  const REQUIRED_CORE_METADATA: seq<string> := [
    "creator", "title", "publisher", "publication_date", "summary",
    "keywords", "object_identifier", "object_type"
  ]

  /** `ACCESS_RIGHT_CODES`. */
  const ACCESS_RIGHT_CODES: map<string, string> := map[
    "c_abf2" := "public", "c_f1cf" := "embargoed", "c_16ec" := "restricted",
    "c_14cb" := "metadataonly", "OpenAccess" := "public",
    "ClosedAccess" := "closed", "RestrictedAccess" := "restricted",
    "NON_PUBLIC" := "restricted", "OP_DATPRO" := "embargoed",
    "PUBLIC" := "public", "RESTRICTED" := "restricted",
    "SENSITIVE" := "restricted", "embargoedAccess" := "embargoed"
  ]

  /** `HIGHWIRE_MAPPING`. */
  const HIGHWIRE_MAPPING: Table := [
    ("object_identifier", Several([Plain("citation_arxiv_id"), Plain("citation_pmid"),
                                   Plain("citation_doi"), Plain("citation_id")])),
    ("creator", Several([Plain("citation_author"), Plain("citation_authors")])),
    ("title", One("citation_title")),
    ("publisher", One("citation_publisher")),
    ("publication_date", Several([Plain("citation_date"), Plain("citation_publication_date")])),
    ("summary", Several([Plain("citation_abstract_html_url")])),
    ("keywords", One("citation_keywords")),
    ("related_resources", Several([Plain("citation_reference"), Plain("citation_collection_id")])),
    ("object_type", Several([
      Tuple(["citation_inbook_title", "Book"]),
      Tuple(["citation_conference_title", "ScholarlyArticle"]),
      Tuple(["citation_dissertation_institution", "Thesis"]),
      Tuple(["citation_dissertation_name", "Thesis"]),
      Tuple(["citation_journal_abbrev", "ScholarlyArticle"]),
      Tuple(["citation_technical_report_institution", "TechArticle"]),
      Tuple(["citation_technical_report_number", "TechArticle"]),
      Tuple(["citation_patent_country", "Patent"])])),
    ("language", One("citation_language"))
  ]

  /** The `related_resources` list of `DC_MAPPING`, which names
      `hasVersion` twice. */
  const DC_RELATED: seq<Item> := [
    Plain("relation"), Plain("source"), Plain("references"), Plain("hasVersion"),
    Plain("isReferencedBy"), Plain("isVersionOf"), Plain("hasVersion"),
    Plain("replaces"), Plain("requires"), Plain("conformsTo"), Plain("hasFormat"),
    Plain("hasPart"), Plain("isPartOf"), Plain("isReplacedBy"), Plain("isRequiredBy")
  ]

  /** `DC_MAPPING`. */
  const DC_MAPPING: Table := [
    ("object_identifier", One("identifier")),
    ("creator", One("creator")),
    ("title", One("title")),
    ("contributor", One("contributor")),
    ("publisher", One("publisher")),
    ("publication_date", Several([Plain("date"), Plain("available"), Plain("issued")])),
    ("summary", Several([Plain("abstract"), Plain("description")])),
    ("keywords", One("subject")),
    ("object_type", One("type")),
    ("object_size", One("exent")),
    ("modified_date", One("modified")),
    ("created_date", One("created")),
    ("license", One("license")),
    ("access_level", Several([Plain("rights"), Plain("accessRights")])),
    ("right_holder", One("rightsHolder")),
    ("date_available", One("available")),
    ("provenance_general", One("provenance")),
    ("related_resources", Several(DC_RELATED)),
    ("language", One("language"))
  ]

  /** `PROVENANCE_MAPPING`. */
  const PROVENANCE_MAPPING: map<string, string> := map[
    "contributor" := "prov:wasAttributedTo", "creator" := "prov:wasAttributedTo",
    "publisher" := "prov:wasAttributedTo", "right_holder" := "prov:wasAttributedTo",
    "created_date" := "prov:generatedAtTime", "publication_date" := "prov:generatedAtTime",
    "accepted_date" := "prov:generatedAtTime", "submitted_date" := "prov:generatedAtTime",
    "modified_date" := "prov:generatedAtTime", "hasFormat" := "prov:alternateOf",
    "isFormatOf" := "prov:alternateOf", "isVersionOf" := "prov:wasRevisionOf",
    "isNewVersionOf" := "prov:wasRevisionOf", "isReferencedBy" := "prov:hadDerivation",
    "isReplacedBy" := "prov:wasRevisionOf", "References" := "prov:wasDerivedFrom",
    "IsDerivedFrom" := "prov:wasDerivedFrom", "isBasedOn" := "prov:hadPrimarySource",
    "hasVersion" := "prov:hadRevision", "Obsoletes" := "prov:wasRevisionOf",
    "Replaces" := "prov:wasDerivedFrom"
  ]

  /** The core elements are reference elements, and neither list repeats
      an element. */
  lemma CoreIsReference()
    ensures forall k :: k in REQUIRED_CORE_METADATA ==> k in REFERENCE_METADATA_LIST
    ensures NoDup(REQUIRED_CORE_METADATA)
  {
  }

  /** Every access-right code maps to one of five access levels. */
  lemma AccessRightLevels()
    ensures forall c :: c in ACCESS_RIGHT_CODES ==>
              ACCESS_RIGHT_CODES[c] in {"public", "embargoed", "restricted", "metadataonly", "closed"}
  {
  }

  /** The `object_type` entry of the Highwire table is a list of
      (tag, type) pairs. */
  lemma HighwireObjectTypes()
    ensures HIGHWIRE_MAPPING[8].0 == "object_type" && HIGHWIRE_MAPPING[8].1.Several?
    ensures forall it :: it in HIGHWIRE_MAPPING[8].1.items ==> it.Tuple? && |it.parts| == 2
  {
  }

  /** Every provenance relation is a `prov:` term. */
  lemma ProvenanceTerms()
    ensures forall k :: k in PROVENANCE_MAPPING ==> IsPrefix("prov:", PROVENANCE_MAPPING[k])
  {
  }

  /** The repeated `hasVersion` in the Dublin Core related-resources list
      does not change its flipped form. */
  lemma DcRelatedRepeatHarmless(m: map<string, Flipped>)
    ensures !NoDup(DC_RELATED)
    ensures FlipItems(m, "related_resources", FirstOccurrences(DC_RELATED)) ==
              FlipItems(m, "related_resources", DC_RELATED)
  {
    assert DC_RELATED[3] == DC_RELATED[6];
    FlipIgnoresRepeats(m, "related_resources", DC_RELATED);
  }
}

=== FILE: rdf_collector.dfy ===
/** The RDF collector's post-processing around the RDF parser: routing a
    negotiated response to JSON-LD or to another serialisation, choosing
    the serialisation format, the repair loop that retries parsing on a
    shorter document, the namespaces taken from a JSON-LD `@context` and
    from the URIs of a graph, and the final filter of the core metadata.
    The parser, `json.loads` and the namespace patterns are oracles. */
module RdfCollector {
  import opened Wrappers
  import opened Strings
  import opened Seqs
  import opened Values
  import opened Collector

  // ---------------------------------------------------------------------
  // Routing and format selection (parse_metadata)
  // ---------------------------------------------------------------------

  /** The media types handled as JSON-LD. */
  const JsonTypes: seq<string> := ["application/ld+json", "application/json", "application/vnd.schemaorg.ld+json"]

  /** The serialisations handed to the RDF parser. */
  const ParseFormats: seq<string> := ["xml", "n3", "turtle", "nt", "pretty-xml", "trix", "trig", "nquads", "json-ld", "hext"]

  /** Media types whose serialisation is known by name. */
  const FormatTable: map<string, string> := map[
    "text/ttl" := "turtle",
    "application/xhtml+xml" := "rdfa",
    "application/n-triples" := "nt",
    "application/n-quads" := "nquads"
  ]

  /** A character of the class `[a-z0-9]`. */
  predicate LowerAlnum(c: char) {
    'a' <= c <= 'z' || '0' <= c <= '9'
  }

  /** The longest suffix of `s` made of `[a-z0-9]` characters. */
  function AlnumTail(s: string): (r: string)
    ensures |r| <= |s| && r == s[|s| - |r|..]
    ensures forall i :: 0 <= i < |r| ==> LowerAlnum(r[i])
    ensures |r| < |s| ==> !LowerAlnum(s[|s| - |r| - 1])
  {
    if |s| > 0 && LowerAlnum(s[|s| - 1]) then
      var t := AlnumTail(s[..|s| - 1]);
      SuffixSnoc(s, t);
      t + [s[|s| - 1]]
    else []
  }

  /** A suffix of all but the last element, extended by the last element,
      is a suffix. */
  lemma SuffixSnoc<T>(s: seq<T>, t: seq<T>)
    requires |s| > 0 && |t| <= |s| - 1 && t == s[..|s| - 1][|s| - 1 - |t|..]
    ensures t + [s[|s| - 1]] == s[|s| - (|t| + 1)..]
    ensures |t| + 1 < |s| ==> s[|s| - (|t| + 1) - 1] == s[..|s| - 1][|s| - 1 - |t| - 1]
  {
    assert t == s[|s| - 1 - |t|..|s| - 1];
  }

  /** The regular expression `[\/+]([a-z0-9]+)$` matches at position `i`. */
  predicate SuffixMatchAt(s: string, i: int) {
    0 <= i < |s| - 1 && (s[i] == '/' || s[i] == '+') &&
    forall j :: i < j < |s| ==> LowerAlnum(s[j])
  }

  /** The group the expression `[\/+]([a-z0-9]+)$` captures in `s`. */
  function SuffixGroup(s: string): (r: Option<string>)
  {
    var t := AlnumTail(s);
    if |t| > 0 && |t| < |s| && (s[|s| - |t| - 1] == '/' || s[|s| - |t| - 1] == '+') then Some(t) else None
  }

  /** The capture agrees with the regular expression: it exists exactly
      when the expression matches somewhere, the match position is unique,
      and the group is everything after it. */
  lemma SuffixGroupMatches(s: string)
    ensures SuffixGroup(s).Some? <==> exists i :: SuffixMatchAt(s, i)
    ensures forall i :: SuffixMatchAt(s, i) ==> SuffixGroup(s) == Some(s[i + 1..])
  {
    var k := |s| - |AlnumTail(s)|;
    forall i | SuffixMatchAt(s, i)
      ensures i == k - 1
    {
      SuffixMatchUnique(s, i);
    }
    if SuffixGroup(s).Some? {
      AlnumFromTail(s);
      assert SuffixMatchAt(s, k - 1);
    }
  }

  /** Every character from the start of the alphanumeric tail on is in
      `[a-z0-9]`. */
  lemma AlnumFromTail(s: string)
    ensures forall j :: |s| - |AlnumTail(s)| <= j < |s| ==> LowerAlnum(s[j])
  {
    var t := AlnumTail(s);
    var k := |s| - |t|;
    forall j | k <= j < |s|
      ensures LowerAlnum(s[j])
    {
      assert s[j] == t[j - k];
    }
  }

  /** The expression can only match just before the alphanumeric tail. */
  lemma SuffixMatchUnique(s: string, i: int)
    requires SuffixMatchAt(s, i)
    ensures i == |s| - |AlnumTail(s)| - 1
  {
    var k := |s| - |AlnumTail(s)|;
    AlnumFromTail(s);
    assert !LowerAlnum(s[i]);
    assert i < k;
    assert !LowerAlnum(s[k - 1]);
  }

  /** The serialisation named by a media type: from the table, else from
      the media type's suffix. */
  function FormatGroup(contentType: string): Option<string> {
    if contentType in FormatTable then Some(FormatTable[contentType]) else SuffixGroup(contentType)
  }

  /** Where a response goes: JSON-LD handling with the source and format
      it records, RDF parsing in a serialisation (with the name the table
      or suffix gave and the recorded format), no serialisation found, or
      neither route. */
  datatype Route =
    | JsonLdRoute(source: Source, format: Format)
    | ParseRoute(parseFormat: string, named: string, format: Format)
    | NoSerialisation
    | NotRouted

  /** The routing of `parse_metadata` once the response's content type is
      known: `embedded` says JSON-LD came from the landing page, and
      `acceptRdf` that the RDF Accept header was used. */
  function RouteOf(contentType: Option<string>, prefMime: Option<string>, embedded: bool, acceptRdf: bool,
                   source: Source, format: Format): (r: Route)
    ensures r.ParseRoute? ==> r.parseFormat in ParseFormats
    ensures r.ParseRoute? ==> (r.format == RDFA <==> r.named == "rdfa" || format == RDFA)
    ensures r.ParseRoute? && r.named !in ParseFormats ==> r.parseFormat == "turtle"
    ensures r.ParseRoute? && r.named in ParseFormats ==> r.parseFormat == r.named
    ensures r.JsonLdRoute? <==> contentType.Some? && (Before(contentType.value, ";") in JsonTypes || (prefMime.Some? && prefMime.value in JsonTypes))
    ensures r.JsonLdRoute? && embedded ==> r.source == SCHEMAORG_EMBEDDED && r.format == JSONLD
    ensures r.JsonLdRoute? && !embedded && source != RDF_TYPED_LINKS && source != RDF_SIGNPOSTING_LINKS ==>
              r.source == SCHEMAORG_NEGOTIATED && r.format == JSONLD
    ensures r.JsonLdRoute? && !embedded && (source == RDF_TYPED_LINKS || source == RDF_SIGNPOSTING_LINKS) ==>
              r.source == source && r.format == format
    ensures (r.ParseRoute? || r.NoSerialisation?) <==> contentType.Some? && !r.JsonLdRoute? && acceptRdf
    ensures r.ParseRoute? ==> FormatGroup(Before(contentType.value, ";")) == Some(r.named)
    ensures r.NoSerialisation? ==> FormatGroup(Before(contentType.value, ";")).None?
  {
    match contentType
    case None => NotRouted
    case Some(raw) =>
      var ct := Before(raw, ";");
      if ct in JsonTypes || (prefMime.Some? && prefMime.value in JsonTypes) then
        if embedded then JsonLdRoute(SCHEMAORG_EMBEDDED, JSONLD)
        else if source != RDF_TYPED_LINKS && source != RDF_SIGNPOSTING_LINKS then JsonLdRoute(SCHEMAORG_NEGOTIATED, JSONLD)
        else JsonLdRoute(source, format)
      else if acceptRdf then
        match FormatGroup(ct)
        case None => NoSerialisation
        case Some(named) =>
          var recorded := if named == "rdfa" then RDFA else format;
          ParseRoute(if named in ParseFormats then named else "turtle", named, recorded)
      else NotRouted
  }

  /** An XHTML response is parsed as Turtle and recorded as RDFa. */
  lemma XhtmlIsParsedAsTurtle(raw: string, source: Source, format: Format)
    requires Before(raw, ";") == "application/xhtml+xml"
    ensures RouteOf(Some(raw), None, false, true, source, format) == ParseRoute("turtle", "rdfa", RDFA)
  {
    assert "application/xhtml+xml" !in JsonTypes;
    assert "application/xhtml+xml" in FormatTable && FormatTable["application/xhtml+xml"] == "rdfa";
    assert "rdfa" !in ParseFormats;
  }

  // ---------------------------------------------------------------------
  // The repair loop
  // ---------------------------------------------------------------------

  /** The longest run of decimal digits starting at `k`. */
  function DigitRun(s: string, k: nat): (r: string)
    requires k <= |s|
    ensures k + |r| <= |s| && r == s[k..k + |r|]
    ensures forall i :: 0 <= i < |r| ==> IsDigit(r[i])
    ensures k + |r| < |s| ==> !IsDigit(s[k + |r|])
    decreases |s| - k
  {
    if k < |s| && IsDigit(s[k]) then [s[k]] + DigitRun(s, k + 1) else []
  }

  /** The expression `\sline\s([0-9]+)` matching at `i`, with its group. */
  function LineMatchAt(s: string, i: nat): (r: Option<string>)
    ensures r.Some? ==> |r.value| > 0 && forall j :: 0 <= j < |r.value| ==> IsDigit(r.value[j])
  {
    if i + 6 <= |s| && s[i] in Whitespace && s[i + 1..i + 5] == "line" && s[i + 5] in Whitespace then
      var d := DigitRun(s, i + 6);
      if |d| > 0 then Some(d) else None
    else None
  }

  /** The expression `<unknown>:([0-9]+)` matching at `i`, with its group. */
  function UnknownMatchAt(s: string, i: nat): (r: Option<string>)
    ensures r.Some? ==> |r.value| > 0 && forall j :: 0 <= j < |r.value| ==> IsDigit(r.value[j])
  {
    if i + 10 <= |s| && s[i..i + 10] == "<unknown>:" then
      var d := DigitRun(s, i + 10);
      if |d| > 0 then Some(d) else None
    else None
  }

  /** Python `re.search`: the group of the leftmost match at or after `i`. */
  function FirstMatch(s: string, at: (string, nat) -> Option<string>, i: nat): (r: Option<string>)
    requires i <= |s| + 1
    ensures r.None? <==> forall j: nat :: i <= j <= |s| ==> at(s, j).None?
    ensures r.Some? ==> exists j: nat :: i <= j <= |s| && at(s, j) == r && forall k: nat :: i <= k < j ==> at(s, k).None?
    decreases |s| + 1 - i
  {
    if i > |s| then None
    else if at(s, i).Some? then at(s, i)
    else FirstMatch(s, at, i + 1)
  }

  /** The line number an RDF parser error message names, if any. */
  function ErrorLine(message: string): (r: Option<nat>)
    ensures FirstMatch(message, LineMatchAt, 0).Some? ==> r == Some(DigitsValue(FirstMatch(message, LineMatchAt, 0).value))
    ensures FirstMatch(message, LineMatchAt, 0).None? && FirstMatch(message, UnknownMatchAt, 0).Some? ==>
              r == Some(DigitsValue(FirstMatch(message, UnknownMatchAt, 0).value))
    ensures r.None? <==> FirstMatch(message, LineMatchAt, 0).None? && FirstMatch(message, UnknownMatchAt, 0).None?
  {
    match FirstMatch(message, LineMatchAt, 0)
    case Some(d) => Some(DigitsValue(d))
    case None =>
      match FirstMatch(message, UnknownMatchAt, 0)
      case Some(d) => Some(DigitsValue(d))
      case None => None
  }

  /** What the RDF parser makes of a document given as its lines. */
  datatype ParseOutcome<G> = Parsed(graph: G) | ParseFailed(message: string)

  /** The outcome of the repair loop: the graph, if any, the lines of the
      document last tried, and the number of parser calls. */
  datatype Repair<G> = Repair(graph: Option<G>, lines: seq<string>, attempts: nat)

  /** The parse loop stops after a failed parse whose message names no
      line, or names line `n` when the serialisation was named "xml", `n`
      is the line before the previous bad line, or `n` is not in
      `2..|lines|`. */
  predicate GivesUp(message: string, lines: seq<string>, badline: Option<int>, named: string) {
    match ErrorLine(message)
    case None => true
    case Some(n) => named == "xml" || badline == Some(n + 1) || !(1 < n <= |lines|)
  }

  /** The parse loop: on an error naming line `n` (other than the line
      before the previous bad line) the document is cut to its first
      `n - 1` lines and parsed again, unless the serialisation was named
      "xml" or `n` is out of range. Every retry drops at least one line. */
  function ParseWithRepair<G>(lines: seq<string>, badline: Option<int>, format: string, named: string,
                              parse: (seq<string>, string) -> ParseOutcome<G>): (r: Repair<G>)
    ensures IsPrefix(r.lines, lines)
    ensures 1 <= r.attempts <= |lines| - |r.lines| + 1
    ensures r.graph.Some? <==> parse(r.lines, format).Parsed?
    ensures r.graph.Some? ==> parse(r.lines, format) == Parsed(r.graph.value)
    ensures named == "xml" ==> r.lines == lines && r.attempts == 1
    ensures parse(lines, format).Parsed? ==> r.lines == lines && r.graph == Some(parse(lines, format).graph)
    ensures parse(lines, format).ParseFailed? ==>
              (r == Repair(None, lines, 1) <==> GivesUp(parse(lines, format).message, lines, badline, named))
    ensures parse(lines, format).ParseFailed? && !GivesUp(parse(lines, format).message, lines, badline, named) ==>
              var n := ErrorLine(parse(lines, format).message).value;
              r.attempts >= 2 && IsPrefix(r.lines, lines[..n - 1])
    decreases |lines|
  {
    match parse(lines, format)
    case Parsed(g) => Repair(Some(g), lines, 1)
    case ParseFailed(message) =>
      match ErrorLine(message)
      case None => Repair(None, lines, 1)
      case Some(n) =>
        if named == "xml" || badline == Some(n + 1) || !(1 < n <= |lines|) then Repair(None, lines, 1)
        else
          var next := ParseWithRepair(lines[..n - 1], Some(n), format, named, parse);
          RetryOutcome(lines, n, next, format, parse);
          var r := Repair(next.graph, next.lines, next.attempts + 1);
          assert r != Repair(None, lines, 1) && !GivesUp(message, lines, badline, named);
          r
  }

  /** A retry's outcome, counted once more, is the outcome on the whole
      document: its lines are a shorter prefix, within the attempt bound. */
  lemma RetryOutcome<G>(lines: seq<string>, n: int, next: Repair<G>, format: string,
                        parse: (seq<string>, string) -> ParseOutcome<G>)
    requires 1 < n <= |lines| && IsPrefix(next.lines, lines[..n - 1])
    requires 1 <= next.attempts <= |lines[..n - 1]| - |next.lines| + 1
    ensures var r := Repair(next.graph, next.lines, next.attempts + 1);
            IsPrefix(r.lines, lines) && |r.lines| < |lines| && 2 <= r.attempts <= |lines| - |r.lines| + 1 &&
            IsPrefix(r.lines, lines[..n - 1])
  {
    RetryShape(lines, n, next.lines);
  }

  /** Lines kept by a retry on the first `n - 1` lines are a prefix of the
      whole document, at least one line shorter. */
  lemma RetryShape(lines: seq<string>, n: int, kept: seq<string>)
    requires 1 < n <= |lines| && IsPrefix(kept, lines[..n - 1])
    ensures IsPrefix(kept, lines) && |kept| < |lines|
  {
    assert lines[..n - 1][..|kept|] == lines[..|kept|];
  }

  /** An error naming line `n` of a document whose first `n - 1` lines
      parse ends the loop on those lines, after two parser calls. */
  lemma RepairCutsAtBadLine<G>(lines: seq<string>, format: string, named: string,
                               parse: (seq<string>, string) -> ParseOutcome<G>, n: nat)
    requires parse(lines, format).ParseFailed? && ErrorLine(parse(lines, format).message) == Some(n)
    requires named != "xml" && 1 < n <= |lines|
    requires parse(lines[..n - 1], format).Parsed?
    ensures ParseWithRepair(lines, None, format, named, parse) ==
              Repair(Some(parse(lines[..n - 1], format).graph), lines[..n - 1], 2)
  {
  }

  /** The loop's result is `None` only after a failed parse of the lines
      it ends on, and it never calls the parser more often than there are
      lines, plus one. */
  lemma RepairBounded<G>(lines: seq<string>, format: string, named: string, parse: (seq<string>, string) -> ParseOutcome<G>)
    ensures var r := ParseWithRepair(lines, None, format, named, parse);
            r.attempts <= |lines| + 1 && (r.graph.None? ==> parse(r.lines, format).ParseFailed?)
  {
  }

  // ---------------------------------------------------------------------
  // Namespaces
  // ---------------------------------------------------------------------

  /** The values of a dictionary, in order. */
  function DictValues(es: seq<(string, Value)>): (r: seq<Value>)
    ensures |r| == |es| && forall i :: 0 <= i < |es| ==> r[i] == es[i].1
  {
    seq(|es|, i requires 0 <= i < |es| => es[i].1)
  }

  /** What one element of a list `@context` contributes. */
  function ContextItem(item: Value): seq<Value> {
    if item.Str? then [item] else if item.Dict? then DictValues(item.entries) else []
  }

  /** The namespaces a list `@context` contributes, in order: its
      strings and the values of its dictionaries. */
  function ContextItems(items: seq<Value>): (r: seq<Value>)
    ensures forall i :: 0 <= i < |items| && items[i].Str? ==> items[i] in r
    ensures forall i, j :: 0 <= i < |items| && items[i].Dict? && 0 <= j < |items[i].entries| ==> items[i].entries[j].1 in r
    ensures forall x :: x in r ==> exists i :: 0 <= i < |items| && x in ContextItem(items[i])
  {
    if |items| == 0 then []
    else
      var init := items[..|items| - 1];
      var last := items[|items| - 1];
      var rest := ContextItems(init);
      ContextItemsStep(items, rest);
      rest + ContextItem(last)
  }

  /** Adding the last element's contribution to the contributions of the
      others gives the contributions of all. */
  lemma ContextItemsStep(items: seq<Value>, rest: seq<Value>)
    requires |items| > 0
    requires var init := items[..|items| - 1];
      (forall i :: 0 <= i < |init| && init[i].Str? ==> init[i] in rest) &&
      (forall i, j :: 0 <= i < |init| && init[i].Dict? && 0 <= j < |init[i].entries| ==> init[i].entries[j].1 in rest) &&
      (forall x :: x in rest ==> exists i :: 0 <= i < |init| && x in ContextItem(init[i]))
    ensures var r := rest + ContextItem(items[|items| - 1]);
      (forall i :: 0 <= i < |items| && items[i].Str? ==> items[i] in r) &&
      (forall i, j :: 0 <= i < |items| && items[i].Dict? && 0 <= j < |items[i].entries| ==> items[i].entries[j].1 in r) &&
      (forall x :: x in r ==> exists i :: 0 <= i < |items| && x in ContextItem(items[i]))
  {
    var init := items[..|items| - 1];
    var last := items[|items| - 1];
    var r := rest + ContextItem(last);
    forall i | 0 <= i < |items| && items[i].Str?
      ensures items[i] in r
    {
      if i < |init| { assert init[i] == items[i]; }
    }
    forall i, j | 0 <= i < |items| && items[i].Dict? && 0 <= j < |items[i].entries|
      ensures items[i].entries[j].1 in r
    {
      if i < |init| {
        assert init[i] == items[i];
      } else {
        assert items[i].entries[j].1 == DictValues(last.entries)[j];
      }
    }
    forall x | x in r
      ensures exists i :: 0 <= i < |items| && x in ContextItem(items[i])
    {
      if x in rest {
        var i :| 0 <= i < |init| && x in ContextItem(init[i]);
        assert init[i] == items[i];
      } else {
        assert x in ContextItem(items[|items| - 1]);
      }
    }
  }

  /** The namespaces read from the `@context` of a JSON-LD document: a
      string context itself, the contributions of a list context, and
      nothing otherwise. */
  function ContextNamespaces(doc: Value): (r: seq<Value>)
    ensures !doc.Dict? ==> r == []
    ensures doc.Dict? && Lookup(doc.entries, "@context").Some? && Lookup(doc.entries, "@context").value.Str? ==>
              r == [Lookup(doc.entries, "@context").value]
    ensures doc.Dict? && Lookup(doc.entries, "@context").Some? && Lookup(doc.entries, "@context").value.List? ==>
              forall x :: x in r <==> exists i :: 0 <= i < |Lookup(doc.entries, "@context").value.items| &&
                                                 x in ContextItem(Lookup(doc.entries, "@context").value.items[i])
    ensures (doc.Dict? && (Lookup(doc.entries, "@context").None? ||
                           !(Lookup(doc.entries, "@context").value.Str? || Lookup(doc.entries, "@context").value.List?))) ==> r == []
  {
    if !doc.Dict? then []
    else
      match Lookup(doc.entries, "@context")
      case Some(List(items)) =>
        var r := ContextItems(items);
        assert forall i, x :: 0 <= i < |items| && x in ContextItem(items[i]) ==> x in r by {
          forall i, x | 0 <= i < |items| && x in ContextItem(items[i])
            ensures x in r
          {
            if items[i].Dict? {
              var j :| 0 <= j < |items[i].entries| && DictValues(items[i].entries)[j] == x;
            }
          }
        }
        r
      case Some(Str(s)) => [Str(s)]
      case _ => []
  }

  /** The characters `rstrip("/#")` removes. */
  const UriEnds: set<char> := {'/', '#'}

  /** Python `uri.strip().rstrip("/#")`. */
  function Normalised(uri: string): (r: string)
    ensures |r| > 0 ==> r[|r| - 1] != '/' && r[|r| - 1] != '#'
    ensures IsPrefix(r, Strip(uri))
    ensures forall i :: |r| <= i < |Strip(uri)| ==> Strip(uri)[i] in UriEnds
  {
    TrimRight(Strip(uri), UriEnds)
  }

  /** The namespace guessed for a URI no known pattern matches: the
      normalised URI cut at its last `#`, or, without one, at its last
      `/`; nothing when that changes nothing. */
  function NamespaceCandidate(uri: string): (r: Option<string>)
    ensures var u := Normalised(uri);
            (r.None? <==> '#' !in u && '/' !in u) &&
            ('#' in u ==> r == Some(BeforeLast(u, '#'))) &&
            ('#' !in u && '/' in u ==> r == Some(BeforeLast(u, '/')))
    ensures r.Some? ==> var u := Normalised(uri);
            |r.value| < |u| && IsPrefix(r.value, u) && (u[|r.value|] == '#' || (u[|r.value|] == '/' && '#' !in u))
  {
    var u := Normalised(uri);
    var candidate := if '#' in u then BeforeLast(u, '#') else BeforeLast(u, '/');
    if candidate != u then Some(candidate)
    else
      var second := BeforeLast(u, '#');
      if second != u then Some(second) else None
  }

  /** The guessed namespace of a URI, as a list of at most one entry. */
  function Guess(uri: string): (r: seq<string>)
    ensures |r| <= 1
    ensures |r| == 1 <==> NamespaceCandidate(uri).Some?
    ensures |r| == 1 ==> Some(r[0]) == NamespaceCandidate(uri)
  {
    match NamespaceCandidate(uri)
    case Some(c) => [c]
    case None => []
  }

  /** The namespaces `set_namespaces` takes from one URL of the graph:
      every known pattern is tried in turn on the current URI; a match
      records the matched prefix and continues with it, a miss records
      the guessed namespace and continues with the normalised URI.
      `known` holds the anchored pattern matchers. */
  function UriNamespaces(uri: string, known: seq<string -> Option<string>>): (r: seq<string>)
    ensures |r| <= |known|
    ensures |known| > 0 && known[0](uri).Some? ==> |r| > 0 && r[0] == known[0](uri).value
    ensures |known| > 0 && known[0](uri).None? ==> IsPrefix(Guess(uri), r)
    decreases |known|
  {
    if |known| == 0 then []
    else
      match known[0](uri)
      case Some(m) => [m] + UriNamespaces(m, known[1..])
      case None => Guess(uri) + UriNamespaces(Normalised(uri), known[1..])
  }

  /** A URI in normal form: no surrounding whitespace and no trailing
      `/` or `#`. */
  predicate NormalForm(uri: string) {
    |uri| > 0 && uri[0] !in Whitespace && uri[|uri| - 1] !in Whitespace &&
    uri[|uri| - 1] != '/' && uri[|uri| - 1] != '#'
  }

  /** Normalising a URI in normal form changes nothing. */
  lemma NormalFormFixed(uri: string)
    requires NormalForm(uri)
    ensures Normalised(uri) == uri
  {
    TrimTwiceNoop(uri, Whitespace, {'/', '#'});
  }

  /** Trimming `outer` and then the right end by `inner` leaves a string
      alone whose ends are in neither set. */
  lemma TrimTwiceNoop(s: string, outer: set<char>, inner: set<char>)
    requires |s| > 0 && s[0] !in outer && s[|s| - 1] !in outer && s[|s| - 1] !in inner
    ensures TrimRight(Trim(s, outer), inner) == s
  {
    TrimNoop(s, outer);
  }

  /** A pattern that misses on a URI in normal form records its guess and
      leaves the URI as it is. */
  lemma UriNamespacesMiss(uri: string, known: seq<string -> Option<string>>)
    requires |known| > 0 && known[0](uri).None?
    requires NormalForm(uri)
    ensures UriNamespaces(uri, known) == Guess(uri) + UriNamespaces(uri, known[1..])
  {
    NormalFormFixed(uri);
    assert UriNamespaces(uri, known) == Guess(uri) + UriNamespaces(Normalised(uri), known[1..]);
  }

  /** A URI in normal form that no pattern matches contributes its guessed
      namespace once per pattern. */
  lemma {:induction false} UnmatchedUriRepeats(uri: string, known: seq<string -> Option<string>>)
    requires NormalForm(uri)
    requires forall i :: 0 <= i < |known| ==> known[i](uri).None?
    ensures NamespaceCandidate(uri).None? ==> UriNamespaces(uri, known) == []
    ensures NamespaceCandidate(uri).Some? ==> |UriNamespaces(uri, known)| == |known|
    ensures forall x :: x in UriNamespaces(uri, known) ==> Some(x) == NamespaceCandidate(uri)
    decreases |known|
  {
    if |known| > 0 {
      var t := known[1..];
      assert forall i :: 0 <= i < |t| ==> t[i] == known[i + 1];
      UnmatchedUriRepeats(uri, t);
      UriNamespacesMiss(uri, known);
    }
  }

  // ---------------------------------------------------------------------
  // get_core_metadata
  // ---------------------------------------------------------------------

  /** A value the final filter removes: `None`, `"None"` or `[]`. */
  predicate Empty(v: Value) {
    v == Null || v == Str("None") || v == List([])
  }

  /** The last step of `get_core_metadata`: a non-empty record gets its
      object type and loses every empty value. */
  function FinishCore(meta: seq<(string, Value)>, objectType: string): (r: seq<(string, Value)>)
    ensures |meta| == 0 ==> r == []
    ensures forall i :: 0 <= i < |r| ==> !Empty(r[i].1)
    ensures |meta| > 0 && objectType != "None" ==> ("object_type", Str(objectType)) in r
    ensures forall e :: e in r ==> e in Update(meta, "object_type", Str(objectType))
    ensures |meta| > 0 ==> forall e :: e in Update(meta, "object_type", Str(objectType)) && !Empty(e.1) ==> e in r
  {
    if |meta| == 0 then []
    else
      var typed := Update(meta, "object_type", Str(objectType));
      assert Lookup(typed, "object_type") == Some(Str(objectType));
      Filter(typed, (e: (string, Value)) => !Empty(e.1))
  }
}

=== FILE: request.dfy ===
/** The request side of `RequestHelper`: its state, the setters, the
    redirect log kept by `FUJIHTTPRedirectHandler`, the synthetic status
    codes for failed transfers and the single-retry rules of
    `request_content`. The network is a function from an outgoing request to
    the outcome of one attempt; everything urllib does inside one attempt
    (cookies, TLS, following redirects, timeouts) is part of that outcome. */
module Request {
  import opened Wrappers
  import opened Strings
  import opened Values
  import opened AcceptTypes

  newtype Byte = b: int | 0 <= b < 256

  type Bytes = seq<Byte>

  /** Header fields as received, in order. */
  type Headers = seq<(string, string)>

  const UserAgent: string := "F-UJI"
  const BrowserLikeUserAgent: string := "Mozilla/5.0 (Windows NT 10.0; Win64; x64; F-UJI)"

  /** What `parse_response` holds: nothing, the raw body, or parsed JSON. */
  datatype Parsed = NoParse | RawBody(body: Bytes) | JsonDoc(doc: Value)

  /** The fields of a `RequestHelper` that the model follows. */
  datatype Helper = Helper(
    requestUrl: string,
    redirectUrl: Option<string>,
    redirectList: seq<string>,
    redirectStatusList: seq<(string, int)>,
    acceptType: string,
    parseResponse: Parsed,
    responseStatus: Option<int>,
    responseContent: Option<Bytes>,
    responseHeader: Option<Headers>,
    contentType: Option<string>,
    contentSize: int,
    maxContentSize: nat,
    checkedContentHash: Option<string>,
    authToken: Option<string>,
    tokenType: Option<string>
  )

  /** `RequestHelper.__init__`: the fragment is cut off the URL, the Accept
      value is the catch-all `default` member and nothing has been
      received. */
  function NewHelper(url: string, maxContentSize: nat): (h: Helper)
    ensures IsPrefix(h.requestUrl, url) && !Contains(h.requestUrl, "#")
    ensures Contains(url, "#") ==> OccursAt(url, "#", |h.requestUrl|)
    ensures h.acceptType == Default.Value() && h.maxContentSize == maxContentSize
    ensures h.redirectUrl.None? && h.redirectList == [] && h.redirectStatusList == []
    ensures h.responseStatus.None? && h.responseContent.None? && h.responseHeader.None?
    ensures h.contentType.None? && h.contentSize == 0 && h.parseResponse.NoParse?
    ensures h.checkedContentHash.None? && h.authToken.None? && h.tokenType.None?
  {
    Helper(Before(url, "#"), None, [], [], Default.Value(), NoParse, None, None, None, None, 0,
           maxContentSize, None, None, None)
  }

  /** The token types `setAuthToken` accepts. */
  predicate KnownTokenType(t: Option<string>) {
    t.None? || t == Some("Bearer") || t == Some("Basic")
  }

  /** `RequestHelper.setAuthToken`: a string token is stored, a token type
      only when it is Bearer or Basic; any other argument is ignored. */
  function SetAuthToken(h: Helper, token: Value, tokenType: Value): (r: Helper)
    ensures token.Str? ==> r.authToken == Some(token.s)
    ensures !token.Str? ==> r.authToken == h.authToken
    ensures tokenType in {Str("Bearer"), Str("Basic")} ==> r.tokenType == Some(tokenType.s)
    ensures tokenType !in {Str("Bearer"), Str("Basic")} ==> r.tokenType == h.tokenType
    ensures r.(authToken := h.authToken, tokenType := h.tokenType) == h
  {
    var h1 := if token.Str? then h.(authToken := Some(token.s)) else h;
    if tokenType == Str("Bearer") || tokenType == Str("Basic") then h1.(tokenType := Some(tokenType.s))
    else h1
  }

  /** Whatever the arguments, the stored token type stays Bearer, Basic or
      unset. */
  lemma SetAuthTokenKeepsKnownType(h: Helper, token: Value, tokenType: Value)
    requires KnownTokenType(h.tokenType)
    ensures KnownTokenType(SetAuthToken(h, token, tokenType).tokenType)
  {
  }

  /** The argument of `setAcceptType`: an `AcceptTypes` member or anything
      else. */
  datatype AcceptArg = Member(t: AcceptType) | NotAMember

  /** `RequestHelper.setAcceptType`: a member's value replaces the Accept
      string; anything else raises `TypeError` and changes nothing. */
  function SetAcceptType(h: Helper, arg: AcceptArg): (r: Result<Helper, string>)
    ensures arg.NotAMember? <==> r.Failure?
    ensures r.Success? ==> r.value == h.(acceptType := arg.t.Value())
  {
    match arg
    case Member(t) => Success(h.(acceptType := t.Value()))
    case NotAMember => Failure("type must be an instance of AcceptTypes enum")
  }

  /** `RequestHelper.addAcceptType`: the new media type is put in front,
      separated by a comma; the previous Accept string survives as the
      suffix and nothing else changes. */
  function AddAcceptType(h: Helper, mimeType: string): (r: Helper)
    ensures IsPrefix(mimeType + ",", r.acceptType) && IsSuffix(h.acceptType, r.acceptType)
    ensures |r.acceptType| == |mimeType| + 1 + |h.acceptType|
    ensures r.(acceptType := h.acceptType) == h
  {
    var a := mimeType + "," + h.acceptType;
    assert a[|a| - |h.acceptType|..] == h.acceptType;
    h.(acceptType := a)
  }

  /** Adding a comma-free media type adds exactly one item in front of the
      comma-separated items of the Accept string. */
  lemma {:induction false} AddAcceptTypeItems(h: Helper, mimeType: string)
    requires ',' !in mimeType
    ensures Split(AddAcceptType(h, mimeType).acceptType, ",") == [mimeType] + Split(h.acceptType, ",")
  {
    var s := AddAcceptType(h, mimeType).acceptType;
    assert s == mimeType + "," + h.acceptType;
    assert OccursAt(s, ",", |mimeType|);
    forall j | 0 <= j < |mimeType|
      ensures !OccursAt(s, ",", j)
    {
      assert s[j] == mimeType[j];
    }
    match IndexOf(s, ",")
    case None =>
    case Some(i) =>
      assert i == |mimeType|;
      assert s[..i] == mimeType;
      assert s[i + 1..] == h.acceptType;
  }

  /* ---------------------------------------------------------------- */
  /* Redirects                                                         */
  /* ---------------------------------------------------------------- */

  /** The state of `FUJIHTTPRedirectHandler`: the newest target, all
      targets, and all (target, status) pairs. */
  datatype RedirectLog = RedirectLog(redirectUrl: Option<string>, urls: seq<string>, hops: seq<(string, int)>)

  const NoRedirects: RedirectLog := RedirectLog(None, [], [])

  /** The log is in step: `urls` is the first projection of `hops` and
      `redirectUrl` is the newest target. */
  predicate InStep(log: RedirectLog) {
    && |log.urls| == |log.hops|
    && (forall i :: 0 <= i < |log.hops| ==> log.urls[i] == log.hops[i].0)
    && (|log.hops| == 0 ==> log.redirectUrl.None?)
    && (|log.hops| > 0 ==> log.redirectUrl == Some(log.hops[|log.hops| - 1].0))
  }

  /** `redirect_request`: one hop is recorded at the end of both lists. */
  function RedirectRequest(log: RedirectLog, newUrl: string, code: int): (r: RedirectLog)
    ensures r.urls == log.urls + [newUrl] && r.hops == log.hops + [(newUrl, code)]
    ensures r.redirectUrl == Some(newUrl)
    ensures InStep(log) ==> InStep(r)
  {
    RedirectLog(Some(newUrl), log.urls + [newUrl], log.hops + [(newUrl, code)])
  }

  /** The handler after a sequence of hops: they are appended in order, a
      log in step stays in step, and the newest hop's target becomes
      `redirect_url`. */
  function Follow(log: RedirectLog, hops: seq<(string, int)>): (r: RedirectLog)
    ensures r.hops == log.hops + hops
    ensures InStep(log) ==> InStep(r)
    ensures |hops| > 0 ==> r.redirectUrl == Some(hops[|hops| - 1].0)
    ensures |hops| == 0 ==> r == log
    decreases |hops|
  {
    if |hops| == 0 then log
    else
      var r := Follow(RedirectRequest(log, hops[0].0, hops[0].1), hops[1..]);
      assert log.hops + [hops[0]] + hops[1..] == log.hops + hops;
      r
  }

  /* ---------------------------------------------------------------- */
  /* Failed transfers                                                  */
  /* ---------------------------------------------------------------- */

  /** The number of leading elements of `s` that belong to `chars`. */
  function SpanOf(s: string, chars: set<char>): (n: nat)
    ensures n <= |s| && forall i :: 0 <= i < n ==> s[i] in chars
    ensures n < |s| ==> s[n] !in chars
  {
    if |s| > 0 && s[0] in chars then 1 + SpanOf(s[1..], chars) else 0
  }

  /** The number of leading ASCII digits of `s`. */
  function DigitSpan(s: string): (n: nat)
    ensures n <= |s| && forall i :: 0 <= i < n ==> IsDigit(s[i])
    ensures n < |s| ==> !IsDigit(s[n])
  {
    if |s| > 0 && IsDigit(s[0]) then 1 + DigitSpan(s[1..]) else 0
  }

  /** The pattern `\[Errno\s+(\-?[0-9]+)` matched at position `i`, giving
      the integer of its group. The greedy `\s+` never needs to give
      characters back, and the optional `-` only matches when a digit
      follows it. */
  function ErrnoAt(s: string, i: nat): Option<int> {
    if !OccursAt(s, "[Errno", i) then None
    else ErrnoAfter(s[i + 6..], Whitespace)
  }

  /** The rest of the errno pattern after its `[Errno` marker, with `ws`
      as the characters `\s` accepts. */
  function ErrnoAfter(rest: string, ws: set<char>): Option<int> {
    var n := SpanOf(rest, ws);
    var t := rest[n..];
    var neg := |t| > 0 && t[0] == '-';
    var u := if neg then t[1..] else t;
    var d := DigitSpan(u);
    if n == 0 || d == 0 then None
    else
      var v: int := DigitsValue(u[..d]);
      Some(if neg then -v else v)
  }

  /** `re.search` for the errno pattern from position `i` on: the leftmost
      match wins. */
  function ErrnoSearch(s: string, i: nat): (r: Option<int>)
    ensures r.Some? ==> exists j :: i <= j < |s| && ErrnoAt(s, j) == r && forall k :: i <= k < j ==> ErrnoAt(s, k).None?
    ensures r.None? ==> forall k :: i <= k ==> ErrnoAt(s, k).None?
    decreases |s| - i
  {
    if i >= |s| then None
    else if ErrnoAt(s, i).Some? then ErrnoAt(s, i)
    else ErrnoSearch(s, i + 1)
  }

  /** The status recorded for a `URLError`: the errno in its message when
      there is one, 900 otherwise. */
  function UrlErrorStatus(reason: string): (r: int)
    ensures !Contains(reason, "[Errno") ==> r == 900
    ensures ErrnoSearch(reason, 0).None? ==> r == 900
    ensures ErrnoSearch(reason, 0).Some? ==> r == ErrnoSearch(reason, 0).value
  {
    match ErrnoSearch(reason, 0)
    case Some(n) => n
    case None => 900
  }

  /** A message starting with an errno marker, a space and a number
      (for instance `[Errno 111] Connection refused`) is recorded with
      that number as its status. */
  lemma ErrnoReadBack(n: nat, post: string)
    requires |post| == 0 || !IsDigit(post[0])
    ensures UrlErrorStatus("[Errno " + NatToString(n) + post) == n
  {
    var digits := NatToString(n);
    var s := "[Errno " + digits + post;
    var rest := [' '] + (digits + post);
    assert s == "[Errno" + rest;
    assert OccursAt(s, "[Errno", 0);
    assert s[6..] == rest;
    DigitNotSpace(digits[0]);
    ErrnoAfterDigits(digits, post, Whitespace);
  }

  /** One separating space, then a number not followed by a digit, reads
      back as that number. */
  lemma ErrnoAfterDigits(digits: string, post: string, ws: set<char>)
    requires |digits| > 0 && forall i :: 0 <= i < |digits| ==> IsDigit(digits[i])
    requires ' ' in ws && digits[0] !in ws
    requires |post| == 0 || !IsDigit(post[0])
    ensures ErrnoAfter([' '] + (digits + post), ws) == Some(DigitsValue(digits))
  {
    var t := digits + post;
    var rest := [' '] + t;
    assert rest[1..] == t;
    assert t[0] == digits[0];
    assert SpanOf(t, ws) == 0;
    assert SpanOf(rest, ws) == 1;
    assert !(t[0] == '-');
    DigitSpanOf(digits, post);
    assert t[..|digits|] == digits;
  }

  lemma {:induction false} DigitSpanOf(digits: string, post: string)
    requires forall i :: 0 <= i < |digits| ==> IsDigit(digits[i])
    requires |post| == 0 || !IsDigit(post[0])
    ensures DigitSpan(digits + post) == |digits|
  {
    if |digits| > 0 {
      assert (digits + post)[1..] == digits[1..] + post;
      DigitSpanOf(digits[1..], post);
    } else {
      assert digits + post == post;
    }
  }

  /** The status recorded for any other exception, by the first marker its
      message contains. */
  function OtherErrorStatus(message: string): (r: int)
    ensures r in {601, 602, 603, 604, 1000}
    ensures r == 601 <==> Contains(message, "NewConnectionError")
    ensures r == 602 <==> !Contains(message, "NewConnectionError") && Contains(message, "RemoteDisconnected")
    ensures r == 603 <==>
      !Contains(message, "NewConnectionError") && !Contains(message, "RemoteDisconnected")
      && Contains(message, "Read timed out")
    ensures r == 604 <==>
      !Contains(message, "NewConnectionError") && !Contains(message, "RemoteDisconnected")
      && !Contains(message, "Read timed out") && Contains(message, "ConnectionResetError")
    ensures r == 1000 <==>
      !Contains(message, "NewConnectionError") && !Contains(message, "RemoteDisconnected")
      && !Contains(message, "Read timed out") && !Contains(message, "ConnectionResetError")
  {
    if Contains(message, "NewConnectionError") then 601
    else if Contains(message, "RemoteDisconnected") then 602
    else if Contains(message, "Read timed out") then 603
    else if Contains(message, "ConnectionResetError") then 604
    else 1000
  }

  /* ---------------------------------------------------------------- */
  /* One request                                                        */
  /* ---------------------------------------------------------------- */

  /** A response as `opener.open` returns it: status, final URL, header
      fields and the body as sent. */
  datatype Response = Response(status: int, url: string, headers: Headers, body: Bytes)

  /** The request urllib is asked to send. */
  datatype OutRequest = OutRequest(url: string, headers: Headers)

  /** The outcome of one `opener.open` call, with the redirect hops the
      handler saw during it. */
  datatype Attempt =
    | Opened(response: Response, hops: seq<(string, int)>)
    | HttpError(code: int, hops: seq<(string, int)>)
    | UrlError(reason: string, hops: seq<(string, int)>)
    | OtherError(message: string, hops: seq<(string, int)>)

  /** The network: what one attempt at a request yields. */
  type Network = OutRequest -> Attempt

  /** `urllib.request.Request` accepts a URL only if it starts with a
      scheme: one or more characters other than `/` and `:`, then `:`. */
  predicate HasScheme(url: string) {
    match IndexOf(url, ":")
    case None => false
    case Some(i) => i > 0 && '/' !in url[..i]
  }

  /** The request headers: Accept, User-Agent and, with a non-empty token,
      Authorization. A token without a token type makes the string
      concatenation raise `TypeError`. */
  function RequestHeaders(h: Helper): (r: Result<Headers, string>)
    ensures r.Failure? <==> h.authToken.Some? && |h.authToken.value| > 0 && h.tokenType.None?
    ensures r.Success? ==> |r.value| >= 2 && r.value[..2] == [("Accept", h.acceptType), ("User-Agent", UserAgent)]
    ensures r.Success? && h.authToken.Some? && |h.authToken.value| > 0 ==>
      |r.value| == 3 && r.value[2] == ("Authorization", h.tokenType.value + " " + h.authToken.value)
    ensures r.Success? && !(h.authToken.Some? && |h.authToken.value| > 0) ==> |r.value| == 2
  {
    var base := [("Accept", h.acceptType), ("User-Agent", UserAgent)];
    match h.authToken
    case Some(token) =>
      if |token| == 0 then Success(base)
      else if h.tokenType.None? then Failure("TypeError")
      else Success(base + [("Authorization", h.tokenType.value + " " + token)])
    case None => Success(base)
  }

  /** The header fields with the User-Agent value replaced in place. */
  function WithUserAgent(hs: Headers, agent: string): (r: Headers)
    ensures |r| == |hs| && forall i :: 0 <= i < |hs| ==> r[i].0 == hs[i].0
    ensures forall i :: 0 <= i < |r| && r[i].0 == "User-Agent" ==> r[i].1 == agent
    ensures forall i :: 0 <= i < |r| && r[i].0 != "User-Agent" ==> r[i] == hs[i]
  {
    seq(|hs|, i requires 0 <= i < |hs| => if hs[i].0 == "User-Agent" then ("User-Agent", agent) else hs[i])
  }

  /** The headers of a retry with another agent: still Accept first, then
      the one User-Agent field, now carrying the new agent. */
  lemma RetryHeadersOneAgent(h: Helper, agent: string)
    requires RequestHeaders(h).Success?
    ensures var r := WithUserAgent(RequestHeaders(h).value, agent);
      && r[..2] == [("Accept", h.acceptType), ("User-Agent", agent)]
      && forall i :: 0 <= i < |r| && r[i].0 == "User-Agent" ==> i == 1
  {
    var hs := RequestHeaders(h).value;
    var r := WithUserAgent(hs, agent);
    assert hs[0] == ("Accept", h.acceptType) && hs[1] == ("User-Agent", UserAgent);
    assert r[0] == hs[0] && r[1] == ("User-Agent", agent);
    assert "Authorization" != "User-Agent";
  }

  /** The one retry `request_content` makes after an HTTP error, if any:
      403 and 405 are retried on the same URL with a browser-like
      User-Agent; 400 is retried when the last redirect target contains
      `http://`, with every `http:` replaced by `https:` (a rewritten URL
      without a scheme makes the retry raise, which is swallowed); 308,
      server errors and every other code are not retried. */
  function RetryFor(code: int, url: string, headers: Headers, log: RedirectLog): (r: Option<OutRequest>)
    ensures code >= 500 || code == 308 ==> r.None?
    ensures code == 403 || code == 405 ==> r == Some(OutRequest(url, WithUserAgent(headers, BrowserLikeUserAgent)))
    ensures r.Some? && code != 403 && code != 405 ==>
      code == 400 && |log.urls| > 0 && Contains(log.urls[|log.urls| - 1], "http://")
      && r.value == OutRequest(ReplaceAll(log.urls[|log.urls| - 1], "http:", "https:"), headers)
    ensures code == 400 && |log.urls| > 0 && Contains(log.urls[|log.urls| - 1], "http://") ==>
      r == (if HasScheme(ReplaceAll(log.urls[|log.urls| - 1], "http:", "https:"))
            then Some(OutRequest(ReplaceAll(log.urls[|log.urls| - 1], "http:", "https:"), headers))
            else None)
    ensures code == 400 && !(|log.urls| > 0 && Contains(log.urls[|log.urls| - 1], "http://")) ==> r.None?
  {
    if code == 308 then None
    else if code == 405 || code == 403 then
      Some(OutRequest(url, WithUserAgent(headers, BrowserLikeUserAgent)))
    else if code >= 500 then None
    else if code == 400 && |log.urls| > 0 && Contains(log.urls[|log.urls| - 1], "http://") then
      var target := ReplaceAll(log.urls[|log.urls| - 1], "http:", "https:");
      if HasScheme(target) then Some(OutRequest(target, headers)) else None
    else None
  }

  /** A 400 whose last redirect target is a plain `http://` URL is
      retried once, on the same target over `https:`. */
  lemma HttpTargetRetried(url: string, headers: Headers, log: RedirectLog)
    requires |log.urls| > 0 && IsPrefix("http://", log.urls[|log.urls| - 1])
    ensures var r := RetryFor(400, url, headers, log);
      && r.Some? && r.value.headers == headers
      && IsPrefix("https:", r.value.url)
  {
    var u := log.urls[|log.urls| - 1];
    assert OccursAt(u, "http://", 0);
    HttpsRewrite(u);
  }

  /** Rewriting a URL that starts with `http:` gives one that starts with
      `https:` and so has a scheme. */
  lemma HttpsRewrite(u: string)
    requires IsPrefix("http:", u)
    ensures var t := ReplaceAll(u, "http:", "https:"); IsPrefix("https:", t) && HasScheme(t)
  {
    var t := ReplaceAll(u, "http:", "https:");
    assert t[..6] == "https:";
    assert t[0] == 'h' && t[1] == 't' && t[2] == 't' && t[3] == 'p' && t[4] == 's' && t[5] == ':';
    SchemeAt(t, 5);
  }

  /** A string whose first `:` is at position `i > 0`, with no `/` before
      it, has a scheme. */
  lemma SchemeAt(t: string, i: nat)
    requires 0 < i < |t| && t[i] == ':' && forall j :: 0 <= j < i ==> t[j] != ':' && t[j] != '/'
    ensures HasScheme(t)
  {
    assert OccursAt(t, ":", i);
  }

  /** The status `request_content` records for a failed attempt. */
  function FailureStatus(a: Attempt): (r: Option<int>)
    ensures r.None? <==> a.Opened?
    ensures a.HttpError? ==> r == Some(a.code)
    ensures a.UrlError? && !Contains(a.reason, "[Errno") ==> r == Some(900)
    ensures a.OtherError? ==> r.value in {601, 602, 603, 604, 1000}
  {
    match a
    case Opened(_, _) => None
    case HttpError(code, _) => Some(code)
    case UrlError(reason, _) => Some(UrlErrorStatus(reason))
    case OtherError(message, _) => Some(OtherErrorStatus(message))
  }

  /** What `request_content` leaves behind: the helper, the response (if
      any) and the requests it sent, in order. */
  datatype Fetched = Fetched(helper: Helper, response: Option<Response>, sent: seq<OutRequest>)

  /** `request_content`. A request that cannot be built (a token without
      a type, a URL without a scheme) is caught by the outer handler: no
      request is sent and the helper is unchanged. Otherwise the first
      attempt decides: a response is returned as is; a failure records its
      status and the redirect log; an HTTP error may be retried once. The
      redirect lists are the handler's own lists, so hops of the retry are
      added to them, while `redirect_url` keeps the value copied after the
      first attempt. */
  function RequestContent(h: Helper, net: Network): (r: Fetched)
    ensures |r.sent| <= 2
    ensures |r.sent| == 0 <==> RequestHeaders(h).Failure? || !HasScheme(h.requestUrl)
    ensures |r.sent| == 0 ==> r.helper == h && r.response.None?
    ensures |r.sent| > 0 ==> r.sent[0] == OutRequest(h.requestUrl, RequestHeaders(h).value)
    ensures |r.sent| > 0 && !net(r.sent[0]).Opened? ==> r.helper.responseStatus == FailureStatus(net(r.sent[0]))
    ensures |r.sent| > 0 && net(r.sent[0]).Opened? ==> |r.sent| == 1 && r.response == Some(net(r.sent[0]).response)
    ensures |r.sent| == 2 ==> net(r.sent[0]).HttpError? && net(r.sent[0]).code in {400, 403, 405}
    ensures |r.sent| > 0 && net(r.sent[0]).HttpError? && net(r.sent[0]).code >= 500 ==> |r.sent| == 1
    ensures r.response.Some? ==> net(r.sent[|r.sent| - 1]) == Opened(r.response.value, net(r.sent[|r.sent| - 1]).hops)
    ensures |r.sent| == 2 && !net(r.sent[1]).Opened? ==> r.response.None?
  {
    match RequestHeaders(h)
    case Failure(_) => Fetched(h, None, [])
    case Success(headers) =>
      if !HasScheme(h.requestUrl) then Fetched(h, None, [])
      else
        var first := OutRequest(h.requestUrl, headers);
        var a := net(first);
        var log := Follow(NoRedirects, a.hops);
        var h1 := h.(redirectUrl := log.redirectUrl, redirectList := log.urls, redirectStatusList := log.hops);
        match a
        case Opened(resp, _) => Fetched(h1, Some(resp), [first])
        case HttpError(code, _) => AfterHttpError(h1.(responseStatus := Some(code)), first, code, log, net)
        case UrlError(reason, _) => Fetched(h1.(responseStatus := Some(UrlErrorStatus(reason))), None, [first])
        case OtherError(message, _) => Fetched(h1.(responseStatus := Some(OtherErrorStatus(message))), None, [first])
  }

  /** The rest of `request_content` after an HTTP error: at most one
      retry, whose hops are added to the handler's lists. */
  function AfterHttpError(h: Helper, first: OutRequest, code: int, log: RedirectLog, net: Network): (r: Fetched)
    requires InStep(log)
    ensures r.helper.redirectUrl == h.redirectUrl && r.helper.responseStatus == h.responseStatus
    ensures |r.sent| in {1, 2} && r.sent[0] == first
    ensures |r.sent| == 1 ==> r.helper == h && r.response.None?
    ensures |r.sent| == 2 ==> RetryFor(code, first.url, first.headers, log) == Some(r.sent[1])
    ensures |r.sent| == 2 ==>
      r.helper.redirectStatusList == log.hops + net(r.sent[1]).hops
      && |r.helper.redirectList| == |r.helper.redirectStatusList|
      && forall i :: 0 <= i < |r.helper.redirectList| ==> r.helper.redirectList[i] == r.helper.redirectStatusList[i].0
  {
    match RetryFor(code, first.url, first.headers, log)
    case None => Fetched(h, None, [first])
    case Some(retry) =>
      var b := net(retry);
      var log2 := Follow(log, b.hops);
      Fetched(h.(redirectList := log2.urls, redirectStatusList := log2.hops),
              if b.Opened? then Some(b.response) else None, [first, retry])
  }

  /** After a single attempt the redirect lists hold its hops, in order. */
  lemma RedirectListsOneAttempt(h: Helper, net: Network)
    requires |RequestContent(h, net).sent| == 1
    ensures var r := RequestContent(h, net);
      var hops := net(r.sent[0]).hops;
      && r.helper.redirectStatusList == hops
      && |r.helper.redirectList| == |hops|
      && forall i :: 0 <= i < |hops| ==> r.helper.redirectList[i] == hops[i].0
  {
    assert InStep(NoRedirects);
  }

  /** After a retry the redirect lists hold the hops of both attempts, in
      order: the retry's hops are added to those of the first attempt. */
  lemma RedirectListsRetried(h: Helper, net: Network)
    requires |RequestContent(h, net).sent| == 2
    ensures var r := RequestContent(h, net);
      var hops := net(r.sent[0]).hops + net(r.sent[1]).hops;
      && r.helper.redirectStatusList == hops
      && |r.helper.redirectList| == |hops|
      && forall i :: 0 <= i < |hops| ==> r.helper.redirectList[i] == hops[i].0
  {
    var first := OutRequest(h.requestUrl, RequestHeaders(h).value);
    var a := net(first);
    assert a.HttpError?;
    assert InStep(NoRedirects);
    var log := Follow(NoRedirects, a.hops);
    var h1 := h.(redirectUrl := log.redirectUrl, redirectList := log.urls, redirectStatusList := log.hops);
    var r := RequestContent(h, net);
    assert r == AfterHttpError(h1.(responseStatus := Some(a.code)), first, a.code, log, net);
    assert r.sent[0] == first;
    assert log.hops == a.hops by { assert NoRedirects.hops + a.hops == a.hops; }
    assert r.helper.redirectStatusList == a.hops + net(r.sent[1]).hops;
  }

  /** `redirect_url` after `request_content` is the newest hop of the first
      attempt, or unset when it had none, whatever the retry did. */
  lemma RedirectUrlOfFirstAttempt(h: Helper, net: Network)
    requires |RequestContent(h, net).sent| > 0
    ensures var r := RequestContent(h, net);
      var first := net(r.sent[0]).hops;
      && (|first| > 0 ==> r.helper.redirectUrl == Some(first[|first| - 1].0))
      && (|first| == 0 ==> r.helper.redirectUrl.None?)
  {
  }
}

=== FILE: seqs.dfy ===
/** Order-preserving list operations shared by the model: filtering,
    stable partition and de-duplication that keeps first occurrences. */
module Seqs {
  import opened Wrappers

  /** No element appears twice. */
  predicate NoDup<T(==)>(xs: seq<T>) {
    forall i, j :: 0 <= i < j < |xs| ==> xs[i] != xs[j]
  }

  /** A list is its first element followed by a list that agrees with
      the rest at every position. */
  lemma ConsPointwise<T>(r: seq<T>, head: T, tail: seq<T>)
    requires |r| == |tail| + 1 && r[0] == head
    requires forall i :: 0 <= i < |tail| ==> r[i + 1] == tail[i]
    ensures r == [head] + tail
  {
    assert r[1..] == tail;
  }

  /** A list that agrees with `c` and then holds `x` is `c + [x]`. */
  lemma SnocPointwise<T>(a: seq<T>, c: seq<T>, x: T)
    requires |a| == |c| + 1 && a[|c|] == x
    requires forall i :: 0 <= i < |c| ==> a[i] == c[i]
    ensures a == c + [x]
  {
  }

  /** A non-empty sequence is its front followed by its last element. */
  lemma InitLast<T>(xs: seq<T>)
    requires |xs| > 0
    ensures xs[..|xs| - 1] + [xs[|xs| - 1]] == xs
  {
  }

  /** `f` applied to every element in order, stopping at the first
      failure (a Python loop whose body may raise). */
  function MapAll<A, B, E>(xs: seq<A>, f: A -> Result<B, E>): (r: Result<seq<B>, E>)
    ensures r.Success? <==> forall i :: 0 <= i < |xs| ==> f(xs[i]).Success?
    ensures r.Success? ==> |r.value| == |xs| && forall i :: 0 <= i < |xs| ==> f(xs[i]) == Success(r.value[i])
    ensures r.Failure? ==> exists i :: 0 <= i < |xs| && f(xs[i]) == Failure(r.error) &&
                                       forall j :: 0 <= j < i ==> f(xs[j]).Success?
    decreases |xs|
  {
    if |xs| == 0 then Success([])
    else
      match f(xs[0])
      case Failure(e) => Failure(e)
      case Success(y) =>
        var rest := MapAll(xs[1..], f);
        assert forall i :: 1 <= i < |xs| ==> xs[1..][i - 1] == xs[i];
        match rest
        case Failure(e) =>
          assert exists i :: 0 <= i < |xs| && f(xs[i]) == Failure(e) && forall j :: 0 <= j < i ==> f(xs[j]).Success? by {
            var i :| 0 <= i < |xs| - 1 && f(xs[1..][i]) == Failure(e) && forall j :: 0 <= j < i ==> f(xs[1..][j]).Success?;
            assert f(xs[i + 1]) == Failure(e);
          }
          Failure(e)
        case Success(ys) => Success([y] + ys)
  }

  /** The elements of `xs` satisfying `f`, in their original order
      (a Python list comprehension with an `if`). */
  function Filter<T>(xs: seq<T>, f: T -> bool): (r: seq<T>)
    ensures |r| <= |xs|
    ensures forall i :: 0 <= i < |r| ==> r[i] in xs && f(r[i])
    ensures forall i :: 0 <= i < |xs| && f(xs[i]) ==> xs[i] in r
  {
    if |xs| == 0 then []
    else (if f(xs[0]) then [xs[0]] else []) + Filter(xs[1..], f)
  }

  /** Filtering a list that holds every value keeps exactly the values
      that pass. */
  lemma FilterEvery<T(!new)>(xs: seq<T>, f: T -> bool)
    requires forall x: T :: x in xs
    ensures forall x: T :: x in Filter(xs, f) <==> f(x)
  {
    forall x: T ensures x in Filter(xs, f) <==> f(x) {
      FilterMember(xs, f, x);
    }
  }

  /** An element of the input survives filtering exactly when it passes. */
  lemma FilterMember<T>(xs: seq<T>, f: T -> bool, x: T)
    requires x in xs
    ensures x in Filter(xs, f) <==> f(x)
  {
    var r := Filter(xs, f);
    if x in r {
      var i :| 0 <= i < |r| && r[i] == x;
    }
    if f(x) {
      var i :| 0 <= i < |xs| && xs[i] == x;
    }
  }

  /** Filtering distributes over concatenation. */
  lemma {:induction false} FilterAppend<T>(xs: seq<T>, ys: seq<T>, f: T -> bool)
    ensures Filter(xs + ys, f) == Filter(xs, f) + Filter(ys, f)
  {
    if |xs| == 0 {
      assert xs + ys == ys;
    } else {
      assert (xs + ys)[1..] == xs[1..] + ys;
      FilterAppend(xs[1..], ys, f);
    }
  }

  /** The defined results of `f` over `xs`, in order: a comprehension over
      a step that may give nothing. */
  function FilterMap<A, B>(xs: seq<A>, f: A -> Option<B>): (r: seq<B>)
    ensures |r| <= |xs|
    ensures forall y :: y in r ==> exists i :: 0 <= i < |xs| && f(xs[i]) == Some(y)
    ensures forall i :: 0 <= i < |xs| && f(xs[i]).Some? ==> f(xs[i]).value in r
  {
    if |xs| == 0 then []
    else
      var rest := FilterMap(xs[1..], f);
      assert forall i :: 1 <= i < |xs| ==> xs[i] == xs[1..][i - 1];
      match f(xs[0])
      case Some(y) => [y] + rest
      case None => rest
  }

  /** The results for a concatenation are the results for each part, in
      order. */
  lemma {:induction false} FilterMapAppend<A, B>(xs: seq<A>, ys: seq<A>, f: A -> Option<B>)
    ensures FilterMap(xs + ys, f) == FilterMap(xs, f) + FilterMap(ys, f)
  {
    if |xs| > 0 {
      assert (xs + ys)[1..] == xs[1..] + ys;
      FilterMapAppend(xs[1..], ys, f);
    } else {
      assert xs + ys == ys;
    }
  }

  /** When every element has a result, the results are all kept, one per
      element and in order. */
  lemma {:induction false} FilterMapAll<A, B>(xs: seq<A>, f: A -> Option<B>)
    requires forall i :: 0 <= i < |xs| ==> f(xs[i]).Some?
    ensures |FilterMap(xs, f)| == |xs|
    ensures forall i :: 0 <= i < |xs| ==> FilterMap(xs, f)[i] == f(xs[i]).value
  {
    if |xs| > 0 {
      assert forall i :: 1 <= i < |xs| ==> xs[1..][i - 1] == xs[i];
      FilterMapAll(xs[1..], f);
    }
  }

  /** The elements of `xs` failing `f`, in their original order. */
  function Reject<T>(xs: seq<T>, f: T -> bool): (r: seq<T>)
    ensures |r| <= |xs|
    ensures forall i :: 0 <= i < |r| ==> r[i] in xs && !f(r[i])
    ensures forall i :: 0 <= i < |xs| && !f(xs[i]) ==> xs[i] in r
  {
    if |xs| == 0 then []
    else (if f(xs[0]) then [] else [xs[0]]) + Reject(xs[1..], f)
  }

  /** The lists `f` gives for the elements of `xs`, concatenated in order. */
  function FlatMap<A, B(!new)>(xs: seq<A>, f: A -> seq<B>): (r: seq<B>)
    ensures forall y :: y in r <==> exists i :: 0 <= i < |xs| && y in f(xs[i])
  {
    if |xs| == 0 then []
    else
      var rest := FlatMap(xs[1..], f);
      FlatMapStep(xs, f, rest);
      f(xs[0]) + rest
  }

  lemma FlatMapStep<A, B>(xs: seq<A>, f: A -> seq<B>, rest: seq<B>)
    requires |xs| > 0
    requires forall y :: y in rest <==> exists i :: 0 <= i < |xs[1..]| && y in f(xs[1..][i])
    ensures forall y :: y in f(xs[0]) + rest <==> exists i :: 0 <= i < |xs| && y in f(xs[i])
  {
    forall y | y in rest ensures exists i :: 0 <= i < |xs| && y in f(xs[i]) {
      var i :| 0 <= i < |xs[1..]| && y in f(xs[1..][i]);
      assert xs[1..][i] == xs[i + 1];
    }
    forall y | (exists i :: 0 <= i < |xs| && y in f(xs[i])) && y !in f(xs[0]) ensures y in rest {
      var i :| 0 <= i < |xs| && y in f(xs[i]);
      assert i > 0 && xs[1..][i - 1] == xs[i];
    }
  }

  /** Splitting a list by a test and putting the passing part first loses
      and adds nothing: the result is a permutation of the input. */
  lemma {:induction false} PartitionPermutes<T>(xs: seq<T>, f: T -> bool)
    ensures multiset(Filter(xs, f)) + multiset(Reject(xs, f)) == multiset(xs)
  {
    if |xs| > 0 {
      PartitionPermutes(xs[1..], f);
      PartitionCons(xs, f);
    }
  }

  /** The first element goes to exactly one side of the split. */
  lemma PartitionCons<T>(xs: seq<T>, f: T -> bool)
    requires |xs| > 0
    ensures multiset(Filter(xs, f)) + multiset(Reject(xs, f))
            == multiset{xs[0]} + (multiset(Filter(xs[1..], f)) + multiset(Reject(xs[1..], f)))
    ensures multiset(xs) == multiset{xs[0]} + multiset(xs[1..])
  {
    var x, t := xs[0], xs[1..];
    assert xs == [x] + t;
    var pass, fail := if f(x) then [x] else [], if f(x) then [] else [x];
    assert Filter(xs, f) == pass + Filter(t, f);
    assert Reject(xs, f) == fail + Reject(t, f);
    MultisetSplit(pass, fail, Filter(t, f), Reject(t, f), x);
  }

  lemma MultisetSplit<T>(pass: seq<T>, fail: seq<T>, a: seq<T>, b: seq<T>, x: T)
    requires multiset(pass) + multiset(fail) == multiset{x}
    ensures multiset(pass + a) + multiset(fail + b) == multiset{x} + (multiset(a) + multiset(b))
  {
  }


  /** The elements of `xs` whose flag in `keep` is set, in order. */
  function Select<T>(xs: seq<T>, keep: seq<bool>): (r: seq<T>)
    requires |keep| == |xs|
    ensures |r| <= |xs|
    ensures forall x :: x in r ==> exists i :: 0 <= i < |xs| && keep[i] && xs[i] == x
    ensures forall i :: 0 <= i < |xs| && keep[i] ==> xs[i] in r
  {
    if |xs| == 0 then []
    else
      var rest := Select(xs[1..], keep[1..]);
      assert forall x :: x in rest ==> exists i :: 0 <= i < |xs| && keep[i] && xs[i] == x by {
        forall x | x in rest
          ensures exists i :: 0 <= i < |xs| && keep[i] && xs[i] == x
        {
          var j :| 0 <= j < |xs| - 1 && keep[1..][j] && xs[1..][j] == x;
          assert keep[j + 1] && xs[j + 1] == x;
        }
      }
      assert forall i :: 1 <= i < |xs| && keep[i] ==> xs[i] in rest by {
        forall i | 1 <= i < |xs| && keep[i]
          ensures xs[i] in rest
        {
          assert keep[1..][i - 1] && xs[1..][i - 1] == xs[i];
        }
      }
      (if keep[0] then [xs[0]] else []) + rest
  }

  /** Keeping every element changes nothing. */
  lemma {:induction false} SelectAll<T>(xs: seq<T>, keep: seq<bool>)
    requires |keep| == |xs| && forall i :: 0 <= i < |keep| ==> keep[i]
    ensures Select(xs, keep) == xs
  {
    if |xs| > 0 {
      SelectAll(xs[1..], keep[1..]);
    }
  }

  /** Reference definition of de-duplication: each element is kept at the
      position of its first occurrence. */
  function FirstOccurrences<T(==)>(xs: seq<T>): (r: seq<T>)
    ensures NoDup(r)
    ensures forall i :: 0 <= i < |r| ==> r[i] in xs
    ensures forall i :: 0 <= i < |xs| ==> xs[i] in r
    ensures |r| <= |xs|
  {
    if |xs| == 0 then []
    else
      var init := xs[..|xs| - 1];
      var x := xs[|xs| - 1];
      var r := FirstOccurrences(init) + (if x in init then [] else [x]);
      assert forall i :: 0 <= i < |xs| - 1 ==> xs[i] == init[i];
      r
  }

  /** De-duplicating a list extended by one element. */
  lemma FirstOccurrencesSnoc<T>(xs: seq<T>, x: T)
    ensures FirstOccurrences(xs + [x]) == FirstOccurrences(xs) + (if x in xs then [] else [x])
  {
    assert (xs + [x])[..|xs|] == xs;
  }

  /** Extending a list keeps the de-duplication of the original as a
      prefix of the de-duplication of the extension. */
  lemma {:induction false} FirstOccurrencesPrefix<T>(a: seq<T>, b: seq<T>)
    ensures |FirstOccurrences(a)| <= |FirstOccurrences(a + b)|
    ensures FirstOccurrences(a + b)[..|FirstOccurrences(a)|] == FirstOccurrences(a)
    decreases |b|
  {
    if |b| == 0 {
      assert a + b == a;
    } else {
      var init := b[..|b| - 1];
      FirstOccurrencesPrefix(a, init);
      assert (a + b)[..|a + b| - 1] == a + init;
    }
  }

  /** The loop that builds a list of first occurrences: each element is
      appended to the output unless it is already there. */
  method Dedup<T(==)>(xs: seq<T>) returns (out: seq<T>)
    ensures out == FirstOccurrences(xs)
    ensures NoDup(out) && forall x :: x in out <==> x in xs
  {
    out := [];
    var i := 0;
    while i < |xs|
      invariant 0 <= i <= |xs|
      invariant out == FirstOccurrences(xs[..i])
    {
      DedupStep(xs, i, out);
      if xs[i] !in out {
        out := out + [xs[i]];
      }
      i := i + 1;
    }
    assert xs[..i] == xs;
    FirstOccurrencesMembers(xs);
  }

  /** One iteration of `Dedup`'s loop. */
  lemma DedupStep<T>(xs: seq<T>, i: nat, out: seq<T>)
    requires i < |xs| && out == FirstOccurrences(xs[..i])
    ensures FirstOccurrences(xs[..i + 1]) == out + (if xs[i] in out then [] else [xs[i]])
  {
    assert xs[..i + 1] == xs[..i] + [xs[i]];
    FirstOccurrencesSnoc(xs[..i], xs[i]);
    FirstOccurrencesMembers(xs[..i]);
  }

  /** De-duplication keeps exactly the members of the list. */
  lemma FirstOccurrencesMembers<T>(xs: seq<T>)
    ensures forall x :: x in FirstOccurrences(xs) <==> x in xs
  {
    var r := FirstOccurrences(xs);
    forall x | x in xs
      ensures x in r
    {
      var i :| 0 <= i < |xs| && xs[i] == x;
    }
  }

  /** A list without duplicates is its own de-duplication. */
  lemma {:induction false} FirstOccurrencesOfDistinct<T>(xs: seq<T>)
    requires NoDup(xs)
    ensures FirstOccurrences(xs) == xs
  {
    if |xs| > 0 {
      var init, x := xs[..|xs| - 1], xs[|xs| - 1];
      InitLast(xs);
      assert NoDup(init) by {
        forall i, j | 0 <= i < j < |init| ensures init[i] != init[j] { assert init[i] == xs[i] && init[j] == xs[j]; }
      }
      assert x !in init by {
        forall k | 0 <= k < |init| ensures init[k] != x { assert init[k] == xs[k]; }
      }
      FirstOccurrencesOfDistinct(init);
      FirstOccurrencesSnoc(init, x);
    }
  }

  /** De-duplicating twice is the same as de-duplicating once. */
  lemma FirstOccurrencesIdempotent<T>(xs: seq<T>)
    ensures FirstOccurrences(FirstOccurrences(xs)) == FirstOccurrences(xs)
  {
    FirstOccurrencesOfDistinct(FirstOccurrences(xs));
  }
}

=== FILE: signposting.dfy ===
/** Typed links and signposting: the HTTP `Link` header parser (the
    link-value syntax of section 3 of RFC 8288, split naively on `,` and
    `;`), the selection of typed links by relation type, the choice of a
    linkset document and of the link context ("anchor") inside it
    (RFC 9264), and the ordering that puts links pointing at the landing
    page first. */
module Signposting {
  import opened Wrappers
  import opened Strings
  import opened Seqs
  import opened Values
  import opened Collector

  /** `signposting_relation_types`. */
  const RelationTypes: seq<string> := [
    "describedby", "item", "license", "type", "collection", "author",
    "linkset", "cite-as", "api-catalog", "service-doc", "service-desc",
    "service-meta"
  ]

  /** The relation types that announce a linkset document. */
  const LinksetRels: seq<string> := ["linkset", "api-catalog"]

  /** A typed link as the harvester stores it: the dictionary keys `url`,
      `type`, `rel`, `profile` and `source`, plus `anchor` when the link
      carried one. A Python `None` is `None` here. */
  datatype Link = Link(
    url: Option<string>,
    ltype: Option<string>,
    rel: Option<string>,
    profile: Option<string>,
    source: Method,
    anchor: Option<string>
  )

  /** Python `str(x)` of an optional string. */
  function Show(o: Option<string>): string {
    match o
    case None => "None"
    case Some(s) => s
  }

  // ---------------------------------------------------------------------
  // The parameter pattern  name\s*=\s*"?([^,;"]+)"?
  // ---------------------------------------------------------------------

  /** The characters the captured group cannot contain. */
  const Stops: set<char> := {',', ';', '"'}

  /** A captured parameter value: non-empty and free of `,`, `;` and `"`. */
  predicate CleanValue(o: Option<string>) {
    o.Some? ==> |o.value| > 0 && forall i :: 0 <= i < |o.value| ==> o.value[i] !in Stops
  }

  /** The first index at or after `k` that holds no whitespace (`\s*`). */
  function SkipSpace(p: string, k: nat): (r: nat)
    requires k <= |p|
    ensures k <= r <= |p| && (r < |p| ==> p[r] !in Whitespace)
    ensures forall j :: k <= j < r ==> p[j] in Whitespace
    decreases |p| - k
  {
    if k < |p| && p[k] in Whitespace then SkipSpace(p, k + 1) else k
  }

  /** The end of the longest run from `k` of characters outside `Stops`
      (`[^,;"]+` matched greedily). */
  function RunEnd(p: string, k: nat): (r: nat)
    requires k <= |p|
    ensures k <= r <= |p| && (r < |p| ==> p[r] in Stops)
    ensures forall j :: k <= j < r ==> p[j] !in Stops
    decreases |p| - k
  {
    if k < |p| && p[k] !in Stops then RunEnd(p, k + 1) else k
  }

  /** The group the parameter pattern captures when matched at index `i`,
      with the backtracking order of a regular-expression engine: the
      greedy whitespace run and an opening quote are tried first, then
      the quote is dropped, then the whitespace run gives back one
      character. */
  function ParamAt(p: string, name: string, i: nat): (r: Option<string>)
    ensures r.Some? ==> OccursAt(p, name, i)
    ensures CleanValue(r)
  {
    if !OccursAt(p, name, i) then None
    else
      var k := SkipSpace(p, i + |name|);
      if k == |p| || p[k] != '=' then None else GroupAfter(p, k)
  }

  /** The group captured after the `=` at index `k`. */
  function GroupAfter(p: string, k: nat): (r: Option<string>)
    requires k < |p|
    ensures CleanValue(r)
  {
    var m := SkipSpace(p, k + 1);
    if m < |p| && p[m] == '"' && RunEnd(p, m + 1) > m + 1 then RunIsClean(p, m + 1); Some(p[m + 1..RunEnd(p, m + 1)])
    else if RunEnd(p, m) > m then RunIsClean(p, m); Some(p[m..RunEnd(p, m)])
    else if m > k + 1 then
      SpaceIsNoStop(p[m - 1]);
      RunIsClean(p, m - 1);
      Some(p[m - 1..RunEnd(p, m - 1)])
    else None
  }

  /** A non-empty run is a clean value. */
  lemma RunIsClean(p: string, a: nat)
    requires a <= |p| && (RunEnd(p, a) > a || (a < |p| && p[a] !in Stops))
    ensures RunEnd(p, a) > a && CleanValue(Some(p[a..RunEnd(p, a)]))
  {
    var v := p[a..RunEnd(p, a)];
    assert forall i :: 0 <= i < |v| ==> v[i] == p[a + i];
  }

  lemma SpaceIsNoStop(c: char)
    requires c in Whitespace
    ensures c !in Stops
  {
  }

  /** Python `re.search` of the parameter pattern from index `i`: the
      group of the leftmost match. */
  function ParamSearch(p: string, name: string, i: nat): (r: Option<string>)
    ensures r.Some? ==> exists j :: i <= j && OccursAt(p, name, j) && ParamAt(p, name, j) == r
    ensures r.None? ==> forall j :: i <= j ==> ParamAt(p, name, j).None?
    ensures CleanValue(r)
    decreases |p| - i
  {
    if i > |p| then None
    else
      match ParamAt(p, name, i)
      case Some(v) => Some(v)
      case None => ParamSearch(p, name, i + 1)
  }

  // ---------------------------------------------------------------------
  // Parsing a Link header
  // ---------------------------------------------------------------------

  /** The matches kept while reading the `;`-separated parameters of one
      link; each later parameter of the same kind overwrites the earlier
      one, including with a failed match. */
  datatype Params = Params(anchor: Option<string>, rel: Option<string>, ltype: Option<string>, profile: Option<string>)

  const NoParams := Params(None, None, None, None)

  predicate CleanParams(ps: Params) {
    CleanValue(ps.anchor) && CleanValue(ps.rel) && CleanValue(ps.ltype) && CleanValue(ps.profile)
  }

  /** One parameter: `anchor` is tested on its own, then `rel`, `type` and
      `profile` in that order. */
  function ReadParam(acc: Params, prop: string): (r: Params)
    ensures CleanParams(acc) ==> CleanParams(r)
    ensures !IsPrefix("anchor", Strip(prop)) ==> r.anchor == acc.anchor
  {
    var p := Strip(prop);
    var withAnchor := if IsPrefix("anchor", p) then acc.(anchor := ParamSearch(p, "anchor", 0)) else acc;
    if IsPrefix("rel", p) then withAnchor.(rel := ParamSearch(p, "rel", 0))
    else if IsPrefix("type", p) then withAnchor.(ltype := ParamSearch(p, "type", 0))
    else if IsPrefix("profile", p) then withAnchor.(profile := ParamSearch(p, "profile", 0))
    else withAnchor
  }

  /** A parameter named `name` is present among `props`. */
  predicate HasParam(props: seq<string>, name: string) {
    exists j :: 0 <= j < |props| && IsPrefix(name, Strip(props[j]))
  }

  /** The parameters read from left to right. */
  function ReadParams(acc: Params, props: seq<string>): (r: Params)
    ensures CleanParams(acc) ==> CleanParams(r)
    ensures r.anchor != acc.anchor ==> HasParam(props, "anchor")
    decreases |props|
  {
    if |props| == 0 then acc
    else
      var r := ReadParams(ReadParam(acc, props[0]), props[1..]);
      assert forall j :: 0 <= j < |props| - 1 ==> props[1..][j] == props[j + 1];
      r
  }

  /** One comma-separated part of a Link header: the target between the
      angle brackets and its parameters. A link is kept only when its URL
      is non-empty and its relation type is a signposting one. */
  function ParsePart(part: string): (r: Option<Link>)
    ensures r.Some? ==> r.value.url.Some? && |r.value.url.value| > 0
    ensures r.Some? ==> r.value.rel.Some? && r.value.rel.value in RelationTypes
    ensures r.Some? ==> r.value.source == SIGNPOSTING && CleanValue(r.value.anchor) && CleanValue(r.value.profile)
  {
    var pieces := Split(Strip(part), ";");
    var target := Strip(pieces[0]);
    assert CleanParams(NoParams);
    var ps := ReadParams(NoParams, pieces[1..]);
    assert CleanParams(ps);
    var url := Inner(target);
    var rel := Strip(Show(ps.rel));
    var ltype := Strip(Show(ps.ltype));
    if |url| > 0 && rel in RelationTypes then
      Some(Link(Some(url), Some(ltype), Some(rel), ps.profile, SIGNPOSTING, ps.anchor))
    else None
  }

  /** The URL of a parsed link is the part before the first `;`, stripped,
      without its first and last characters (the angle brackets). */
  lemma ParsePartUrl(part: string)
    ensures ParsePart(part).Some? ==> ParsePart(part).value.url == Some(Inner(Strip(Before(Strip(part), ";"))))
  {
    SplitHead(Strip(part), ";");
  }

  /** A parsed link has an `anchor` only if one of its parameters starts
      with `anchor`. */
  lemma ParsePartAnchor(part: string)
    ensures ParsePart(part).Some? && ParsePart(part).value.anchor.Some? ==>
              HasParam(Split(Strip(part), ";")[1..], "anchor")
  {
    var pieces := Split(Strip(part), ";");
    var ps := ReadParams(NoParams, pieces[1..]);
  }

  /** The links of a sequence of parts, in order. */
  function ParseParts(parts: seq<string>): (r: seq<Link>)
    ensures |r| <= |parts|
    ensures forall l :: l in r ==> exists i :: 0 <= i < |parts| && ParsePart(parts[i]) == Some(l)
  {
    FilterMap(parts, ParsePart)
  }

  /** `parse_signposting_http_link_format`: the header is split on every
      comma and each part yields at most one link. */
  function ParseLinkHeader(text: string): (r: seq<Link>)
    ensures |r| <= |Split(text, ",")|
    ensures forall l :: l in r ==>
              l.url.Some? && |l.url.value| > 0 && l.rel.Some? && l.rel.value in RelationTypes &&
              l.source == SIGNPOSTING && CleanValue(l.anchor)
  {
    ParseParts(Split(text, ","))
  }

  /** Parsing respects concatenation of parts: the links of the first
      parts come first, so input order is preserved. */
  lemma ParsePartsAppend(a: seq<string>, b: seq<string>)
    ensures ParseParts(a + b) == ParseParts(a) + ParseParts(b)
  {
    FilterMapAppend(a, b, ParsePart);
  }

  /** A value written without whitespace, `,`, `;` or `"`. */
  predicate Plain(s: string) {
    |s| > 0 && forall i :: 0 <= i < |s| ==> s[i] !in Whitespace && s[i] !in Stops
  }

  /** Written in lower-case ASCII letters and hyphens. */
  predicate LowerWord(s: string) {
    |s| > 0 && forall i :: 0 <= i < |s| ==> 'a' <= s[i] <= 'z' || s[i] == '-'
  }

  lemma LowerWordPlain(s: string)
    requires LowerWord(s)
    ensures Plain(s)
  {
  }

  lemma RelationTypesLower(r: string)
    requires r in RelationTypes
    ensures LowerWord(r)
  {
  }

  /** Every signposting relation type is plain. */
  lemma RelationTypesPlain(r: string)
    requires r in RelationTypes
    ensures Plain(r)
  {
    RelationTypesLower(r);
    LowerWordPlain(r);
  }

  /** A relation type as written after `rel=`, bare or in double quotes. */
  function RelValue(r: string, quoted: bool): string {
    if quoted then "\"" + r + "\"" else r
  }

  /** The link value `<u>; rel=r` or `<u>; rel="r"`. */
  function LinkPart(u: string, r: string, quoted: bool): string {
    "<" + u + ">; rel=" + RelValue(r, quoted)
  }

  /** A written plain relation type has no padding, `,` or `;`. */
  lemma RelValueEnds(r: string, quoted: bool)
    requires Plain(r)
    ensures var v := RelValue(r, quoted);
      |v| > 0 && v[0] !in Whitespace && v[|v| - 1] !in Whitespace && ';' !in v && ',' !in v
  {
    var v := RelValue(r, quoted);
    if quoted {
      assert '"' !in Whitespace;
      assert forall i :: 0 <= i < |v| ==> v[i] == '"' || v[i] in r;
    }
  }

  /** A bare plain value after `rel=` is captured whole. */
  lemma BareRelCaptured(r: string)
    requires Plain(r)
    ensures ParamSearch("rel=" + r, "rel", 0) == Some(r)
  {
    var p := "rel=" + r;
    assert OccursAt(p, "rel", 0);
    assert p[3] == '=' && p[4] == r[0];
    assert SkipSpace(p, 3) == 3;
    assert SkipSpace(p, 4) == 4;
    assert forall j :: 4 <= j < |p| ==> p[j] == r[j - 4];
    assert RunEnd(p, 4) == |p|;
    assert p[4..] == r;
    assert p[4] != '"';
    assert p[4..RunEnd(p, 4)] == r;
    assert GroupAfter(p, 3) == Some(r);
    assert ParamAt(p, "rel", 0) == Some(r);
  }

  /** A quoted plain value after `rel=` is captured without its quotes. */
  lemma QuotedRelCaptured(r: string)
    requires Plain(r)
    ensures ParamSearch("rel=" + ("\"" + r + "\""), "rel", 0) == Some(r)
  {
    var p := "rel=" + ("\"" + r + "\"");
    assert OccursAt(p, "rel", 0);
    assert p[3] == '=' && p[4] == '"' && p[5] == r[0] && p[|p| - 1] == '"';
    assert SkipSpace(p, 3) == 3;
    assert SkipSpace(p, 4) == 4;
    assert forall j :: 5 <= j < |p| - 1 ==> p[j] == r[j - 5];
    assert RunEnd(p, 5) == |p| - 1;
    assert p[5..RunEnd(p, 5)] == r;
    assert GroupAfter(p, 3) == Some(r);
    assert ParamAt(p, "rel", 0) == Some(r);
  }

  /** `<u>; rel=v` splits into the bracketed target and the parameter. */
  lemma LinkPartPieces(u: string, r: string, quoted: bool)
    requires |u| > 0 && ';' !in u && Plain(r)
    ensures Split(Strip(LinkPart(u, r, quoted)), ";") == ["<" + u + ">", " rel=" + RelValue(r, quoted)]
  {
    var v := RelValue(r, quoted);
    RelValueEnds(r, quoted);
    var a := "<" + u + ">";
    var b := " rel=" + v;
    var part := LinkPart(u, r, quoted);
    assert part == Join([a, b], [';']);
    assert part[0] == '<' && part[|part| - 1] == v[|v| - 1];
    TrimNoop(part, Whitespace);
    assert ';' !in b by {
      assert forall i :: 0 <= i < |b| ==> b[i] == ' ' || b[i] == 'r' || b[i] == 'e' || b[i] == 'l' || b[i] == '=' || b[i] in v;
    }
    SplitJoin([a, b], ';');
  }

  /** A parameter starting with `rel` and not with `anchor` sets only the
      relation type. */
  lemma ReadRelParam(acc: Params, prop: string)
    requires IsPrefix("rel", Strip(prop)) && !IsPrefix("anchor", Strip(prop))
    ensures ReadParam(acc, prop) == acc.(rel := ParamSearch(Strip(prop), "rel", 0))
  {
  }

  /** Reading a single parameter. */
  lemma ReadOneParam(acc: Params, prop: string)
    ensures ReadParams(acc, [prop]) == ReadParam(acc, prop)
  {
    assert [prop][1..] == [];
  }

  /** ` rel=v` strips to `rel=v` when `v` is not padded. */
  lemma RelParamStrip(v: string)
    requires |v| > 0 && v[0] !in Whitespace && v[|v| - 1] !in Whitespace
    ensures Strip(" rel=" + v) == "rel=" + v
  {
    assert " rel=" + v == [' '] + ("rel=" + v) + [];
    StripPadded([' '], "rel=" + v, []);
  }

  /** `rel=v` is a `rel` parameter and not an `anchor` one. */
  lemma RelParamPrefix(v: string)
    ensures IsPrefix("rel", "rel=" + v) && !IsPrefix("anchor", "rel=" + v)
  {
    var p := "rel=" + v;
    assert p[..3] == "rel";
    assert p[0] == 'r' && "anchor"[0] == 'a';
  }

  /** The single parameter ` rel=r`, bare or quoted, sets the relation
      type and nothing else. */
  lemma RelParamRead(r: string, quoted: bool)
    requires Plain(r)
    ensures ReadParams(NoParams, [" rel=" + RelValue(r, quoted)]) == NoParams.(rel := Some(r))
  {
    var v := RelValue(r, quoted);
    RelValueEnds(r, quoted);
    RelParamStrip(v);
    RelParamPrefix(v);
    ReadRelParam(NoParams, " rel=" + v);
    if quoted {
      QuotedRelCaptured(r);
    } else {
      BareRelCaptured(r);
    }
    ReadOneParam(NoParams, " rel=" + v);
  }

  /** A bracketed target strips to itself, and its inside is the URL. */
  lemma TargetStrip(u: string)
    ensures Strip("<" + u + ">") == "<" + u + ">" && Inner("<" + u + ">") == u
  {
    var a := "<" + u + ">";
    assert a[0] == '<' && a[|a| - 1] == '>';
    assert '<' !in Whitespace && '>' !in Whitespace;
    TrimNoop(a, Whitespace);
    assert a[1..|a| - 1] == u;
  }

  /** Completeness of `ParsePart`: the link value `<u>; rel=r` or
      `<u>; rel="r"` with a non-empty target free of `;` and a signposting
      relation type yields a link to `u` with relation `r` and no anchor
      or profile. */
  lemma ParsePartComplete(u: string, r: string, quoted: bool)
    requires |u| > 0 && ';' !in u && r in RelationTypes
    ensures var l := ParsePart(LinkPart(u, r, quoted));
      l.Some? && l.value.url == Some(u) && l.value.rel == Some(r) && l.value.anchor.None? && l.value.profile.None?
  {
    RelationTypesPlain(r);
    var a := "<" + u + ">";
    var b := " rel=" + RelValue(r, quoted);
    LinkPartPieces(u, r, quoted);
    TargetStrip(u);
    RelParamRead(r, quoted);
    TrimNoop(r, Whitespace);
    ParsePartOf(LinkPart(u, r, quoted), a, b, r);
  }

  /** A part made of a target and one `rel` parameter. */
  lemma ParsePartOf(part: string, target: string, prop: string, rel: string)
    requires Split(Strip(part), ";") == [target, prop]
    requires ReadParams(NoParams, [prop]) == NoParams.(rel := Some(rel))
    requires |Inner(Strip(target))| > 0 && Strip(rel) == rel && rel in RelationTypes
    ensures ParsePart(part) == Some(Link(Some(Inner(Strip(target))), Some(Strip("None")), Some(rel), None, SIGNPOSTING, None))
  {
    assert [target, prop][1..] == [prop];
  }

  /** A link value over a comma-free target and a plain relation type
      holds no comma. */
  lemma LinkPartNoComma(u: string, r: string, quoted: bool)
    requires ',' !in u && Plain(r)
    ensures ',' !in LinkPart(u, r, quoted)
  {
    RelValueEnds(r, quoted);
    assert ',' !in "<" && ',' !in ">; rel=";
  }

  /** The link values `<us[i]>; rel=rs[i]`, quoted where `qs[i]` holds. */
  function LinkParts(us: seq<string>, rs: seq<string>, qs: seq<bool>): (r: seq<string>)
    requires |us| == |rs| == |qs|
    ensures |r| == |us| && forall i :: 0 <= i < |us| ==> r[i] == LinkPart(us[i], rs[i], qs[i])
  {
    seq(|us|, i requires 0 <= i < |us| => LinkPart(us[i], rs[i], qs[i]))
  }

  /** The link values joined by commas into one Link header. */
  function LinkHeader(us: seq<string>, rs: seq<string>, qs: seq<bool>): string
    requires |us| == |rs| == |qs|
  {
    Join(LinkParts(us, rs, qs), ",")
  }

  /** Completeness of `ParseLinkHeader`: a header listing the link values
      `<u>; rel=r` (bare or quoted), separated by commas, with targets free
      of `,` and `;` and signposting relation types, yields one link per
      value, in order, each to its target with its relation. */
  lemma ParseLinkHeaderComplete(us: seq<string>, rs: seq<string>, qs: seq<bool>)
    requires |us| == |rs| == |qs| > 0
    requires forall i :: 0 <= i < |us| ==> |us[i]| > 0 && ';' !in us[i] && ',' !in us[i] && rs[i] in RelationTypes
    ensures var ls := ParseLinkHeader(LinkHeader(us, rs, qs));
      |ls| == |us| && forall i :: 0 <= i < |us| ==> ls[i].url == Some(us[i]) && ls[i].rel == Some(rs[i])
  {
    var parts := LinkParts(us, rs, qs);
    forall i | 0 <= i < |us|
      ensures ',' !in parts[i] && ParsePart(parts[i]).Some?
      ensures ParsePart(parts[i]).value.url == Some(us[i]) && ParsePart(parts[i]).value.rel == Some(rs[i])
    {
      RelationTypesPlain(rs[i]);
      ParsePartComplete(us[i], rs[i], qs[i]);
      LinkPartNoComma(us[i], rs[i], qs[i]);
    }
    ParseJoinedParts(parts);
    var ls := ParseLinkHeader(Join(parts, ","));
    assert forall i :: 0 <= i < |us| ==> ls[i] == ParsePart(parts[i]).value;
  }

  /** Comma-free parts that each parse give one link each, in order. */
  lemma ParseJoinedParts(parts: seq<string>)
    requires |parts| > 0
    requires forall i :: 0 <= i < |parts| ==> ',' !in parts[i] && ParsePart(parts[i]).Some?
    ensures var ls := ParseLinkHeader(Join(parts, ","));
      |ls| == |parts| && forall i :: 0 <= i < |parts| ==> ls[i] == ParsePart(parts[i]).value
  {
    SplitJoin(parts, ',');
    FilterMapAll(parts, ParsePart);
  }

  // ---------------------------------------------------------------------
  // Selecting typed links
  // ---------------------------------------------------------------------

  /** The `rel` argument: one relation type or a list of them. */
  datatype RelArg = OneRel(name: string) | RelList(names: seq<string>)

  function Rels(a: RelArg): seq<string> {
    match a
    case OneRel(n) => [n]
    case RelList(ns) => ns
  }

  /** A selected link: the whole record, or only `url`, `type` and
      `source` when `allkeys` is false. */
  datatype LinkView = Full(link: Link) | Brief(url: Option<string>, ltype: Option<string>, source: Method)

  function View(l: Link, allkeys: bool): LinkView {
    if allkeys then Full(l) else Brief(l.url, l.ltype, l.source)
  }

  predicate HasRel(l: Link, rels: seq<string>) {
    l.rel.Some? && l.rel.value in rels
  }

  /** The selection loop of `get_html_typed_links`. */
  function Select(links: seq<Link>, rels: seq<string>, allkeys: bool): (r: seq<LinkView>)
    ensures |r| <= |links|
    ensures forall i :: 0 <= i < |r| ==> exists l :: l in links && HasRel(l, rels) && r[i] == View(l, allkeys)
    ensures forall l :: l in links && HasRel(l, rels) ==> View(l, allkeys) in r
    ensures r == [] <==> forall l :: l in links ==> !HasRel(l, rels)
  {
    if |links| == 0 then []
    else
      var rest := Select(links[1..], rels, allkeys);
      assert forall l :: l in links <==> l == links[0] || l in links[1..];
      if HasRel(links[0], rels) then [View(links[0], allkeys)] + rest else rest
  }

  /** Selection respects concatenation, so the selected links keep their
      input order. */
  lemma {:induction false} SelectAppend(a: seq<Link>, b: seq<Link>, rels: seq<string>, allkeys: bool)
    ensures Select(a + b, rels, allkeys) == Select(a, rels, allkeys) + Select(b, rels, allkeys)
  {
    if |a| > 0 {
      assert (a + b)[1..] == a[1..] + b;
      SelectAppend(a[1..], b, rels, allkeys);
    } else {
      assert a + b == b;
    }
  }

  /** `get_html_typed_links`: the links with one of the relation types,
      projected when `allkeys` is false; `[]` when nothing matches. */
  function HtmlTypedLinks(links: seq<Link>, rel: RelArg, allkeys: bool): (r: seq<LinkView>)
    ensures r == [] <==> forall l :: l in links ==> !HasRel(l, Rels(rel))
    ensures !allkeys ==> forall i :: 0 <= i < |r| ==> r[i].Brief?
    ensures allkeys ==> forall i :: 0 <= i < |r| ==> r[i].Full? && r[i].link in links
  {
    Select(links, Rels(rel), allkeys)
  }

  /** `get_signposting_header_links`: the same selection, except that an
      empty selection is reported as `None`. */
  function HeaderLinks(links: seq<Link>, rel: RelArg, allkeys: bool): (r: Option<seq<LinkView>>)
    ensures r.None? <==> forall l :: l in links ==> !HasRel(l, Rels(rel))
    ensures r.Some? ==> |r.value| > 0 && r.value == HtmlTypedLinks(links, rel, allkeys)
  {
    var s := Select(links, Rels(rel), allkeys);
    if s == [] then None else Some(s)
  }

  // ---------------------------------------------------------------------
  // Linksets
  // ---------------------------------------------------------------------

  /** The link that announces a linkset: the first HTML typed link with
      relation `linkset` or `api-catalog`, otherwise the first such header
      link. */
  function LinksetAnnouncement(typed: seq<Link>, header: seq<Link>): (r: Option<Link>)
    ensures r.Some? ==> HasRel(r.value, LinksetRels)
    ensures (exists l :: l in typed && HasRel(l, LinksetRels)) ==> r.Some? && r.value in typed
    ensures r.None? <==> (forall l :: l in typed ==> !HasRel(l, LinksetRels)) &&
                         (forall l :: l in header ==> !HasRel(l, LinksetRels))
    ensures r.Some? ==> r.value in typed || r.value in header
  {
    var fromHtml := HtmlTypedLinks(typed, RelList(LinksetRels), true);
    if fromHtml != [] then
      assert fromHtml[0].Full?;
      Some(fromHtml[0].link)
    else
      match HeaderLinks(header, RelList(LinksetRels), true)
      case Some(hs) =>
        assert hs[0].Full?;
        Some(hs[0].link)
      case None => None
  }

  /** A Python `None` or string as a JSON value. */
  function AsValue(o: Option<string>): Value {
    match o
    case None => Null
    case Some(s) => Str(s)
  }

  /** A string-valued JSON member, `None` for anything else. */
  function StrOf(v: Option<Value>): Option<string> {
    if v.Some? && v.value.Str? then Some(v.value.s) else None
  }

  /** The context test of one linkset: its `anchor` member (Python `None`
      when missing) equals the PID URL or the landing URL, or the
      announcing link is an API catalogue. */
  predicate Anchored(es: seq<(string, Value)>, pid: Option<string>, landing: Option<string>, apiCatalog: bool) {
    var a := Lookup(es, "anchor").GetOr(Null);
    a == AsValue(pid) || a == AsValue(landing) || apiCatalog
  }

  predicate Acceptable(c: Value, pid: Option<string>, landing: Option<string>, apiCatalog: bool) {
    c.Dict? && Anchored(c.entries, pid, landing, apiCatalog)
  }

  /** The first linkset of a JSON linkset document whose context is the
      resource under test. */
  function ChooseLinkset(cands: seq<Value>, pid: Option<string>, landing: Option<string>, apiCatalog: bool): (r: Option<seq<(string, Value)>>)
    ensures r.Some? ==> exists i :: 0 <= i < |cands| && cands[i] == Dict(r.value) &&
                          Acceptable(cands[i], pid, landing, apiCatalog) &&
                          forall j :: 0 <= j < i ==> !Acceptable(cands[j], pid, landing, apiCatalog)
    ensures r.None? <==> forall i :: 0 <= i < |cands| ==> !Acceptable(cands[i], pid, landing, apiCatalog)
  {
    if |cands| == 0 then None
    else if Acceptable(cands[0], pid, landing, apiCatalog) then Some(cands[0].entries)
    else
      var r := ChooseLinkset(cands[1..], pid, landing, apiCatalog);
      assert forall i :: 1 <= i < |cands| ==> cands[i] == cands[1..][i - 1];
      if r.Some? then
        var i :| 0 <= i < |cands| - 1 && cands[1..][i] == Dict(r.value) &&
                 Acceptable(cands[1..][i], pid, landing, apiCatalog) &&
                 forall j :: 0 <= j < i ==> !Acceptable(cands[1..][j], pid, landing, apiCatalog);
        assert forall j :: 0 <= j < i + 1 ==> !Acceptable(cands[j], pid, landing, apiCatalog);
        r
      else r
  }

  /** The typed links gathered before the loop finished or stopped on a
      target that is not a JSON object. */
  datatype Gathered = Gathered(links: seq<Link>, failed: bool)

  predicate Signposted(l: Link) {
    l.rel.Some? && l.rel.value in RelationTypes && l.source == SIGNPOSTING
  }

  /** The typed link one JSON target gives under a relation type: its
      `href`, `type` and `profile` members (Python `None` when missing or
      not a string). */
  function TargetLink(rel: string, es: seq<(string, Value)>): Link {
    Link(StrOf(Lookup(es, "href")), StrOf(Lookup(es, "type")), Some(rel), StrOf(Lookup(es, "profile")), SIGNPOSTING, None)
  }

  /** The targets of one relation type of a linkset, each turned into a
      typed link; targets of other relation types are skipped. A target
      that is not a JSON object stops the harvest (its `.get` raises). */
  function TargetLinks(rel: string, targets: seq<Value>): (r: Gathered)
    ensures rel !in RelationTypes ==> r == Gathered([], false)
    ensures forall i :: 0 <= i < |r.links| ==> r.links[i].rel == Some(rel) && Signposted(r.links[i]) && r.links[i].anchor.None?
    ensures |r.links| <= |targets|
    ensures forall i :: 0 <= i < |r.links| ==> targets[i].Dict? && r.links[i] == TargetLink(rel, targets[i].entries)
    ensures rel in RelationTypes ==> (r.failed <==> exists i :: 0 <= i < |targets| && !targets[i].Dict?)
    ensures rel in RelationTypes && !r.failed ==> |r.links| == |targets|
    ensures r.failed ==> |r.links| < |targets| && !targets[|r.links|].Dict?
  {
    if rel !in RelationTypes || |targets| == 0 then Gathered([], false)
    else if !targets[0].Dict? then Gathered([], true)
    else
      var rest := TargetLinks(rel, targets[1..]);
      TargetLinksStep(rel, targets, rest);
      Gathered([TargetLink(rel, targets[0].entries)] + rest.links, rest.failed)
  }

  /** What `TargetLinks` promises for a known relation type. */
  ghost predicate Gathers(rel: string, targets: seq<Value>, r: Gathered) {
    && (forall i :: 0 <= i < |r.links| ==> r.links[i].rel == Some(rel) && Signposted(r.links[i]) && r.links[i].anchor.None?)
    && |r.links| <= |targets|
    && (forall i :: 0 <= i < |r.links| ==> targets[i].Dict? && r.links[i] == TargetLink(rel, targets[i].entries))
    && (r.failed <==> exists i :: 0 <= i < |targets| && !targets[i].Dict?)
    && (!r.failed ==> |r.links| == |targets|)
    && (r.failed ==> |r.links| < |targets| && !targets[|r.links|].Dict?)
  }

  /** A JSON object in front of targets whose links were gathered adds its
      link in front. */
  lemma TargetLinksStep(rel: string, targets: seq<Value>, rest: Gathered)
    requires rel in RelationTypes && |targets| > 0 && targets[0].Dict?
    requires Gathers(rel, targets[1..], rest)
    ensures Gathers(rel, targets, Gathered([TargetLink(rel, targets[0].entries)] + rest.links, rest.failed))
  {
    var links := [TargetLink(rel, targets[0].entries)] + rest.links;
    assert forall i :: 1 <= i < |targets| ==> targets[i] == targets[1..][i - 1];
    assert forall i :: 1 <= i < |links| ==> links[i] == rest.links[i - 1];
    if rest.failed {
      var j :| 0 <= j < |targets[1..]| && !targets[1..][j].Dict?;
      assert !targets[j + 1].Dict?;
    }
  }

  /** The targets of a linkset member: a single target is a list of one. */
  function TargetsOf(v: Value): seq<Value> {
    if v.List? then v.items else [v]
  }

  /** A member whose targets can all be harvested: it is not a signposting
      relation type, or every target is a JSON object. */
  predicate Harvestable(k: string, v: Value) {
    k !in RelationTypes || forall i :: 0 <= i < |TargetsOf(v)| ==> TargetsOf(v)[i].Dict?
  }

  /** The typed links of a harvestable member: one per target, in order,
      for a signposting relation type, and none otherwise. */
  function MemberLinks(k: string, v: Value): (r: seq<Link>)
    requires Harvestable(k, v)
  {
    if k !in RelationTypes then []
    else seq(|TargetsOf(v)|, i requires 0 <= i < |TargetsOf(v)| => TargetLink(k, TargetsOf(v)[i].entries))
  }

  /** The typed links of a linkset whose members are all harvestable:
      those of each member, member by member. */
  function MembersLinks(es: seq<(string, Value)>): seq<Link>
    requires forall i :: 0 <= i < |es| ==> Harvestable(es[i].0, es[i].1)
  {
    if |es| == 0 then [] else MemberLinks(es[0].0, es[0].1) + MembersLinks(es[1..])
  }

  /** The links of one member, when it is harvestable. */
  lemma MemberTargetLinks(k: string, v: Value)
    requires k != "anchor"
    ensures !TargetLinks(k, TargetsOf(v)).failed <==> Harvestable(k, v)
    ensures Harvestable(k, v) ==> TargetLinks(k, TargetsOf(v)).links == MemberLinks(k, v)
  {
    var ts := TargetsOf(v);
    var g := TargetLinks(k, ts);
    if k in RelationTypes && Harvestable(k, v) {
      assert |g.links| == |ts|;
    }
  }

  /** Every member of the chosen linkset except `anchor`, in order; a
      single target is treated as a list of one. The harvest stops at the
      first signposting member with a target that is not a JSON object;
      otherwise it yields the links of every member, in order. */
  function LinksetLinks(es: seq<(string, Value)>): (r: Gathered)
    ensures forall i :: 0 <= i < |r.links| ==> Signposted(r.links[i]) && r.links[i].anchor.None?
    ensures r.failed <==> exists i :: 0 <= i < |es| && !Harvestable(es[i].0, es[i].1)
    ensures !r.failed ==> r.links == MembersLinks(es)
  {
    if |es| == 0 then Gathered([], false)
    else
      assert forall i :: 1 <= i < |es| ==> es[i] == es[1..][i - 1];
      if es[0].0 == "anchor" then
        assert Harvestable(es[0].0, es[0].1) && MemberLinks(es[0].0, es[0].1) == [];
        LinksetLinks(es[1..])
      else
        var g := TargetLinks(es[0].0, TargetsOf(es[0].1));
        MemberTargetLinks(es[0].0, es[0].1);
        if g.failed then g
        else
          var rest := LinksetLinks(es[1..]);
          Gathered(g.links + rest.links, rest.failed)
  }

  /** The links of a linkset in Link-header text form whose context is the
      resource under test. */
  function AnchoredTextLinks(links: seq<Link>, pid: Option<string>, landing: Option<string>, apiCatalog: bool): (r: seq<Link>)
    ensures forall i :: 0 <= i < |r| ==> r[i] in links
    ensures !apiCatalog ==> forall i :: 0 <= i < |r| ==> r[i].anchor == pid || r[i].anchor == landing
    ensures forall l :: l in links && (l.anchor == pid || l.anchor == landing || apiCatalog) ==> l in r
  {
    if |links| == 0 then []
    else
      var rest := AnchoredTextLinks(links[1..], pid, landing, apiCatalog);
      assert forall l :: l in links <==> l == links[0] || l in links[1..];
      if links[0].anchor == pid || links[0].anchor == landing || apiCatalog then [links[0]] + rest else rest
  }

  /** What fetching the linkset gave: a parsed JSON document, text, or
      nothing usable. */
  datatype LinksetData = NoData | JsonData(doc: Value) | TextData(text: string) | Undecodable

  /** The linkset a JSON linkset document offers for the resource under
      test, if any. */
  function ChosenLinkset(doc: Value, pid: Option<string>, landing: Option<string>, apiCatalog: bool): Option<seq<(string, Value)>> {
    if doc.Dict? && Lookup(doc.entries, "linkset").Some? && Lookup(doc.entries, "linkset").value.List? then
      ChooseLinkset(Lookup(doc.entries, "linkset").value.items, pid, landing, apiCatalog)
    else None
  }

  /** The typed links a JSON linkset document contributes: none without
      a linkset for the resource under test; otherwise the links of the
      first such linkset, all of them when its members are harvestable,
      and those gathered before the harvest stopped when one is not. */
  function JsonLinksetLinks(doc: Value, pid: Option<string>, landing: Option<string>, apiCatalog: bool): (r: seq<Link>)
    ensures forall i :: 0 <= i < |r| ==> Signposted(r[i]) && r[i].anchor.None?
    ensures ChosenLinkset(doc, pid, landing, apiCatalog).None? ==> r == []
    ensures ChosenLinkset(doc, pid, landing, apiCatalog).Some? ==>
              var es := ChosenLinkset(doc, pid, landing, apiCatalog).value;
              r == LinksetLinks(es).links &&
              ((forall i :: 0 <= i < |es| ==> Harvestable(es[i].0, es[i].1)) ==> r == MembersLinks(es))
  {
    if !doc.Dict? then []
    else
      match Lookup(doc.entries, "linkset")
      case Some(List(cands)) =>
        (match ChooseLinkset(cands, pid, landing, apiCatalog)
         case Some(es) => LinksetLinks(es).links
         case None => [])
      case _ => []
  }

  /** The typed links a text linkset contributes: nothing unless its first
      link has an anchor, then the links anchored at the PID or landing
      URL (all of them for an API catalogue). */
  function TextLinksetLinks(text: string, pid: Option<string>, landing: Option<string>, apiCatalog: bool): (r: seq<Link>)
    ensures forall i :: 0 <= i < |r| ==> Signposted(r[i])
    ensures !apiCatalog ==> forall i :: 0 <= i < |r| ==> r[i].anchor == pid || r[i].anchor == landing
  {
    var parsed := ParseLinkHeader(text);
    if |parsed| == 0 || parsed[0].anchor.None? then []
    else
      var r := AnchoredTextLinks(parsed, pid, landing, apiCatalog);
      assert forall i :: 0 <= i < |r| ==> r[i] in parsed;
      r
  }

  /** `set_signposting_linkset_links`: the typed links appended after
      fetching the announced linkset with `fetch`. Every one of them has a
      signposting relation type, and a link taken from a text linkset
      that is not an API catalogue is anchored at the PID or landing URL. */
  function SignpostingLinksetLinks(typed: seq<Link>, header: seq<Link>, pid: Option<string>,
                                   landing: Option<string>, fetch: string -> LinksetData): (r: seq<Link>)
    ensures forall i :: 0 <= i < |r| ==> Signposted(r[i])
    ensures LinksetAnnouncement(typed, header).None? ==> r == []
    ensures LinksetAnnouncement(typed, header).Some? ==>
              var l := LinksetAnnouncement(typed, header).value;
              var api := l.rel == Some("api-catalog");
              (l.url.None? || l.url.value == "" ==> r == []) &&
              (l.url.Some? && l.url.value != "" ==>
                 match fetch(l.url.value)
                 case JsonData(doc) => r == JsonLinksetLinks(doc, pid, landing, api)
                 case TextData(text) => r == TextLinksetLinks(text, pid, landing, api)
                 case _ => r == [])
  {
    match LinksetAnnouncement(typed, header)
    case None => []
    case Some(l) =>
      if l.url.None? || l.url.value == "" then []
      else
        var api := l.rel == Some("api-catalog");
        match fetch(l.url.value)
        case JsonData(doc) => JsonLinksetLinks(doc, pid, landing, api)
        case TextData(text) => TextLinksetLinks(text, pid, landing, api)
        case _ => []
  }

  // ---------------------------------------------------------------------
  // Preferred links
  // ---------------------------------------------------------------------

  predicate Preferred(l: Link, landing: string) {
    Contains(Show(l.url), landing)
  }

  function PreferredTest(landing: string): Link -> bool {
    l => Preferred(l, landing)
  }

  /** The loop of `get_preferred_links`: each link goes to the preferred
      or the other list, keeping order within both. */
  function Partition(links: seq<Link>, landing: string): (r: (seq<Link>, seq<Link>))
    ensures |r.0| + |r.1| == |links|
    ensures forall l :: l in r.0 ==> l in links && Preferred(l, landing)
    ensures forall l :: l in r.1 ==> l in links && !Preferred(l, landing)
  {
    if |links| == 0 then ([], [])
    else
      var (p, o) := Partition(links[1..], landing);
      if Preferred(links[0], landing) then ([links[0]] + p, o) else (p, [links[0]] + o)
  }

  /** `get_preferred_links`. With no landing URL the substring test raises
      a TypeError as soon as there is a link to test. */
  function PreferredLinks(links: seq<Link>, landing: Option<string>): (r: Result<seq<Link>, string>)
    ensures r.Failure? <==> landing.None? && |links| > 0
  {
    if |links| == 0 then Success([])
    else if landing.None? then Failure("TypeError")
    else
      var (p, o) := Partition(links, landing.value);
      Success(p + o)
  }

  /** The loop computes a stable partition: the preferred links in input
      order, then the others in input order. */
  lemma {:induction false} PartitionIsStable(links: seq<Link>, landing: string)
    ensures Partition(links, landing).0 == Filter(links, PreferredTest(landing))
    ensures Partition(links, landing).1 == Reject(links, PreferredTest(landing))
  {
    if |links| > 0 {
      PartitionIsStable(links[1..], landing);
      assert PreferredTest(landing)(links[0]) == Preferred(links[0], landing);
    }
  }

  /** `get_preferred_links` returns a permutation of its input with every
      link whose URL contains the landing URL before every other link, and
      both groups in input order. */
  lemma PreferredLinksSpec(links: seq<Link>, landing: string)
    ensures PreferredLinks(links, Some(landing)).Success?
    ensures var r := PreferredLinks(links, Some(landing)).value;
            multiset(r) == multiset(links) &&
            r == Filter(links, PreferredTest(landing)) + Reject(links, PreferredTest(landing))
    ensures var r := PreferredLinks(links, Some(landing)).value;
            var n := |Filter(links, PreferredTest(landing))|;
            (forall i :: 0 <= i < n ==> Preferred(r[i], landing)) &&
            (forall i :: n <= i < |r| ==> !Preferred(r[i], landing))
  {
    PartitionIsStable(links, landing);
    PartitionPermutes(links, PreferredTest(landing));
    if |links| == 0 {
      assert Filter(links, PreferredTest(landing)) == [] && Reject(links, PreferredTest(landing)) == [];
    }
  }
}

=== FILE: strings.dfy ===
/** Sequence and string primitives with the meaning of the Python built-ins
    they stand for (`in`, `find`, `split`, `join`, `strip`, `replace`,
    `startswith`, `endswith`, `splitlines`, `int`). The searching and
    splitting functions are generic so that the same definitions serve text
    (`seq<char>`) and bodies of bytes. */
module Strings {
  import opened Wrappers

  /** `p` occurs in `s` starting at index `i`. */
  predicate OccursAt<T(==)>(s: seq<T>, p: seq<T>, i: int) {
    0 <= i && i + |p| <= |s| && s[i..i + |p|] == p
  }

  /** Python `s.startswith(p)`. */
  predicate IsPrefix<T(==)>(p: seq<T>, s: seq<T>) {
    |p| <= |s| && s[..|p|] == p
  }

  /** Python `s.endswith(p)`. */
  predicate IsSuffix<T(==)>(p: seq<T>, s: seq<T>) {
    |p| <= |s| && s[|s| - |p|..] == p
  }

  /** First index `>= k` at which `p` occurs in `s`. */
  function IndexFrom<T(==)>(s: seq<T>, p: seq<T>, k: nat): (r: Option<nat>)
    ensures r.Some? ==> k <= r.value && OccursAt(s, p, r.value)
    ensures r.Some? ==> forall j :: k <= j < r.value ==> !OccursAt(s, p, j)
    ensures r.None? ==> forall j :: k <= j ==> !OccursAt(s, p, j)
    decreases |s| - k
  {
    if k + |p| > |s| then None
    else if s[k..k + |p|] == p then Some(k)
    else IndexFrom(s, p, k + 1)
  }

  /** Python `s.find(p)`, with `None` for -1. */
  function IndexOf<T(==)>(s: seq<T>, p: seq<T>): (r: Option<nat>)
    ensures r.Some? ==> OccursAt(s, p, r.value)
    ensures r.Some? ==> forall j :: 0 <= j < r.value ==> !OccursAt(s, p, j)
    ensures r.None? ==> forall j :: !OccursAt(s, p, j)
  {
    IndexFrom(s, p, 0)
  }

  /** Python `p in s` for strings and byte strings. */
  predicate Contains<T(==)>(s: seq<T>, p: seq<T>)
    ensures Contains(s, p) <==> exists i :: OccursAt(s, p, i)
  {
    IndexOf(s, p).Some?
  }

  /** An occurrence inside a prefix or a suffix is an occurrence in the whole. */
  lemma OccursInSlices<T>(s: seq<T>, p: seq<T>, i: nat, j: int)
    requires i <= |s|
    ensures OccursAt(s[..i], p, j) ==> OccursAt(s, p, j)
    ensures OccursAt(s[i..], p, j) ==> OccursAt(s, p, i + j)
  {
    if OccursAt(s[..i], p, j) {
      assert s[..i][j..j + |p|] == s[j..j + |p|];
    }
    if OccursAt(s[i..], p, j) {
      assert s[i..][j..j + |p|] == s[i + j..i + j + |p|];
    }
  }

  /** A sequence occurs right after whatever precedes it. */
  lemma OccursAfter<T>(a: seq<T>, p: seq<T>)
    ensures OccursAt(a + p, p, |a|)
  {
    assert (a + p)[|a|..|a| + |p|] == p;
  }

  /** The part of `s` before the first occurrence of `p` contains no `p`. */
  lemma NoneBeforeFirst<T>(s: seq<T>, p: seq<T>, i: nat)
    requires i <= |s| && |p| > 0
    requires forall j :: 0 <= j < i ==> !OccursAt(s, p, j)
    ensures !Contains(s[..i], p)
  {
    forall j | OccursAt(s[..i], p, j)
      ensures false
    {
      OccursInSlices(s, p, i, j);
    }
  }

  /** Python `sep.join(parts)`. */
  function Join<T>(parts: seq<seq<T>>, sep: seq<T>): seq<T> {
    if |parts| == 0 then []
    else if |parts| == 1 then parts[0]
    else parts[0] + sep + Join(parts[1..], sep)
  }

  /** Python `s.split(sep)` for a non-empty separator: the pieces between the
      occurrences of `sep`, scanning left to right. */
  function Split<T(==)>(s: seq<T>, sep: seq<T>): (r: seq<seq<T>>)
    requires |sep| > 0
    ensures |r| >= 1
    ensures forall i :: 0 <= i < |r| ==> !Contains(r[i], sep)
    ensures Join(r, sep) == s
    decreases |s|
  {
    match IndexOf(s, sep)
    case None => [s]
    case Some(i) =>
      NoneBeforeFirst(s, sep, i);
      var rest := Split(s[i + |sep|..], sep);
      assert s == s[..i] + sep + s[i + |sep|..];
      [s[..i]] + rest
  }

  /** An element absent from the parts and the separator is absent from
      their join. */
  lemma {:induction false} JoinAvoids<T>(parts: seq<seq<T>>, sep: seq<T>, c: T)
    requires c !in sep && forall i :: 0 <= i < |parts| ==> c !in parts[i]
    ensures c !in Join(parts, sep)
  {
    if |parts| > 1 {
      JoinAvoids(parts[1..], sep, c);
    }
  }

  /** Splitting a join on a one-element separator that no part contains
      gives the parts back. */
  lemma {:induction false} SplitJoin<T>(parts: seq<seq<T>>, c: T)
    requires |parts| > 0 && forall i :: 0 <= i < |parts| ==> c !in parts[i]
    ensures Split(Join(parts, [c]), [c]) == parts
  {
    var s := Join(parts, [c]);
    if |parts| == 1 {
      assert s == parts[0];
    } else {
      var p := parts[0];
      assert s == p + [c] + Join(parts[1..], [c]);
      assert OccursAt(s, [c], |p|);
      forall j | 0 <= j < |p|
        ensures !OccursAt(s, [c], j)
      {
        assert s[j] == p[j];
      }
      match IndexOf(s, [c])
      case None =>
      case Some(i) =>
        assert i == |p|;
        assert s[i + 1..] == Join(parts[1..], [c]);
        SplitJoin(parts[1..], c);
    }
  }

  /** A join starts with its first two parts and the separator between
      them. */
  lemma JoinStartsWith<T>(parts: seq<seq<T>>, sep: seq<T>)
    requires |parts| >= 2
    ensures IsPrefix(parts[0] + sep + parts[1], Join(parts, sep))
  {
    var tail := Join(parts[1..], sep);
    assert Join(parts, sep) == parts[0] + sep + tail;
    if |parts| > 2 {
      assert tail == parts[1] + sep + Join(parts[2..], sep);
    }
  }

  /** Every part occurs in the join. */
  lemma {:induction false} JoinContains<T>(parts: seq<seq<T>>, sep: seq<T>, j: nat)
    requires j < |parts|
    ensures Contains(Join(parts, sep), parts[j])
  {
    var s := Join(parts, sep);
    if j == 0 {
      assert OccursAt(s, parts[0], 0);
    } else {
      var tail := Join(parts[1..], sep);
      assert s == parts[0] + sep + tail;
      JoinContains(parts[1..], sep, j - 1);
      var i :| OccursAt(tail, parts[j], i);
      assert s[|parts[0] + sep|..] == tail;
      OccursInSlices(s, parts[j], |parts[0] + sep|, i);
    }
  }

  /** No `b` in `s` directly follows an `a`. */
  predicate NoPair<T(==)>(s: seq<T>, a: T, b: T) {
    forall j :: 0 < j < |s| && s[j] == b ==> s[j - 1] != a
  }

  /** A sequence missing one of the two neighbours has no such pair. */
  lemma NoPairWithout<T>(s: seq<T>, a: T, b: T)
    requires a !in s || b !in s
    ensures NoPair(s, a, b)
  {
    forall j | 0 < j < |s|
      ensures s[j] != b || s[j - 1] != a
    {
      assert s[j] in s && s[j - 1] in s;
    }
  }

  /** Where a pattern occurs, each of its elements stands at its offset. */
  lemma OccursPointwise<T>(s: seq<T>, p: seq<T>)
    ensures forall i, k :: OccursAt(s, p, i) && 0 <= k < |p| ==> s[i + k] == p[k]
  {
    forall i, k | OccursAt(s, p, i) && 0 <= k < |p|
      ensures s[i + k] == p[k]
    {
      assert s[i..i + |p|][k] == s[i + k];
    }
  }

  /** A pattern holding two neighbours that never stand side by side in
      `s` does not occur in `s`. */
  lemma NoPairNoContains<T>(s: seq<T>, p: seq<T>, k: nat)
    requires 0 < k < |p| && NoPair(s, p[k - 1], p[k])
    ensures !Contains(s, p)
  {
    OccursPointwise(s, p);
  }

  /** Two sequences without an `a` then `b`, that do not meet as `a` then
      `b`, have none together. */
  lemma NoPairAppend<T>(x: seq<T>, y: seq<T>, a: T, b: T)
    requires NoPair(x, a, b) && NoPair(y, a, b)
    requires |x| > 0 && |y| > 0 ==> x[|x| - 1] != a || y[0] != b
    ensures NoPair(x + y, a, b)
  {
    var s := x + y;
    forall j | 0 < j < |s| && s[j] == b
      ensures s[j - 1] != a
    {
      if j < |x| {
        assert s[j] == x[j] && s[j - 1] == x[j - 1];
      } else if j > |x| {
        assert s[j] == y[j - |x|] && s[j - 1] == y[j - 1 - |x|];
      }
    }
  }

  /** Two pieces, each missing one of the two neighbours, that do not
      meet as `a` then `b`, have no such pair together. */
  lemma NoPairSplit<T>(x: seq<T>, y: seq<T>, a: T, b: T)
    requires a !in x || b !in x
    requires a !in y || b !in y
    requires |x| > 0 && |y| > 0 ==> x[|x| - 1] != a || y[0] != b
    ensures NoPair(x + y, a, b)
  {
    NoPairWithout(x, a, b);
    NoPairWithout(y, a, b);
    NoPairAppend(x, y, a, b);
  }

  /** A join has no `a` then `b` when its parts have none and the
      separator holds neither. */
  lemma {:induction false} JoinNoPair<T>(parts: seq<seq<T>>, sep: seq<T>, a: T, b: T)
    requires |sep| > 0 && a !in sep && b !in sep
    requires forall i :: 0 <= i < |parts| ==> a !in parts[i] || b !in parts[i] || NoPair(parts[i], a, b)
    ensures NoPair(Join(parts, sep), a, b)
  {
    if |parts| > 0 && (a !in parts[0] || b !in parts[0]) {
      NoPairWithout(parts[0], a, b);
    }
    if |parts| == 1 {
      assert Join(parts, sep) == parts[0];
    } else if |parts| > 1 {
      JoinNoPair(parts[1..], sep, a, b);
      NoPairWithout(sep, a, b);
      NoPairAppend(parts[0], sep, a, b);
      NoPairAppend(parts[0] + sep, Join(parts[1..], sep), a, b);
    }
  }

  /** A pattern whose neighbours `a`, `b` at `k - 1`, `k` never stand side
      by side in the parts, and are not in the separator, does not occur
      in the join. */
  lemma JoinLacks<T>(parts: seq<seq<T>>, sep: seq<T>, p: seq<T>, k: nat, a: T, b: T)
    requires 0 < k < |p| && p[k - 1] == a && p[k] == b
    requires |sep| > 0 && a !in sep && b !in sep
    requires forall i :: 0 <= i < |parts| ==> a !in parts[i] || b !in parts[i] || NoPair(parts[i], a, b)
    ensures !Contains(Join(parts, sep), p)
  {
    JoinNoPair(parts, sep, a, b);
    NoPairNoContains(Join(parts, sep), p, k);
  }

  /** An occurrence of an occurrence is an occurrence. */
  lemma ContainsTrans<T>(s: seq<T>, q: seq<T>, p: seq<T>)
    requires Contains(s, q) && Contains(q, p)
    ensures Contains(s, p)
  {
    var i :| OccursAt(s, q, i);
    var j :| OccursAt(q, p, j);
    forall k | 0 <= k < |p|
      ensures s[i + j..i + j + |p|][k] == p[k]
    {
      assert s[i + j + k] == s[i..i + |q|][j + k] == q[j + k] == q[j..j + |p|][k];
    }
    assert OccursAt(s, p, i + j);
  }

  /** An occurrence inside a middle part is an occurrence in the whole. */
  lemma ContainsInfix<T>(a: seq<T>, s: seq<T>, b: seq<T>, p: seq<T>)
    requires Contains(s, p)
    ensures Contains(a + s + b, p)
  {
    var i :| OccursAt(s, p, i);
    assert (a + s + b)[|a| + i..|a| + i + |p|] == s[i..i + |p|];
    assert OccursAt(a + s + b, p, |a| + i);
  }

  /** A split gives one piece exactly when the separator does not occur. */
  lemma SplitSingle<T>(s: seq<T>, sep: seq<T>)
    requires |sep| > 0
    ensures |Split(s, sep)| == 1 <==> !Contains(s, sep)
  {
    var r := Split(s, sep);
    if |r| == 1 {
      assert Join(r, sep) == r[0];
    } else {
      assert s == r[0] + sep + Join(r[1..], sep);
      assert OccursAt(s, sep, |r[0]|);
    }
  }

  /** The first pieces of a split that found the separator: the text
      before it, and, with exactly three pieces, the whole text. */
  lemma SplitPieces<T>(s: seq<T>, sep: seq<T>)
    requires |sep| > 0 && |Split(s, sep)| >= 2
    ensures var p := Split(s, sep);
            Before(s, sep) == p[0] && IsPrefix(p[0] + sep + p[1], s) &&
            (|p| == 3 ==> s == p[0] + sep + p[1] + sep + p[2])
  {
    var p := Split(s, sep);
    SplitHead(s, sep);
    JoinStartsWith(p, sep);
    if |p| == 3 {
      JoinThree(p, sep);
    }
  }

  /** The join of three parts. */
  lemma JoinThree<T>(p: seq<seq<T>>, sep: seq<T>)
    requires |p| == 3
    ensures Join(p, sep) == p[0] + sep + p[1] + sep + p[2]
  {
    assert Join(p[2..], sep) == p[2];
    assert Join(p[1..], sep) == p[1] + sep + p[2];
    assert Join(p, sep) == p[0] + sep + (p[1] + sep + p[2]);
  }

  /** Python `s.split(sep, 1)`. */
  function SplitOnce<T(==)>(s: seq<T>, sep: seq<T>): (r: seq<seq<T>>)
    requires |sep| > 0
    ensures 1 <= |r| <= 2
    ensures |r| == 1 <==> !Contains(s, sep)
    ensures |r| == 1 ==> r[0] == s
    ensures |r| == 2 ==> r[0] + sep + r[1] == s && !Contains(r[0], sep)
  {
    match IndexOf(s, sep)
    case None => [s]
    case Some(i) =>
      NoneBeforeFirst(s, sep, i);
      assert s == s[..i] + sep + s[i + |sep|..];
      [s[..i], s[i + |sep|..]]
  }

  /** A one-element pattern occurs exactly where the element does. */
  lemma ContainsOne<T>(s: seq<T>, x: T)
    ensures Contains(s, [x]) <==> x in s
  {
    if x in s {
      var i :| 0 <= i < |s| && s[i] == x;
      assert OccursAt(s, [x], i);
    }
    if Contains(s, [x]) {
      var i :| OccursAt(s, [x], i);
      assert s[i] == x;
    }
  }

  /** Splitting once at a one-element separator absent from the first part
      recovers the two parts. */
  lemma SplitOnceAt<T>(a: seq<T>, x: T, b: seq<T>)
    requires x !in a
    ensures SplitOnce(a + [x] + b, [x]) == [a, b]
  {
    var s := a + [x] + b;
    assert OccursAt(s, [x], |a|);
    var r := SplitOnce(s, [x]);
    ContainsOne(r[0], x);
    assert r[0] + [x] + r[1] == s;
    assert forall i :: 0 <= i < |a| ==> s[i] == a[i];
    assert forall i :: 0 <= i < |r[0]| ==> s[i] == r[0][i];
    assert s[|r[0]|] == x;
    assert |r[0]| == |a|;
    assert r[0] == s[..|a|] == a;
    assert r[1] == s[|a| + 1..] == b;
  }

  /** Python `s.split(sep, 1)[0]`: everything before the first `sep`. */
  function Before<T(==)>(s: seq<T>, sep: seq<T>): (r: seq<T>)
    requires |sep| > 0
    ensures IsPrefix(r, s) && !Contains(r, sep)
    ensures !Contains(s, sep) ==> r == s
    ensures Contains(s, sep) ==> OccursAt(s, sep, |r|)
  {
    var parts := SplitOnce(s, sep);
    parts[0]
  }

  /** Index of the last `x` in `s` (Python `rfind` for one element). */
  function LastIndex<T(==)>(s: seq<T>, x: T): (r: Option<nat>)
    ensures r.Some? ==> r.value < |s| && s[r.value] == x
    ensures r.Some? ==> forall j :: r.value < j < |s| ==> s[j] != x
    ensures r.None? <==> x !in s
  {
    if |s| == 0 then None
    else if s[|s| - 1] == x then Some(|s| - 1)
    else
      var r := LastIndex(s[..|s| - 1], x);
      assert x in s ==> x in s[..|s| - 1] by {
        if x in s {
          var k :| 0 <= k < |s| && s[k] == x;
          assert s[..|s| - 1][k] == x;
        }
      }
      r
  }

  /** The first piece of a split is the part before the first separator. */
  lemma SplitHead<T>(s: seq<T>, sep: seq<T>)
    requires |sep| > 0
    ensures Split(s, sep)[0] == Before(s, sep)
  {
  }

  /** The second piece of a split is the part between the first and the
      second separator. */
  lemma SplitSecond<T>(s: seq<T>, sep: seq<T>)
    requires |sep| > 0 && |Split(s, sep)| >= 2
    ensures |Split(s, sep)[0]| + |sep| <= |s|
    ensures Split(s, sep)[1] == Before(s[|Split(s, sep)[0]| + |sep|..], sep)
  {
    var i := IndexOf(s, sep).value;
    SplitHead(s[i + |sep|..], sep);
  }

  /** Python `s.rsplit(x, 1)[0]`: everything before the last `x`. */
  function BeforeLast<T(==)>(s: seq<T>, x: T): (r: seq<T>)
    ensures x !in s ==> r == s
    ensures x in s ==> |r| < |s| && r == s[..|r|] && s[|r|] == x && x !in s[|r| + 1..]
  {
    match LastIndex(s, x)
    case None => s
    case Some(i) => s[..i]
  }

  /** Python `s.rsplit(x, 1)[-1]` (equivalently `s.split(x)[-1]`):
      everything after the last `x`. */
  function AfterLast<T(==)>(s: seq<T>, x: T): (r: seq<T>)
    ensures x !in r && IsSuffix(r, s)
    ensures x !in s ==> r == s
    ensures x in s ==> s[|s| - |r| - 1] == x
  {
    match LastIndex(s, x)
    case None => s
    case Some(i) => s[i + 1..]
  }

  /** Python `s[1:-1]`. */
  function Inner<T>(s: seq<T>): (r: seq<T>)
    ensures |s| >= 2 ==> |r| == |s| - 2 && s == [s[0]] + r + [s[|s| - 1]]
    ensures |s| < 2 ==> r == []
  {
    if |s| < 2 then [] else s[1..|s| - 1]
  }

  /** Python `s.replace(pat, rep)`: every non-overlapping occurrence of
      `pat`, scanning left to right, is replaced by `rep`. */
  function ReplaceAll<T(==)>(s: seq<T>, pat: seq<T>, rep: seq<T>): (r: seq<T>)
    requires |pat| > 0
    ensures !Contains(s, pat) ==> r == s
    ensures IsPrefix(pat, s) ==> IsPrefix(rep, r)
    decreases |s|
  {
    match IndexOf(s, pat)
    case None => s
    case Some(i) => s[..i] + rep + ReplaceAll(s[i + |pat|..], pat, rep)
  }

  /** Replacing a pattern by itself changes nothing. */
  lemma {:induction false} ReplaceSelf<T>(s: seq<T>, pat: seq<T>)
    requires |pat| > 0
    ensures ReplaceAll(s, pat, pat) == s
    decreases |s|
  {
    match IndexOf(s, pat)
    case None =>
    case Some(i) =>
      ReplaceSelf(s[i + |pat|..], pat);
      assert s == s[..i] + pat + s[i + |pat|..];
  }

  /** The characters Python's `str.isspace` accepts, which `str.strip()`
      removes. */
  const Whitespace: set<char> := {
    ' ', '\t', '\n', '\r', '\U{000B}', '\U{000C}', '\U{001C}', '\U{001D}',
    '\U{001E}', '\U{001F}', '\U{0085}', '\U{00A0}', '\U{1680}', '\U{2000}',
    '\U{2001}', '\U{2002}', '\U{2003}', '\U{2004}', '\U{2005}', '\U{2006}',
    '\U{2007}', '\U{2008}', '\U{2009}', '\U{200A}', '\U{2028}', '\U{2029}',
    '\U{202F}', '\U{205F}', '\U{3000}'
  }

  /** Python `s.lstrip(chars)`. */
  function TrimLeft(s: string, chars: set<char>): (r: string)
    ensures IsSuffix(r, s)
    ensures |r| > 0 ==> r[0] !in chars
    ensures forall i :: 0 <= i < |s| - |r| ==> s[i] in chars
  {
    if |s| > 0 && s[0] in chars then TrimLeft(s[1..], chars) else s
  }

  /** Python `s.rstrip(chars)`. */
  function TrimRight(s: string, chars: set<char>): (r: string)
    ensures IsPrefix(r, s)
    ensures |r| > 0 ==> r[|r| - 1] !in chars
    ensures forall i :: |r| <= i < |s| ==> s[i] in chars
  {
    if |s| > 0 && s[|s| - 1] in chars then TrimRight(s[..|s| - 1], chars) else s
  }

  /** Python `s.strip(chars)`: both ends trimmed; what is removed lies
      outside one contiguous slice of `s` and consists of `chars` only. */
  function Trim(s: string, chars: set<char>): (r: string)
    ensures |r| <= |s|
    ensures |r| > 0 ==> r[0] !in chars && r[|r| - 1] !in chars
    ensures exists a ::
              OccursAt(s, r, a) &&
              forall i :: 0 <= i < |s| && !(a <= i < a + |r|) ==> s[i] in chars
  {
    var left := TrimLeft(s, chars);
    var r := TrimRight(left, chars);
    assert |r| > 0 ==> r[0] == left[0];
    TrimSlice(s, left, r, chars);
    assert OccursAt(s, r, |s| - |left|);
    r
  }

  /** A prefix of a suffix of `s` is a slice of `s`; what lies outside it
      is what the two trims removed. */
  lemma TrimSlice(s: string, left: string, r: string, chars: set<char>)
    requires IsSuffix(left, s) && forall i :: 0 <= i < |s| - |left| ==> s[i] in chars
    requires IsPrefix(r, left) && forall i :: |r| <= i < |left| ==> left[i] in chars
    ensures OccursAt(s, r, |s| - |left|)
    ensures forall i :: 0 <= i < |s| && !(|s| - |left| <= i < |s| - |left| + |r|) ==> s[i] in chars
  {
    var a := |s| - |left|;
    assert s[a..][..|r|] == s[a..a + |r|];
    forall i | 0 <= i < |s| && !(a <= i < a + |r|)
      ensures s[i] in chars
    {
      if i >= a {
        assert s[i] == left[i - a];
      }
    }
  }

  /** Python `s.strip()`. */
  function Strip(s: string): string {
    Trim(s, Whitespace)
  }

  /** `s` with every character of `chars` removed, the rest kept in
      order. */
  function Remove(s: string, chars: set<char>): (r: string)
    ensures |r| <= |s|
    ensures forall i :: 0 <= i < |r| ==> r[i] !in chars
  {
    if |s| == 0 then []
    else (if s[0] in chars then [] else [s[0]]) + Remove(s[1..], chars)
  }

  /** Removing from a concatenation removes from each part. */
  lemma {:induction false} RemoveAppend(a: string, b: string, chars: set<char>)
    ensures Remove(a + b, chars) == Remove(a, chars) + Remove(b, chars)
    decreases |a|
  {
    if |a| == 0 {
      assert a + b == b;
    } else {
      assert (a + b)[1..] == a[1..] + b;
      RemoveAppend(a[1..], b, chars);
    }
  }

  /** A string made of removed characters only leaves nothing. */
  lemma {:induction false} RemoveAll(s: string, chars: set<char>)
    requires forall i :: 0 <= i < |s| ==> s[i] in chars
    ensures Remove(s, chars) == []
    decreases |s|
  {
    if |s| > 0 {
      RemoveAll(s[1..], chars);
    }
  }

  /** Removing a smaller set first changes nothing in the end. */
  lemma {:induction false} RemoveTwice(s: string, a: set<char>, b: set<char>)
    requires a <= b
    ensures Remove(Remove(s, a), b) == Remove(s, b)
    decreases |s|
  {
    if |s| > 0 {
      var head := if s[0] in a then [] else [s[0]];
      RemoveTwice(s[1..], a, b);
      RemoveAppend(head, Remove(s[1..], a), b);
      assert Remove(head, b) == (if s[0] in b then [] else [s[0]]) by {
        if |head| == 1 {
          assert head[1..] == [];
        }
      }
    }
  }

  /** Trimming removes only characters that `Remove` drops as well. */
  lemma TrimRemove(s: string, chars: set<char>)
    ensures Remove(Trim(s, chars), chars) == Remove(s, chars)
  {
    TrimLeftRemove(s, chars);
    TrimRightRemove(TrimLeft(s, chars), chars);
  }

  lemma {:induction false} TrimLeftRemove(s: string, chars: set<char>)
    ensures Remove(TrimLeft(s, chars), chars) == Remove(s, chars)
    decreases |s|
  {
    if |s| > 0 && s[0] in chars {
      TrimLeftRemove(s[1..], chars);
    }
  }

  lemma {:induction false} TrimRightRemove(s: string, chars: set<char>)
    ensures Remove(TrimRight(s, chars), chars) == Remove(s, chars)
    decreases |s|
  {
    if |s| > 0 && s[|s| - 1] in chars {
      var init := s[..|s| - 1];
      TrimRightRemove(init, chars);
      assert s == init + [s[|s| - 1]];
      RemoveAppend(init, [s[|s| - 1]], chars);
      assert Remove([s[|s| - 1]], chars) == [] by {
        assert [s[|s| - 1]][1..] == [];
      }
    }
  }

  /** A string whose ends are not in `chars` is unchanged by trimming. */
  lemma TrimNoop(s: string, chars: set<char>)
    requires |s| > 0 && s[0] !in chars && s[|s| - 1] !in chars
    ensures Trim(s, chars) == s
  {
  }

  /** Left-trimming a string that starts with trimmed characters only up
      to a kept one removes exactly those characters. */
  lemma {:induction false} TrimLeftPadded(a: string, x: string, chars: set<char>)
    requires forall i :: 0 <= i < |a| ==> a[i] in chars
    requires |x| > 0 && x[0] !in chars
    ensures TrimLeft(a + x, chars) == x
    decreases |a|
  {
    if |a| == 0 {
      assert a + x == x;
    } else {
      assert (a + x)[1..] == a[1..] + x;
      TrimLeftPadded(a[1..], x, chars);
    }
  }

  /** The mirror image of `TrimLeftPadded`. */
  lemma {:induction false} TrimRightPadded(x: string, b: string, chars: set<char>)
    requires forall i :: 0 <= i < |b| ==> b[i] in chars
    requires |x| > 0 && x[|x| - 1] !in chars
    ensures TrimRight(x + b, chars) == x
    decreases |b|
  {
    if |b| == 0 {
      assert x + b == x;
    } else {
      assert (x + b)[..|x + b| - 1] == x + b[..|b| - 1];
      TrimRightPadded(x, b[..|b| - 1], chars);
    }
  }

  /** Stripping a padded string gives back the text between the padding. */
  lemma StripPadded(a: string, x: string, b: string)
    requires forall i :: 0 <= i < |a| ==> a[i] in Whitespace
    requires forall i :: 0 <= i < |b| ==> b[i] in Whitespace
    requires |x| > 0 && x[0] !in Whitespace && x[|x| - 1] !in Whitespace
    ensures Strip(a + x + b) == x
  {
    assert a + x + b == a + (x + b);
    TrimLeftPadded(a, x + b, Whitespace);
    TrimRightPadded(x, b, Whitespace);
  }

  /** Python `str.lower()` restricted to the ASCII letters. */
  function Lower(s: string): (r: string)
    ensures |r| == |s|
    ensures forall i :: 0 <= i < |s| ==> !('A' <= r[i] <= 'Z')
  {
    seq(|s|, i requires 0 <= i < |s| =>
      if 'A' <= s[i] <= 'Z' then (s[i] as int + 32) as char else s[i])
  }

  predicate IsDigit(c: char) { '0' <= c <= '9' }

  /** The value of a non-empty run of decimal digits. */
  function DigitsValue(s: string): (n: nat)
    requires forall i :: 0 <= i < |s| ==> IsDigit(s[i])
  {
    if |s| == 0 then 0
    else
      assert IsDigit(s[|s| - 1]);
      10 * DigitsValue(s[..|s| - 1]) + (s[|s| - 1] as int - '0' as int)
  }

  /** Every character is a decimal digit or a `_`. */
  predicate DigitsOrSeparators(d: string) {
    forall i :: 0 <= i < |d| ==> IsDigit(d[i]) || d[i] == '_'
  }

  /** The digits of a Python integer literal: decimal digits, each `_`
      standing between two of them. */
  predicate DigitGroups(d: string) {
    |d| > 0 && IsDigit(d[0]) && IsDigit(d[|d| - 1]) && DigitsOrSeparators(d) &&
    forall i, j :: 0 <= i < |d| && 0 <= j < |d| && j == i + 1 && d[i] == '_' ==> IsDigit(d[j])
  }

  /** The value of decimal digits with `_` separators, which count for
      nothing; without separators it is the plain digits' value. */
  function GroupedValue(d: string): (n: nat)
    requires DigitsOrSeparators(d)
    ensures (forall i :: 0 <= i < |d| ==> IsDigit(d[i])) ==> n == DigitsValue(d)
  {
    if |d| == 0 then 0
    else
      var p := d[..|d| - 1];
      assert forall i :: 0 <= i < |p| ==> p[i] == d[i];
      if d[|d| - 1] == '_' then GroupedValue(p)
      else 10 * GroupedValue(p) + (d[|d| - 1] as int - '0' as int)
  }

  /** Python `int(s)` on text: optional surrounding whitespace, an optional
      sign and decimal digits, single underscores allowed between them;
      anything else raises (`None`). */
  function ParseInt(s: string): (r: Option<int>)
    ensures r.Some? ==> |Strip(s)| > 0
  {
    ParseSigned(Strip(s))
  }

  /** `int` on text without surrounding whitespace. */
  function ParseSigned(t: string): (r: Option<int>)
    ensures r.Some? ==> |t| > 0
  {
    var neg := |t| > 0 && t[0] == '-';
    var digits := if |t| > 0 && (t[0] == '-' || t[0] == '+') then t[1..] else t;
    if DigitGroups(digits) then
      var v: int := GroupedValue(digits);
      Some(if neg then -v else v)
    else None
  }

  /** A separator between two digits does not change the value. */
  lemma {:induction false} GroupedSkip(a: string, b: string)
    requires forall i :: 0 <= i < |a| ==> IsDigit(a[i])
    requires forall i :: 0 <= i < |b| ==> IsDigit(b[i])
    ensures GroupedValue(a + "_" + b) == GroupedValue(a + b)
    decreases |b|
  {
    if |b| == 0 {
      assert a + "_" + b == a + "_";
      assert (a + "_")[..|a|] == a;
      assert a + b == a;
    } else {
      var b' := b[..|b| - 1];
      GroupedSkip(a, b');
      assert (a + "_" + b)[..|a + "_" + b| - 1] == a + "_" + b';
      assert (a + b)[..|a + b| - 1] == a + b';
    }
  }

  /** `int("1_000") == int("1000")`: an underscore between two runs of
      digits is accepted and ignored. */
  lemma ParseIntSeparator(a: string, b: string)
    requires |a| > 0 && forall i :: 0 <= i < |a| ==> IsDigit(a[i])
    requires |b| > 0 && forall i :: 0 <= i < |b| ==> IsDigit(b[i])
    ensures ParseInt(a + "_" + b) == ParseInt(a + b) == Some(DigitsValue(a + b))
  {
    var s, t := a + "_" + b, a + b;
    assert IsDigit(s[0]) && IsDigit(s[|s| - 1]);
    UnsignedStripped(s);
    assert IsDigit(t[0]) && IsDigit(t[|t| - 1]);
    UnsignedStripped(t);
    SeparatorSigned(a, b);
  }

  lemma SeparatorSigned(a: string, b: string)
    requires |a| > 0 && forall i :: 0 <= i < |a| ==> IsDigit(a[i])
    requires |b| > 0 && forall i :: 0 <= i < |b| ==> IsDigit(b[i])
    ensures ParseSigned(a + "_" + b) == ParseSigned(a + b) == Some(DigitsValue(a + b))
  {
    var s, t := a + "_" + b, a + b;
    assert DigitGroups(s);
    assert forall i :: 0 <= i < |t| ==> IsDigit(t[i]);
    GroupedSkip(a, b);
  }

  /** A doubled, leading or trailing underscore makes `int` raise. */
  lemma ParseIntBadSeparator(a: string, b: string)
    requires forall i :: 0 <= i < |a| ==> IsDigit(a[i])
    requires forall i :: 0 <= i < |b| ==> IsDigit(b[i])
    ensures ParseInt(a + "__" + b).None?
    ensures ParseInt(a + "_").None? && ParseInt("_" + b).None?
  {
    var s, t, u := a + "__" + b, a + "_", "_" + b;
    assert s[|a|] == '_' && s[|a| + 1] == '_';
    assert s[0] == '_' || IsDigit(s[0]);
    assert s[|s| - 1] == '_' || IsDigit(s[|s| - 1]);
    UngroupedRaises(s);
    assert t[|t| - 1] == '_';
    assert t[0] == '_' || IsDigit(t[0]);
    UngroupedRaises(t);
    assert u[0] == '_' && (u[|u| - 1] == '_' || IsDigit(u[|u| - 1]));
    UngroupedRaises(u);
  }

  /** Unsigned text that is not a valid digit run makes `int` raise. */
  lemma UngroupedRaises(s: string)
    requires |s| > 0 && (s[0] == '_' || IsDigit(s[0]))
    requires s[|s| - 1] == '_' || IsDigit(s[|s| - 1])
    requires !DigitGroups(s)
    ensures ParseInt(s).None?
  {
    UnsignedStripped(s);
  }

  /** Text starting with a digit or `_` and ending in one is its own
      strip and carries no sign. */
  lemma UnsignedStripped(s: string)
    requires |s| > 0 && (s[0] == '_' || IsDigit(s[0]))
    requires s[|s| - 1] == '_' || IsDigit(s[|s| - 1])
    ensures ParseInt(s) == ParseSigned(s) && s[0] != '-' && s[0] != '+'
  {
    if IsDigit(s[0]) {
      DigitNotSpace(s[0]);
    }
    if IsDigit(s[|s| - 1]) {
      DigitNotSpace(s[|s| - 1]);
    }
    TrimNoop(s, Whitespace);
  }

  /** Decimal rendering of a natural number (Python `str(n)`). */
  function NatToString(n: nat): (r: string)
    ensures |r| > 0 && forall i :: 0 <= i < |r| ==> IsDigit(r[i])
    ensures DigitsValue(r) == n
  {
    var d := ['0' + (n % 10) as char];
    if n < 10 then d
    else
      var r := NatToString(n / 10) + d;
      assert r[..|r| - 1] == NatToString(n / 10);
      r
  }

  lemma DigitNotSpace(c: char)
    requires IsDigit(c)
    ensures c !in Whitespace
  {
  }

  /** Printing a number and reading it back gives the number. */
  lemma ParseIntRoundTrip(n: nat)
    ensures ParseInt(NatToString(n)) == Some(n)
  {
    var s := NatToString(n);
    DigitNotSpace(s[0]);
    DigitNotSpace(s[|s| - 1]);
    TrimNoop(s, Whitespace);
    assert s[0] != '-' && s[0] != '+';
  }
}

=== FILE: values.dfy ===
/** The Python values that flow through the harvester: metadata records are
    dictionaries whose values are strings, numbers, lists and nested
    dictionaries. A nested dictionary is an association list in insertion
    order; a top-level record is a `map`. */
module Values {
  import opened Wrappers

  datatype Value =
    | Null
    | Bool(b: bool)
    | Int(i: int)
    | Str(s: string)
    | List(items: seq<Value>)
    | Dict(entries: seq<(string, Value)>)

  /** Python truthiness: `None`, `False`, `0`, `""`, `[]` and `{}` are false. */
  predicate Truthy(v: Value) {
    match v
    case Null => false
    case Bool(b) => b
    case Int(i) => i != 0
    case Str(s) => |s| > 0
    case List(xs) => |xs| > 0
    case Dict(es) => |es| > 0
  }

  /** A missing text becomes `None`, a present one a string. */
  function OptValue(o: Option<string>): (r: Value)
    ensures o.None? <==> r == Null
    ensures o.Some? ==> r == Str(o.value)
  {
    if o.Some? then Str(o.value) else Null
  }

  /** Values Python can put in a `set` (lists and dictionaries are not). */
  predicate Hashable(v: Value) {
    !v.List? && !v.Dict?
  }

  /** The keys of an association list, in order. */
  function Keys<V>(es: seq<(string, V)>): (r: seq<string>)
    ensures |r| == |es| && forall i :: 0 <= i < |es| ==> r[i] == es[i].0
  {
    seq(|es|, i requires 0 <= i < |es| => es[i].0)
  }

  /** Python `d.get(k)` on a dictionary given as an association list. */
  function Lookup(es: seq<(string, Value)>, k: string): (r: Option<Value>)
    ensures r.None? <==> k !in Keys(es)
    ensures r.Some? ==> (k, r.value) in es
  {
    if |es| == 0 then None
    else if es[0].0 == k then Some(es[0].1)
    else
      assert Keys(es) == [es[0].0] + Keys(es[1..]);
      Lookup(es[1..], k)
  }

  /** Python `d[k] = v`: an existing key keeps its position, a new key is
      appended. */
  function Update(es: seq<(string, Value)>, k: string, v: Value): (r: seq<(string, Value)>)
    ensures Lookup(r, k) == Some(v)
    ensures forall k' :: k' != k ==> Lookup(r, k') == Lookup(es, k')
    ensures k in Keys(es) ==> Keys(r) == Keys(es)
    ensures k !in Keys(es) ==> Keys(r) == Keys(es) + [k]
  {
    if |es| == 0 then [(k, v)]
    else if es[0].0 == k then
      UpdateHead(es, v);
      [(k, v)] + es[1..]
    else
      var rest := Update(es[1..], k, v);
      UpdateTailLookup(es, rest, k, v);
      UpdateTailKeys(es, rest, k);
      [es[0]] + rest
  }

  /** `Update` replaces the head when it carries the key and otherwise
      keeps it and updates the rest. */
  lemma UpdateCons(es: seq<(string, Value)>, k: string, v: Value)
    requires |es| > 0
    ensures Update(es, k, v) == if es[0].0 == k then [(k, v)] + es[1..] else [es[0]] + Update(es[1..], k, v)
  {
  }

  /** `Update` on a list whose head carries the key replaces the head. */
  lemma UpdateHead(es: seq<(string, Value)>, v: Value)
    requires |es| > 0
    ensures var r := [(es[0].0, v)] + es[1..];
            Lookup(r, es[0].0) == Some(v) &&
            (forall k' :: k' != es[0].0 ==> Lookup(r, k') == Lookup(es, k')) &&
            Keys(r) == Keys(es)
  {
    ConsSplit(es);
    KeysCons((es[0].0, v), es[1..]);
    KeysCons(es[0], es[1..]);
    LookupCons((es[0].0, v), es[1..]);
    LookupCons(es[0], es[1..]);
  }

  /** Lookups after `Update` on a list whose head does not carry the key. */
  lemma UpdateTailLookup(es: seq<(string, Value)>, rest: seq<(string, Value)>, k: string, v: Value)
    requires |es| > 0 && es[0].0 != k
    requires Lookup(rest, k) == Some(v)
    requires forall k' :: k' != k ==> Lookup(rest, k') == Lookup(es[1..], k')
    ensures Lookup([es[0]] + rest, k) == Some(v)
    ensures forall k' :: k' != k ==> Lookup([es[0]] + rest, k') == Lookup(es, k')
  {
    ConsSplit(es);
    LookupCons(es[0], rest);
    LookupCons(es[0], es[1..]);
  }

  /** Keys after `Update` on a list whose head does not carry the key. */
  lemma UpdateTailKeys(es: seq<(string, Value)>, rest: seq<(string, Value)>, k: string)
    requires |es| > 0 && es[0].0 != k
    requires k in Keys(es[1..]) ==> Keys(rest) == Keys(es[1..])
    requires k !in Keys(es[1..]) ==> Keys(rest) == Keys(es[1..]) + [k]
    ensures k in Keys(es) ==> Keys([es[0]] + rest) == Keys(es)
    ensures k !in Keys(es) ==> Keys([es[0]] + rest) == Keys(es) + [k]
  {
    ConsSplit(es);
    KeysCons(es[0], rest);
    KeysCons(es[0], es[1..]);
    assert k in Keys(es) <==> k in Keys(es[1..]);
    if k !in Keys(es[1..]) {
      assert [es[0].0] + (Keys(es[1..]) + [k]) == ([es[0].0] + Keys(es[1..])) + [k];
    }
  }

  /** A non-empty association list is its head followed by its tail. */
  lemma ConsSplit(es: seq<(string, Value)>)
    requires |es| > 0
    ensures es == [es[0]] + es[1..]
  {
  }

  /** The keys of an entry followed by a list. */
  lemma KeysCons(e: (string, Value), es: seq<(string, Value)>)
    ensures Keys([e] + es) == [e.0] + Keys(es)
  {
  }

  /** Looking up in an entry followed by a list. */
  lemma LookupCons(e: (string, Value), es: seq<(string, Value)>)
    ensures forall k :: Lookup([e] + es, k) == if e.0 == k then Some(e.1) else Lookup(es, k)
  {
    forall k ensures Lookup([e] + es, k) == if e.0 == k then Some(e.1) else Lookup(es, k) {
      assert ([e] + es)[1..] == es;
    }
  }
}

=== FILE: wrappers.dfy ===
/** Optional values and results with an error, as used throughout the model
    for Python's `None` and for operations that raise. */
module Wrappers {

  /** A value that may be absent (Python `None`). */
  datatype Option<+T> = None | Some(value: T) {

    /** The wrapped value, or `default` when absent. */
    function GetOr(default: T): T {
      match this
      case Some(v) => v
      case None => default
    }
  }

  /** The outcome of an operation that either returns a value or raises. */
  datatype Result<+T, +E> = Success(value: T) | Failure(error: E)
}

=== FILE: xml_collector.dfy ===
/** The XML collector's mapping step: path specifications with an optional
    attribute, one value per matched element, the related resources and
    content identifiers assembled from helper keys, the choice of mapping
    by root element, and the envelope fill. Element lookup (`findall`)
    is an oracle returning the matched elements. */
module XmlCollector {
  import opened Wrappers
  import opened Strings
  import opened Seqs
  import opened Values

  // ---------------------------------------------------------------------
  // Path specifications
  // ---------------------------------------------------------------------

  const XLinkNamespace := "{http://www.w3.org/1999/xlink}"

  /** A mapping path: the element path and the attribute to read, if any. */
  datatype PathSpec = PathSpec(path: string, attribute: Option<string>)

  /** An `xlink:` prefix is written out as the XLink namespace in Clark
      notation, followed by the name up to any further colon; any other
      attribute name is kept. */
  function ExpandAttribute(a: string): (r: string)
    ensures !(':' in a && Split(a, ":")[0] == "xlink") ==> r == a
    ensures ':' in a && Split(a, ":")[0] == "xlink" ==> IsPrefix(XLinkNamespace, r) && ':' !in r[|XLinkNamespace|..]
    ensures ':' in a && Split(a, ":")[0] == "xlink" ==> IsPrefix("xlink:", a) && r == XLinkNamespace + Before(a[6..], ":")
  {
    var parts := Split(a, ":");
    if ':' in a && parts[0] == "xlink" then
      XLinkParts(a);
      ContainsOne(parts[1], ':');
      XLinkNamespace + parts[1]
    else a
  }

  /** The name after `xlink:` is the second piece of the split. */
  lemma XLinkParts(a: string)
    requires ':' in a && Split(a, ":")[0] == "xlink"
    ensures IsPrefix("xlink:", a) && Split(a, ":")[1] == Before(a[6..], ":")
  {
    var p := Split(a, ":");
    ContainsOne(a, ':');
    SplitSingle(a, ":");
    assert a == p[0] + ":" + Join(p[1..], ":");
    assert a[6..] == Join(p[1..], ":");
    assert p[1..][0] == p[1];
    ContainsOne(p[1], ':');
    BeforeJoin(p[1..], ':');
  }

  /** The text before the first separator of a join is its first part. */
  lemma BeforeJoin(q: seq<string>, x: char)
    requires |q| > 0 && x !in q[0]
    ensures Before(Join(q, [x]), [x]) == q[0]
  {
    if |q| == 1 {
      ContainsOne(q[0], x);
    } else {
      assert Join(q, [x]) == q[0] + [x] + Join(q[1..], [x]);
      SplitOnceAt(q[0], x, Join(q[1..], [x]));
    }
  }

  /** `xlink:name`, for a name without a colon, becomes the name in the
      XLink namespace. */
  lemma ExpandXLink(n: string)
    requires ':' !in n
    ensures ExpandAttribute("xlink:" + n) == XLinkNamespace + n
  {
    var a := "xlink:" + n;
    assert a == "xlink" + [':'] + n;
    SplitOnceAt("xlink", ':', n);
    assert ':' in a by { assert a[5] == ':'; }
    SplitSingle(a, ":");
    ContainsOne(a, ':');
    SplitPieces(a, ":");
    assert a[6..] == n;
    ContainsOne(n, ':');
  }

  /** `mappath.split('@@')`: the path before the first `@@`, and the
      (expanded) piece after it as the attribute. */
  function ParsePathSpec(m: string): (r: PathSpec)
    ensures IsPrefix(r.path, m) && !Contains(r.path, "@@")
    ensures r.attribute.None? <==> !Contains(m, "@@")
    ensures r.attribute.Some? ==> exists raw :: IsPrefix(r.path + "@@" + raw, m) && !Contains(raw, "@@") &&
                                               r.attribute.value == ExpandAttribute(raw)
    ensures r.path == Before(m, "@@")
    ensures Contains(m, "@@") ==> |r.path| + 2 <= |m| && r.attribute == Some(ExpandAttribute(Before(m[|r.path| + 2..], "@@")))
  {
    var pieces := Split(m, "@@");
    SplitHead(m, "@@");
    if |pieces| > 1 then
      JoinStartsWith(pieces, "@@");
      assert OccursAt(m, "@@", |pieces[0]|);
      SplitSecond(m, "@@");
      PathSpec(pieces[0], Some(ExpandAttribute(pieces[1])))
    else
      PathSpec(pieces[0], None)
  }

  // ---------------------------------------------------------------------
  // Values of matched elements
  // ---------------------------------------------------------------------

  /** What the collector reads from a matched element: its attributes, its
      own text, whether it has children, and its whole text content. */
  datatype Node = Node(attrib: map<string, string>, text: Option<string>, hasChildren: bool, allText: string)

  /** Python `re.sub('\s+', ' ', s)`: every run of whitespace becomes one
      space, and the other characters are kept in order. */
  function CollapseSpace(s: string): (r: string)
    ensures forall i :: 0 <= i < |r| && r[i] in Whitespace ==> r[i] == ' '
    ensures forall i :: 0 <= i < |r| - 1 ==> !(r[i] == ' ' && r[i + 1] == ' ')
    ensures Remove(r, Whitespace) == Remove(s, Whitespace)
    ensures |r| > 0 && |s| > 0 ==> (r[0] == ' ' <==> s[0] in Whitespace)
    ensures |r| <= |s| && (|r| == 0 <==> |s| == 0)
  {
    CollapseRuns(s, Whitespace)
  }

  /** No character of `ws` other than a single space is left, and no two
      spaces are adjacent. */
  predicate Collapsed(r: string, ws: set<char>) {
    && (forall i :: 0 <= i < |r| && r[i] in ws ==> r[i] == ' ')
    && (forall i :: 0 <= i < |r| - 1 ==> !(r[i] == ' ' && r[i + 1] == ' '))
  }

  /** Putting one character in front of a collapsed string keeps it
      collapsed, unless it is a second space. */
  lemma ConsCollapsed(c: char, t: string, ws: set<char>)
    requires Collapsed(t, ws)
    requires c in ws ==> c == ' '
    requires c == ' ' && |t| > 0 ==> t[0] != ' '
    ensures Collapsed([c] + t, ws)
  {
    var r := [c] + t;
    forall i | 0 <= i < |r| - 1
      ensures !(r[i] == ' ' && r[i + 1] == ' ')
    {
      if i > 0 { assert r[i] == t[i - 1] && r[i + 1] == t[i]; }
    }
  }

  /** Every run of characters from `ws` becomes one space. */
  function CollapseRuns(s: string, ws: set<char>): (r: string)
    requires ' ' in ws
    ensures Collapsed(r, ws)
    ensures Remove(r, ws) == Remove(s, ws)
    ensures |r| > 0 && |s| > 0 ==> (r[0] == ' ' <==> s[0] in ws)
    ensures |r| <= |s| && (|r| == 0 <==> |s| == 0)
    decreases |s|
  {
    if |s| == 0 then []
    else if s[0] in ws then
      var rest := TrimLeft(s[1..], ws);
      var t := CollapseRuns(rest, ws);
      assert |t| > 0 ==> t[0] != ' ' by {
        if |t| > 0 { assert rest[0] !in ws; }
      }
      ConsCollapsed(' ', t, ws);
      TrimLeftRemove(s[1..], ws);
      assert ([' '] + t)[1..] == t;
      [' '] + t
    else
      var t := CollapseRuns(s[1..], ws);
      ConsCollapsed(s[0], t, ws);
      assert ([s[0]] + t)[1..] == t;
      [s[0]] + t
  }

  /** `re.sub('\s+', ' ', s).strip()`: the words of `s` in order, one space
      between two words and none at the ends. */
  function NormaliseSpace(s: string): (r: string)
    ensures Remove(r, Whitespace) == Remove(s, Whitespace)
    ensures |r| > 0 ==> r[0] !in Whitespace && r[|r| - 1] !in Whitespace
    ensures forall i :: 0 <= i < |r| && r[i] in Whitespace ==> r[i] == ' ' && i + 1 < |r| && r[i + 1] !in Whitespace
  {
    var c := CollapseSpace(s);
    var t := Strip(c);
    TrimRemove(c, Whitespace);
    var a :| OccursAt(c, t, a);
    CollapsedSlice(c, t, a);
    t
  }

  /** A slice of a collapsed string whose ends are not whitespace has a
      word on each side of every space. */
  lemma CollapsedSlice(c: string, t: string, a: int)
    requires Collapsed(c, Whitespace) && OccursAt(c, t, a)
    requires |t| > 0 ==> t[0] !in Whitespace && t[|t| - 1] !in Whitespace
    ensures forall i :: 0 <= i < |t| && t[i] in Whitespace ==> t[i] == ' ' && i + 1 < |t| && t[i + 1] !in Whitespace
  {
    forall i | 0 <= i < |t| && t[i] in Whitespace
      ensures t[i] == ' ' && i + 1 < |t| && t[i + 1] !in Whitespace
    {
      assert t[i] == c[a + i];
      assert t[i + 1] == c[a + i + 1];
    }
  }

  /** The value of one matched element: the named attribute when an
      attribute is given, else the element's text when it has no
      children, else its whole text with whitespace collapsed and
      stripped. */
  function NodeValue(n: Node, attribute: Option<string>): (r: Option<string>)
    ensures attribute.Some? && |attribute.value| > 0 ==> (r.Some? <==> attribute.value in n.attrib)
    ensures attribute.Some? && attribute.value in n.attrib && |attribute.value| > 0 ==> r == Some(n.attrib[attribute.value])
    ensures (attribute.None? || |attribute.value| == 0) && !n.hasChildren ==> r == n.text
    ensures (attribute.None? || |attribute.value| == 0) && n.hasChildren ==> r == Some(NormaliseSpace(n.allText))

  {
    if attribute.Some? && |attribute.value| > 0 then
      if attribute.value in n.attrib then Some(n.attrib[attribute.value]) else None
    else if !n.hasChildren then n.text
    else Some(NormaliseSpace(n.allText))
  }

  /** The values of the elements matched by one path specification. */
  function SpecValues(spec: PathSpec, nodes: seq<Node>): (r: seq<Option<string>>)
    ensures |r| == |nodes| && forall i :: 0 <= i < |nodes| ==> r[i] == NodeValue(nodes[i], spec.attribute)
  {
    seq(|nodes|, i requires 0 <= i < |nodes| => NodeValue(nodes[i], spec.attribute))
  }

  /** The values of all matches of a property's paths, path by path and
      in document order within a path. */
  function PathValues(paths: seq<string>, find: string -> seq<Node>): (r: seq<Option<string>>)
    ensures |paths| == 0 ==> r == []
  {
    if |paths| == 0 then []
    else PathMatches(paths[0], find) + PathValues(paths[1..], find)
  }

  /** The values of the elements one mapping path matches. */
  function PathMatches(p: string, find: string -> seq<Node>): (r: seq<Option<string>>)
    ensures var spec := ParsePathSpec(p);
            |r| == |find(spec.path)| && forall i :: 0 <= i < |r| ==> r[i] == NodeValue(find(spec.path)[i], spec.attribute)
  {
    var spec := ParsePathSpec(p);
    SpecValues(spec, find(spec.path))
  }

  /** Matches for consecutive path lists are concatenated. */
  lemma {:induction false} PathValuesAppend(a: seq<string>, b: seq<string>, find: string -> seq<Node>)
    ensures PathValues(a + b, find) == PathValues(a, find) + PathValues(b, find)
  {
    if |a| > 0 {
      assert (a + b)[1..] == a[1..] + b;
      PathValuesAppend(a[1..], b, find);
      assert PathValues(a + b, find) == PathMatches(a[0], find) + PathValues(a[1..] + b, find);
    } else {
      assert a + b == b;
    }
  }

  /** A property's result: a single match gives a scalar, no match or
      several give a list in match order. */
  datatype Found = One(v: Option<string>) | Many(vs: seq<Option<string>>)

  function PropertyValue(matches: seq<Option<string>>): (r: Found)
    ensures r.One? <==> |matches| == 1
    ensures r.One? ==> r.v == matches[0]
    ensures r.Many? ==> r.vs == matches
  {
    if |matches| == 1 then One(matches[0]) else Many(matches)
  }

  /** Python truthiness of a property's result. */
  predicate FoundTruthy(f: Found) {
    match f
    case One(v) => v.Some? && |v.value| > 0
    case Many(vs) => |vs| > 0
  }

  /** A property's result as a metadata value. */
  function FoundValue(f: Found): (r: Value)
    ensures f.One? ==> r == OptValue(f.v)
    ensures f.Many? ==> r.List? && |r.items| == |f.vs| && forall i :: 0 <= i < |f.vs| ==> r.items[i] == OptValue(f.vs[i])
  {
    match f
    case One(v) => OptValue(v)
    case Many(vs) => List(seq(|vs|, i requires 0 <= i < |vs| => OptValue(vs[i])))
  }

  /** A mapping entry's `path`: one path or a list of paths. */
  datatype Paths = OnePath(p: string) | PathList(ps: seq<string>)

  function PathsOf(p: Paths): seq<string> {
    match p
    case OnePath(x) => [x]
    case PathList(xs) => xs
  }

  /** The property results, in mapping order. */
  function MappedProperties(mapping: seq<(string, Paths)>, find: string -> seq<Node>): (r: seq<(string, Found)>)
    ensures |r| == |mapping|
    ensures forall i :: 0 <= i < |mapping| ==> r[i].0 == mapping[i].0 && r[i].1 == PropertyValue(PathValues(PathsOf(mapping[i].1), find))
  {
    seq(|mapping|, i requires 0 <= i < |mapping| => (mapping[i].0, PropertyValue(PathValues(PathsOf(mapping[i].1), find))))
  }

  /** The first result stored under `k`. */
  function FoundOf(props: seq<(string, Found)>, k: string): (r: Option<Found>)
    ensures r.Some? ==> (k, r.value) in props
    ensures r.None? ==> forall i :: 0 <= i < |props| ==> props[i].0 != k
  {
    if |props| == 0 then None
    else if props[0].0 == k then Some(props[0].1)
    else FoundOf(props[1..], k)
  }

  // ---------------------------------------------------------------------
  // Related resources
  // ---------------------------------------------------------------------

  /** Positional access to a helper key's result. `at(f, i)` is `None`
      when index `i` is out of range. */
  type Positional = (Found, nat) -> Option<Option<string>>

  /** Positional access as written: a scalar string is indexed by
      character. */
  function AtAsWritten(f: Found, i: nat): (r: Option<Option<string>>)
    ensures f.Many? ==> r == At(f, i)
    ensures f.One? && f.v.Some? ==> (r.Some? <==> i < |f.v.value|) && (r.Some? ==> r.value == Some([f.v.value[i]]))
    ensures f == One(None) ==> r.None?
  {
    match f
    case One(v) => if v.Some? && i < |v.value| then Some(Some([v.value[i]])) else None
    case Many(vs) => if i < |vs| then Some(vs[i]) else None
  }

  /** Positional access as intended: a scalar is a list of one value. */
  function At(f: Found, i: nat): (r: Option<Option<string>>)
    ensures f.Many? ==> (r.Some? <==> i < |f.vs|) && (r.Some? ==> r.value == f.vs[i])
    ensures f.One? ==> (r.Some? <==> i == 0) && (r.Some? ==> r.value == f.v)
  {
    match f
    case One(v) => if i == 0 then Some(v) else None
    case Many(vs) => if i < |vs| then Some(vs[i]) else None
  }

  /** A key whose values are related resources. */
  predicate IsRelatedKey(k: string) {
    IsPrefix("related_resource", k) && !Contains(k, "related_resource_type")
  }

  /** The relation type a related-resource key names: the key after its
      17th character, or "related" when there is nothing there. */
  function KeyRelationType(k: string): (r: string)
    ensures |r| > 0
    ensures |k| > 17 ==> r == k[17..]
  {
    if |k| > 17 then k[17..] else "related"
  }

  /** Python `re.sub(r'[\n\t]*', '', s).strip()`: newlines and tabs are
      dropped anywhere and other whitespace at the ends; every other
      character is kept in order. */
  function CleanResource(s: string): (r: string)
    ensures '\n' !in r && '\t' !in r
    ensures |r| <= |s|
    ensures Remove(r, Whitespace) == Remove(s, Whitespace)
    ensures |r| > 0 ==> r[0] !in Whitespace && r[|r| - 1] !in Whitespace
    ensures exists a :: OccursAt(Remove(s, {'\n', '\t'}), r, a)
  {
    var kept := Remove(s, {'\n', '\t'});
    CleanNoBreaks(kept);
    TrimRemove(kept, Whitespace);
    RemoveTwice(s, {'\n', '\t'}, Whitespace);
    Strip(kept)
  }

  /** Stripping text without line breaks or tabs adds none. */
  lemma CleanNoBreaks(kept: string)
    requires forall i :: 0 <= i < |kept| ==> kept[i] !in {'\n', '\t'}
    ensures '\n' !in Strip(kept) && '\t' !in Strip(kept)
  {
    StripWithin(kept);
    forall c | c in kept
      ensures c != '\n' && c != '\t'
    {
      var i :| 0 <= i < |kept| && kept[i] == c;
    }
  }

  /** Stripping only removes characters. */
  lemma StripWithin(s: string)
    ensures forall c :: c in Strip(s) ==> c in s
  {
    var t := Strip(s);
    var a :| OccursAt(s, t, a);
    assert t == s[a..a + |t|];
  }

  /** One related-resource record. */
  function RelatedRecord(resource: string, relation: string): Value {
    Dict([("related_resource", Str(resource)), ("resource_type", Str(relation))])
  }

  /** A well-formed related-resource record: a non-empty resource without
      tabs or line breaks and a non-empty relation type. */
  predicate GoodRelated(v: Value) {
    v.Dict? && |v.entries| == 2 &&
    v.entries[0].0 == "related_resource" && v.entries[0].1.Str? &&
    |v.entries[0].1.s| > 0 && '\n' !in v.entries[0].1.s && '\t' !in v.entries[0].1.s &&
    v.entries[1].0 == "resource_type" && v.entries[1].1.Str? && |v.entries[1].1.s| > 0
  }

  /** The relation type in force for a value at position `ri`: a truthy
      value takes the type at its position in `related_resource_type`
      when there is one; otherwise the type carries over. */
  function NextType(item: Option<string>, ri: nat, relType: Option<string>, types: Option<Found>, at: Positional): (r: Option<string>)
    ensures !(item.Some? && |item.value| > 0 && types.Some? && FoundTruthy(types.value)) ==> r == relType
    ensures item.Some? && |item.value| > 0 && types.Some? && FoundTruthy(types.value) ==>
              r == (if at(types.value, ri).Some? then at(types.value, ri).value else relType)
  {
    var truthy := item.Some? && |item.value| > 0;
    var override := if truthy && types.Some? && FoundTruthy(types.value) then at(types.value, ri) else None;
    if override.Some? then override.value else relType
  }

  /** The record a value contributes: one when the cleaned value and the
      relation type are both non-empty. */
  function RelatedEntry(item: Option<string>, t: Option<string>): (r: seq<Value>)
    ensures |r| <= 1
    ensures |r| == 1 <==> item.Some? && |CleanResource(item.value)| > 0 && t.Some? && |t.value| > 0
    ensures |r| == 1 ==> r[0] == RelatedRecord(CleanResource(item.value), t.value) && GoodRelated(r[0])
  {
    if item.Some? && |item.value| > 0 && |CleanResource(item.value)| > 0 && t.Some? && |t.value| > 0
    then [RelatedRecord(CleanResource(item.value), t.value)] else []
  }

  /** The loop over the values of one related-resource key. */
  function RelatedLoop(items: seq<Option<string>>, ri: nat, relType: Option<string>, types: Option<Found>, at: Positional): (r: seq<Value>)
    ensures |r| <= |items|
    ensures forall i :: 0 <= i < |r| ==> GoodRelated(r[i])
    decreases |items|
  {
    if |items| == 0 then []
    else
      var t := NextType(items[0], ri, relType, types, at);
      RelatedEntry(items[0], t) + RelatedLoop(items[1..], ri + 1, t, types, at)
  }

  /** The records one property contributes. */
  function RelatedOf(k: string, f: Found, types: Option<Found>, at: Positional): (r: seq<Value>)
    ensures forall i :: 0 <= i < |r| ==> GoodRelated(r[i])
    ensures !(FoundTruthy(f) && IsRelatedKey(k)) ==> r == []
  {
    if FoundTruthy(f) && IsRelatedKey(k) then
      RelatedLoop(if f.One? then [f.v] else f.vs, 0, Some(KeyRelationType(k)), types, at)
    else []
  }

  /** The related-resource records of all properties, in mapping order. */
  function RelatedWith(props: seq<(string, Found)>, types: Option<Found>, at: Positional): (r: seq<Value>)
    ensures forall i :: 0 <= i < |r| ==> GoodRelated(r[i])
    ensures (forall i :: 0 <= i < |props| ==> !IsRelatedKey(props[i].0)) ==> r == []
  {
    if |props| == 0 then []
    else RelatedOf(props[0].0, props[0].1, types, at) + RelatedWith(props[1..], types, at)
  }

  /** Related resources as written. */
  function RelatedResourcesAsWritten(props: seq<(string, Found)>): (r: seq<Value>)
    ensures forall i :: 0 <= i < |r| ==> GoodRelated(r[i])
  {
    RelatedWith(props, FoundOf(props, "related_resource_type"), AtAsWritten)
  }

  /** Related resources as intended. */
  function RelatedResources(props: seq<(string, Found)>): (r: seq<Value>)
    ensures forall i :: 0 <= i < |r| ==> GoodRelated(r[i])
    ensures (forall i :: 0 <= i < |props| ==> !IsRelatedKey(props[i].0)) ==> r == []
  {
    RelatedWith(props, FoundOf(props, "related_resource_type"), At)
  }

  /** One record per value, typed by `rel`, in order. */
  function UntypedRecords(items: seq<Option<string>>, rel: string): (r: seq<Value>)
    requires forall i :: 0 <= i < |items| ==> items[i].Some?
    ensures |r| == |items| && forall i :: 0 <= i < |items| ==> r[i] == RelatedRecord(CleanResource(items[i].value), rel)
  {
    seq(|items|, i requires 0 <= i < |items| => RelatedRecord(CleanResource(items[i].value), rel))
  }

  /** The records of a list are those of its first value and of the rest. */
  lemma UntypedRecordsCons(items: seq<Option<string>>, rel: string)
    requires |items| > 0 && forall i :: 0 <= i < |items| ==> items[i].Some?
    ensures UntypedRecords(items, rel) == [RelatedRecord(CleanResource(items[0].value), rel)] + UntypedRecords(items[1..], rel)
  {
    var r := UntypedRecords(items, rel);
    var tail := UntypedRecords(items[1..], rel);
    forall i | 0 <= i < |tail|
      ensures r[i + 1] == tail[i]
    {
      assert items[1..][i] == items[i + 1];
    }
    ConsPointwise(r, r[0], tail);
  }

  /** Without `related_resource_type`, every value of a related-resource
      key that is still non-empty once cleaned becomes one record typed by
      the key, in order. */
  lemma {:induction false} RelatedUntyped(items: seq<Option<string>>, ri: nat, rel: string, at: Positional)
    requires |rel| > 0
    requires forall i :: 0 <= i < |items| ==> items[i].Some? && |CleanResource(items[i].value)| > 0
    ensures RelatedLoop(items, ri, Some(rel), None, at) == UntypedRecords(items, rel)
    decreases |items|
  {
    if |items| > 0 {
      var rest := items[1..];
      assert forall i :: 0 <= i < |rest| ==> rest[i] == items[i + 1];
      RelatedUntyped(rest, ri + 1, rel, at);
      RelatedUntypedCons(items, ri, rel, at);
      UntypedRecordsCons(items, rel);
    }
  }

  /** Without `related_resource_type`, a non-empty first value gives the
      first record. */
  lemma RelatedUntypedCons(items: seq<Option<string>>, ri: nat, rel: string, at: Positional)
    requires |rel| > 0 && |items| > 0 && items[0].Some? && |CleanResource(items[0].value)| > 0
    ensures RelatedLoop(items, ri, Some(rel), None, at) ==
            [RelatedRecord(CleanResource(items[0].value), rel)] + RelatedLoop(items[1..], ri + 1, Some(rel), None, at)
  {
    assert NextType(items[0], ri, Some(rel), None, at) == Some(rel);
  }

  /** One record per value, each typed by the relation type at the same
      position of `ts`, in order. */
  function TypedRecords(items: seq<Option<string>>, ts: seq<Option<string>>): (r: seq<Value>)
    requires |items| <= |ts|
    requires forall i :: 0 <= i < |items| ==> items[i].Some? && ts[i].Some?
    ensures |r| == |items|
    ensures forall i :: 0 <= i < |items| ==> r[i] == RelatedRecord(CleanResource(items[i].value), ts[i].value)
  {
    seq(|items|, i requires 0 <= i < |items| => RelatedRecord(CleanResource(items[i].value), ts[i].value))
  }

  /** With `related_resource_type` found as a list long enough, every
      value of a related-resource key that is non-empty once cleaned
      becomes one record typed by the list entry at its own position
      (counting from `ri`; `us` is the list from there on), whatever type
      the key names. */
  lemma {:induction false} RelatedTyped(items: seq<Option<string>>, ri: nat, relType: Option<string>, ts: seq<Option<string>>, us: seq<Option<string>>)
    requires ri <= |ts| && us == ts[ri..] && |items| <= |us|
    requires forall i :: 0 <= i < |items| ==> items[i].Some? && |CleanResource(items[i].value)| > 0
    requires forall i :: 0 <= i < |items| ==> us[i].Some? && |us[i].value| > 0
    ensures RelatedLoop(items, ri, relType, Some(Many(ts)), At) == TypedRecords(items, us)
    decreases |items|
  {
    if |items| > 0 {
      TypedShift(items, us);
      assert us[0] == ts[ri] && us[1..] == ts[ri + 1..];
      RelatedTypedHead(items, ri, relType, ts);
      RelatedTyped(items[1..], ri + 1, ts[ri], ts, us[1..]);
      TypedRecordsCons(items, us);
    }
  }

  /** The conditions of `RelatedTyped` hold for the values after the first
      and the types after the first. */
  lemma TypedShift(items: seq<Option<string>>, us: seq<Option<string>>)
    requires 0 < |items| <= |us|
    requires forall i :: 0 <= i < |items| ==> items[i].Some? && |CleanResource(items[i].value)| > 0
    requires forall i :: 0 <= i < |items| ==> us[i].Some? && |us[i].value| > 0
    ensures forall i :: 0 <= i < |items| - 1 ==> items[1..][i].Some? && |CleanResource(items[1..][i].value)| > 0
    ensures forall i :: 0 <= i < |items| - 1 ==> us[1..][i].Some? && |us[1..][i].value| > 0
  {
    forall i | 0 <= i < |items| - 1
      ensures items[1..][i].Some? && |CleanResource(items[1..][i].value)| > 0
      ensures us[1..][i].Some? && |us[1..][i].value| > 0
    {
      assert items[1..][i] == items[i + 1];
      assert us[1..][i] == us[i + 1];
    }
  }

  /** A non-empty first value takes the relation type at its position and
      gives the first record. */
  lemma RelatedTypedHead(items: seq<Option<string>>, ri: nat, relType: Option<string>, ts: seq<Option<string>>)
    requires |items| > 0 && ri < |ts|
    requires items[0].Some? && |CleanResource(items[0].value)| > 0
    requires ts[ri].Some? && |ts[ri].value| > 0
    ensures RelatedLoop(items, ri, relType, Some(Many(ts)), At) ==
            [RelatedRecord(CleanResource(items[0].value), ts[ri].value)] + RelatedLoop(items[1..], ri + 1, ts[ri], Some(Many(ts)), At)
  {
    assert NextType(items[0], ri, relType, Some(Many(ts)), At) == ts[ri];
    RelatedLoopStep(items, ri, relType, Some(Many(ts)), At);
  }

  /** The typed records of a list are those of its first value and of the
      rest. */
  lemma TypedRecordsCons(items: seq<Option<string>>, ts: seq<Option<string>>)
    requires 0 < |items| <= |ts|
    requires forall i :: 0 <= i < |items| ==> items[i].Some? && ts[i].Some?
    ensures TypedRecords(items, ts) ==
            [RelatedRecord(CleanResource(items[0].value), ts[0].value)] + TypedRecords(items[1..], ts[1..])
  {
    var r := TypedRecords(items, ts);
    var tail := TypedRecords(items[1..], ts[1..]);
    forall i | 0 <= i < |tail|
      ensures r[i + 1] == tail[i]
    {
      assert items[1..][i] == items[i + 1] && ts[1..][i] == ts[i + 1];
    }
    ConsPointwise(r, r[0], tail);
  }

  /** A related-resource key listed before `related_resource_type`, both
      found as lists: every related value becomes a record typed by the
      relation-type list entry at the same position. */
  lemma RelatedResourcesTyped(k: string, items: seq<Option<string>>, ts: seq<Option<string>>)
    requires IsRelatedKey(k) && |items| > 1 && |items| <= |ts|
    requires forall i :: 0 <= i < |items| ==> items[i].Some? && |CleanResource(items[i].value)| > 0
    requires forall i :: 0 <= i < |items| ==> ts[i].Some? && |ts[i].value| > 0
    ensures RelatedResources([(k, Many(items)), ("related_resource_type", Many(ts))]) == TypedRecords(items, ts)
  {
    TypeKeyNotRelated();
    FoundSecond(k, Many(items), "related_resource_type", Many(ts));
    RelatedWithPair(k, Many(items), "related_resource_type", Many(ts), Some(Many(ts)), At);
    RelatedTypedFromStart(items, Some(KeyRelationType(k)), ts);
  }

  /** In a two-entry result list, a key other than the first is found in
      the second entry. */
  lemma FoundSecond(k: string, f: Found, k2: string, f2: Found)
    requires k != k2
    ensures FoundOf([(k, f), (k2, f2)], k2) == Some(f2)
  {
    assert [(k, f), (k2, f2)][1..] == [(k2, f2)];
  }

  /** When the second of two properties is not a related-resource key, the
      records are those of the first. */
  lemma RelatedWithPair(k: string, f: Found, k2: string, f2: Found, types: Option<Found>, at: Positional)
    requires !IsRelatedKey(k2)
    ensures RelatedWith([(k, f), (k2, f2)], types, at) == RelatedOf(k, f, types, at)
  {
    var props := [(k, f), (k2, f2)];
    assert props[1..] == [(k2, f2)] && props[1..][1..] == [];
  }

  /** `RelatedTyped` from the first position. */
  lemma RelatedTypedFromStart(items: seq<Option<string>>, relType: Option<string>, ts: seq<Option<string>>)
    requires |items| <= |ts|
    requires forall i :: 0 <= i < |items| ==> items[i].Some? && |CleanResource(items[i].value)| > 0
    requires forall i :: 0 <= i < |items| ==> ts[i].Some? && |ts[i].value| > 0
    ensures RelatedLoop(items, 0, relType, Some(Many(ts)), At) == TypedRecords(items, ts)
  {
    assert ts[0..] == ts;
    RelatedTyped(items, 0, relType, ts, ts);
  }

  /** A single related resource with a single relation type: as written,
      the type string is indexed by position and only its first character
      is used; as intended the whole type is used. */
  lemma ScalarRelationType(k: string, res: string, rel: string)
    requires IsRelatedKey(k) && k != "related_resource_type"
    requires |CleanResource(res)| > 0 && |rel| > 1
    ensures var props := [(k, One(Some(res))), ("related_resource_type", One(Some(rel)))];
            RelatedResourcesAsWritten(props) == [RelatedRecord(CleanResource(res), [rel[0]])] &&
            RelatedResources(props) == [RelatedRecord(CleanResource(res), rel)] &&
            RelatedResourcesAsWritten(props) != RelatedResources(props)
  {
    var types := One(Some(rel));
    var t0 := Some(KeyRelationType(k));
    FoundSecond(k, One(Some(res)), "related_resource_type", types);
    SingleRelated(k, res, types, AtAsWritten);
    SingleRelated(k, res, types, At);
    assert NextType(Some(res), 0, t0, Some(types), AtAsWritten) == Some([rel[0]]);
    assert NextType(Some(res), 0, t0, Some(types), At) == Some(rel);
    assert [rel[0]] != rel by {
      assert |[rel[0]]| != |rel|;
    }
  }

  /** A single related value, listed before the relation types, gives the
      record its next type makes of it. */
  lemma SingleRelated(k: string, res: string, types: Found, at: Positional)
    requires IsRelatedKey(k)
    ensures RelatedWith([(k, One(Some(res))), ("related_resource_type", types)], Some(types), at) ==
            (if |res| > 0 then RelatedEntry(Some(res), NextType(Some(res), 0, Some(KeyRelationType(k)), Some(types), at)) else [])
  {
    TypeKeyNotRelated();
    RelatedWithPair(k, One(Some(res)), "related_resource_type", types, Some(types), at);
    if |res| > 0 {
      RelatedLoopStep([Some(res)], 0, Some(KeyRelationType(k)), Some(types), at);
      assert [Some(res)][1..] == [];
    }
  }

  /** The type key itself holds no related resources. */
  lemma TypeKeyNotRelated()
    ensures !IsRelatedKey("related_resource_type")
  {
    assert OccursAt("related_resource_type", "related_resource_type", 0);
  }

  // ---------------------------------------------------------------------
  // Content identifiers
  // ---------------------------------------------------------------------

  /** The value at position `i` of an optional helper result, or `None`. */
  function Nth(f: Option<Found>, i: nat, at: Positional): Option<string> {
    if f.Some? && FoundTruthy(f.value) && at(f.value, i).Some? then at(f.value, i).value else None
  }

  /** One content-identifier record. */
  function ContentRecord(url: Option<string>, size: Option<string>, ctype: Option<string>): Value {
    Dict([("url", OptValue(url)), ("size", OptValue(size)), ("type", OptValue(ctype))])
  }

  /** One record per URL, with size and type taken by position. */
  function ContentWith(urls: seq<Option<string>>, sizes: Option<Found>, types: Option<Found>, at: Positional): (r: seq<Value>)
    ensures |r| == |urls|
    ensures forall i :: 0 <= i < |urls| ==> r[i] == ContentRecord(urls[i], Nth(sizes, i, at), Nth(types, i, at))
  {
    seq(|urls|, i requires 0 <= i < |urls| => ContentRecord(urls[i], Nth(sizes, i, at), Nth(types, i, at)))
  }

  /** The URLs of the content-identifier helper key, a scalar wrapped. */
  function UrlList(f: Found): seq<Option<string>> {
    if f.One? then [f.v] else f.vs
  }

  /** The three helper keys the content identifiers are built from. */
  const ContentKeys: set<string> := {"object_content_identifier_url", "object_content_identifier_size", "object_content_identifier_type"}

  /** With list-valued sizes and types, the intended records take the
      entry at their own position, and `None` past the end. */
  lemma ContentPositional(urls: seq<Option<string>>, sizes: seq<Option<string>>, types: seq<Option<string>>, i: nat)
    requires i < |urls| && |sizes| > 0 && |types| > 0
    ensures ContentWith(urls, Some(Many(sizes)), Some(Many(types)), At)[i] ==
            ContentRecord(urls[i], if i < |sizes| then sizes[i] else None, if i < |types| then types[i] else None)
  {
  }

  /** A single file with a single size: as written the record's size is
      the first digit; as intended it is the size. */
  lemma ScalarContentSize()
    ensures ContentWith([Some("https://x/f.csv")], Some(One(Some("1024"))), None, AtAsWritten)
            == [ContentRecord(Some("https://x/f.csv"), Some("1"), None)]
    ensures ContentWith([Some("https://x/f.csv")], Some(One(Some("1024"))), None, At)
            == [ContentRecord(Some("https://x/f.csv"), Some("1024"), None)]
  {
    assert AtAsWritten(One(Some("1024")), 0) == Some(Some("1"));
  }

  // ---------------------------------------------------------------------
  // get_mapped_xml_metadata
  // ---------------------------------------------------------------------

  /** Property results as metadata entries. */
  function AsEntries(props: seq<(string, Found)>): (r: seq<(string, Value)>)
    ensures |r| == |props| && forall i :: 0 <= i < |props| ==> r[i] == (props[i].0, FoundValue(props[i].1))
  {
    seq(|props|, i requires 0 <= i < |props| => (props[i].0, FoundValue(props[i].1)))
  }

  /** The entries whose key is not in `ks`. */
  function Without(es: seq<(string, Value)>, ks: set<string>): (r: seq<(string, Value)>)
    ensures forall i :: 0 <= i < |r| ==> r[i].0 !in ks && r[i] in es
    ensures forall i :: 0 <= i < |es| && es[i].0 !in ks ==> es[i] in r
  {
    Filter(es, (e: (string, Value)) => e.0 !in ks)
  }

  /** The result of mapping one XML tree with positional access `at`
      (`AtAsWritten` is the source's, `At` the intended one):
      `related_resources` first, then every property; when content URLs
      were found, the records built from them replace the three helper
      keys. */
  function MappedXmlMetadata(mapping: seq<(string, Paths)>, find: string -> seq<Node>, at: Positional): (r: seq<(string, Value)>)
    requires "related_resources" !in Keys(mapping)
    ensures var props := MappedProperties(mapping, find);
            |r| > 0 && r[0] == ("related_resources", List(RelatedWith(props, FoundOf(props, "related_resource_type"), at)))
    ensures var props := MappedProperties(mapping, find);
            var urls := FoundOf(props, "object_content_identifier_url");
            urls.Some? && FoundTruthy(urls.value) ==>
              (forall i :: 0 <= i < |r| ==> r[i].0 !in ContentKeys) &&
              ("object_content_identifier",
               List(ContentWith(UrlList(urls.value), FoundOf(props, "object_content_identifier_size"),
                                FoundOf(props, "object_content_identifier_type"), at))) in r
    ensures var props := MappedProperties(mapping, find);
            var urls := FoundOf(props, "object_content_identifier_url");
            urls.Some? && FoundTruthy(urls.value) ==>
              forall e :: e in r ==>
                e == r[0] || (e in AsEntries(props) && e.0 !in ContentKeys) ||
                e == ("object_content_identifier",
                      List(ContentWith(UrlList(urls.value), FoundOf(props, "object_content_identifier_size"),
                                       FoundOf(props, "object_content_identifier_type"), at)))
    ensures var props := MappedProperties(mapping, find);
            var urls := FoundOf(props, "object_content_identifier_url");
            !(urls.Some? && FoundTruthy(urls.value)) ==> r[1..] == AsEntries(props)
    ensures var props := MappedProperties(mapping, find);
            forall i :: 0 <= i < |props| && props[i].0 !in ContentKeys && props[i].0 != "object_content_identifier" ==>
              (props[i].0, FoundValue(props[i].1)) in r
  {
    var props := MappedProperties(mapping, find);
    var base := [("related_resources", List(RelatedWith(props, FoundOf(props, "related_resource_type"), at)))] + AsEntries(props);
    match FoundOf(props, "object_content_identifier_url")
    case Some(urls) =>
      if FoundTruthy(urls) then
        var cids := ContentWith(UrlList(urls), FoundOf(props, "object_content_identifier_size"),
                                FoundOf(props, "object_content_identifier_type"), at);
        var updated := Update(base, "object_content_identifier", List(cids));
        MappedWithContent(base, cids, props);
        WithoutUpdateOnly(base, ("object_content_identifier", List(cids)), ContentKeys);
        Without(updated, ContentKeys)
      else base
    case None => base
  }

  /** A found value that is not a single scalar. */
  predicate NotScalar(f: Option<Found>) {
    f.None? || f.value.Many?
  }

  /** On a list, positional access as written and as intended agree. */
  lemma PositionalOnList(f: Option<Found>, i: nat)
    requires NotScalar(f) && f.Some?
    ensures AtAsWritten(f.value, i) == At(f.value, i)
  {
  }

  /** When the relation types were found as a list (or not at all), the
      related-resource loop reads the same types either way. */
  lemma {:induction false} RelatedLoopOnList(items: seq<Option<string>>, ri: nat, relType: Option<string>, types: Option<Found>)
    requires NotScalar(types)
    ensures RelatedLoop(items, ri, relType, types, AtAsWritten) == RelatedLoop(items, ri, relType, types, At)
    decreases |items|
  {
    if |items| > 0 {
      var t := NextType(items[0], ri, relType, types, At);
      NextTypeOnList(items[0], ri, relType, types);
      RelatedLoopOnList(items[1..], ri + 1, t, types);
      RelatedLoopStep(items, ri, relType, types, At);
      RelatedLoopStep(items, ri, relType, types, AtAsWritten);
    }
  }

  /** One step of the related-resource loop. */
  lemma RelatedLoopStep(items: seq<Option<string>>, ri: nat, relType: Option<string>, types: Option<Found>, at: Positional)
    requires |items| > 0
    ensures var t := NextType(items[0], ri, relType, types, at);
      RelatedLoop(items, ri, relType, types, at) == RelatedEntry(items[0], t) + RelatedLoop(items[1..], ri + 1, t, types, at)
  {
  }

  /** On a list of types, both readings give the same next type. */
  lemma NextTypeOnList(item: Option<string>, ri: nat, relType: Option<string>, types: Option<Found>)
    requires NotScalar(types)
    ensures NextType(item, ri, relType, types, AtAsWritten) == NextType(item, ri, relType, types, At)
  {
    if types.Some? {
      PositionalOnList(types, ri);
    }
  }

  lemma {:induction false} RelatedWithOnList(props: seq<(string, Found)>, types: Option<Found>)
    requires NotScalar(types)
    ensures RelatedWith(props, types, AtAsWritten) == RelatedWith(props, types, At)
  {
    if |props| > 0 {
      var f := props[0].1;
      if FoundTruthy(f) && IsRelatedKey(props[0].0) {
        RelatedLoopOnList(if f.One? then [f.v] else f.vs, 0, Some(KeyRelationType(props[0].0)), types);
      }
      RelatedWithOnList(props[1..], types);
    }
  }

  /** When sizes and types were found as lists (or not at all), the
      content records are the same either way. */
  lemma ContentWithOnLists(urls: seq<Option<string>>, sizes: Option<Found>, types: Option<Found>)
    requires NotScalar(sizes) && NotScalar(types)
    ensures ContentWith(urls, sizes, types, AtAsWritten) == ContentWith(urls, sizes, types, At)
  {
    forall i | 0 <= i < |urls|
      ensures Nth(sizes, i, AtAsWritten) == Nth(sizes, i, At) && Nth(types, i, AtAsWritten) == Nth(types, i, At)
    {
      if sizes.Some? {
        PositionalOnList(sizes, i);
      }
      if types.Some? {
        PositionalOnList(types, i);
      }
    }
  }

  /** The source's mapping and the corrected one give the same metadata
      whenever the relation types, content sizes and content types were
      each found as a list or not at all; they can differ only when one of
      them is a single value (`ScalarRelationType`, `ScalarContentSize`). */
  lemma MappedOnLists(mapping: seq<(string, Paths)>, find: string -> seq<Node>)
    requires "related_resources" !in Keys(mapping)
    requires var props := MappedProperties(mapping, find);
             && NotScalar(FoundOf(props, "related_resource_type"))
             && NotScalar(FoundOf(props, "object_content_identifier_size"))
             && NotScalar(FoundOf(props, "object_content_identifier_type"))
    ensures MappedXmlMetadata(mapping, find, AtAsWritten) == MappedXmlMetadata(mapping, find, At)
  {
    var props := MappedProperties(mapping, find);
    RelatedWithOnList(props, FoundOf(props, "related_resource_type"));
    match FoundOf(props, "object_content_identifier_url")
    case Some(urls) =>
      ContentWithOnLists(UrlList(urls), FoundOf(props, "object_content_identifier_size"), FoundOf(props, "object_content_identifier_type"));
    case None =>
  }

  /** The assembly step with content identifiers keeps the related
      resources first and every other property entry. */
  lemma MappedWithContent(base: seq<(string, Value)>, cids: seq<Value>, props: seq<(string, Found)>)
    requires |base| > 0 && base[0].0 == "related_resources"
    requires base[1..] == AsEntries(props)
    ensures var r := Without(Update(base, "object_content_identifier", List(cids)), ContentKeys);
            |r| > 0 && r[0] == base[0] &&
            ("object_content_identifier", List(cids)) in r &&
            forall i :: 0 <= i < |props| && props[i].0 !in ContentKeys && props[i].0 != "object_content_identifier" ==>
              (props[i].0, FoundValue(props[i].1)) in r
  {
    var updated := Update(base, "object_content_identifier", List(cids));
    UpdateShape(base, "object_content_identifier", List(cids));
    forall i | 0 <= i < |props|
      ensures base[i + 1] == (props[i].0, FoundValue(props[i].1))
    {
      assert base[1..][i] == AsEntries(props)[i];
    }
    OtherKeys();
    WithoutShape(updated, base, ("object_content_identifier", List(cids)));
  }

  /** Updating and then dropping the keys `ks` leaves nothing but the first
      entry, the added one and tail entries outside `ks`. */
  lemma WithoutUpdateOnly(base: seq<(string, Value)>, added: (string, Value), ks: set<string>)
    requires |base| > 0
    ensures forall e :: e in Without(Update(base, added.0, added.1), ks) ==>
              e == base[0] || (e in base[1..] && e.0 !in ks) || e == added
  {
    var updated := Update(base, added.0, added.1);
    var r := Without(updated, ks);
    UpdateOnly(base, added.0, added.1);
    forall e | e in r
      ensures e == base[0] || (e in base[1..] && e.0 !in ks) || e == added
    {
      var i :| 0 <= i < |r| && r[i] == e;
      assert e in updated && e.0 !in ks;
      if e != added && e != base[0] {
        TailMember(base, e);
      }
    }
  }

  /** An entry other than the first lies in the tail. */
  lemma TailMember(base: seq<(string, Value)>, e: (string, Value))
    requires |base| > 0 && e in base && e != base[0]
    ensures e in base[1..]
  {
    var j :| 0 <= j < |base| && base[j] == e;
    assert base[1..][j - 1] == e;
  }

  /** `Update` adds the new entry and nothing else. */
  lemma {:induction false} UpdateOnly(es: seq<(string, Value)>, k: string, v: Value)
    ensures forall e :: e in Update(es, k, v) ==> e == (k, v) || e in es
    decreases |es|
  {
    if |es| > 0 {
      UpdateCons(es, k, v);
      UpdateOnly(es[1..], k, v);
      forall e | e in es[1..]
        ensures e in es
      {
        var j :| 0 <= j < |es[1..]| && es[1..][j] == e;
        assert es[j + 1] == e;
      }
    }
  }

  /** The keys the assembly adds are not helper keys. */
  lemma OtherKeys()
    ensures "related_resources" !in ContentKeys && "object_content_identifier" !in ContentKeys
    ensures "related_resources" != "object_content_identifier"
  {
  }

  /** `Update` keeps the head of a list whose head has another key, adds
      the new entry, and keeps every entry with another key. */
  lemma UpdateShape(es: seq<(string, Value)>, k: string, v: Value)
    requires |es| > 0 && es[0].0 != k
    ensures var r := Update(es, k, v);
            |r| > 0 && r[0] == es[0] && (k, v) in r &&
            forall j :: 0 <= j < |es| && es[j].0 != k ==> es[j] in r
  {
    var r := Update(es, k, v);
    assert Lookup(r, k) == Some(v);
    forall j | 0 <= j < |es| && es[j].0 != k
      ensures es[j] in r
    {
      UpdateKeeps(es, k, v, j);
    }
  }

  /** Removing the content helper keys from an updated list. */
  lemma WithoutShape(updated: seq<(string, Value)>, base: seq<(string, Value)>, added: (string, Value))
    requires |base| > 0 && base[0].0 !in ContentKeys && added.0 !in ContentKeys
    requires |updated| > 0 && updated[0] == base[0] && added in updated
    requires forall j :: 0 <= j < |base| && base[j].0 != added.0 ==> base[j] in updated
    ensures var r := Without(updated, ContentKeys);
            |r| > 0 && r[0] == base[0] && added in r &&
            forall j :: 0 <= j < |base| && base[j].0 != added.0 && base[j].0 !in ContentKeys ==> base[j] in r
  {
    WithoutHead(updated, ContentKeys);
    WithoutKeeps(updated, ContentKeys, added);
    forall j | 0 <= j < |base| && base[j].0 != added.0 && base[j].0 !in ContentKeys
      ensures base[j] in Without(updated, ContentKeys)
    {
      WithoutKeeps(updated, ContentKeys, base[j]);
    }
  }

  /** An entry whose key is not removed survives `Without`. */
  lemma WithoutKeeps(es: seq<(string, Value)>, ks: set<string>, e: (string, Value))
    requires e in es && e.0 !in ks
    ensures e in Without(es, ks)
  {
    var j :| 0 <= j < |es| && es[j] == e;
  }

  /** `Update` leaves entries with other keys in place. */
  lemma {:induction false} UpdateKeeps(es: seq<(string, Value)>, k: string, v: Value, i: nat)
    requires i < |es| && es[i].0 != k
    ensures es[i] in Update(es, k, v)
  {
    UpdateCons(es, k, v);
    if es[0].0 == k {
      assert es[1..][i - 1] == es[i];
    } else if i > 0 {
      UpdateKeeps(es[1..], k, v, i - 1);
      assert es[1..][i - 1] == es[i];
    }
  }

  /** A kept head stays first. */
  lemma WithoutHead(es: seq<(string, Value)>, ks: set<string>)
    requires |es| > 0 && es[0].0 !in ks
    ensures |Without(es, ks)| > 0 && Without(es, ks)[0] == es[0]
  {
  }

  // ---------------------------------------------------------------------
  // Root-element dispatch and envelope fill (parse_metadata)
  // ---------------------------------------------------------------------

  /** The XML mappings the collector knows. */
  datatype XmlMapping = DdiCodebook | DublinCore | Mods | Eml | Iso19115 | DataCite

  /** The match of `^\{(.+)\}(.+)$` on a tag: the namespace up to the last
      `}` that still leaves a local name, and that local name. Tags are
      taken to hold no line breaks. */
  function SplitTag(tag: string): (r: Option<(string, string)>)
    ensures r.Some? ==> "{" + r.value.0 + "}" + r.value.1 == tag && |r.value.0| > 0 && |r.value.1| > 0 && '}' !in r.value.1[..|r.value.1| - 1]
    ensures r.None? <==> |tag| < 4 || tag[0] != '{' || forall j :: 2 <= j < |tag| - 1 ==> tag[j] != '}'
  {
    if |tag| < 4 || tag[0] != '{' then None
    else
      match LastIndex(tag[..|tag| - 1], '}')
      case None =>
        assert forall j :: 2 <= j < |tag| - 1 ==> tag[j] == tag[..|tag| - 1][j];
        None
      case Some(j) =>
        if j < 2 then
          assert forall k :: 2 <= k < |tag| - 1 ==> tag[k] == tag[..|tag| - 1][k];
          None
        else
          assert tag == "{" + tag[1..j] + "}" + tag[j + 1..];
          assert tag[j + 1..][..|tag| - j - 2] == tag[..|tag| - 1][j + 1..];
          Some((tag[1..j], tag[j + 1..]))
  }

  const DublinCoreSchemas := "http://dublincore.org/schemas/xmls/"

  /** The root element: the local name when the tag has a namespace,
      else the envelope's tag. */
  function RootOf(envelopeTag: string, tag: string): string {
    if SplitTag(tag).Some? then SplitTag(tag).value.1 else envelopeTag
  }

  /** The namespaces tested for Dublin Core: those read from
      `xsi:schemaLocation`, then the root namespace if there is one. */
  function TestedNamespaces(tag: string, schemaNamespaces: seq<string>): seq<string> {
    schemaNamespaces + (if SplitTag(tag).Some? then [SplitTag(tag).value.0] else [])
  }

  /** Some namespace names a Dublin Core schema. */
  predicate NamesDc(namespaces: seq<string>) {
    exists s :: s in namespaces && Contains(s, DublinCoreSchemas)
  }

  /** The root namespace names a DataCite schema. */
  predicate DataciteRoot(tag: string) {
    SplitTag(tag).Some? && Contains(SplitTag(tag).value.0, "datacite.org/schema")
  }

  /** The root elements that choose a mapping by name. */
  const NamedRoots: set<string> := {"codeBook", "dc", "mods", "eml", "MD_Metadata", "MI_Metadata"}

  /** The mapping chosen for a metadata tree: by root element, by a Dublin
      Core schema among the namespaces, or by a DataCite root namespace.
      `schemaNamespaces` are the namespaces read from `xsi:schemaLocation`;
      the root namespace is appended to them. */
  function RootMapping(envelopeTag: string, tag: string, schemaNamespaces: seq<string>): (r: Option<XmlMapping>)
    ensures var root := RootOf(envelopeTag, tag);
            (root == "codeBook" ==> r == Some(DdiCodebook)) &&
            (root == "mods" ==> r == Some(Mods) || r == Some(DublinCore)) &&
            (root == "eml" ==> r == Some(Eml) || r == Some(DublinCore)) &&
            ((root == "MD_Metadata" || root == "MI_Metadata") ==> r == Some(Iso19115) || r == Some(DublinCore)) &&
            (root == "dc" ==> r == Some(DublinCore))
    ensures RootOf(envelopeTag, tag) != "codeBook" && NamesDc(TestedNamespaces(tag, schemaNamespaces)) ==> r == Some(DublinCore)
    ensures r == Some(DublinCore) ==> RootOf(envelopeTag, tag) == "dc" || NamesDc(TestedNamespaces(tag, schemaNamespaces))
    ensures r == Some(DataCite) <==>
              RootOf(envelopeTag, tag) !in NamedRoots && !NamesDc(TestedNamespaces(tag, schemaNamespaces)) && DataciteRoot(tag)
    ensures r.None? <==>
              RootOf(envelopeTag, tag) !in NamedRoots && !NamesDc(TestedNamespaces(tag, schemaNamespaces)) && !DataciteRoot(tag)
  {
    var root := RootOf(envelopeTag, tag);
    if root == "codeBook" then Some(DdiCodebook)
    else if root == "dc" || NamesDc(TestedNamespaces(tag, schemaNamespaces)) then Some(DublinCore)
    else if root == "mods" then Some(Mods)
    else if root == "eml" then Some(Eml)
    else if root == "MD_Metadata" || root == "MI_Metadata" then Some(Iso19115)
    else if DataciteRoot(tag) then Some(DataCite)
    else None
  }

  /** The envelope's entries fill the keys the mapped metadata lacks; with
      no mapped metadata the source raises. */
  function FillFromEnvelope(xml: Option<seq<(string, Value)>>, envelope: seq<(string, Value)>): (r: Result<Option<seq<(string, Value)>>, string>)
    ensures |envelope| == 0 ==> r == Success(xml)
    ensures |envelope| > 0 && xml.None? ==> r.Failure?
    ensures xml.Some? ==> r.Success? && r.value.Some?
    ensures xml.Some? ==> forall k :: k in Keys(xml.value) ==> Lookup(r.value.value, k) == Lookup(xml.value, k)
    ensures xml.Some? ==> forall k :: k !in Keys(xml.value) ==> Lookup(r.value.value, k) == Lookup(envelope, k)
  {
    if |envelope| == 0 then Success(xml)
    else if xml.None? then Failure("TypeError")
    else Success(Some(Fill(xml.value, envelope)))
  }

  /** The fill loop over the envelope entries. */
  function Fill(es: seq<(string, Value)>, envelope: seq<(string, Value)>): (r: seq<(string, Value)>)
    ensures forall k :: k in Keys(es) ==> Lookup(r, k) == Lookup(es, k)
    ensures forall k :: k !in Keys(es) ==> Lookup(r, k) == Lookup(envelope, k)
    decreases |envelope|
  {
    if |envelope| == 0 then es
    else
      var e := envelope[0];
      var next := if e.0 !in Keys(es) then Update(es, e.0, e.1) else es;
      var r := Fill(next, envelope[1..]);
      forall k
        ensures k in Keys(es) ==> Lookup(r, k) == Lookup(es, k)
        ensures k !in Keys(es) ==> Lookup(r, k) == Lookup(envelope, k)
      {
        if k in Keys(es) {
          assert Lookup(next, k) == Lookup(es, k);
          assert k in Keys(next);
        } else if k == e.0 {
          assert Lookup(next, k) == Some(e.1);
        } else {
          assert Lookup(next, k) == None;
        }
      }
      r
  }
}
